=== FILE: README.md ===
# ham-exam-web, modelled in Dafny

A model of the exam and practice engine of ham-exam-web, a web application for the amateur-radio
operator examination (classes A, B and C). It covers four parts.

- **The session engine.**
  - The question model and the keying of answers, by id or by position.
  - Scoring and the pass mark.
  - The rule table: 40/60/90 questions, split into singles and multiples, with a time limit and a pass mark.
  - The random draw of an exam paper and the Fisher–Yates shuffle.
  - The two zustand stores.
  - The countdown and the navigator hook.
  - The answer-card sheet and the question card.
  - The exam and practice pages: loading, answering, navigation, the jump box, search suggestions, persistence and resume.
- **Local persistence.** The exam and practice snapshots, the last-mode and no-resume preferences, and the migration of legacy storage keys to versioned keys.
- **The dataset.**
  - The CSV reader and the runtime loader (`src/lib/dataset.ts`).
  - The build script that converts the CSV banks to static JSON (`scripts/build-dataset.mjs`), including its footnote-stripping pattern.
- **The supporting pieces.**
  - The question-bank manager and the version-status cache.
  - The bank selector.
  - The search-dialog snippet and the keyboard shortcuts.
  - The two API routes.
  - The error helpers and the pure parts of the photo helpers.

**How the model is built.**
- Each source file is one module, with the same name in Dafny style (`src/store/exam.ts` is `ExamStore`, `src/app/practice/page.tsx` is `PracticePage`).
- Helpers shared by several modules live in `Base` (Option), `Seqs` and `Strings`.
- State is an immutable record. Each store action or page handler is a function from record to record.
- `localStorage` is a `map<string, StoredValue>`, and JSON (de)serialisation is the identity on records.
- `Date.now()` is a `now` parameter.
- `Math.random()` is a stream of unit values, `Rng = nat -> UnitValue`, one draw per shuffle step.
- Fetches, file reads and loader calls are inputs: an `Option`, or a function from request to result.

Each row of the table names the member whose contract states the property.
The source cells cite the lines the member models.

## Model

| member | source | states |
|---|---|---|
| Questions.Lookup | src/lib/exam.ts:15 | `answers[key] ?? []`: a key with no entry reads as the empty selection, and a present entry is returned as stored |
| Questions.PositionKey | src/hooks/useQuestionNavigator.ts:44 | `String(pos)` is a non-empty run of decimal digits |
| Questions.PositionKeyInjective | src/hooks/useQuestionNavigator.ts:44 | two positions get the same key exactly when they are the same position |
| Questions.ParseBank | src/types/question-bank.ts:26 | a string read as a bank is the name of that bank |
| Questions.ParseBankName | src/types/question-bank.ts:26 | every bank name reads back as its bank |
| ExamRules.Rules | src/lib/exam-rules.ts:11-15 | every rule splits its total exactly into singles plus multiples, its pass mark is at most its total, and it allows a positive number of minutes |
| ExamRules.RulesTable | src/lib/exam-rules.ts:11-15 | the table: A 40/32/8/40 min/30, B 60/45/15/60 min/45, C 90/70/20/90 min/70 |
| ExamRules.GetRule | src/lib/exam-rules.ts:11-19 | a known bank gets its own rule; a name inherited from `Object.prototype` (such as `constructor` or `toString`) gets that member and no rule, exactly for those names; any other string gets class A's rule; a table rule's split and pass mark are consistent |
| Scoring.Verdicts | src/lib/exam.ts:12-17 | one verdict per question, in order; verdict `i` holds exactly when position `i` is graded correct |
| Scoring.CalculateScore | src/lib/exam.ts:6-19 | `total` is the number of questions, `correct` the number of positions graded correct, so `correct <= total` |
| Scoring.CorrectAtIff | src/lib/exam.ts:16 | a question counts exactly when its selection and its answer keys are equal as multisets: order is ignored |
| Scoring.UnansweredCorrectIffNoAnswerKeys | src/lib/exam.ts:15-16 | a question with no entry under its key counts exactly when its `answer_keys` is empty |
| Scoring.ScoreIgnoresForeignKeys | src/lib/exam.ts:13-15 | two answer maps that agree under every key `getKey` produces for a position give the same score, whatever else they hold |
| Scoring.ScoreMonotone | src/lib/exam.ts:11-18 | a grading correct wherever another is scores at least as high |
| Scoring.IsPassed | src/lib/exam.ts:21-23 | a score passes exactly when it reaches the pass line: the pass line itself passes, with no rounding or margin |
| Scoring.IsPassedMonotone | src/lib/exam.ts:21-23 | passing is monotone in `correct`; exactly the pass line passes and one below it fails |
| Shuffle.Pick | src/lib/load-questions.ts:13 | for a draw in `[0, 1)`, `floor(draw * (i + 1))` lies in `[0, i]` |
| Shuffle.PickBelow | src/lib/load-questions.ts:13 | `num < den` gives `num * m / den < m`, the integer form of `draw * m < m` |
| Shuffle.Swap | src/lib/load-questions.ts:14 | the destructuring swap keeps the length and exchanges the two elements |
| Shuffle.SwapPermutes | src/lib/load-questions.ts:14 | a swap keeps the multiset of elements |
| Shuffle.Pass | src/lib/load-questions.ts:12-15 | the loop keeps the length |
| Shuffle.PassPermutes | src/lib/load-questions.ts:12-15 | the loop keeps the multiset of elements |
| Shuffle.Shuffle | src/lib/load-questions.ts:10-17 | the result has the input's length, and an input of length 0 or 1 comes back unchanged |
| Shuffle.ShufflePermutes | src/lib/load-questions.ts:10-17 | the result is a permutation of the input |
| Shuffle.ShuffleCopy | src/lib/load-questions.ts:11-16 | the loop over an array copy returns the shuffle of the input, which is a value and is not changed |
| Shuffle.PassUsesOnlyItsDraws | src/lib/load-questions.ts:12-15 | two random sources that agree on the draws the loop consumes give the same result |
| Shuffle.ShuffleUsesOnlyItsDraws | src/lib/load-questions.ts:10-16 | random sources that agree on the first `length - 1` draws give equal shuffles |
| AnswerMatch.LeTotal | src/components/exam/question-card.tsx:94-96 | the string order `sort()` uses is total |
| AnswerMatch.LeAntisymmetric | src/components/exam/question-card.tsx:94-96 | the string order `sort()` uses is antisymmetric |
| AnswerMatch.LeTransitive | src/components/exam/question-card.tsx:94-96 | the string order `sort()` uses is transitive |
| AnswerMatch.Insert | src/components/exam/question-card.tsx:94-96 | inserting into a sorted list keeps it sorted and adds exactly the new element |
| AnswerMatch.Sort | src/components/exam/question-card.tsx:94-96 | `[...a].sort()` is a sorted permutation of `a` of the same length; `a` itself is a value and unchanged |
| AnswerMatch.ArraysEqualIsEquality | src/components/exam/question-card.tsx:98-102 | `arraysEqual` (equal length, equal at every index) is sequence equality |
| AnswerMatch.SortedUnique | src/components/exam/question-card.tsx:94-96 | two sorted lists with the same elements are the same list |
| AnswerMatch.SameKeysIff | src/lib/exam.ts:16 | sorted equality holds exactly when the two selections are equal as multisets |
| AnswerMatch.NoPartialCredit | src/lib/exam.ts:16 | a selection whose key set is a strict subset or strict superset of the answer keys does not match |
| AnswerMatch.SameKeysOrderInsensitive | src/lib/exam.ts:16 | reordering a selection never changes whether it matches |
| AnswerCard.CardKeys | src/components/exam/answer-card-sheet.tsx:165-166 | one key per card, the one `getKey` gives for its question and position |
| AnswerCard.ShownMarks | src/components/exam/answer-card-sheet.tsx:170-174 | one mark per card, set exactly when the filter shows the card |
| AnswerCard.AnsweredMarks | src/components/exam/answer-card-sheet.tsx:167-168 | one mark per card, set exactly when its answer is non-empty |
| AnswerCard.FlaggedMarks | src/components/exam/answer-card-sheet.tsx:169 | one mark per card, set exactly when it is flagged |
| AnswerCard.ShownCounts | src/components/exam/answer-card-sheet.tsx:170-174 | `all` shows every card, `unanswered` shows the cards the answered ones leave out, and `flagged` shows exactly the flagged cards |
| AnswerCard.SheetAnsweredCount | src/components/exam/answer-card-sheet.tsx:44-50 | the header counts map entries holding a non-empty array, at most the number of entries |
| AnswerCard.SheetFlaggedCount | src/components/exam/answer-card-sheet.tsx:52-58 | the header counts map entries set to true, at most the number of entries |
| AnswerCard.HeaderAnsweredAgrees | src/components/exam/answer-card-sheet.tsx:44-50 | with distinct card keys and no other keys in the map, the header's answered count is the number of answered cards |
| AnswerCard.HeaderFlaggedAgrees | src/components/exam/answer-card-sheet.tsx:52-58 | with distinct card keys and no other keys in the map, the header's flagged count is the number of flagged cards |
| AnswerCard.FirstUnanswered | src/components/exam/answer-card-sheet.tsx:60-66 | the least position whose key is absent or empty, every earlier card being answered, or -1 when all are answered |
| AnswerCard.NextUnanswered | src/components/exam/answer-card-sheet.tsx:68-74 | the least unanswered position after `from`, or -1 when there is none |
| AnswerCard.NextFlagged | src/components/exam/answer-card-sheet.tsx:76-82 | the least flagged position after `from`, or -1 when there is none |
| AnswerCard.BadgesAddUpToScore | src/components/exam/answer-card-sheet.tsx:175 | a card's correctness badge is exactly the score's verdict for it, and the badges add up to the score |
| QuestionCard.Dedup | src/components/exam/question-card.tsx:24-27 | `Array.from(new Set(s))` holds each element of `s` once and nothing else |
| QuestionCard.DedupOfDistinct | src/components/exam/question-card.tsx:24-27 | a list without repeats is its own set |
| QuestionCard.ToggleMulti | src/components/exam/question-card.tsx:23-28 | the result has no repeats, holds the key exactly when the selection did not, and keeps every other key; a new key is appended, a present one removed |
| QuestionCard.ToggleTwice | src/components/exam/question-card.tsx:23-28 | toggling the same key twice gives back the same key set |
| QuestionCard.ToggleTwiceExact | src/components/exam/question-card.tsx:23-28 | a selection without repeats that lacked the key comes back exactly |
| QuestionCard.ChooseSingle | src/components/exam/question-card.tsx:65 | a radio change yields `[v]`, or `[]` for the empty value, so at most one key |
| QuestionCard.ChooseThenRead | src/components/exam/question-card.tsx:65 | choosing a value and reading the radio group's value back gives that value |
| QuestionCard.IsCorrectIff | src/components/exam/question-card.tsx:31 | the card shows correct exactly for a non-empty selection equal as a multiset to the answer keys |
| QuestionCard.CardAgreesWithScore | src/components/exam/question-card.tsx:31 | the card and the score agree on non-empty selections; on the empty selection the card never says correct while the score counts a question without answer keys |
| Countdown.Initial | src/hooks/useCountdown.ts:4 | the hook starts at 0 remaining with no interval |
| Countdown.Anchor | src/hooks/useCountdown.ts:6-17 | a new deadline clears the previous interval, installs one only for a truthy deadline, and keeps the last `remainingMs` |
| Countdown.Left | src/hooks/useCountdown.ts:9 | `max(0, end - now)` is 0 exactly when the deadline has passed, else `end - now` |
| Countdown.Tick | src/hooks/useCountdown.ts:8-15 | a tick sets `remaining = max(0, end - now) >= 0`; the interval stops exactly when that is 0, and `onElapsed` fires exactly then |
| Countdown.Run | src/hooks/useCountdown.ts:8-15 | the ticks of one anchor never change its deadline |
| Countdown.FiresAtMostOnce | src/hooks/useCountdown.ts:11-14 | `onElapsed` fires at most once per anchor, and a fired run is left with 0 remaining and no interval |
| Countdown.AnchorIsSane | src/hooks/useCountdown.ts:6-17 | every anchor starts a timer that has not fired |
| Countdown.InertWithoutDeadline | src/hooks/useCountdown.ts:4-7 | with `endAtMs` null or 0 no tick changes anything, and `remaining` stays 0 from the start |
| Countdown.RemainingNeverRises | src/hooks/useCountdown.ts:9 | ticks at non-decreasing clock readings give non-increasing `remaining` |
| Countdown.StoppedStays | src/hooks/useCountdown.ts:12 | once the interval is cleared, no tick changes anything |
| Navigator.Initial | src/hooks/useQuestionNavigator.ts:29-30 | index 0 and no answers |
| Navigator.KeyOf | src/hooks/useQuestionNavigator.ts:42-49 | the position strategy gives `String(pos)`; id-prefer gives a non-empty id, else `String(pos)` |
| Navigator.PositionKeysArePositional | src/hooks/useQuestionNavigator.ts:44 | under the position strategy the question is ignored and two positions share a key only when equal |
| Navigator.IdKeyStableUnderReorder | src/hooks/useQuestionNavigator.ts:45-46 | under id-prefer a question with an id has the same key at every position |
| Navigator.OnLengthChange | src/hooks/useQuestionNavigator.ts:33-38 | an empty list gives index 0; otherwise the index is clamped into `[0, len - 1]`, an in-range index is kept, and the answers are untouched |
| Navigator.OnLengthChangeIsClamp | src/hooks/useQuestionNavigator.ts:33-38 | the effect's clamp is the stores' jump clamp |
| Navigator.Current | src/hooks/useQuestionNavigator.ts:40 | there is a current question exactly when the index is a position of the list, and it is the question there |
| Navigator.Selected | src/hooks/useQuestionNavigator.ts:51-55 | `[]` without a current question, else `answers[keyOf(current, index)] ?? []` |
| Navigator.SetCurrentAnswer | src/hooks/useQuestionNavigator.ts:57-64 | a no-op without a current question; otherwise the current key gets `keys`, every other entry is kept and no other key appears |
| Navigator.SetThenSelected | src/hooks/useQuestionNavigator.ts:51-64 | setting the current answer then reading `selected` gives what was set |
| Navigator.Next | src/hooks/useQuestionNavigator.ts:66-68 | the index stays at most `len - 1`, stays valid when valid, and the answers are untouched |
| Navigator.Prev | src/hooks/useQuestionNavigator.ts:70-72 | the index stays non-negative and the answers are untouched |
| Navigator.Reset | src/hooks/useQuestionNavigator.ts:84-87 | back to index 0 and no answers |
| Navigator.AnsweredFlags | src/hooks/useQuestionNavigator.ts:77-80 | one mark per position, set exactly when the answer under its key is non-empty |
| Navigator.AnsweredCount | src/hooks/useQuestionNavigator.ts:74-82 | the number of positions with a non-empty answer, at most the number of questions |
| Navigator.ResetAnswersNothing | src/hooks/useQuestionNavigator.ts:74-87 | after `reset` nothing counts as answered |
| Navigator.AnsweringRaisesCount | src/hooks/useQuestionNavigator.ts:57-82 | under the position strategy, answering the unanswered current question with a non-empty selection raises the count by exactly one |
| Indexing.NextIndex | src/store/exam.ts:111 | `min(i + 1, len - 1)`: a valid index stays valid, an interior one moves up by one, and an empty list gives -1 |
| Indexing.PrevIndex | src/store/exam.ts:117 | `max(i - 1, 0)`: never negative, and one less from any position above 0 |
| Indexing.ClampIndex | src/store/exam.ts:123 | the jump target clamped into `[0, len - 1]`, 0 on an empty list, a valid index unchanged |
| Indexing.NextPrevInverse | src/store/exam.ts:111-117 | a step forward then back, or back then forward, from an interior position returns to it |
| Indexing.ClampIdempotent | src/store/exam.ts:123 | a clamped index is a fixed point of clamping |
| Indexing.StepsAreClampedJumps | src/store/exam.ts:111-123 | from a valid position, a step is a clamped jump to the neighbour |
| Strings.Trim | src/lib/dataset.ts:135-142 | `trim()`: the result neither starts nor ends with white space and is no longer than the input |
| Strings.TrimOfPadded | src/lib/dataset.ts:135-142 | trimming removes exactly the white space around a core that neither starts nor ends with white space |
| Strings.TrimIdempotent | src/lib/practice-storage.ts:115-117 | trimming twice is trimming once |
| Strings.ToUpper | src/components/practice/PracticeSearchDialog.tsx:25 | `toUpperCase()` on ASCII letters: position by position, with no lower-case letter left |
| Strings.IndexOf | src/components/practice/PracticeSearchDialog.tsx:26 | `indexOf`: the first occurrence, -1 only when there is none |
| Strings.LastIndexOf | src/app/api/images/route.ts:9 | the last position of the character, -1 only when there is none |
| Strings.Split | src/lib/storage-migration.ts:112 | `split(c)`: at least one part, none containing the separator |
| Strings.SplitJoin | src/lib/storage-migration.ts:112 | joining the parts with the separator gives the text back |
| Strings.SplitCount | src/lib/storage-migration.ts:112 | one part more than occurrences of the separator |
| Strings.NatToString | src/app/exam/page.tsx:111 | `String(n)`: digits only, with no leading zero except for 0 itself |
| Strings.NatToStringInjective | src/app/exam/page.tsx:111 | different positions get different keys |
| Strings.DecimalRoundTrip | src/hooks/useQuestionShortcuts.ts:42 | `Number(String(n)) == n` |
| Strings.PadStart2 | src/app/exam/page.tsx:138-139 | `padStart(2, "0")`: zeros in front up to two characters, the text kept at the end |
| ExamStore.Initial | src/store/exam.ts:41-50 | no bank, no questions, no answers or flags, index 0, not finished, no deadline or start time |
| ExamStore.CurrentQuestion | src/store/exam.ts:56 | there is a current question exactly when the index is a position of the list, and it is the question there |
| ExamStore.AnsweredKeys | src/store/exam.ts:59-63 | exactly the keys whose stored answer is non-empty |
| ExamStore.AnsweredCount | src/store/exam.ts:57-65 | the number of non-empty stored answers, at most the number of entries |
| ExamStore.FlaggedKeys | src/store/exam.ts:68-72 | exactly the keys flagged true |
| ExamStore.FlaggedCount | src/store/exam.ts:66-74 | the number of entries flagged true, at most the number of entries |
| ExamStore.FlagKey | src/store/exam.ts:80 | the id when non-empty, else `codes.J` when non-empty, else the index as a string |
| ExamStore.IsCurrentFlagged | src/store/exam.ts:75-82 | false without a current question, else the flag under the current question's flag key |
| ExamStore.StartExam | src/store/exam.ts:85-95 | a fresh state for the bank and questions: no answers or flags, index 0, not finished, started at `now`, deadline `now + minutes * 60000` |
| ExamStore.Answer | src/store/exam.ts:97-101 | `key` gets `a`, every other answer and every other field is unchanged, and `finished` is not consulted |
| ExamStore.ToggleFlag | src/store/exam.ts:103-107 | `key` gets the negation of its flag (absent reads as false); every other flag and field is unchanged |
| ExamStore.NextQuestion | src/store/exam.ts:109-113 | only the index changes; a valid index stays valid, and an empty list gives -1 |
| ExamStore.PrevQuestion | src/store/exam.ts:115-119 | only the index changes, and it is never negative |
| ExamStore.JumpToQuestion | src/store/exam.ts:121-125 | only the index changes; it is clamped into the list, and a valid target is taken as is |
| ExamStore.Submit | src/store/exam.ts:127-129 | sets `finished` and changes nothing else |
| ExamStore.LoadSavedState | src/store/exam.ts:131-133 | every field present in the saved partial state replaces the current one; the others are kept |
| ExamStore.Reset | src/store/exam.ts:135-137 | back to the initial state |
| ExamStore.AnswerIgnoresFinished | src/store/exam.ts:97-129 | answering after `submit` changes the answers exactly as before it, and the exam stays finished |
| ExamStore.SubmitIdempotent | src/store/exam.ts:127-129 | submitting twice is submitting once |
| ExamStore.ToggleTwiceRestores | src/store/exam.ts:103-107 | toggling a key twice restores every flag as read |
| ExamStore.AnswerCount | src/store/exam.ts:57-101 | a non-empty answer for an unanswered key raises `answeredCount` by one; for an answered key it keeps it |
| ExamStore.ToggleCount | src/store/exam.ts:66-107 | a toggle moves `flaggedCount` by exactly one, up when the key was not flagged |
| ExamStore.FlipKeys | src/store/exam.ts:103-107 | flipping one key's flag adds it to, or removes it from, the flagged keys and nothing else |
| ExamStore.StartCountsZero | src/store/exam.ts:85-137 | a started exam and a reset store have nothing answered or flagged |
| ExamStore.StartDeadline | src/store/exam.ts:86-87 | the deadline is `minutes * 60000` ms after the start time |
| ExamStore.FlagKeyFollowsId | src/store/exam.ts:80 | a question with an id or code keeps its flag key at every index; one without is flagged under its index, distinct per index |
| PracticeStore.Initial | src/store/practice.ts:43-53 | nothing loaded, sequential order, index 0, no answers, both toggles on, still loading |
| PracticeStore.LoadBank | src/store/practice.ts:58-66 | `questions == allQuestions ==` the input, index 0, no answers, sequential, toggles on, not loading |
| PracticeStore.SetOrder | src/store/practice.ts:68-77 | the order is recorded, index 0 and no answers; sequential gives `allQuestions` in order, random a list of the same length; bank, `allQuestions`, loading and toggles are kept |
| PracticeStore.RandomOrderPermutes | src/store/practice.ts:70 | random order makes the questions a permutation of `allQuestions` |
| PracticeStore.SequentialRestoresBank | src/store/practice.ts:70 | switching back to sequential undoes any earlier shuffle |
| PracticeStore.NextQuestion | src/store/practice.ts:79-83 | only the index changes, and a valid index stays valid |
| PracticeStore.PrevQuestion | src/store/practice.ts:85-89 | only the index changes, and it is never negative |
| PracticeStore.JumpToQuestion | src/store/practice.ts:91-95 | only the index changes; it is clamped into the list, and a valid target is taken as is |
| PracticeStore.Answer | src/store/practice.ts:97-101 | `key` gets `a`; every other key and every other field is unchanged |
| PracticeStore.ToggleShowAnswer | src/store/practice.ts:103-105 | flips `showAnswer` and nothing else |
| PracticeStore.ToggleShowExplanation | src/store/practice.ts:107-109 | flips `showExplanation` and nothing else |
| PracticeStore.TogglesAreInvolutions | src/store/practice.ts:103-109 | each toggle undoes itself |
| PracticeStore.ApplySavedState | src/store/practice.ts:111-120 | the six saved fields are overwritten; bank, `allQuestions` and `isLoading` stay |
| PracticeStore.ApplySavedStateIdempotent | src/store/practice.ts:111-120 | applying twice is applying once, and applying what the store holds changes nothing |
| PracticeStore.Reset | src/store/practice.ts:122-124 | back to the initial state |
| ExamStorage.StorageKey | src/lib/exam-storage.ts:19-21 | the key is `exam:savedState:` followed by the bank, or `default` for none |
| ExamStorage.StorageKeyInjective | src/lib/exam-storage.ts:19-21 | two banks share a key exactly when their names (with `default` for none) agree |
| ExamStorage.Load | src/lib/exam-storage.ts:23-36 | the stored record, or nothing when the key is absent, the value is not an exam record, its version is not 1, or its deadline is missing, 0 or not after `now` |
| ExamStorage.Save | src/lib/exam-storage.ts:38-45 | the bank's key is written and every other key kept as it was |
| ExamStorage.Clear | src/lib/exam-storage.ts:47-54 | the bank's key is removed and every other key kept as it was |
| ExamStorage.SaveThenLoad | src/lib/exam-storage.ts:23-45 | save then load of the same bank returns the saved record exactly when it has version 1 and a deadline after `now` |
| ExamStorage.SaveKeepsOtherBanks | src/lib/exam-storage.ts:19-45 | saving one bank leaves the loads of every bank with another name unchanged |
| ExamStorage.ClearThenLoad | src/lib/exam-storage.ts:23-54 | after clearing a bank nothing loads for it |
| ExamStorage.LoadExpires | src/lib/exam-storage.ts:31 | a record that loads at some time loads identically at every earlier time and no longer loads at its deadline |
| ExamStorage.ShouldResumeExam | src/lib/exam-storage.ts:56-63 | false once the deadline is not after `now`, false when nothing is answered and the index is at most 0, false when `total <= 0` |
| ExamStorage.ShouldResumeExamIff | src/lib/exam-storage.ts:56-63 | those three refusals are the only ones: otherwise the snapshot is resumed |
| ExamStorage.EmptyAnswerCounts | src/lib/exam-storage.ts:59-60 | an empty answer `[]` is truthy and counts as answered |
| PracticeStorage.StorageKey | src/lib/practice-storage.ts:16-18 | the key is `practice:` followed by the bank, or `default` for none |
| PracticeStorage.Load | src/lib/practice-storage.ts:20-31 | the stored record exactly when it is a practice record of version 1 |
| PracticeStorage.Save | src/lib/practice-storage.ts:33-40 | the bank's key is written and every other key kept |
| PracticeStorage.Clear | src/lib/practice-storage.ts:42-49 | the bank's key is removed and every other key kept |
| PracticeStorage.SaveThenLoad | src/lib/practice-storage.ts:20-40 | a saved snapshot of version 1 loads back unchanged; any other version does not load |
| PracticeStorage.ClearThenLoad | src/lib/practice-storage.ts:20-49 | after clearing a bank nothing loads for it |
| PracticeStorage.LoadLastMode | src/lib/practice-storage.ts:56-65 | only the texts `sequential` and `random` load, as that mode; anything else is no preference |
| PracticeStorage.SaveLastMode | src/lib/practice-storage.ts:67-74 | writes the last-mode key and keeps every other key |
| PracticeStorage.LastModeRoundTrip | src/lib/practice-storage.ts:56-74 | saving a mode then loading gives that mode |
| PracticeStorage.NoResumeKey | src/lib/practice-storage.ts:77-79 | the key is `practice:noResumePrompt:` followed by the bank, or `default` |
| PracticeStorage.LoadNoResume | src/lib/practice-storage.ts:81-88 | set exactly when the stored value is the text `1` |
| PracticeStorage.SaveNoResume | src/lib/practice-storage.ts:90-98 | true writes `1`, false removes the key; other keys are kept |
| PracticeStorage.NoResumeRoundTrip | src/lib/practice-storage.ts:81-98 | `saveNoResume(b, v)` then `loadNoResume(b)` gives `v` |
| PracticeStorage.PreferenceKeysAreNotSnapshots | src/lib/practice-storage.ts:16-79 | a snapshot key is the last-mode key only for a bank named `lastMode`, and never a no-resume key for a bank name without `:` |
| PracticeStorage.ShouldResume | src/lib/practice-storage.ts:101-112 | false after more than seven days, with fewer than 3 answered entries, or with the index at most 0 or at least `total - 1` |
| PracticeStorage.ShouldResumeIff | src/lib/practice-storage.ts:101-112 | those refusals are the only ones; a snapshot exactly seven days old is still offered |
| PracticeStorage.NormalizeJ | src/lib/practice-storage.ts:115-117 | the result is no longer than the input, has no lower-case letter, and neither starts nor ends with white space |
| PracticeStorage.UpperKeepsSpaces | src/lib/practice-storage.ts:116 | upper-casing never turns a space into a non-space or back |
| PracticeStorage.NormalizeJIdempotent | src/lib/practice-storage.ts:115-117 | normalising twice is normalising once |
| Snapshots.PresentCount | src/lib/exam-storage.ts:59 | `filter(Boolean).length` is at most the length, and 0 exactly when every entry is null |
| Snapshots.PresentCountIsFilterLength | src/lib/practice-storage.ts:107 | the count is the number of non-null positions |
| ExamDraw.FirstPick | src/app/exam/page.tsx:72-78 | the first pick has `min(rule.singles, #singles) + min(rule.multiples, #multiples)` questions |
| ExamDraw.FirstPickBounds | src/app/exam/page.tsx:72-78 | before the top-up the pick holds exactly `min(rule.singles, #singles)` singles and `min(rule.multiples, #multiples)` multiples |
| ExamDraw.FirstPickFacts | src/app/exam/page.tsx:72-78 | the first pick holds distinct pool positions, singles first, then multiples |
| ExamDraw.ShuffledPrefix | src/app/exam/page.tsx:76-77 | a prefix of a shuffled duplicate-free list is duplicate-free and shares every property of the list's elements |
| ExamDraw.PoolFilter | src/app/exam/page.tsx:72-73 | filtering the pool gives distinct pool positions that satisfy the filter |
| ExamDraw.PickOfType | src/app/exam/page.tsx:76-77 | the shuffled pick of one type holds distinct positions of questions of that type |
| ExamDraw.TopUp | src/app/exam/page.tsx:80-85 | a pick already of `rule.total` is kept; otherwise the pick is extended, never changed |
| ExamDraw.TopUpFacts | src/app/exam/page.tsx:80-85 | the top-up adds distinct pool positions not picked before, up to `min(rule.total, pool size)` |
| ExamDraw.Draw | src/app/exam/page.tsx:72-87 | the drawn questions are the pool's questions at the drawn positions |
| ExamDraw.DrawPositionsInPool | src/app/exam/page.tsx:78-87 | every drawn position is a pool position and none is drawn twice |
| ExamDraw.DrawLength | src/app/exam/page.tsx:79-87 | the exam has `min(rule.total, pool size)` questions when the rule's singles and multiples do not exceed its total |
| ExamDraw.FirstPickComposition | src/app/exam/page.tsx:74-87 | any permutation of the first pick has the first pick's numbers of singles and multiples |
| ExamDraw.DrawComposition | src/app/exam/page.tsx:74-87 | with enough of each kind and an exact split, the exam holds exactly `rule.singles` singles and `rule.multiples` multiples |
| ExamDraw.DrawHasNoDuplicates | src/app/exam/page.tsx:78-87 | a pool without repeated questions gives an exam without repeated questions |
| ExamPage.PageRules | src/app/exam/page.tsx:23-28 | the page's copy of the table splits every total into singles plus multiples |
| ExamPage.PageRulesAgree | src/app/exam/page.tsx:23-28 | the page's copy agrees with the shared table bank by bank |
| ExamPage.PageRule | src/app/exam/page.tsx:24-48 | the requested bank's rule; no rule exactly when the parameter names a member inherited from `Object.prototype`; class A's rule for a missing or any other bank |
| ExamPage.PageRuleIsGetRule | src/app/exam/page.tsx:47-48 | the page resolves a bank parameter to the same rule as `getRule` |
| ExamPage.Initial | src/app/exam/page.tsx:31-44 | loading, no questions, index 0, no answers or flags, not finished, no result, no deadline, 0 remaining, filter `all` |
| ExamPage.TimerDeadline | src/app/exam/page.tsx:94-95 | the countdown receives an integer deadline exactly when the page holds one, and no deadline for `NaN` |
| ExamPage.Start | src/app/exam/page.tsx:67-103 | the loading flag always drops; a failed load changes nothing else; a loaded pool with an inherited member for a rule gives no questions, a `NaN` deadline and `NaN` remaining |
| ExamPage.Begin | src/app/exam/page.tsx:88-96 | the drawn questions from index 0 with empty answers and flags, the deadline `now + duration` (`NaN` for a `NaN` duration) and the duration remaining; finished, result and filter are kept |
| ExamPage.StartDrawsFromPool | src/app/exam/page.tsx:72-96 | with a table rule the exam holds `min(rule.total, pool size)` questions from the pool, none twice when the pool has no repeats, and its deadline is `rule.minutes` minutes after `now` |
| ExamPage.InheritedBankNeverTimes | src/app/exam/page.tsx:47-96 | a bank parameter naming an inherited member gives an empty paper whose deadline never starts the countdown |
| ExamPage.Current | src/app/exam/page.tsx:105 | a current question exactly when the index is a position of the list |
| ExamPage.Selected | src/app/exam/page.tsx:106 | `[]` without a current question, else `answers[String(index)] ?? []` |
| ExamPage.SetCurrentAnswer | src/app/exam/page.tsx:109-113 | nothing without a current question; otherwise only the entry under `String(index)` changes, and `finished` is not consulted |
| ExamPage.SetThenSelected | src/app/exam/page.tsx:106-113 | what was set is what is selected |
| ExamPage.Next | src/app/exam/page.tsx:115-117 | only the index moves, to `min(i + 1, len - 1)` |
| ExamPage.Prev | src/app/exam/page.tsx:118-120 | only the index moves, to `max(i - 1, 0)` |
| ExamPage.Submit | src/app/exam/page.tsx:122-130 | submit and expiry set `finished` and open the result, nothing else |
| ExamPage.SubmitIdempotent | src/app/exam/page.tsx:122-130 | submitting or expiring twice is doing it once |
| ExamPage.AnswerAfterSubmit | src/app/exam/page.tsx:109-149 | after submission the current answer can still be replaced, and the exam stays finished |
| ExamPage.PageScore | src/app/exam/page.tsx:168-177 | `total` is the number of questions and `correct` the score under the key `String(i)` |
| ExamPage.PassedIff | src/app/exam/page.tsx:178 | passed exactly when the score reaches `rule.pass`, which needs at least that many questions |
| ExamPage.PageScoreIsPositional | src/app/exam/page.tsx:172 | the page's key is the navigator's position key |
| ExamPage.AnsweredFlags | src/app/exam/page.tsx:183-186 | one mark per position, set exactly when the entry under `String(i)` is non-empty |
| ExamPage.AnsweredCount | src/app/exam/page.tsx:181-188 | the number of positions with a non-empty answer, at most the number of questions |
| ExamPage.AnsweredCountIsNavigators | src/app/exam/page.tsx:181-188 | the page counts exactly what the navigator hook counts under the position strategy |
| ExamPage.ToggleFlagCurrent | src/app/exam/page.tsx:194-199 | nothing without a current question; otherwise only `flags[String(index)]` is negated |
| ExamPage.ToggleTwice | src/app/exam/page.tsx:194-199 | toggling twice restores every flag's reading; the map itself comes back exactly when the key was present |
| ExamPage.SelectDigit | src/app/exam/page.tsx:146-149 | digit `n` makes option `n`'s key the whole answer when that option exists, else changes nothing |
| ExamPage.SelectDigitSelects | src/app/exam/page.tsx:146-149 | after a digit selection the selection is that single key |
| ExamPage.TotalSeconds | src/app/exam/page.tsx:134 | `max(0, floor(ms / 1000))`: 0 for a non-positive `ms`, else the whole seconds in `ms` |
| ExamPage.ClockOf | src/app/exam/page.tsx:135-137 | minutes and seconds below 60, and hours, minutes and seconds add back up to the whole seconds |
| ExamPage.Pad | src/app/exam/page.tsx:138-139 | `padStart(2, "0")` gives at least two digits, exactly two below 100, reading back as the number |
| ExamPage.FormatMs | src/app/exam/page.tsx:133-140 | the text has five characters (`MM:SS`) exactly below 3,600,000 ms and at least eight (`HH:MM:SS`) exactly from there on |
| ExamPage.HourFromMs | src/app/exam/page.tsx:134-135 | the hour count is positive exactly from 3,600,000 ms on |
| ExamPage.FormatMsShort | src/app/exam/page.tsx:133-140 | below one hour the text is `MM:SS`, each group below 60, reading back as the whole seconds |
| ExamPage.FormatMsLong | src/app/exam/page.tsx:133-140 | from one hour on the text is `HH:MM:SS` with at least two hour digits, minutes and seconds below 60, reading back as the whole seconds |
| ExamPage.LongClockReadsBack | src/app/exam/page.tsx:138 | an `HH:MM:SS` text splits back into its hours, minutes and seconds |
| ExamPage.LongTextReadsBack | src/app/exam/page.tsx:138 | an `HH:MM:SS` text reads back as its whole seconds |
| ExamPage.FilterKey | src/app/exam/page.tsx:54 | the key is `exam:answerCardFilter:` followed by the bank parameter |
| ExamPage.LoadFilter | src/app/exam/page.tsx:51-59 | a filter other than `all` is loaded only when its name is stored under the key |
| ExamPage.SaveFilter | src/app/exam/page.tsx:203-208 | sets the filter and stores its name under the bank's key |
| ExamPage.FilterRoundTrip | src/app/exam/page.tsx:203-208 | a saved choice is what the same bank loads next, and other banks keep theirs |
| PracticePage.KeyAt | src/app/practice/page.tsx:89-94 | `q.id ?? String(pos)`: an id, even an empty one, wins over the position |
| PracticePage.KeyAtStable | src/app/practice/page.tsx:89-94 | a question with an id keeps its key at every position; one without is keyed by position, distinct per position |
| PracticePage.Loaded | src/app/practice/page.tsx:44-60 | the loading flag always drops; on success the bank from index 0 with no answers, in its own order when sequential and as a permutation otherwise; a failure changes nothing else |
| PracticePage.Selected | src/app/practice/page.tsx:88-89 | `[]` without a current question, else the answer under the current key or `[]` |
| PracticePage.SetCurrentAnswer | src/app/practice/page.tsx:92-96 | nothing without a current question; otherwise only the current key's entry changes |
| PracticePage.SetThenSelected | src/app/practice/page.tsx:88-96 | what was set is what is selected |
| PracticePage.Next | src/app/practice/page.tsx:98-100 | only the index moves, to `min(i + 1, len - 1)`, and a valid index stays valid |
| PracticePage.Prev | src/app/practice/page.tsx:101-103 | only the index moves, to `max(i - 1, 0)` |
| PracticePage.ApplyOrder | src/app/practice/page.tsx:105-124 | the order is recorded; with a loaded bank the questions are the bank in that order from index 0 with no answers, the last mode is stored, and switching to sequential opens the prompt holding an offerable snapshot; switching to random leaves the prompt and the held snapshot alone; no other field changes |
| PracticePage.RestoreLastMode | src/app/practice/page.tsx:63-70 | with a loaded bank, a stored last mode is applied; otherwise nothing changes |
| PracticePage.ResumeGate | src/app/practice/page.tsx:73-86 | either nothing changes, or the saved snapshot is held and the prompt opens |
| PracticePage.ResumeGateIff | src/app/practice/page.tsx:73-86 | the prompt opens exactly with a loaded bank in sequential order, a last mode that is not random, and a saved sequential snapshot whose total is the bank size |
| PracticePage.IndexIn | src/app/practice/page.tsx:161 | `indexOf` by value: -1 exactly when absent, else a position holding the question |
| PracticePage.OrderIndices | src/app/practice/page.tsx:161 | one bank index per shown question, in order |
| PracticePage.AnswersByPosition | src/app/practice/page.tsx:163-167 | per position a copy of the answer under its key, or null when there is none; an empty answer is kept as `[]` |
| PracticePage.Payload | src/app/practice/page.tsx:168-178 | version 1, the bank, `now`, the index, order and answer toggle, and `total` = the bank size |
| PracticePage.Persist | src/app/practice/page.tsx:158-180 | storage is written only with questions shown, in sequential order, every one found in the bank; then exactly the payload is saved |
| PracticePage.Reconstruct | src/app/practice/page.tsx:224 | at most one question per index; with all indices valid, exactly the bank's questions at those indices |
| PracticePage.Keys | src/app/practice/page.tsx:230 | the key of every position of a question list |
| PracticePage.Restore | src/app/practice/page.tsx:228-233 | every restored key is a rebuilt question's key whose stored entry was non-empty |
| PracticePage.ResumeIndex | src/app/practice/page.tsx:235 | the saved index clamped into the list, -1 on an empty list, a valid one kept |
| PracticePage.HandleResume | src/app/practice/page.tsx:219-239 | nothing without a held snapshot; otherwise the rebuilt questions, the restored non-empty answers, the clamped index, the saved order and toggle, and the prompt closed |
| PracticePage.RestoreOfPersisted | src/app/practice/page.tsx:163-233 | restoring what was persisted gives, under every position's key, the answer there when it was non-empty, and nothing under other keys |
| PracticePage.RestoreMirrored | src/app/practice/page.tsx:228-233 | restoring entries that mirror an answer map gives its non-empty answers back |
| PracticePage.ReconstructOfIndices | src/app/practice/page.tsx:161-224 | rebuilding from the indices of questions that all occur in the bank gives the questions back |
| PracticePage.PersistThenResume | src/app/practice/page.tsx:158-235 | persist then resume over the same bank reproduces the order, index, toggle and every non-empty answer; empty answers are dropped |
| PracticePage.HandleRestart | src/app/practice/page.tsx:241-250 | the snapshot is cleared, the bank shown in the current order from index 0 with no answers, and the prompt closed |
| PracticePage.RestartForgets | src/app/practice/page.tsx:241-242 | after a restart nothing is left to load |
| PracticePage.TrimmedParts | src/app/practice/page.tsx:135 | the comma-separated parts of a code, each trimmed |
| PracticePage.JumpTarget | src/app/practice/page.tsx:131-149 | the target is -1 or a position of the list |
| PracticePage.JumpTargetSpec | src/app/practice/page.tsx:130-149 | the first exact or comma-member code match, else the first code containing the input, else the first text containing it, and -1 exactly when nothing matches |
| PracticePage.HandleJump | src/app/practice/page.tsx:126-155 | only in sequential order with a non-blank input, and only the index moves, to the jump target when there is one; with no match (the alert) nothing changes |
| PracticePage.AnyContains | src/app/practice/page.tsx:203 | `parts.some(p => p.includes(query))` |
| PracticePage.Suggestions | src/app/practice/page.tsx:183-217 | none unless sequential with a non-blank input; otherwise the first 51 matching positions, in order |
| PracticePage.ScanSuggestions | src/app/practice/page.tsx:199-209 | the loop collects exactly the first 51 qualifying positions, stopping once it holds more than 50 |
| PracticePage.SuggestionsAscending | src/app/practice/page.tsx:199-209 | the suggestions are in ascending position order, at most 51 of them |
| PracticePage.FilterOfRangeAscending | src/app/practice/page.tsx:199 | positions collected in loop order are strictly ascending and in range |
| StorageMigration.NewKey | src/lib/storage-migration.ts:77-203 | a moved entry's new key stays under its migration's prefix (`<prefix><version id>:<bank>`) |
| StorageMigration.Migrated | src/lib/storage-migration.ts:70-206 | a moved snapshot becomes the same record at version 2 stamped with the version id; a preference value is copied unchanged |
| StorageMigration.Migrate | src/lib/storage-migration.ts:46-189 | without legacy keys, or without a latest version, storage is left as it was |
| StorageMigration.MigrateAll | src/lib/storage-migration.ts:226-236 | with the intended exam test: without a latest version nothing changes, and keys outside `exam:savedState:` and `practice:` keep their presence and value |
| StorageMigration.MigrateAllAsWritten | src/lib/storage-migration.ts:226-236 | running all three migrations as written amounts to the practice migration then the preference migration: the exam migration contributes nothing |
| StorageMigration.MigrateAllMovesExam | src/lib/storage-migration.ts:38-95 | with the intended exam test and a latest version, running all migrations moves every version-1 exam snapshot under `exam:savedState:<bank>` to its versioned key, and the later steps leave both keys alone |
| StorageMigration.MigrateOutsidePrefix | src/lib/storage-migration.ts:46-178 | a migration never touches a key outside its prefix |
| StorageMigration.NoLegacyExamKey | src/lib/storage-migration.ts:46 | no key passes the exam test as written |
| StorageMigration.ExamMigrationDoesNothing | src/lib/storage-migration.ts:38-95 | hence the exam migration never changes storage |
| StorageMigration.IntendedExamKeys | src/lib/storage-migration.ts:46 | the intended test accepts `exam:savedState:<bank>` exactly when the bank has no `:` |
| StorageMigration.NewKeyNotLegacy | src/lib/storage-migration.ts:77-203 | a new key never passes its own migration's legacy test, so nothing is moved twice |
| StorageMigration.LegacyUnderPrefix | src/lib/storage-migration.ts:46-178 | every legacy key lies under its migration's prefix |
| StorageMigration.FoldAtLegacyKey | src/lib/storage-migration.ts:59-215 | after the loop a legacy key is gone exactly when it was visited and held a movable entry; otherwise it keeps its entry |
| StorageMigration.FoldOutsidePrefix | src/lib/storage-migration.ts:59-215 | the loop never touches a key outside its prefix |
| StorageMigration.FoldKeepsOthers | src/lib/storage-migration.ts:83-209 | the loop removes only legacy keys |
| StorageMigration.FoldWritesNewKey | src/lib/storage-migration.ts:80-206 | a visited movable legacy entry leaves its new key behind |
| StorageMigration.FoldOfSettled | src/lib/storage-migration.ts:62-194 | over storage whose legacy entries are all unmovable the loop changes nothing |
| StorageMigration.MigrateMoves | src/lib/storage-migration.ts:100-162 | with a latest version every movable legacy entry is moved to its new key, unmovable ones and keys outside the prefix stay as they were, and no movable legacy entry is left |
| StorageMigration.MigrateIdempotent | src/lib/storage-migration.ts:100-162 | a second run, over the keys then present, changes nothing |
| StorageMigration.MigratedPracticeIsNotLoaded | src/lib/storage-migration.ts:108-150 | a practice run saved under `practice:<bank>` in the form the practice page loads is moved away, so the page no longer finds it |
| StorageMigration.NotNeededMeansUnchanged | src/lib/storage-migration.ts:241-251 | when the corrected check says no migration is needed, no migration changes anything |
| StorageMigration.NeedsMigration | src/lib/storage-migration.ts:241-252 | as written, the exam clause never holds, so the answer is yes exactly when some key passes the practice clause or the preference test; a yes always means some migration has a legacy key |
| StorageMigration.NeedsMigrationIntended | src/lib/storage-migration.ts:241-252 | as meant: yes exactly when one of the three migrations (with the intended exam test) finds a legacy key |
| StorageMigration.NotNeededMeansNothingRuns | src/lib/storage-migration.ts:226-251 | when the corrected check says no migration is needed, running all of them changes nothing |
| StorageMigration.AlastModeKey | src/lib/storage-migration.ts:108-249 | `practice:AlastMode` passes the practice migration's test but not the practice clause of `needsMigration()` |
| StorageMigration.NeedsMigrationMissesKey | src/lib/storage-migration.ts:241-251 | as written, `needsMigration()` can answer no while the practice migration would still move an entry |
| StorageMigration.MissedKeyMoves | src/lib/storage-migration.ts:241-251 | every practice key the clause misses is still moved |
| StorageMigration.ExamSnapshotNotMigrated | src/lib/storage-migration.ts:46-83 | a legacy exam snapshot `exam:savedState:A` stays where it is as written, and is moved by the intended migration |
| Csv.Step | src/lib/dataset.ts:18-64 | one pass of the reader's loop consumes one or two characters, never more than remain |
| Csv.ScanAppendsRows | src/lib/dataset.ts:44-55 | the loop only appends rows, each holding at least one field |
| Csv.ParseCsv | src/lib/dataset.ts:11-73 | every row has a field; a final pending row that is a single empty field is dropped |
| Csv.ParseCsvBuild | scripts/build-dataset.mjs:30-52 | the build's reader always keeps the pending row, so it returns at least one row |
| Csv.ReadersDiffer | src/lib/dataset.ts:66-71 | the two readers differ exactly by a final row `[""]`, which only the build's reader keeps |
| Csv.EmptyText | src/lib/dataset.ts:67-71 | empty text is no rows for the runtime reader and `[[""]]` for the build's reader |
| Csv.TrailingLineFeed | src/lib/dataset.ts:68-71 | a final line feed changes nothing for the runtime reader and adds a row `[""]` for the build's reader |
| Csv.ScanConcat | src/lib/dataset.ts:21-23 | the reader looks ahead only after a quote, so reading `a + b` is reading `a` then `b` unless `b` starts with a quote |
| Csv.ScanQuoted | src/lib/dataset.ts:20-36 | inside quotes a field with every quote doubled, then a closing quote, reads back as the field |
| Csv.ScanField | src/lib/dataset.ts:18-64 | any field written in RFC 4180 form reads back into the current field |
| Csv.ScanRowLine | src/lib/dataset.ts:43-55 | an encoded row followed by a line feed completes exactly that row |
| Csv.ScanTable | src/lib/dataset.ts:18-65 | an encoded table completes every row but the last and leaves the last one pending |
| Csv.RoundTrip | src/lib/dataset.ts:11-73 | writing rows as section 2 of RFC 4180 describes and reading them back gives the rows, unless the last one is a single empty field |
| Csv.RoundTripBuild | scripts/build-dataset.mjs:30-52 | the build's reader reads back any non-empty list of rows |
| Csv.EmptyLastRowLost | src/lib/dataset.ts:69-71 | the runtime reader never reads back a final row `[""]` |
| Dataset.BankFile | src/lib/dataset.ts:117-123 | each bank reads a `.csv` file |
| Dataset.BankFileInjective | src/lib/dataset.ts:117-123 | different banks read different files |
| Dataset.IndexHeader | src/lib/dataset.ts:77-83 | every trimmed header name maps to a position holding it, the last such position for a duplicate |
| Dataset.Cell | src/lib/dataset.ts:135 | a missing column or a short row reads as the empty text |
| Dataset.MapOfEntriesLastWins | src/lib/dataset.ts:97-101 | the last entry for a code decides its path |
| Dataset.ImageMapOf | src/lib/dataset.ts:96-101 | every row with a non-empty code and path sets its code; every mapped code and path is non-empty |
| Dataset.ImageMapLastWins | src/lib/dataset.ts:97-101 | the last row with a given code decides its path |
| Dataset.LoadImageMap | src/lib/dataset.ts:87-104 | the header row is taken off, the J and ImagePath columns default to 0 and 1, and only non-empty codes and paths are mapped |
| Dataset.ResolveImagePath | src/lib/dataset.ts:106-114 | a path exactly when the code maps to a non-empty path under `images/`, joined under the dataset directory |
| Dataset.NonEmpty | src/lib/dataset.ts:157-158 | `x || null` is null exactly for the empty text |
| Dataset.AnswerKeysOf | src/lib/dataset.ts:150 | the answer keys are exactly the capital letters of T, one per key, in order |
| Dataset.AnswerKeysAppend | src/lib/dataset.ts:150 | keys are read in the order their letters appear |
| Dataset.TypeOf | src/lib/dataset.ts:151 | single-choice exactly when there is at most one key; never true/false |
| Dataset.PrimaryJ | src/lib/dataset.ts:153 | the primary code holds no comma, and a code without a comma is its own primary code |
| Dataset.PrimaryJBeforeComma | src/lib/dataset.ts:153 | with a comma, the primary code is the trimmed text before the first one |
| Dataset.OptionsSpec | src/lib/dataset.ts:144-149 | a letter from A to D has an option exactly when its cell is non-empty, with that text, and there are no other options |
| Dataset.OptionsOrdered | src/lib/dataset.ts:144-149 | option letters appear in strictly increasing order |
| Dataset.CellsOfFields | src/lib/dataset.ts:135-142 | every cell of a question is the trimmed cell of its column |
| Dataset.ImageUrl | src/lib/dataset.ts:154-155 | an image route URL for the primary code exactly when the image map has a non-empty path for it |
| Dataset.RowToQuestion | src/lib/dataset.ts:133-165 | a row gives a question exactly when it is non-empty and its trimmed Q cell is non-empty |
| Dataset.RowQuestionSpec | src/lib/dataset.ts:133-165 | the question carries the trimmed cells: the J code as id and code, the options of the non-empty A to D cells, the capitals of T as keys (single iff at most one), and an image iff the primary code maps to one |
| Dataset.SomesSpec | src/lib/dataset.ts:132-166 | one value kept per present element, each of them from the input |
| Dataset.CollectSpec | src/lib/dataset.ts:132-166 | every collected question comes from a row that is not skipped and has a question text |
| Dataset.CollectAppend | src/lib/dataset.ts:133-166 | the loop's result over two parts of the rows is the concatenation of the parts' results |
| Dataset.LoadQuestions | src/lib/dataset.ts:126-128 | no rows give no questions; otherwise the header row is taken off, so there are fewer questions than rows |
| Dataset.EmptyRowGuardIsDead | src/lib/dataset.ts:134-143 | the runtime reader never yields an empty row, so a row is dropped exactly when its Q cell is blank |
| BuildDataset.Run | scripts/build-dataset.mjs:27 | the greedy run of a character class: all of its characters are in the class, and the next one is not |
| BuildDataset.LastJpg | scripts/build-dataset.mjs:27 | `[^\s,]+\.jpg` backs off to the last `.jpg` in range, and none is found only when there is none |
| BuildDataset.Sanitize | scripts/build-dataset.mjs:24-28 | the result is empty or starts and ends with a non-blank character |
| BuildDataset.SanitizePlain | scripts/build-dataset.mjs:24-28 | text without a `[F]` marker is only trimmed |
| BuildDataset.LaidOutMatches | scripts/build-dataset.mjs:27 | blanks, `[F]`, a code, `.jpg` and digits form one whole match |
| BuildDataset.SpacedFootnoteMatches | scripts/build-dataset.mjs:27 | white space followed by a footnote is one whole match |
| BuildDataset.FootnoteOnlyIsEmpty | scripts/build-dataset.mjs:24-28 | an option text that is only a footnote sanitises to the empty text, so the option is dropped |
| BuildDataset.WholeMatchStripped | scripts/build-dataset.mjs:27 | a text that is one match is removed entirely |
| BuildDataset.StripCopies | scripts/build-dataset.mjs:27 | where no match starts the replacement copies the text |
| BuildDataset.TrailingFootnoteRemoved | scripts/build-dataset.mjs:26-27 | a footnote after an option's text is removed with the white space before it, and the option keeps its text |
| BuildDataset.BuildImageMap | scripts/build-dataset.mjs:90-99 | the header is taken off, columns are looked up by name only, and only non-empty codes and paths are mapped |
| BuildDataset.ImageMapsAgree | scripts/build-dataset.mjs:90-99 | with both columns named, the build and the runtime loader read the same image map |
| BuildDataset.MissingColumnNoImages | scripts/build-dataset.mjs:96-98 | without a J or ImagePath column the build maps nothing, where the runtime loader falls back to the first two columns |
| BuildDataset.BaseName | scripts/build-dataset.mjs:129 | the base name holds no `/` |
| BuildDataset.BaseNameOfJoin | scripts/build-dataset.mjs:129 | the base name of `<dir>/<name>` is the name |
| BuildDataset.BuildImageUrl | scripts/build-dataset.mjs:126-133 | a URL under `/questions/images/` exactly when the primary code maps to a non-empty path, named by its base name |
| BuildDataset.ImageUrlsAgree | scripts/build-dataset.mjs:126-133 | the build links an image exactly when the runtime loader does, under a different URL |
| BuildDataset.ImageUrlOfStoredPath | scripts/build-dataset.mjs:127-132 | an image stored as `images/<name>` is linked as `/questions/images/<name>` |
| BuildDataset.BuildRow | scripts/build-dataset.mjs:108-135 | a row is skipped exactly when its trimmed Q cell is empty; there is no guard for empty rows |
| BuildDataset.BuildRowOptions | scripts/build-dataset.mjs:114-123 | the options of a built question are those of its sanitised option cells |
| BuildDataset.BuildOptionsTrimmed | scripts/build-dataset.mjs:114-123 | every option the build keeps has a non-empty, trimmed text |
| BuildDataset.SkipsAgree | scripts/build-dataset.mjs:118 | the build skips a row exactly when the runtime loader does |
| BuildDataset.BuildMatchesLoader | scripts/build-dataset.mjs:108-135 | without footnotes in the option cells the build produces the runtime loader's question, with the build's image URL |
| BuildDataset.BuildAllFromRows | scripts/build-dataset.mjs:107-135 | every built question converts one of the rows |
| BuildDataset.BuildAllQuestions | scripts/build-dataset.mjs:118-134 | every built question has a question text |
| BuildDataset.BuildAllCount | scripts/build-dataset.mjs:107-135 | one question per row with a non-empty Q cell |
| BuildDataset.BuildAllDropsEmptyRow | scripts/build-dataset.mjs:108-118 | a final row `[""]` adds no question |
| BuildDataset.ProcessBank | scripts/build-dataset.mjs:101-139 | a bank has fewer questions than its reader's rows |
| BuildDataset.ReaderChoiceIrrelevant | scripts/build-dataset.mjs:50-118 | the extra row the build's reader keeps never becomes a question, so both readers give the same questions |
| BuildDataset.OutputName | scripts/build-dataset.mjs:136 | each bank writes a `.json` file |
| BuildDataset.OutputNameInjective | scripts/build-dataset.mjs:136 | different banks write different files |
| BuildDataset.Build | scripts/build-dataset.mjs:83-149 | four files are written |
| BuildDataset.BuildWritesEveryBank | scripts/build-dataset.mjs:89-146 | every bank is converted from its own text with the one shared image map and written under its own name |
| BuildDataset.BuildNamesDistinct | scripts/build-dataset.mjs:136-146 | no two written files share a name |
| BankManager.Find | src/lib/question-bank-manager.ts:19-24 | `find(...) || null`: a matching version from the list, and none exactly when no version matches |
| BankManager.FindFirst | src/lib/question-bank-manager.ts:19-24 | the version found is the first that matches |
| BankManager.GetLatestVersion | src/lib/question-bank-manager.ts:17-20 | a configured version flagged latest, or none exactly when no version is |
| BankManager.GetVersion | src/lib/question-bank-manager.ts:22-25 | a configured version with that id, or none exactly when no version has it |
| BankManager.SortNewest | src/lib/question-bank-manager.ts:29-31 | the versions newest first, a permutation of the input |
| BankManager.SortNewestStable | src/lib/question-bank-manager.ts:29-31 | the sort is stable: for every `updatedAt`, the versions carrying it appear in the output in their input order |
| BankManager.SortNewestKeepsSorted | src/lib/question-bank-manager.ts:29-31 | a list already newest first is returned unchanged |
| BankManager.GetAllVersions | src/lib/question-bank-manager.ts:27-32 | the configuration with its versions permuted newest first, everything else kept |
| BankManager.SortKeepsLookups | src/lib/question-bank-manager.ts:22-32 | sorting the cached configuration in place changes no lookup's success |
| BankManager.VersionedFile | src/lib/question-bank-manager.ts:49 | `^/questions/[^/]+/([ABC]\.json)$`: a capture only for `/questions/<dir>/<X>.json` with a non-empty, `/`-free dir |
| BankManager.VersionedFileOf | src/lib/question-bank-manager.ts:49 | every such path is recognised and its file captured |
| BankManager.RewritePath | src/lib/question-bank-manager.ts:40-54 | a root path outside `/questions/202` is kept; otherwise the result is the path itself or a root bank file |
| BankManager.DatedPathMapped | src/lib/question-bank-manager.ts:47-52 | a bank file under a dated directory is served from the root |
| BankManager.UnmatchedPathKept | src/lib/question-bank-manager.ts:54 | a path the pattern does not capture is returned unchanged |
| BankManager.ResolveQuestionsUrl | src/lib/question-bank-manager.ts:34-55 | the "not found" error exactly for an unknown version, otherwise the rewritten path of the bank |
| BankManager.CheckBankAvailable | src/lib/question-bank-manager.ts:57-68 | available exactly when the URL resolves and its fetch succeeds with a non-empty array; every error reads as unavailable |
| BankManager.BanksWhere | src/lib/question-bank-manager.ts:71-79 | exactly the banks with the flag set, in the order A, B, C |
| BankManager.GetAvailableBanks | src/lib/question-bank-manager.ts:70-80 | exactly the banks whose check passes, in the order A, B, C |
| BankManager.UnknownVersionNoBanks | src/lib/question-bank-manager.ts:35-66 | an unknown version has no available banks |
| VersionStatus.CheckVersionStatus | src/lib/version-status-manager.ts:109-143 | stamped with the id and `now`; available exactly when some bank is; on success exactly the passing banks in order A, B, C, with no error; a throw gives no banks and an error |
| VersionStatus.GetVersionStatus | src/lib/version-status-manager.ts:24-52 | the status returned is cached under the id; no other cache entry changes |
| VersionStatus.FreshServedFromCache | src/lib/version-status-manager.ts:29-34 | without a forced refresh a status younger than five minutes is returned and the cache kept, whatever a new check would say |
| VersionStatus.StaleIsRechecked | src/lib/version-status-manager.ts:42-48 | a stale or missing status, or a forced refresh, is checked again |
| VersionStatus.RefreshVersionStatus | src/lib/version-status-manager.ts:94-96 | a refresh always checks and caches the result |
| VersionStatus.CachedForFiveMinutes | src/lib/version-status-manager.ts:18-34 | a lookup within five minutes of a check returns that check; one at least five minutes later checks again |
| VersionStatus.ClearCache | src/lib/version-status-manager.ts:101-104 | nothing is left in the cache |
| VersionStatus.ClearedLookupRechecks | src/lib/version-status-manager.ts:42-104 | after clearing, every lookup checks again |
| VersionStatus.GetStatuses | src/lib/version-status-manager.ts:57-64 | one status per version; every version ends up cached and no entry is lost |
| VersionStatus.StatusesFollowVersions | src/lib/version-status-manager.ts:57-64 | each returned status belongs to its version, and the cache stays keyed by version id |
| VersionStatus.KeepUsableSpec | src/lib/version-status-manager.ts:86-88 | a version is kept exactly when its status is available with banks |
| VersionStatus.GetAvailableVersions | src/lib/version-status-manager.ts:69-89 | only configured versions are returned |
| VersionStatus.SingleVersionAgrees | src/lib/version-status-manager.ts:73-88 | the single-version shortcut gives what the general path gives |
| VersionStatus.UniqueIdsPermuted | src/lib/version-status-manager.ts:70 | the newest-first sort keeps the version ids distinct |
| VersionStatus.StatusesWithUniqueIds | src/lib/version-status-manager.ts:57-64 | with distinct ids, each version's status is what a lookup of its id from the starting cache returns |
| VersionStatus.AvailableVersionsExactly | src/lib/version-status-manager.ts:69-89 | with distinct ids, a version is returned exactly when it is configured and a lookup of its id from the starting cache gives a status available with at least one bank |
| BankSelector.FindStatus | src/components/common/QuestionBankSelector.tsx:51 | a status of that version, none exactly when there is none |
| BankSelector.FindStatusFirst | src/components/common/QuestionBankSelector.tsx:51 | the status found is the first one of that version |
| BankSelector.EntryOf | src/components/common/QuestionBankSelector.tsx:50-61 | an entry is loading exactly when no status has its id; otherwise it carries such a status |
| BankSelector.Merge | src/components/common/QuestionBankSelector.tsx:50-61 | one entry per version, in order |
| BankSelector.FirstFit | src/components/common/QuestionBankSelector.tsx:67-68 | the first position that fits, or -1 when none does |
| BankSelector.DefaultVersion | src/components/common/QuestionBankSelector.tsx:66-73 | a version is chosen exactly when none is selected and there are versions, and it is one of them |
| BankSelector.DefaultPrefersLatest | src/components/common/QuestionBankSelector.tsx:67 | the first latest and available version wins |
| BankSelector.DefaultFallsBackToAvailable | src/components/common/QuestionBankSelector.tsx:68 | else the first available one |
| BankSelector.DefaultFallsBackToFirst | src/components/common/QuestionBankSelector.tsx:69 | else the first one |
| BankSelector.FindEntry | src/components/common/QuestionBankSelector.tsx:87-97 | the entry of the selected version; none when nothing is selected |
| BankSelector.OfferedBanks | src/components/common/QuestionBankSelector.tsx:97-98 | banks are offered only for a selected version with a status |
| BankSelector.BankSwitch | src/components/common/QuestionBankSelector.tsx:84-95 | the bank changes only for a selected version offering banks, when the current bank is not among them, and then to the first offered one |
| BankSelector.BankSwitchSettles | src/components/common/QuestionBankSelector.tsx:84-95 | after the switch the effect proposes nothing more |
| BankSelector.OfferedBankKept | src/components/common/QuestionBankSelector.tsx:90 | an offered bank is kept |
| BankSelector.StatusText | src/components/common/QuestionBankSelector.tsx:116-130 | "checking" while loading, "unknown" without a status, the bank list when available, else the error or "no banks" |
| BankSelector.AvailableTextNamesBanks | src/components/common/QuestionBankSelector.tsx:125-126 | an available version's status line names each of its banks |
| SearchSnippet.Truncate | src/components/practice/PracticeSearchDialog.tsx:24-27 | at most 120 characters of the text, a prefix of it, with the ellipsis exactly when the text is longer |
| SearchSnippet.MatchSnippet | src/components/practice/PracticeSearchDialog.tsx:22-45 | the plain truncation exactly when the query is empty or absent from the upper-cased text |
| SearchSnippet.HighlightWindow | src/components/practice/PracticeSearchDialog.tsx:25-35 | around a match the pieces make up the window of 40 characters each side, each ellipsis marks a cut, and the highlight upper-cases to the query |
| SearchSnippet.HighlightIsFirst | src/components/practice/PracticeSearchDialog.tsx:25-26 | the highlight is at the first place where the upper-cased text reads as the query |
| Shortcuts.OnKeyDown | src/hooks/useQuestionShortcuts.ts:23-46 | nothing on a typing target; arrows go back and forward; Enter searches exactly when enabled and given; a digit 1 to 9 selects its own number; off a typing target the arrows always prevent the default, and Enter does whenever searching on Enter is enabled, with or without a handler; no other key does |
| Shortcuts.DigitSelects | src/hooks/useQuestionShortcuts.ts:41-45 | each digit key 1 to 9 selects that number when a handler is given |
| Shortcuts.OtherKeysIgnored | src/hooks/useQuestionShortcuts.ts:26-45 | any other key, `0` included, does nothing |
| Shortcuts.EnterNeedsFlag | src/hooks/useQuestionShortcuts.ts:36 | Enter without the search flag does nothing |
| ApiRoutes.Extname | src/app/api/images/route.ts:9 | `path.extname`: empty, or a `.`-led suffix of the path without `/`, shorter than the path |
| ApiRoutes.ExtnameOf | src/app/api/images/route.ts:9 | `<dir>/<stem>.<ext>` has extension `.<ext>` |
| ApiRoutes.ContentType | src/app/api/images/route.ts:8-15 | JPEG exactly for `.jpg`/`.jpeg` and PNG exactly for `.png` in any case, and always one of the five types |
| ApiRoutes.JpegInAnyCase | src/app/api/images/route.ts:9-10 | a JPEG file is served as `image/jpeg` whatever the case of its extension |
| ApiRoutes.NoExtensionIsOctetStream | src/app/api/images/route.ts:14 | a file without an extension is a byte stream |
| ApiRoutes.ServeImage | src/app/api/images/route.ts:20-40 | 400 exactly for an empty code, 404 exactly when the code does not resolve, otherwise the image's bytes with its content type or 500 |
| ApiRoutes.ImagesGet | src/app/api/images/route.ts:17-22 | the request is refused with 400 "missing j" exactly when `j` is absent or white space alone |
| ApiRoutes.ImagesGetNormalises | src/app/api/images/route.ts:19 | spellings of a code that trim and upper-case alike get the same response |
| ApiRoutes.BlankJIsMissing | src/app/api/images/route.ts:19-22 | a blank code is a missing code |
| ApiRoutes.ParseBankParam | src/app/api/questions/route.ts:9-10 | a missing or empty parameter reads as A; FULL in any case is the full set |
| ApiRoutes.ParamParses | src/app/api/questions/route.ts:9-15 | every bank is reached by its name |
| ApiRoutes.LowerParamParses | src/app/api/questions/route.ts:9 | and by its name in lower case |
| ApiRoutes.AcceptedParam | src/app/api/questions/route.ts:10-12 | a parameter is accepted only when empty or upper-casing to the name of what it gives |
| ApiRoutes.QuestionsGet | src/app/api/questions/route.ts:6-22 | 400 exactly for an invalid bank, the loader's questions when it succeeds, otherwise 500 |
| ErrorHandler.NetworkError | src/lib/error-handler.ts:15-20 | code NETWORK_ERROR, status 500, the given message and cause |
| ErrorHandler.ValidationError | src/lib/error-handler.ts:22-27 | code VALIDATION_ERROR, status 400 |
| ErrorHandler.NotFoundError | src/lib/error-handler.ts:29-34 | code NOT_FOUND, status 404 |
| ErrorHandler.SubclassesDistinct | src/lib/error-handler.ts:15-34 | the three subclasses differ and carry different statuses |
| ErrorHandler.ContextPrefix | src/lib/error-handler.ts:37 | `[context] ` exactly for a non-empty context |
| ErrorHandler.HandleError | src/lib/error-handler.ts:36-53 | an application error is returned as it is; another error is wrapped with the prefix, UNKNOWN_ERROR, 500 and itself as cause; anything else gives the prefixed unknown message |
| ErrorHandler.HandleErrorIdempotent | src/lib/error-handler.ts:39-42 | handling a handled error changes nothing, so the prefix is never added twice |
| ErrorHandler.WrappedKeepsOriginal | src/lib/error-handler.ts:44-48 | a wrapped error keeps the original as cause and its message after the prefix |
| ErrorHandler.NoContextNoPrefix | src/lib/error-handler.ts:37 | without a context the message is passed on unchanged |
| ErrorHandler.Safe | src/lib/error-handler.ts:68-79 | the call's value, or the fallback when it throws |
| ErrorHandler.SafeAsync | src/lib/error-handler.ts:55-66 | the settled value, or the fallback when it rejects |
| ErrorHandler.SafeWrappersAgree | src/lib/error-handler.ts:55-79 | both wrappers agree and ignore the context and what was thrown |
| Photo.ValidateFileType | src/lib/photo-processor.ts:54-56 | a type is accepted exactly when it reads `image/...` |
| Photo.Extension | src/lib/photo-processor.ts:77 | a non-empty extension without `/` |
| Photo.ExtensionOfType | src/lib/photo-processor.ts:77 | `<major>/<minor>` gives the minor type, or `jpg` when it is empty |
| Photo.ExtensionWithoutSlash | src/lib/photo-processor.ts:77 | a type without `/` gives `jpg` |
| Photo.BaseName | src/lib/photo-processor.ts:78 | the name itself or a prefix of it ending just before a `.` |
| Photo.BaseNameStrips | src/lib/photo-processor.ts:78 | `<stem>.<ext>` loses exactly its extension when that has no `/` or `.` |
| Photo.BaseNameWithoutDot | src/lib/photo-processor.ts:78 | a name without `.` is kept |
| Photo.BaseNameKeepsPaths | src/lib/photo-processor.ts:78 | a name ending in `.` or in a `.` followed by a path is kept |
| Photo.DownloadNameOf | src/lib/photo-processor.ts:76-79 | `<stem>.<ext>` processed into `image/<minor>` downloads as `<stem>_processed.<minor>` |

## Left out

- Rendering, styling, routing, the PWA service worker, dialogs, toasts and the icon choice of the bank selector are presentation. Only the decisions behind them are modelled, such as which status text is shown.
- React's scheduling is not modelled: effects are functions called with the values they read, and a state update takes effect at once. Re-render churn, stale closures and the order in which effects run within one render are left out.
- `JSON.parse`/`JSON.stringify`:
  - A stored snapshot is a record, or `Raw` text that does not parse into the expected shape.
  - Parse failures are modelled as `Raw` values, which every loader rejects. The content of raw text is never parsed.
- `StorageMigration.Movable`, `ExamStorage.Load` and `PracticeStorage.Load` accept only a parsed record of the expected kind. The source checks nothing but `version === 1` (src/lib/storage-migration.ts:64-67 and :131-134, and the two loaders), so a version-1 JSON value of another shape is migrated and loaded there but skipped here.
- Floating point is not modelled:
  - `Math.random()` is a unit value in `[0, 1)` given as a fraction, and the index `floor(r * (i + 1))` is computed exactly.
  - `Date` parsing of `updatedAt` in the version sort is left out: timestamps are integers.
- Strings are sequences of Dafny `char`s, which are Unicode scalar values, where a JavaScript string is a sequence of UTF-16 code units. The two agree on text within the Basic Multilingual Plane. A character beyond it, such as an emoji, is one `char` here and two code units in the source, and for such text:
  - `SearchSnippet.Truncate` and `SearchSnippet.HighlightWindow` count their 120- and 40-character cuts in characters, where the source counts code units and can cut a surrogate pair in two. The `indexOf` positions differ the same way.
  - `AnswerMatch.Sort` orders by character, where the default `sort()` orders by code unit. The two orders can differ between a character beyond the plane and one in `U+E000`–`U+FFFF`.
  - The other string lengths and positions in the model count characters as well.
- Upper and lower case cover ASCII letters only, for all text: `toUpperCase()` leaves `é` as it is here.
- White space for `trim()` and `\s` is space, tab, line feed, carriage return, vertical tab, form feed, the no-break space and the byte-order mark, for all text. The other Unicode spaces (such as U+2003) and line terminators are not trimmed here.
- `encodeURIComponent` in the image URL is left out: the URL holds the code as it is. `path.join` is concatenation with `/`, without normalising `..` or double slashes. `path.basename` and `path.extname` are modelled for `/`-separated paths only.
- Object identity: the exam draw is modelled over positions in the pool, which is what reference identity gives in the source. The practice page's `indexOf` compares questions by value, so a bank holding two equal questions is modelled as matching the first.
- Asynchrony:
  - `Promise.all` over independent lookups is modelled as sequential lookups.
  - The version-status manager's in-flight promise table, which merges concurrent checks of one version, is left out: every check completes before the next starts.
  - The three storage migrations all read `Object.keys(localStorage)` before their first `await`, so they share one key list, and `MigrateAll` passes that one list to each. After the `await`, each migration's loop runs without a further `await`; the model runs the three loops in the order exam, practice, preference. Other completion orders under `Promise.all` are not modelled.
- `loadConfig()` is left out: its fetch and its caching. The configuration is an input.
- The runtime image map's module-level cache is left out: the image map is an input.
- `datasetDir()` and its environment variable are left out: the dataset directory is a parameter.
- In the build script:
  - File and network I/O are left out: `fs`, `fetch`, directory creation and the copying of image files.
  - The texts of the CSV files are inputs.
  - `process.exit` and the logging are left out.
- `pages: undefined` of a question carries no data and is not modelled.
- `src/lib/utils.ts` (`cn`), `src/lib/logger.ts` and the photo compression (`processPhoto`, compressorjs, canvas) are not part of this model. So are `formatFileSize` (floating-point formatting) and `generate-pwa-icons.mjs`.
- Logging: every `console` and `logger` call is left out. `ErrorHandler.HandleError` returns what the source returns; what it logs is not modelled.
- The `catch` of `checkVersionStatus` is reachable only if `checkBankAvailable` throws, and it never does. It is modelled through an outcome parameter (`Outcome.Threw`), so the error path is stated without the claim that it is dead.
- `VersionStatus.GetAvailableVersions`: the exact characterisation `AvailableVersionsExactly` assumes distinct version ids. With a repeated id, the second lookup can be served from the entry the first one cached, and for that case only the subset property is stated.
- `BankManager.GetAllVersions`: in the source the sort happens in place on the cached configuration, so later lookups see the sorted list. The model returns the sorted configuration, and `SortKeepsLookups` states that sorting changes no lookup's success. Which version a lookup finds among duplicates of one id can differ and is not stated.
- Next.js response plumbing (headers other than the content type and cache control, `x-content-type-options`) is left out. A thrown error in a route is an absent result.
- `formatMs` takes whole milliseconds; fractional durations are left out.

## Findings

| source | as written | input that shows it | evidently intended | confidence | as-written member | corrected member |
|---|---|---|---|---|---|---|
| src/lib/storage-migration.ts:46 | legacy exam keys must start with `exam:savedState:` and contain no `:` at all, which no such key can satisfy | storage holding `exam:savedState:A` with a version-1 exam snapshot: the exam migration leaves it where it is | the test was meant to reject a `:` only after the prefix, so that `exam:savedState:<bank>` is migrated | high (not executed) | StorageMigration.ExamSnapshotNotMigrated | StorageMigration.MigrateAllMovesExam |
| src/lib/storage-migration.ts:249 | the practice clause of `needsMigration()` rejects keys containing `lastMode` or `noResumePrompt` anywhere, where the practice migration rejects only `practice:lastMode` and `practice:noResumePrompt` | the key `practice:AlastMode` holding a version-1 practice snapshot: `needsMigration()` answers false, yet `migratePracticeStorage()` moves the entry | `needsMigration()` was meant to answer true whenever some migration would move an entry, using the migrations' own tests | medium (not executed) | StorageMigration.NeedsMigrationMissesKey | StorageMigration.NotNeededMeansNothingRuns |

=== FILE: answer_card.dfy ===
/** The answer-card sheet of the exam page (src/components/exam/answer-card-sheet.tsx): the header
    counts, the three jump buttons, the card filter and the verdict badge. Cards are addressed by
    position; `getKey` is the caller's key function. */
module AnswerCard {
  import opened Seqs
  import opened Questions
  import opened AnswerMatch
  import opened ExamStore
  import Scoring

  /** `AnswerCardFilter`. */
  datatype CardFilter = All | Unanswered | Flagged

  /** The key the card at position `i` is read under. */
  function CardKeys(questions: seq<QuestionItem>, getKey: Scoring.GetKeyFn): (ks: seq<string>)
    ensures |ks| == |questions|
    ensures forall i :: 0 <= i < |ks| ==> ks[i] == getKey(questions[i], i)
  {
    seq(|questions|, i requires 0 <= i < |questions| => getKey(questions[i], i))
  }

  /** The card at `i` is answered: its entry is a non-empty array. */
  predicate AnsweredAt(questions: seq<QuestionItem>, answers: Answers, getKey: Scoring.GetKeyFn, i: nat)
    requires i < |questions|
  {
    Answered(answers, getKey(questions[i], i))
  }

  /** The card at `i` carries a flag: `!!flags.get(key)`. */
  predicate FlaggedAt(questions: seq<QuestionItem>, flags: Flags, getKey: Scoring.GetKeyFn, i: nat)
    requires i < |questions|
  {
    FlagOf(flags, getKey(questions[i], i))
  }

  /** `selectedForFilter`: whether the grid shows the card at `i` under `filter`. */
  predicate Shown(filter: CardFilter, questions: seq<QuestionItem>, answers: Answers, flags: Flags, getKey: Scoring.GetKeyFn, i: nat)
    requires i < |questions|
  {
    match filter
    case All => true
    case Unanswered => !AnsweredAt(questions, answers, getKey, i)
    case Flagged => FlaggedAt(questions, flags, getKey, i)
  }

  /** Per card: shown under `filter`. */
  function ShownMarks(filter: CardFilter, questions: seq<QuestionItem>, answers: Answers, flags: Flags, getKey: Scoring.GetKeyFn): (v: seq<bool>)
    ensures |v| == |questions|
    ensures forall i :: 0 <= i < |v| ==> (v[i] <==> Shown(filter, questions, answers, flags, getKey, i))
  {
    seq(|questions|, i requires 0 <= i < |questions| => Shown(filter, questions, answers, flags, getKey, i))
  }

  /** Per card: answered. */
  function AnsweredMarks(questions: seq<QuestionItem>, answers: Answers, getKey: Scoring.GetKeyFn): (v: seq<bool>)
    ensures |v| == |questions|
    ensures forall i :: 0 <= i < |v| ==> (v[i] <==> AnsweredAt(questions, answers, getKey, i))
  {
    seq(|questions|, i requires 0 <= i < |questions| => AnsweredAt(questions, answers, getKey, i))
  }

  /** Per card: flagged. */
  function FlaggedMarks(questions: seq<QuestionItem>, flags: Flags, getKey: Scoring.GetKeyFn): (v: seq<bool>)
    ensures |v| == |questions|
    ensures forall i :: 0 <= i < |v| ==> (v[i] <==> FlaggedAt(questions, flags, getKey, i))
  {
    seq(|questions|, i requires 0 <= i < |questions| => FlaggedAt(questions, flags, getKey, i))
  }

  /** The grid shows every card under `all`, the unanswered ones under `unanswered` (so the two
      filters share out the cards with the answered ones) and the flagged ones under `flagged`. */
  lemma {:induction false} ShownCounts(questions: seq<QuestionItem>, answers: Answers, flags: Flags, getKey: Scoring.GetKeyFn)
    ensures CountTrue(ShownMarks(All, questions, answers, flags, getKey)) == |questions|
    ensures CountTrue(ShownMarks(Unanswered, questions, answers, flags, getKey))
            + CountTrue(AnsweredMarks(questions, answers, getKey)) == |questions|
    ensures ShownMarks(Flagged, questions, answers, flags, getKey) == FlaggedMarks(questions, flags, getKey)
  {
    var all := ShownMarks(All, questions, answers, flags, getKey);
    CountTrueComplement(all, seq(|questions|, i requires 0 <= i < |questions| => false));
    CountTrueNone(seq(|questions|, i requires 0 <= i < |questions| => false));
    CountTrueComplement(AnsweredMarks(questions, answers, getKey), ShownMarks(Unanswered, questions, answers, flags, getKey));
  }

  /** `answeredCount`: the entries of the map holding a non-empty array, whatever their keys. */
  function SheetAnsweredCount(answers: Answers): (c: nat)
    ensures c <= |answers|
  {
    AnsweredKeysWithin(answers);
    |AnsweredKeys(answers)|
  }

  /** `flaggedCount`: the entries of the map set to `true`. */
  function SheetFlaggedCount(flags: Flags): (c: nat)
    ensures c <= |flags|
  {
    assert FlaggedKeys(flags) <= flags.Keys;
    SubsetCard(FlaggedKeys(flags), flags.Keys);
    |FlaggedKeys(flags)|
  }

  /** The members of a sequence satisfying `p`. */
  function Chosen(ks: seq<string>, p: string -> bool): (c: set<string>)
    ensures forall k :: k in c <==> k in ks && p(k)
  {
    set k | k in ks && p(k)
  }

  /** Per member: satisfies `p`. */
  function Marks(ks: seq<string>, p: string -> bool): (v: seq<bool>)
    ensures |v| == |ks|
    ensures forall i :: 0 <= i < |v| ==> v[i] == p(ks[i])
  {
    seq(|ks|, i requires 0 <= i < |ks| => p(ks[i]))
  }

  /** Over distinct members, counting the chosen set is counting the marks. */
  lemma {:induction false} ChosenCount(ks: seq<string>, p: string -> bool)
    requires Distinct(ks)
    ensures |Chosen(ks, p)| == CountTrue(Marks(ks, p))
  {
    if ks != [] {
      var init := ks[..|ks| - 1];
      var last := ks[|ks| - 1];
      DistinctInit(ks);
      ChosenCount(init, p);
      assert Marks(ks, p)[..|ks| - 1] == Marks(init, p);
      ChosenSnoc(ks, p);
    }
  }

  /** Dropping the last member of a distinct sequence keeps it distinct and loses that member. */
  lemma {:induction false} DistinctInit(ks: seq<string>)
    requires ks != [] && Distinct(ks)
    ensures Distinct(ks[..|ks| - 1]) && ks[|ks| - 1] !in ks[..|ks| - 1]
  {
  }

  /** The chosen set grows by the last member exactly when it satisfies `p`. */
  lemma {:induction false} ChosenSnoc(ks: seq<string>, p: string -> bool)
    requires ks != []
    ensures Chosen(ks, p) == Chosen(ks[..|ks| - 1], p) + (if p(ks[|ks| - 1]) then {ks[|ks| - 1]} else {})
  {
    assert ks == ks[..|ks| - 1] + [ks[|ks| - 1]];
  }

  function IsAnswerOf(answers: Answers): string -> bool {
    k => Answered(answers, k)
  }

  function IsFlagOf(flags: Flags): string -> bool {
    k => FlagOf(flags, k)
  }

  /** When the cards have distinct keys and the answers hold no other keys, the header's answered
      count is the number of answered cards. */
  lemma {:induction false} HeaderAnsweredAgrees(questions: seq<QuestionItem>, answers: Answers, getKey: Scoring.GetKeyFn)
    requires Distinct(CardKeys(questions, getKey))
    requires forall k :: k in answers ==> k in CardKeys(questions, getKey)
    ensures SheetAnsweredCount(answers) == CountTrue(AnsweredMarks(questions, answers, getKey))
  {
    var ks := CardKeys(questions, getKey);
    var p := IsAnswerOf(answers);
    ChosenCount(ks, p);
    assert AnsweredKeys(answers) == Chosen(ks, p) by {
      forall k ensures k in AnsweredKeys(answers) <==> k in Chosen(ks, p) {
        assert p(k) == Answered(answers, k);
      }
    }
    assert Marks(ks, p) == AnsweredMarks(questions, answers, getKey);
  }

  /** Likewise the header's flagged count is the number of flagged cards. */
  lemma {:induction false} HeaderFlaggedAgrees(questions: seq<QuestionItem>, flags: Flags, getKey: Scoring.GetKeyFn)
    requires Distinct(CardKeys(questions, getKey))
    requires forall k :: k in flags ==> k in CardKeys(questions, getKey)
    ensures SheetFlaggedCount(flags) == CountTrue(FlaggedMarks(questions, flags, getKey))
  {
    var ks := CardKeys(questions, getKey);
    var p := IsFlagOf(flags);
    ChosenCount(ks, p);
    assert FlaggedKeys(flags) == Chosen(ks, p) by {
      forall k ensures k in FlaggedKeys(flags) <==> k in Chosen(ks, p) {
        assert p(k) == FlagOf(flags, k);
      }
    }
    assert Marks(ks, p) == FlaggedMarks(questions, flags, getKey);
  }

  /** `firstUnansweredIndex()`: the first card shown under the `unanswered` filter, or -1. */
  method FirstUnanswered(questions: seq<QuestionItem>, answers: Answers, getKey: Scoring.GetKeyFn) returns (r: int)
    ensures -1 <= r < |questions|
    ensures r >= 0 ==> !AnsweredAt(questions, answers, getKey, r)
    ensures r >= 0 ==> forall j :: 0 <= j < r ==> AnsweredAt(questions, answers, getKey, j)
    ensures r == -1 ==> forall j :: 0 <= j < |questions| ==> AnsweredAt(questions, answers, getKey, j)
  {
    var i := 0;
    while i < |questions|
      invariant 0 <= i <= |questions|
      invariant forall j :: 0 <= j < i ==> AnsweredAt(questions, answers, getKey, j)
    {
      var key := getKey(questions[i], i);
      if key !in answers || |Lookup(answers, key)| == 0 {
        return i;
      }
      i := i + 1;
    }
    return -1;
  }

  /** `nextUnansweredIndex(from)`: the first unanswered card after `from`, or -1. The callers pass
      the current position or -1. */
  method NextUnanswered(questions: seq<QuestionItem>, answers: Answers, getKey: Scoring.GetKeyFn, from: int) returns (r: int)
    requires from >= -1
    ensures -1 <= r < |questions|
    ensures r >= 0 ==> from < r && !AnsweredAt(questions, answers, getKey, r)
    ensures r >= 0 ==> forall j :: from < j < r ==> AnsweredAt(questions, answers, getKey, j)
    ensures r == -1 ==> forall j :: from < j < |questions| ==> AnsweredAt(questions, answers, getKey, j)
  {
    var i := from + 1;
    while i < |questions|
      invariant from + 1 <= i
      invariant forall j :: from < j < i && j < |questions| ==> AnsweredAt(questions, answers, getKey, j)
    {
      var key := getKey(questions[i], i);
      if key !in answers || |Lookup(answers, key)| == 0 {
        return i;
      }
      i := i + 1;
    }
    return -1;
  }

  /** `nextFlaggedIndex(from)`: the first flagged card after `from`, or -1. */
  method NextFlagged(questions: seq<QuestionItem>, flags: Flags, getKey: Scoring.GetKeyFn, from: int) returns (r: int)
    requires from >= -1
    ensures -1 <= r < |questions|
    ensures r >= 0 ==> from < r && FlaggedAt(questions, flags, getKey, r)
    ensures r >= 0 ==> forall j :: from < j < r ==> !FlaggedAt(questions, flags, getKey, j)
    ensures r == -1 ==> forall j :: from < j < |questions| ==> !FlaggedAt(questions, flags, getKey, j)
  {
    var i := from + 1;
    while i < |questions|
      invariant from + 1 <= i
      invariant forall j :: from < j < i && j < |questions| ==> !FlaggedAt(questions, flags, getKey, j)
    {
      var key := getKey(questions[i], i);
      if key in flags && flags[key] {
        return i;
      }
      i := i + 1;
    }
    return -1;
  }

  /** The badge of a finished exam: ✓ when the sorted selection equals the sorted answer keys. */
  predicate BadgeCorrect(questions: seq<QuestionItem>, answers: Answers, getKey: Scoring.GetKeyFn, i: nat)
    requires i < |questions|
  {
    ArraysEqual(Sort(Lookup(answers, getKey(questions[i], i))), Sort(questions[i].answerKeys))
  }

  /** A ✓ badge is exactly a question the score counts, and the ✓ badges add up to the score. */
  lemma {:induction false} BadgesAddUpToScore(questions: seq<QuestionItem>, answers: Answers, getKey: Scoring.GetKeyFn)
    ensures forall i :: 0 <= i < |questions| ==>
      (BadgeCorrect(questions, answers, getKey, i) <==> Scoring.CorrectAt(questions, answers, getKey, i))
    ensures CountTrue(seq(|questions|, i requires 0 <= i < |questions| => BadgeCorrect(questions, answers, getKey, i)))
            == Scoring.Correct(questions, answers, getKey)
  {
    assert seq(|questions|, i requires 0 <= i < |questions| => BadgeCorrect(questions, answers, getKey, i))
        == Scoring.Verdicts(questions, answers, getKey);
  }
}

=== FILE: answer_match.dfy ===
/** Order-insensitive comparison of selected option keys with the answer keys:
    `arraysEqual(sorted(a), sorted(b))`, where `sorted` is `[...a].sort()` (lexicographic
    order of the strings) and `arraysEqual` compares length and elements. */
module AnswerMatch {

  /** Lexicographic order of strings, the default order of `Array.prototype.sort`. */
  predicate Le(a: string, b: string) {
    |a| == 0 || (|b| > 0 && (a[0] < b[0] || (a[0] == b[0] && Le(a[1..], b[1..]))))
  }

  lemma {:induction false} LeTotal(a: string, b: string)
    ensures Le(a, b) || Le(b, a)
  {
    if |a| > 0 && |b| > 0 && a[0] == b[0] {
      LeTotal(a[1..], b[1..]);
    }
  }

  lemma {:induction false} LeReflexive(a: string)
    ensures Le(a, a)
  {
    if |a| > 0 {
      LeReflexive(a[1..]);
    }
  }

  lemma {:induction false} LeAntisymmetric(a: string, b: string)
    requires Le(a, b) && Le(b, a)
    ensures a == b
  {
    if |a| > 0 && |b| > 0 {
      LeAntisymmetric(a[1..], b[1..]);
      assert a == [a[0]] + a[1..];
      assert b == [b[0]] + b[1..];
    }
  }

  lemma {:induction false} LeTransitive(a: string, b: string, c: string)
    requires Le(a, b) && Le(b, c)
    ensures Le(a, c)
  {
    if |a| > 0 && |b| > 0 && |c| > 0 && a[0] == b[0] && b[0] == c[0] {
      LeTransitive(a[1..], b[1..], c[1..]);
    }
  }

  predicate Sorted(s: seq<string>) {
    forall i, j :: 0 <= i < j < |s| ==> Le(s[i], s[j])
  }

  function Insert(x: string, s: seq<string>): (r: seq<string>)
    requires Sorted(s)
    ensures Sorted(r)
    ensures multiset(r) == multiset(s) + multiset{x}
  {
    if |s| == 0 then [x]
    else if Le(x, s[0]) then
      BelowHead(x, s);
      SortedCons(x, s);
      [x] + s
    else
      LeTotal(x, s[0]);
      SortedTail(s);
      var t := Insert(x, s[1..]);
      BelowAllInserted(s, x, t);
      SortedCons(s[0], t);
      [s[0]] + t
  }

  /** Below the head of a sorted sequence is below all of it. */
  lemma {:induction false} BelowHead(x: string, s: seq<string>)
    requires Sorted(s) && |s| > 0 && Le(x, s[0])
    ensures forall j :: 0 <= j < |s| ==> Le(x, s[j])
  {
    forall j | 0 <= j < |s| ensures Le(x, s[j]) {
      if j > 0 { LeTransitive(x, s[0], s[j]); }
    }
  }

  /** An element below every element of a sorted sequence can go in front of it. */
  lemma {:induction false} SortedCons(x: string, s: seq<string>)
    requires Sorted(s)
    requires forall j :: 0 <= j < |s| ==> Le(x, s[j])
    ensures Sorted([x] + s)
  {
    var r := [x] + s;
    forall i, j | 0 <= i < j < |r| ensures Le(r[i], r[j]) {
      assert r[j] == s[j - 1];
      if i > 0 {
        assert r[i] == s[i - 1];
      }
    }
  }

  /** The head of a sorted sequence stays below everything once `x`, not below it, is inserted
      into the tail, and the head in front of the result holds what `s` and `x` held. */
  lemma {:induction false} BelowAllInserted(s: seq<string>, x: string, t: seq<string>)
    requires Sorted(s) && |s| > 0 && Le(s[0], x)
    requires multiset(t) == multiset(s[1..]) + multiset{x}
    ensures forall k :: 0 <= k < |t| ==> Le(s[0], t[k])
    ensures multiset([s[0]] + t) == multiset(s) + multiset{x}
  {
    HeadBackInFront(s, x, t);
    forall k | 0 <= k < |t| ensures Le(s[0], t[k]) {
      assert t[k] in multiset(t);
      if t[k] != x {
        assert t[k] in multiset(s[1..]);
        var m :| 0 <= m < |s[1..]| && s[1..][m] == t[k];
        assert s[m + 1] == t[k];
      }
    }
  }

  lemma {:induction false} HeadBackInFront(s: seq<string>, x: string, t: seq<string>)
    requires |s| > 0 && multiset(t) == multiset(s[1..]) + multiset{x}
    ensures multiset([s[0]] + t) == multiset(s) + multiset{x}
  {
    assert s == [s[0]] + s[1..];
  }

  /** `[...a].sort()`: a sorted permutation of `a`; the input itself is a value and is never changed. */
  function Sort(a: seq<string>): (r: seq<string>)
    ensures Sorted(r)
    ensures multiset(r) == multiset(a)
    ensures |r| == |a|
  {
    if |a| == 0 then []
    else
      assert a == [a[0]] + a[1..];
      Insert(a[0], Sort(a[1..]))
  }

  /** `arraysEqual(a, b)`: equal length and equal elements position by position. */
  predicate ArraysEqual(a: seq<string>, b: seq<string>) {
    |a| == |b| && forall i :: 0 <= i < |a| ==> a[i] == b[i]
  }

  /** `arraysEqual` is sequence equality. */
  lemma {:induction false} ArraysEqualIsEquality(a: seq<string>, b: seq<string>)
    ensures ArraysEqual(a, b) <==> a == b
  {
  }

  /** Two sorted sequences with the same elements are the same sequence. */
  lemma {:induction false} SortedUnique(a: seq<string>, b: seq<string>)
    requires Sorted(a) && Sorted(b)
    requires multiset(a) == multiset(b)
    ensures a == b
  {
    if |a| > 0 {
      SortedHeads(a, b);
      SortedTail(a);
      SortedTail(b);
      MultisetTail(a);
      MultisetTail(b);
      SortedUnique(a[1..], b[1..]);
      assert a == [a[0]] + a[1..] && b == [b[0]] + b[1..];
    }
  }

  /** Two sorted, non-empty sequences with the same elements start with the same element. */
  lemma {:induction false} SortedHeads(a: seq<string>, b: seq<string>)
    requires Sorted(a) && Sorted(b) && |a| > 0
    requires multiset(a) == multiset(b)
    ensures |b| > 0 && a[0] == b[0]
  {
    assert |b| > 0 by {
      assert |multiset(b)| == |multiset(a)| == |a|;
    }
    assert a[0] in multiset(b);
    var k :| 0 <= k < |b| && b[k] == a[0];
    assert b[0] in multiset(a);
    var m :| 0 <= m < |a| && a[m] == b[0];
    LeReflexive(a[0]);
    assert Le(b[0], a[0]) by { if k > 0 { assert Le(b[0], b[k]); } }
    assert Le(a[0], b[0]) by { if m > 0 { assert Le(a[0], a[m]); } }
    LeAntisymmetric(a[0], b[0]);
  }

  lemma {:induction false} SortedTail(a: seq<string>)
    requires Sorted(a) && |a| > 0
    ensures Sorted(a[1..])
  {
    forall i, j | 0 <= i < j < |a| - 1 ensures Le(a[1..][i], a[1..][j]) {
      assert a[1..][i] == a[i + 1] && a[1..][j] == a[j + 1];
    }
  }

  lemma {:induction false} MultisetTail(a: seq<string>)
    requires |a| > 0
    ensures multiset(a[1..]) == multiset(a) - multiset{a[0]}
  {
    assert a == [a[0]] + a[1..];
  }

  /** The comparison the source performs for every question: the selection matches the answer. */
  predicate SameKeys(selected: seq<string>, answerKeys: seq<string>) {
    ArraysEqual(Sort(selected), Sort(answerKeys))
  }

  /** Sorted equality is exactly equality of the selections as multisets: order is ignored,
      and nothing else is. */
  lemma {:induction false} SameKeysIff(selected: seq<string>, answerKeys: seq<string>)
    ensures SameKeys(selected, answerKeys) <==> multiset(selected) == multiset(answerKeys)
  {
    ArraysEqualIsEquality(Sort(selected), Sort(answerKeys));
    if multiset(selected) == multiset(answerKeys) {
      SortedUnique(Sort(selected), Sort(answerKeys));
    }
  }

  /** No partial credit: a selection whose key set is a strict subset or strict superset of the
      answer keys does not match. */
  lemma {:induction false} NoPartialCredit(selected: seq<string>, answerKeys: seq<string>)
    requires (set k | k in selected) < (set k | k in answerKeys)
          || (set k | k in answerKeys) < (set k | k in selected)
    ensures !SameKeys(selected, answerKeys)
  {
    SameKeysIff(selected, answerKeys);
    var chosen := set k | k in selected;
    var correct := set k | k in answerKeys;
    if chosen < correct {
      var k :| k in correct && k !in chosen;
      assert multiset(answerKeys)[k] > 0 && multiset(selected)[k] == 0;
    } else {
      var k :| k in chosen && k !in correct;
      assert multiset(selected)[k] > 0 && multiset(answerKeys)[k] == 0;
    }
  }

  /** Reordering a selection never changes whether it matches. */
  lemma {:induction false} SameKeysOrderInsensitive(s1: seq<string>, s2: seq<string>, answerKeys: seq<string>)
    requires multiset(s1) == multiset(s2)
    ensures SameKeys(s1, answerKeys) == SameKeys(s2, answerKeys)
  {
    SameKeysIff(s1, answerKeys);
    SameKeysIff(s2, answerKeys);
  }
}

=== FILE: api_routes.dfy ===
/** The two API routes: `GET /api/images?j=` (src/app/api/images/route.ts), which serves the image
    of a J code, and `GET /api/questions?bank=` (src/app/api/questions/route.ts), which serves the
    questions of a bank. The image list, the file reads and the question loader are inputs; a
    thrown error is an absent result. */
module ApiRoutes {
  import opened Base
  import opened Strings
  import opened Questions
  import Dataset
  import PracticeStorage

  // ---------------------------------------------------------------------------------------------
  // Content types
  // ---------------------------------------------------------------------------------------------

  /** `path.extname(p)` for paths separated by `/`: from the last `.` of the last segment to the
      end, unless that `.` starts the segment (or there is none). */
  function Extname(p: string): (e: string)
    ensures e == [] || (e[0] == '.' && '/' !in e && |e| < |p| && e == p[|p| - |e|..])
  {
    var slash := LastIndexOf(p, '/');
    var dot := LastIndexOf(p, '.');
    if dot <= slash + 1 then ""
    else
      var e := p[dot..];
      assert forall i :: 0 <= i < |e| ==> e[i] == p[dot + i];
      e
  }

  /** The extension of `<dir>/<stem>.<ext>` is `.<ext>` for a non-empty stem and an extension
      without `.` or `/`. */
  lemma {:induction false} ExtnameOf(dir: string, stem: string, ext: string)
    requires stem != [] && '/' !in stem && '.' !in ext && '/' !in ext
    ensures Extname(dir + "/" + stem + "." + ext) == "." + ext
  {
    var p := dir + "/" + stem + "." + ext;
    var s := |dir| + 1;
    var d := s + |stem|;
    assert p[|dir|] == '/' && p[d] == '.';
    assert forall i :: s <= i < d ==> p[i] == stem[i - s];
    assert forall i :: d < i < |p| ==> p[i] == ext[i - d - 1];
    LastIndexOfIs(p, '/', |dir|);
    LastIndexOfIs(p, '.', d);
    assert p[d..] == "." + ext;
  }

  const Jpeg: string := "image/jpeg"
  const Png: string := "image/png"
  const Gif: string := "image/gif"
  const Webp: string := "image/webp"
  const OctetStream: string := "application/octet-stream"

  /** `resolveContentType(filePath)`: by the extension, compared in lower case. */
  function ContentType(p: string): (t: string)
    ensures t == Jpeg || t == Png || t == Gif || t == Webp || t == OctetStream
    ensures t == Jpeg <==> ToLower(Extname(p)) == ".jpg" || ToLower(Extname(p)) == ".jpeg"
    ensures t == Png <==> ToLower(Extname(p)) == ".png"
    ensures t == OctetStream ==> ToLower(Extname(p)) != ".jpg" && ToLower(Extname(p)) != ".png"
  {
    var ext := ToLower(Extname(p));
    if ext == ".jpg" || ext == ".jpeg" then Jpeg
    else if ext == ".png" then Png
    else if ext == ".gif" then Gif
    else if ext == ".webp" then Webp
    else OctetStream
  }

  /** A JPEG file is served as `image/jpeg` whatever the case of its extension. */
  lemma {:induction false} JpegInAnyCase(dir: string, stem: string, ext: string)
    requires stem != [] && '/' !in stem && (ToLower(ext) == "jpg" || ToLower(ext) == "jpeg")
    ensures ContentType(dir + "/" + stem + "." + ext) == Jpeg
  {
    var p := dir + "/" + stem + "." + ext;
    LettersOnly(ext);
    ExtnameOf(dir, stem, ext);
    LowerDot(ext);
    assert ToLower(Extname(p)) == ".jpg" || ToLower(Extname(p)) == ".jpeg";
  }

  /** An extension that lower-cases to letters holds no `.` and no `/`. */
  lemma {:induction false} LettersOnly(ext: string)
    requires ToLower(ext) == "jpg" || ToLower(ext) == "jpeg"
    ensures '.' !in ext && '/' !in ext
  {
    forall i | 0 <= i < |ext| ensures ext[i] != '.' && ext[i] != '/' {
      assert ToLower(ext)[i] == LowerChar(ext[i]);
    }
  }

  lemma {:induction false} LowerDot(ext: string)
    ensures ToLower("." + ext) == "." + ToLower(ext)
    ensures ToLower(ext) == "jpg" ==> ToLower("." + ext) == ".jpg"
    ensures ToLower(ext) == "jpeg" ==> ToLower("." + ext) == ".jpeg"
  {
  }

  /** A file without an extension is served as a byte stream. */
  lemma {:induction false} NoExtensionIsOctetStream(p: string)
    requires '.' !in p
    ensures ContentType(p) == OctetStream
  {
    assert LastIndexOf(p, '.') == -1;
  }

  // ---------------------------------------------------------------------------------------------
  // GET /api/images
  // ---------------------------------------------------------------------------------------------

  const CacheControl: string := "public, max-age=31536000, immutable"

  /** A response: the image with its content type, or a JSON error with its status. */
  datatype Reply =
    | Image(contentType: string, cacheControl: string, data: seq<bv8>)
    | Failure(status: nat, error: string)

  /** What reading a file gives: its bytes, or a thrown error. */
  datatype ReadResult = ReadFailed | Read(data: seq<bv8>)

  /** The image response for a normalised J code. `images` is the image list, or `None` when
      loading it throws; `dir` is the dataset directory. */
  function ServeImage(j: string, images: Option<Dataset.ImageMap>, dir: string, read: string -> ReadResult): (r: Reply)
    ensures r == Failure(400, "missing j") <==> j == ""
    ensures r.Failure? && r.status == 404 <==>
              j != "" && images.Some? && Dataset.ResolveImagePath(images.value, dir, j).None?
    ensures r.Image? ==> j != "" && images.Some? && Dataset.ResolveImagePath(images.value, dir, j).Some?
                         && r.contentType == ContentType(Dataset.ResolveImagePath(images.value, dir, j).value)
                         && read(Dataset.ResolveImagePath(images.value, dir, j).value) == Read(r.data)
    ensures r.Failure? ==> r.status == 400 || r.status == 404 || r.status == 500
  {
    if j == "" then Failure(400, "missing j")
    else match images
      case None => Failure(500, "failed to load image")
      case Some(m) =>
        match Dataset.ResolveImagePath(m, dir, j)
        case None => Failure(404, "image not found")
        case Some(path) =>
          match read(path)
          case ReadFailed => Failure(500, "failed to load image")
          case Read(data) => Image(ContentType(path), CacheControl, data)
  }

  /** `GET /api/images?j=...`: the J code trimmed and upper-cased, then served. The request is
      refused as missing `j` exactly when the parameter is absent or white space alone. */
  function ImagesGet(jParam: Option<string>, images: Option<Dataset.ImageMap>, dir: string,
                     read: string -> ReadResult): (r: Reply)
    ensures r == Failure(400, "missing j") <==>
              jParam.None? || forall k :: 0 <= k < |jParam.value| ==> IsSpace(jParam.value[k])
  {
    TrimEmptyIffBlank(jParam.GetOr(""));
    ServeImage(PracticeStorage.NormalizeJ(jParam.GetOr("")), images, dir, read)
  }

  /** The J code is looked up trimmed and upper-cased: spellings that normalise alike get the
      same response. */
  lemma {:induction false} ImagesGetNormalises(j: string, images: Option<Dataset.ImageMap>, dir: string, read: string -> ReadResult)
    ensures ImagesGet(Some(j), images, dir, read)
         == ImagesGet(Some(PracticeStorage.NormalizeJ(j)), images, dir, read)
  {
    PracticeStorage.NormalizeJIdempotent(j);
  }

  /** A J code of white space alone is a missing J code. */
  lemma {:induction false} BlankJIsMissing(w: string, images: Option<Dataset.ImageMap>, dir: string, read: string -> ReadResult)
    requires forall k :: 0 <= k < |w| ==> IsSpace(w[k])
    ensures ImagesGet(Some(w), images, dir, read) == Failure(400, "missing j")
  {
    TrimOfPadded(w, [], []);
    assert w + [] + [] == w;
  }

  // ---------------------------------------------------------------------------------------------
  // GET /api/questions
  // ---------------------------------------------------------------------------------------------

  /** The `bank` parameter read as the route reads it: missing or empty is `A`, compared in upper
      case; `FULL` is the full set; anything else is rejected. */
  function ParseBankParam(bank: Option<string>): (r: Option<Dataset.LoaderBank>)
    ensures bank.None? || bank == Some("") ==> r == Some(Dataset.Class(A))
    ensures r == Some(Dataset.Full) <==> bank.Some? && ToUpper(bank.value) == "FULL"
  {
    var raw := bank.GetOr("");
    var b := ToUpper(if raw == "" then "A" else raw);
    if b == "A" then Some(Dataset.Class(A))
    else if b == "B" then Some(Dataset.Class(B))
    else if b == "C" then Some(Dataset.Class(C))
    else if b == "FULL" then Some(Dataset.Full)
    else None
  }

  /** The parameter text of a loader bank. */
  function ParamOf(b: Dataset.LoaderBank): string {
    match b
    case Full => "FULL"
    case Class(k) => BankName(k)
  }

  /** Every bank is reached by its name in upper case. */
  lemma {:induction false} ParamParses(b: Dataset.LoaderBank)
    ensures ParseBankParam(Some(ParamOf(b))) == Some(b)
  {
    UpperLetters(ParamOf(b));
  }

  /** Every bank is reached by its name in lower case. */
  lemma {:induction false} LowerParamParses(b: Dataset.LoaderBank)
    ensures ParseBankParam(Some(ToLower(ParamOf(b)))) == Some(b)
  {
    UpperLetters(ParamOf(b));
  }

  /** A parameter is accepted only when it is empty or upper-cases to the name of what it gives. */
  lemma {:induction false} AcceptedParam(s: string)
    requires ParseBankParam(Some(s)).Some?
    ensures s == "" || ToUpper(s) == ParamOf(ParseBankParam(Some(s)).value)
  {
  }

  /** A name in capitals is its own upper case, and so is the upper case of its lower case. */
  lemma {:induction false} UpperLetters(s: string)
    requires s != [] && forall i :: 0 <= i < |s| ==> 'A' <= s[i] <= 'Z'
    ensures ToUpper(s) == s && ToUpper(ToLower(s)) == s && ToLower(s) != []
  {
  }

  /** A response: the questions as JSON, or a JSON error with its status. */
  datatype QuestionsReply = Questions(items: seq<QuestionItem>) | QuestionsFailure(status: nat, error: string)

  /** `GET /api/questions?bank=...`. `load` gives the questions of a bank, or `None` when the
      loader throws. */
  function QuestionsGet(bank: Option<string>, load: Dataset.LoaderBank -> Option<seq<QuestionItem>>): (r: QuestionsReply)
    ensures r == QuestionsFailure(400, "invalid bank") <==> ParseBankParam(bank).None?
    ensures r.Questions? <==> ParseBankParam(bank).Some? && load(ParseBankParam(bank).value).Some?
    ensures r.Questions? ==> Some(r.items) == load(ParseBankParam(bank).value)
    ensures r.QuestionsFailure? ==> r.status == 400 || r.status == 500
  {
    match ParseBankParam(bank)
    case None => QuestionsFailure(400, "invalid bank")
    case Some(b) =>
      match load(b)
      case None => QuestionsFailure(500, "failed to load questions")
      case Some(items) => Questions(items)
  }
}

=== FILE: bank_manager.dfy ===
/** The question-bank manager (src/lib/question-bank-manager.ts): lookups in the dataset
    configuration, the newest-first order of versions, the rewriting of bank file paths and the
    availability check of one bank. The configuration and the answers of the network are inputs. */
module BankManager {
  import opened Base
  import opened Strings
  import opened Questions

  // ---------------------------------------------------------------------------------------------
  // Lookups
  // ---------------------------------------------------------------------------------------------

  /** What a `versions.find(...)` looks for. */
  datatype Lookup = Latest | WithId(id: string)

  predicate Matches(v: QuestionVersion, l: Lookup) {
    match l
    case Latest => v.isLatest
    case WithId(id) => v.id == id
  }

  /** `versions.find(test) || null`. */
  function Find(vs: seq<QuestionVersion>, l: Lookup): (r: Option<QuestionVersion>)
    ensures r.Some? ==> r.value in vs && Matches(r.value, l)
    ensures r.None? <==> forall i :: 0 <= i < |vs| ==> !Matches(vs[i], l)
  {
    if vs == [] then None
    else if Matches(vs[0], l) then Some(vs[0])
    else
      var r := Find(vs[1..], l);
      assert forall i :: 1 <= i < |vs| ==> vs[i] == vs[1..][i - 1];
      r
  }

  /** The version found is the first one that matches. */
  lemma {:induction false} FindFirst(vs: seq<QuestionVersion>, l: Lookup, i: nat)
    requires i < |vs| && Matches(vs[i], l)
    requires forall j :: 0 <= j < i ==> !Matches(vs[j], l)
    ensures Find(vs, l) == Some(vs[i])
  {
    if i > 0 {
      FindFirst(vs[1..], l, i - 1);
    }
  }

  /** `getLatestVersion()`: the first version flagged latest. */
  function GetLatestVersion(cfg: QuestionBankConfig): (r: Option<QuestionVersion>)
    ensures r.Some? ==> r.value.isLatest && r.value in cfg.versions
    ensures r.None? <==> forall v :: v in cfg.versions ==> !v.isLatest
  {
    Find(cfg.versions, Latest)
  }

  /** `getVersion(id)`: the first version with that id. */
  function GetVersion(cfg: QuestionBankConfig, id: string): (r: Option<QuestionVersion>)
    ensures r.Some? ==> r.value.id == id && r.value in cfg.versions
    ensures r.None? <==> forall v :: v in cfg.versions ==> v.id != id
  {
    Find(cfg.versions, WithId(id))
  }

  // ---------------------------------------------------------------------------------------------
  // Newest first
  // ---------------------------------------------------------------------------------------------

  /** Ordered by `updatedAt`, newest first. */
  predicate NewestFirst(vs: seq<QuestionVersion>) {
    forall i, j :: 0 <= i < j < |vs| ==> vs[i].updatedAt >= vs[j].updatedAt
  }

  /** A version no older than the head of a newest-first list may go in front of it. */
  lemma {:induction false} NewestFirstCons(v: QuestionVersion, vs: seq<QuestionVersion>)
    requires NewestFirst(vs) && (vs == [] || vs[0].updatedAt <= v.updatedAt)
    ensures NewestFirst([v] + vs)
  {
    var r := [v] + vs;
    forall i, j | 0 <= i < j < |r| ensures r[i].updatedAt >= r[j].updatedAt {
      if i == 0 && j > 1 {
        assert r[1].updatedAt >= r[j].updatedAt;
      }
    }
  }

  /** Places `v` before the first version that is not newer than it. */
  function Insert(v: QuestionVersion, vs: seq<QuestionVersion>): (r: seq<QuestionVersion>)
    requires NewestFirst(vs)
    ensures NewestFirst(r)
    ensures multiset(r) == multiset(vs) + multiset{v}
    ensures |r| == |vs| + 1 && (r[0] == v || (vs != [] && r[0] == vs[0]))
  {
    if vs == [] || vs[0].updatedAt <= v.updatedAt then
      NewestFirstCons(v, vs);
      [v] + vs
    else
      var rest := Insert(v, vs[1..]);
      NewestFirstCons(vs[0], rest);
      MultisetCons(vs);
      [vs[0]] + rest
  }

  /** `versions.sort((a, b) => b.updatedAt - a.updatedAt)`: an insertion sort, newest first. */
  function SortNewest(vs: seq<QuestionVersion>): (r: seq<QuestionVersion>)
    ensures NewestFirst(r)
    ensures multiset(r) == multiset(vs)
    ensures |r| == |vs|
  {
    if vs == [] then []
    else
      var r := Insert(vs[0], SortNewest(vs[1..]));
      MultisetCons(vs);
      r
  }

  /** The versions stamped `t`, in the order of `vs`. */
  function StampedAt(vs: seq<QuestionVersion>, t: int): seq<QuestionVersion> {
    if vs == [] then []
    else (if vs[0].updatedAt == t then [vs[0]] else []) + StampedAt(vs[1..], t)
  }

  lemma {:induction false} StampedAtCons(x: QuestionVersion, rest: seq<QuestionVersion>, t: int)
    ensures StampedAt([x] + rest, t) == (if x.updatedAt == t then [x] else []) + StampedAt(rest, t)
  {
    assert ([x] + rest)[1..] == rest;
  }

  lemma {:induction false} NewestFirstTail(vs: seq<QuestionVersion>)
    requires vs != [] && NewestFirst(vs)
    ensures NewestFirst(vs[1..])
  {
    forall i, j | 0 <= i < j < |vs| - 1 ensures vs[1..][i].updatedAt >= vs[1..][j].updatedAt {
      assert vs[1..][i] == vs[i + 1] && vs[1..][j] == vs[j + 1];
    }
  }

  /** Two pieces of which one is empty can trade places. */
  lemma {:induction false} SwapEmpty<T>(a: seq<T>, b: seq<T>, c: seq<T>)
    requires a == [] || b == []
    ensures a + (b + c) == b + (a + c)
  {
    if a == [] {
      assert a + (b + c) == b + c == b + (a + c);
    } else {
      assert a + (b + c) == a + c == b + (a + c);
    }
  }

  /** Inserting `v` puts it in front of every version with its own stamp and keeps the order of
      the others. */
  lemma {:induction false} InsertStampedAt(v: QuestionVersion, vs: seq<QuestionVersion>, t: int)
    requires NewestFirst(vs)
    ensures StampedAt(Insert(v, vs), t) == (if v.updatedAt == t then [v] else []) + StampedAt(vs, t)
  {
    if vs == [] || vs[0].updatedAt <= v.updatedAt {
      StampedAtCons(v, vs, t);
    } else {
      NewestFirstTail(vs);
      var rest := Insert(v, vs[1..]);
      assert Insert(v, vs) == [vs[0]] + rest;
      StampedAtCons(vs[0], rest, t);
      InsertStampedAt(v, vs[1..], t);
      SwapEmpty(if vs[0].updatedAt == t then [vs[0]] else [], if v.updatedAt == t then [v] else [],
                StampedAt(vs[1..], t));
    }
  }

  /** The sort is stable: the versions of any one `updatedAt` keep their relative order, as
      `Array.prototype.sort` guarantees. */
  lemma {:induction false} SortNewestStable(vs: seq<QuestionVersion>, t: int)
    ensures StampedAt(SortNewest(vs), t) == StampedAt(vs, t)
  {
    if vs != [] {
      SortNewestStable(vs[1..], t);
      InsertStampedAt(vs[0], SortNewest(vs[1..]), t);
    }
  }

  /** A list already newest first comes out of the sort unchanged. */
  lemma {:induction false} SortNewestKeepsSorted(vs: seq<QuestionVersion>)
    requires NewestFirst(vs)
    ensures SortNewest(vs) == vs
  {
    if vs != [] {
      NewestFirstTail(vs);
      SortNewestKeepsSorted(vs[1..]);
      assert vs == [vs[0]] + vs[1..];
    }
  }

  lemma {:induction false} MultisetCons<T>(vs: seq<T>)
    requires vs != []
    ensures multiset(vs) == multiset{vs[0]} + multiset(vs[1..])
  {
    assert vs == [vs[0]] + vs[1..];
  }

  /** `getAllVersions()`: the configuration's versions sorted in place, newest first. The sort
      happens on the cached configuration, so the configuration itself is the result. */
  function GetAllVersions(cfg: QuestionBankConfig): (r: QuestionBankConfig)
    ensures NewestFirst(r.versions)
    ensures multiset(r.versions) == multiset(cfg.versions)
    ensures r.version == cfg.version && r.lastModified == cfg.lastModified
  {
    cfg.(versions := SortNewest(cfg.versions))
  }

  /** Sorting the cached configuration in place keeps which lookups succeed. */
  lemma {:induction false} SortKeepsLookups(cfg: QuestionBankConfig, l: Lookup)
    ensures Find(GetAllVersions(cfg).versions, l).Some? <==> Find(cfg.versions, l).Some?
  {
    var sorted := GetAllVersions(cfg).versions;
    forall v | v in sorted ensures v in cfg.versions {
      assert v in multiset(sorted);
    }
    forall v | v in cfg.versions ensures v in sorted {
      assert v in multiset(cfg.versions);
    }
  }

  // ---------------------------------------------------------------------------------------------
  // Bank file paths
  // ---------------------------------------------------------------------------------------------

  const Root: string := "/questions/"

  /** The marker of a dated version directory. */
  const DatedDir: string := "/questions/202"

  /** `[ABC]\.json` */
  predicate IsBankFile(f: string) {
    |f| == 6 && (f[0] == 'A' || f[0] == 'B' || f[0] == 'C') && f[1..] == ".json"
  }

  /** The file of a bank, `A.json`. */
  function BankFileName(b: Bank): (f: string)
    ensures IsBankFile(f)
  {
    BankName(b) + ".json"
  }

  /** `path.match(/^\/questions\/[^\/]+\/([ABC]\.json)$/)`: the captured file name. */
  function VersionedFile(path: string): (r: Option<string>)
    ensures r.Some? ==> IsBankFile(r.value) && |path| >= |Root| + 8
                        && path == Root + path[|Root|..|path| - 7] + "/" + r.value
                        && path[|Root|..|path| - 7] != [] && '/' !in path[|Root|..|path| - 7]
  {
    var n := |path|;
    if n < |Root| + 8 || !StartsWith(path, Root) then None
    else
      var dir := path[|Root|..n - 7];
      var f := path[n - 6..];
      if path[n - 7] == '/' && '/' !in dir && IsBankFile(f) then
        assert path == path[..|Root|] + dir + [path[n - 7]] + f;
        Some(f)
      else None
  }

  /** The laid-out path `/questions/<dir>/<X>.json` is recognised, and its file captured. */
  lemma {:induction false} VersionedFileOf(dir: string, b: Bank)
    requires dir != [] && '/' !in dir
    ensures VersionedFile(Root + dir + "/" + BankFileName(b)) == Some(BankFileName(b))
  {
    var f := BankFileName(b);
    var path := Root + dir + "/" + f;
    var n := |path|;
    assert path[..|Root|] == Root;
    assert path[|Root|..n - 7] == dir;
    assert path[n - 7] == '/';
    assert path[n - 6..] == f;
  }

  /** The path rewriting of `resolveQuestionsUrl`: a root path without a dated directory is kept,
      a versioned bank file maps to the root file of the same name, anything else is kept. */
  function RewritePath(path: string): (r: string)
    ensures StartsWith(path, Root) && !Contains(path, DatedDir) ==> r == path
    ensures r == path || (|r| == |Root| + 6 && r[..|Root|] == Root && IsBankFile(r[|Root|..]))
  {
    if StartsWith(path, Root) && !Contains(path, DatedDir) then path
    else match VersionedFile(path)
      case Some(f) => Root + f
      case None => path
  }

  /** A bank file under a dated version directory is served from the root. */
  lemma {:induction false} DatedPathMapped(dir: string, b: Bank)
    requires dir != [] && '/' !in dir && StartsWith(dir, "202")
    ensures RewritePath(Root + dir + "/" + BankFileName(b)) == Root + BankFileName(b)
  {
    var path := Root + dir + "/" + BankFileName(b);
    assert path[..|DatedDir|] == DatedDir;
    assert OccursAt(path, DatedDir, 0);
    VersionedFileOf(dir, b);
  }

  /** A path that the pattern does not capture is returned as it is. */
  lemma {:induction false} UnmatchedPathKept(path: string)
    requires VersionedFile(path).None?
    ensures RewritePath(path) == path
  {
  }

  /** `resolveQuestionsUrl(id, bank)`: the rewritten path of the bank in that version; `None` is
      the "Version not found" error. */
  function ResolveQuestionsUrl(cfg: QuestionBankConfig, id: string, b: Bank): (r: Option<string>)
    ensures r.None? <==> GetVersion(cfg, id).None?
    ensures r.Some? ==> r.value == RewritePath(GetVersion(cfg, id).value.banks.Get(b).path)
  {
    match GetVersion(cfg, id)
    case None => None
    case Some(v) => Some(RewritePath(v.banks.Get(b).path))
  }

  // ---------------------------------------------------------------------------------------------
  // Availability
  // ---------------------------------------------------------------------------------------------

  /** The body of a response as `res.json()` reads it: an array of some length, another JSON
      value, or a body that does not parse (the call throws). */
  datatype Body = JsonArray(length: nat) | OtherJson | Unparsable

  /** What `fetch(url)` gives: a thrown error or a response. */
  datatype Fetched = FetchFailed | Response(ok: bool, body: Body)

  /** `checkBankAvailable(id, bank)`: every error on the way (unknown version, failed fetch,
      unparsable body) is caught and reads as unavailable. */
  function CheckBankAvailable(cfg: QuestionBankConfig, id: string, b: Bank, fetch: string -> Fetched): (r: bool)
    ensures r <==> ResolveQuestionsUrl(cfg, id, b).Some?
                   && Serves(fetch(ResolveQuestionsUrl(cfg, id, b).value))
  {
    match ResolveQuestionsUrl(cfg, id, b)
    case None => false
    case Some(url) =>
      match fetch(url)
      case FetchFailed => false
      case Response(ok, body) =>
        if !ok then false
        else match body
          case JsonArray(n) => n > 0
          case OtherJson => false
          case Unparsable => false
  }

  /** An ok response whose body is a non-empty array. */
  predicate Serves(f: Fetched) {
    f.Response? && f.ok && f.body.JsonArray? && f.body.length > 0
  }

  /** Position of a bank in the order `A`, `B`, `C`. */
  function BankIndex(b: Bank): nat {
    match b
    case A => 0
    case B => 1
    case C => 2
  }

  /** Banks in the order `A`, `B`, `C`, none twice. */
  predicate InBankOrder(bs: seq<Bank>) {
    forall i, j :: 0 <= i < j < |bs| ==> BankIndex(bs[i]) < BankIndex(bs[j])
  }

  /** One verdict per bank. */
  datatype BankFlags = BankFlags(a: bool, b: bool, c: bool) {
    predicate Holds(bank: Bank) {
      match bank
      case A => a
      case B => b
      case C => c
    }
  }

  /** The banks among `A`, `B`, `C` whose flag is set, in that order. */
  function BanksWhere(flags: BankFlags): (r: seq<Bank>)
    ensures forall b :: b in r <==> flags.Holds(b)
    ensures InBankOrder(r) && |r| <= 3
  {
    (if flags.a then [A] else []) + (if flags.b then [B] else []) + (if flags.c then [C] else [])
  }

  /** The verdict of `checkBankAvailable` for each bank. */
  function CheckAll(cfg: QuestionBankConfig, id: string, fetch: string -> Fetched): (f: BankFlags)
    ensures forall b :: f.Holds(b) == CheckBankAvailable(cfg, id, b, fetch)
  {
    BankFlags(CheckBankAvailable(cfg, id, A, fetch), CheckBankAvailable(cfg, id, B, fetch),
              CheckBankAvailable(cfg, id, C, fetch))
  }

  /** `getAvailableBanks(id)`: the banks whose check passes, in the order `A`, `B`, `C`. */
  function GetAvailableBanks(cfg: QuestionBankConfig, id: string, fetch: string -> Fetched): (r: seq<Bank>)
    ensures forall b :: b in r <==> CheckBankAvailable(cfg, id, b, fetch)
    ensures InBankOrder(r)
  {
    BanksWhere(CheckAll(cfg, id, fetch))
  }

  /** A version that is not configured has no available banks. */
  lemma {:induction false} UnknownVersionNoBanks(cfg: QuestionBankConfig, id: string, fetch: string -> Fetched)
    requires forall v :: v in cfg.versions ==> v.id != id
    ensures GetAvailableBanks(cfg, id, fetch) == []
  {
    assert forall b :: !CheckBankAvailable(cfg, id, b, fetch);
  }
}

=== FILE: bank_selector.dfy ===
/** The question-bank selector (src/components/common/QuestionBankSelector.tsx): the versions
    merged with their statuses, the default version chosen when none is selected, the bank switch
    when the selected version lacks the selected bank, and the status line of each version. The
    effects become functions whose result is the callback they would make, if any. */
module BankSelector {
  import opened Base
  import opened Strings
  import opened Questions
  import VersionStatus

  /** The part of a status the selector keeps. */
  datatype StatusView = StatusView(isAvailable: bool, availableBanks: seq<Bank>, error: Option<string>)

  /** `VersionWithStatus` */
  datatype Entry = Entry(version: QuestionVersion, status: Option<StatusView>, isLoading: bool)

  /** `statusResults.find(s => s.versionId === id)` */
  function FindStatus(ss: seq<VersionStatus.Status>, id: string): (r: Option<VersionStatus.Status>)
    ensures r.Some? ==> r.value in ss && r.value.versionId == id
    ensures r.None? <==> forall s :: s in ss ==> s.versionId != id
  {
    if ss == [] then None
    else if ss[0].versionId == id then Some(ss[0])
    else
      var r := FindStatus(ss[1..], id);
      assert forall s :: s in ss ==> s == ss[0] || s in ss[1..];
      r
  }

  /** The status found is the first one of that version. */
  lemma {:induction false} FindStatusFirst(ss: seq<VersionStatus.Status>, id: string, i: nat)
    requires i < |ss| && ss[i].versionId == id
    requires forall j :: 0 <= j < i ==> ss[j].versionId != id
    ensures FindStatus(ss, id) == Some(ss[i])
  {
    if i > 0 {
      FindStatusFirst(ss[1..], id, i - 1);
    }
  }

  function ViewOf(s: VersionStatus.Status): StatusView {
    StatusView(s.isAvailable, s.availableBanks, s.error)
  }

  /** One version with the status of the same id, loading while there is none. */
  function EntryOf(v: QuestionVersion, ss: seq<VersionStatus.Status>): (e: Entry)
    ensures e.version == v
    ensures e.isLoading <==> e.status.None?
    ensures e.status.None? <==> forall s :: s in ss ==> s.versionId != v.id
    ensures e.status.Some? ==> exists s :: s in ss && s.versionId == v.id && e.status.value == ViewOf(s)
  {
    match FindStatus(ss, v.id)
    case None => Entry(v, None, true)
    case Some(s) => Entry(v, Some(ViewOf(s)), false)
  }

  /** The merge of versions and statuses, one entry per version, in order. */
  function Merge(vs: seq<QuestionVersion>, ss: seq<VersionStatus.Status>): (es: seq<Entry>)
    ensures |es| == |vs|
    ensures forall i :: 0 <= i < |vs| ==> es[i] == EntryOf(vs[i], ss)
  {
    seq(|vs|, i requires 0 <= i < |vs| => EntryOf(vs[i], ss))
  }

  /** `selectedVersion` is truthy: present and not empty. */
  predicate Chosen(selected: Option<string>) {
    selected.Some? && selected.value != ""
  }

  /** `v.status?.isAvailable` */
  predicate IsAvailable(e: Entry) {
    e.status.Some? && e.status.value.isAvailable
  }

  /** The two preferences of the default choice. */
  datatype Preference = LatestAndAvailable | Available

  predicate Fits(e: Entry, p: Preference) {
    match p
    case LatestAndAvailable => e.version.isLatest && IsAvailable(e)
    case Available => IsAvailable(e)
  }

  /** The first position whose entry fits the preference, or -1. */
  function FirstFit(es: seq<Entry>, p: Preference): (i: int)
    ensures -1 <= i < |es|
    ensures i >= 0 ==> Fits(es[i], p)
    ensures forall k :: 0 <= k < |es| && (i < 0 || k < i) ==> !Fits(es[k], p)
  {
    if es == [] then -1
    else if Fits(es[0], p) then 0
    else
      var k := FirstFit(es[1..], p);
      assert forall j :: 1 <= j < |es| ==> es[j] == es[1..][j - 1];
      if k < 0 then -1 else k + 1
  }

  /** The first effect: the version `onVersionChange` is called with, if it is called. Only when
      nothing is selected and there are versions: the first latest and available one, else the
      first available one, else the first one. */
  function DefaultVersion(selected: Option<string>, es: seq<Entry>): (r: Option<string>)
    ensures r.None? <==> Chosen(selected) || es == []
    ensures r.Some? ==> exists i :: 0 <= i < |es| && es[i].version.id == r.value
  {
    if Chosen(selected) || es == [] then None
    else
      var i := FirstFit(es, LatestAndAvailable);
      var j := FirstFit(es, Available);
      if i >= 0 then Some(es[i].version.id)
      else if j >= 0 then Some(es[j].version.id)
      else Some(es[0].version.id)
  }

  /** The default is the first entry that is latest and available, when there is one. */
  lemma {:induction false} DefaultPrefersLatest(selected: Option<string>, es: seq<Entry>, i: nat)
    requires !Chosen(selected) && i < |es|
    requires es[i].version.isLatest && IsAvailable(es[i])
    requires forall k :: 0 <= k < i ==> !(es[k].version.isLatest && IsAvailable(es[k]))
    ensures DefaultVersion(selected, es) == Some(es[i].version.id)
  {
    assert FirstFit(es, LatestAndAvailable) == i;
  }

  /** Without a latest available entry, the default is the first available entry. */
  lemma {:induction false} DefaultFallsBackToAvailable(selected: Option<string>, es: seq<Entry>, i: nat)
    requires !Chosen(selected) && i < |es|
    requires forall k :: 0 <= k < |es| ==> !(es[k].version.isLatest && IsAvailable(es[k]))
    requires IsAvailable(es[i]) && forall k :: 0 <= k < i ==> !IsAvailable(es[k])
    ensures DefaultVersion(selected, es) == Some(es[i].version.id)
  {
    assert FirstFit(es, LatestAndAvailable) == -1;
    assert FirstFit(es, Available) == i;
  }

  /** Without any available entry, the default is the first entry. */
  lemma {:induction false} DefaultFallsBackToFirst(selected: Option<string>, es: seq<Entry>)
    requires !Chosen(selected) && es != []
    requires forall k :: 0 <= k < |es| ==> !IsAvailable(es[k])
    ensures DefaultVersion(selected, es) == Some(es[0].version.id)
  {
    assert FirstFit(es, LatestAndAvailable) == -1;
    assert FirstFit(es, Available) == -1;
  }

  /** `versions.find(v => v.id === selectedVersion)`: an absent selection matches nothing. */
  function FindEntry(es: seq<Entry>, selected: Option<string>): (r: Option<Entry>)
    ensures r.Some? ==> r.value in es && selected == Some(r.value.version.id)
    ensures r.None? <==> selected.None? || forall e :: e in es ==> e.version.id != selected.value
  {
    if selected.None? || es == [] then None
    else if es[0].version.id == selected.value then Some(es[0])
    else
      var r := FindEntry(es[1..], selected);
      assert forall e :: e in es ==> e == es[0] || e in es[1..];
      r
  }

  /** `selectedVersionData?.status?.availableBanks || []`: the banks offered for selection. */
  function OfferedBanks(selected: Option<string>, es: seq<Entry>): (bs: seq<Bank>)
    ensures bs != [] ==> FindEntry(es, selected).Some? && FindEntry(es, selected).value.status.Some?
  {
    match FindEntry(es, selected)
    case None => []
    case Some(e) => if e.status.None? then [] else e.status.value.availableBanks
  }

  /** The second effect: the bank `onBankChange` is called with, if it is called. With a version
      selected whose status lists banks, a bank outside that list is replaced by the first one. */
  function BankSwitch(selected: Option<string>, bank: Bank, es: seq<Entry>): (r: Option<Bank>)
    ensures r.Some? ==> Chosen(selected) && r.value != bank
    ensures r.Some? ==> OfferedBanks(selected, es) != [] && r.value == OfferedBanks(selected, es)[0]
    ensures r.None? ==> !Chosen(selected) || OfferedBanks(selected, es) == []
                        || bank in OfferedBanks(selected, es)
  {
    if !Chosen(selected) then None
    else
      var banks := OfferedBanks(selected, es);
      if banks == [] || bank in banks then None else Some(banks[0])
  }

  /** After switching to the bank it proposes, the effect proposes nothing more. */
  lemma {:induction false} BankSwitchSettles(selected: Option<string>, bank: Bank, es: seq<Entry>)
    requires BankSwitch(selected, bank, es).Some?
    ensures BankSwitch(selected, BankSwitch(selected, bank, es).value, es).None?
  {
    var banks := OfferedBanks(selected, es);
    assert banks[0] in banks;
  }

  /** A selected bank among the offered ones is kept. */
  lemma {:induction false} OfferedBankKept(selected: Option<string>, bank: Bank, es: seq<Entry>)
    requires bank in OfferedBanks(selected, es)
    ensures BankSwitch(selected, bank, es).None?
  {
  }

  const CheckingText: string := "检查中..."
  const UnknownText: string := "状态未知"
  const IncludesText: string := "包含: "
  const NoBanksText: string := "无可用题库"

  /** `availableBanks.join(', ')` */
  function BankList(bs: seq<Bank>): string {
    Join(BankNames(bs), ", ")
  }

  function BankNames(bs: seq<Bank>): (names: seq<string>)
    ensures |names| == |bs|
    ensures forall i :: 0 <= i < |bs| ==> names[i] == BankName(bs[i])
  {
    seq(|bs|, i requires 0 <= i < |bs| => BankName(bs[i]))
  }

  /** `getVersionStatusText(version)` */
  function StatusText(e: Entry): (r: string)
    ensures e.isLoading ==> r == CheckingText
    ensures !e.isLoading && e.status.None? ==> r == UnknownText
    ensures !e.isLoading && IsAvailable(e) ==> StartsWith(r, IncludesText)
    ensures !e.isLoading && e.status.Some? && !e.status.value.isAvailable ==>
              r == NoBanksText || Some(r) == e.status.value.error
  {
    if e.isLoading then CheckingText
    else if e.status.None? then UnknownText
    else if e.status.value.isAvailable then
      var r := IncludesText + BankList(e.status.value.availableBanks);
      assert r[..|IncludesText|] == IncludesText;
      r
    else match e.status.value.error
      case Some(msg) => if msg != "" then msg else NoBanksText
      case None => NoBanksText
  }

  /** The status line of an available version names each of its banks. */
  lemma {:induction false} AvailableTextNamesBanks(e: Entry, b: Bank)
    requires !e.isLoading && IsAvailable(e) && b in e.status.value.availableBanks
    ensures Contains(StatusText(e), BankName(b))
  {
    var bs := e.status.value.availableBanks;
    var k :| 0 <= k < |bs| && bs[k] == b;
    var names := BankNames(bs);
    var list := Join(names, ", ");
    JoinOccurrence(names, ", ", k);
    var p := JoinOffset(names, ", ", k);
    ShiftOccurrence(IncludesText, list, BankName(b), p);
    OccurrenceContains(StatusText(e), BankName(b), |IncludesText| + p);
  }

  /** Where part `k` starts in the joined text: after the earlier parts and their separators. */
  function JoinOffset(parts: seq<string>, sep: string, k: nat): nat
    requires k < |parts|
  {
    if k == 0 then 0 else |parts[0]| + |sep| + JoinOffset(parts[1..], sep, k - 1)
  }

  /** Each part occurs in the joined text, after the earlier parts and their separators. */
  lemma {:induction false} JoinOccurrence(parts: seq<string>, sep: string, k: nat)
    requires k < |parts|
    ensures OccursAt(Join(parts, sep), parts[k], JoinOffset(parts, sep, k))
  {
    if |parts| == 1 {
      assert Join(parts, sep)[0..|parts[0]|] == parts[0];
    } else if k == 0 {
      var j := Join(parts, sep);
      assert j == parts[0] + (sep + Join(parts[1..], sep));
      assert j[0..|parts[0]|] == parts[0];
    } else {
      JoinOccurrence(parts[1..], sep, k - 1);
      var q := JoinOffset(parts[1..], sep, k - 1);
      var head := parts[0] + sep;
      assert Join(parts, sep) == head + Join(parts[1..], sep);
      ShiftOccurrence(head, Join(parts[1..], sep), parts[k], q);
    }
  }

  /** An occurrence in `b` is an occurrence in `a + b`, shifted by `|a|`. */
  lemma {:induction false} ShiftOccurrence(a: string, b: string, sub: string, q: nat)
    requires OccursAt(b, sub, q)
    ensures OccursAt(a + b, sub, |a| + q)
  {
    assert (a + b)[|a| + q..|a| + q + |sub|] == b[q..q + |sub|];
  }

  lemma {:induction false} OccurrenceContains(s: string, sub: string, p: nat)
    requires OccursAt(s, sub, p)
    ensures Contains(s, sub)
  {
  }
}

=== FILE: base.dfy ===
/** The `T | null` / `T | undefined` of the source, as a value. */
module Base {

  datatype Option<+T> = None | Some(value: T) {

    /** `x ?? fallback` */
    function GetOr(fallback: T): T {
      match this
      case Some(v) => v
      case None => fallback
    }
  }
}

=== FILE: build_dataset.dfy ===
/** The build-time converter (scripts/build-dataset.mjs): its own CSV reader, the clean-up of
    option texts, and the conversion of the bank files into the static question lists. File and
    network reads are inputs (the parsed rows), and the image copies it writes are left out; the
    row conversion shares its pieces with the runtime loader. */
module BuildDataset {
  import opened Base
  import opened Strings
  import opened Questions
  import Csv
  import Dataset

  // The image footnote pattern `/\s*\[F\][^\s,]+\.jpg\d*/gi` of `sanitizeOptionText`.

  /** A character of `[^\s,]`. */
  predicate IsToken(c: char) {
    !IsSpace(c) && c != ','
  }

  /** The three character classes the pattern repeats: `\s`, `[^\s,]` and `\d`. */
  datatype Class = Blank | Token | Digit

  predicate In(c: char, k: Class) {
    match k
    case Blank => IsSpace(c)
    case Token => IsToken(c)
    case Digit => IsDigit(c)
  }

  /** The longest run of characters of class `k` from position `i`. */
  function Run(s: string, i: nat, k: Class): (n: nat)
    requires i <= |s|
    ensures i + n <= |s|
    ensures forall j :: i <= j < i + n ==> In(s[j], k)
    ensures i + n == |s| || !In(s[i + n], k)
    decreases |s| - i
  {
    if i < |s| && In(s[i], k) then 1 + Run(s, i + 1, k) else 0
  }

  /** `\[F\]` at position `i`, ignoring case. */
  predicate MarkerAt(s: string, i: nat) {
    i + 3 <= |s| && s[i] == '[' && (s[i + 1] == 'F' || s[i + 1] == 'f') && s[i + 2] == ']'
  }

  /** `\.jpg` at position `i`, ignoring case. */
  predicate JpgAt(s: string, i: nat) {
    i + 4 <= |s| && s[i] == '.' && (s[i + 1] == 'j' || s[i + 1] == 'J')
    && (s[i + 2] == 'p' || s[i + 2] == 'P') && (s[i + 3] == 'g' || s[i + 3] == 'G')
  }

  /** The greedy `[^\s,]+` backs off to the last `.jpg` that has at least one run character
      before it: the largest position in `[lo, hi]` with `.jpg` there. */
  function LastJpg(s: string, lo: nat, hi: int): (k: Option<nat>)
    ensures k.Some? ==> lo <= k.value <= hi && JpgAt(s, k.value)
    ensures k.Some? ==> forall i :: k.value < i <= hi ==> !JpgAt(s, i)
    ensures k.None? ==> forall i :: lo <= i <= hi ==> !JpgAt(s, i)
    decreases hi
  {
    if hi < lo then None
    else if JpgAt(s, hi) then Some(hi)
    else LastJpg(s, lo, hi - 1)
  }

  /** The length of the pattern's match at the start of `s`, if it matches there: white space,
      the marker, a run of `[^\s,]` characters up to and including its last `.jpg` with something
      before it, then every digit that follows. */
  function MatchLength(s: string): (n: Option<nat>)
    ensures n.Some? ==> 0 < n.value <= |s|
  {
    var w := Run(s, 0, Blank);
    if !MarkerAt(s, w) then None
    else
      var start := w + 3;
      var t := Run(s, start, Token);
      match LastJpg(s, start + 1, start + t - 4)
      case None => None
      case Some(k) => Some(k + 4 + Run(s, k + 4, Digit))
  }

  /** `s.replace(pattern, "")` with the global flag: scanning left to right, each match is
      removed and the scan resumes after it. */
  function Strip(s: string): string
    decreases |s|
  {
    if s == [] then []
    else match MatchLength(s)
      case Some(n) => Strip(s[n..])
      case None => [s[0]] + Strip(s[1..])
  }

  /** `sanitizeOptionText(s)`: the empty text as it is, otherwise the footnotes removed and the
      rest trimmed. */
  function Sanitize(s: string): (r: string)
    ensures |r| == 0 || (!IsSpace(r[0]) && !IsSpace(r[|r| - 1]))
  {
    if s == "" then s else Trim(Strip(s))
  }

  /** No footnote marker anywhere in `s`. */
  predicate NoMarker(s: string) {
    forall i :: 0 <= i < |s| ==> !MarkerAt(s, i)
  }

  /** Text without a marker is left alone by the replacement. */
  lemma {:induction false} StripNoMarker(s: string)
    requires NoMarker(s)
    ensures Strip(s) == s
    decreases |s|
  {
    if s != [] {
      var w := Run(s, 0, Blank);
      assert !MarkerAt(s, w);
      assert NoMarker(s[1..]) by {
        forall i | 0 <= i < |s[1..]| ensures !MarkerAt(s[1..], i) {
          assert !MarkerAt(s, i + 1);
        }
      }
      StripNoMarker(s[1..]);
    }
  }

  /** An option text without a footnote marker is only trimmed. */
  lemma {:induction false} SanitizePlain(s: string)
    requires NoMarker(s)
    ensures Sanitize(s) == Trim(s)
  {
    StripNoMarker(s);
  }

  /** A footnote as the source's comment shows it: `[F]`, a code, `.jpg` and a page number. */
  function Footnote(code: string, digits: string): string {
    "[F]" + (code + (".jpg" + digits))
  }

  predicate AllToken(s: string) {
    forall i :: 0 <= i < |s| ==> IsToken(s[i])
  }

  predicate AllDigitText(s: string) {
    forall i :: 0 <= i < |s| ==> IsDigit(s[i])
  }

  predicate AllSpace(s: string) {
    forall i :: 0 <= i < |s| ==> IsSpace(s[i])
  }

  /** A run that is known to end at `j` has length `j - i`. */
  lemma {:induction false} RunEndsAt(s: string, i: nat, j: nat, k: Class)
    requires i <= j <= |s|
    requires AllIn(s, i, j, k)
    requires j == |s| || !In(s[j], k)
    ensures Run(s, i, k) == j - i
    decreases j - i
  {
    if i < j {
      RunEndsAt(s, i + 1, j, k);
    }
  }

  /** Every character in `[lo, hi)` is of class `k`. */
  predicate AllIn(s: string, lo: nat, hi: nat, k: Class) {
    hi <= |s| && forall m :: lo <= m < hi ==> In(s[m], k)
  }

  /** `MatchLength` read off its four runs. */
  lemma {:induction false} MatchOfRuns(s: string, w: nat, t: nat, c: nat)
    requires Run(s, 0, Blank) == w && MarkerAt(s, w)
    requires w + 3 + t <= |s| && Run(s, w + 3, Token) == t
    requires w + 3 + t == |s| && LastJpg(s, w + 4, |s| - 4) == Some(w + 3 + c)
    requires w + 3 + c + 4 <= |s| && Run(s, w + 3 + c + 4, Digit) == |s| - (w + 3 + c + 4)
    ensures MatchLength(s) == Some(|s|)
  {
  }

  /** The match over a text laid out as `w` blanks, the marker, `c` code characters, `.jpg` and
      `d` digits, stated by positions. */
  lemma {:induction false} LaidOutMatches(s: string, w: nat, c: nat, d: nat)
    requires |s| == w + 3 + c + 4 + d && 1 <= c
    requires AllIn(s, 0, w, Blank)
    requires MarkerAt(s, w)
    requires AllIn(s, w + 3, |s|, Token)
    requires JpgAt(s, w + 3 + c)
    requires AllIn(s, w + 3 + c + 4, |s|, Digit)
    ensures MatchLength(s) == Some(|s|)
  {
    var b := w + 3 + c;
    BlanksBeforeMarker(s, w);
    RunToEnd(s, w + 3, Token);
    RunToEnd(s, b + 4, Digit);
    JpgIsLast(s, w + 4, b);
    MatchOfRuns(s, w, |s| - (w + 3), c);
  }

  /** The run of blanks ends at the marker. */
  lemma {:induction false} BlanksBeforeMarker(s: string, w: nat)
    requires AllIn(s, 0, w, Blank) && MarkerAt(s, w)
    ensures Run(s, 0, Blank) == w
  {
    RunEndsAt(s, 0, w, Blank);
  }

  /** A run over a tail all of one class reaches the end. */
  lemma {:induction false} RunToEnd(s: string, i: nat, k: Class)
    requires i <= |s| && AllIn(s, i, |s|, k)
    ensures Run(s, i, k) == |s| - i
  {
    RunEndsAt(s, i, |s|, k);
  }

  /** A `.jpg` followed only by digits is the last one. */
  lemma {:induction false} JpgIsLast(s: string, lo: nat, b: nat)
    requires lo <= b && JpgAt(s, b) && AllIn(s, b + 4, |s|, Digit)
    ensures LastJpg(s, lo, |s| - 4) == Some(b)
  {
    NoStopAfterJpg(s, b);
    LastJpgIs(s, lo, |s| - 4, b);
  }

  /** Past a `.jpg` followed only by digits there is no further full stop. */
  lemma {:induction false} NoStopAfterJpg(s: string, b: nat)
    requires JpgAt(s, b) && AllIn(s, b + 4, |s|, Digit)
    ensures forall i :: b < i < |s| ==> s[i] != '.'
  {
    forall i | b < i < |s| ensures s[i] != '.' {
      if b + 4 <= i {
        assert In(s[i], Digit);
      }
    }
  }

  /** `k` is the last `.jpg` in `[lo, hi]` when no full stop follows it there. */
  lemma {:induction false} LastJpgIs(s: string, lo: nat, hi: int, k: nat)
    requires lo <= k <= hi < |s| && JpgAt(s, k)
    requires forall i :: k < i <= hi ==> s[i] != '.'
    ensures LastJpg(s, lo, hi) == Some(k)
    decreases hi
  {
    if hi != k {
      assert !JpgAt(s, hi);
      LastJpgIs(s, lo, hi - 1, k);
    }
  }

  /** White space followed by a footnote is one match of the pattern, whole. */
  lemma {:induction false} SpacedFootnoteMatches(w: string, code: string, digits: string)
    requires AllSpace(w) && code != [] && AllToken(code) && AllDigitText(digits)
    ensures MatchLength(w + Footnote(code, digits)) == Some(|w + Footnote(code, digits)|)
  {
    var s := w + Footnote(code, digits);
    var a := |w| + 3;
    var b := a + |code|;
    forall k | 0 <= k < |w| ensures In(s[k], Blank) {
      assert s[k] == w[k];
    }
    forall k | a <= k < |s| ensures In(s[k], Token) {
      if k < b {
        assert s[k] == code[k - a];
      } else if b + 4 <= k {
        assert s[k] == digits[k - b - 4];
      }
    }
    forall k | b + 4 <= k < |s| ensures In(s[k], Digit) {
      assert s[k] == digits[k - b - 4];
    }
    LaidOutMatches(s, |w|, |code|, |digits|);
  }

  /** A footnote-only option text sanitises to the empty text, so the option is dropped. */
  lemma {:induction false} FootnoteOnlyIsEmpty(code: string, digits: string)
    requires code != [] && AllToken(code) && AllDigitText(digits)
    ensures Sanitize(Footnote(code, digits)) == ""
  {
    var f := Footnote(code, digits);
    SpacedFootnoteMatches([], code, digits);
    assert [] + f == f;
    WholeMatchStripped(f);
  }

  /** A text that is one match of the pattern is removed entirely. */
  lemma {:induction false} WholeMatchStripped(s: string)
    requires s != [] && MatchLength(s) == Some(|s|)
    ensures Strip(s) == [] && Sanitize(s) == []
  {
    assert s[|s|..] == [];
    assert Trim([]) == [];
  }

  /** Where no match starts, the replacement keeps the first character. */
  lemma {:induction false} StripKeeps(s: string)
    requires s != [] && MatchLength(s) == None
    ensures Strip(s) == [s[0]] + Strip(s[1..])
  {
  }

  /** No match of the pattern starts at any position of `a` followed by `rest`. */
  predicate NoMatchIn(a: string, rest: string) {
    forall i :: 0 <= i < |a| ==> MatchLength(a[i..] + rest) == None
  }

  /** Where no match starts inside `a`, the replacement copies `a` and carries on after it;
      stated for the suffix of `a` from position `i`. */
  lemma {:induction false} StripCopies(a: string, rest: string, i: nat)
    requires NoMatchIn(a, rest) && i <= |a|
    ensures Strip(a[i..] + rest) == a[i..] + Strip(rest)
    decreases |a| - i
  {
    if i == |a| {
      assert a[i..] + rest == rest;
    } else {
      var s := a[i..] + rest;
      assert MatchLength(s) == None;
      StripKeeps(s);
      assert s[1..] == a[i + 1..] + rest;
      StripCopies(a, rest, i + 1);
      assert s[0] == a[i];
      assert Strip(s[1..]) == a[i + 1..] + Strip(rest);
      assert Strip(s) == [a[i]] + (a[i + 1..] + Strip(rest));
      SliceCons(a, i);
      ConsAssoc(a[i], a[i + 1..], Strip(rest), a[i..], Strip(s));
    }
  }

  lemma {:induction false} SliceCons(a: string, i: nat)
    requires i < |a|
    ensures a[i..] == [a[i]] + a[i + 1..]
  {
  }

  lemma {:induction false} ConsAssoc(x: char, b: string, c: string, ab: string, r: string)
    requires ab == [x] + b && r == [x] + (b + c)
    ensures r == ab + c
  {
  }

  /** No match starts inside marker-free text that ends in a non-blank character and is followed
      by white space or a bracket. */
  lemma {:induction false} NoMatchInside(a: string, rest: string, i: nat)
    requires NoMarker(a) && a != [] && !IsSpace(a[|a| - 1])
    requires rest == [] || IsSpace(rest[0]) || rest[0] == '['
    requires i < |a|
    ensures MatchLength(a[i..] + rest) == None
  {
    var x := a[i..] + rest;
    var j := Run(x, 0, Blank);
    assert x[|a| - i - 1] == a[|a| - 1];
    assert j < |a| - i;
    assert x[j] == a[i + j];
    if i + j + 2 < |a| {
      assert x[j + 1] == a[i + j + 1] && x[j + 2] == a[i + j + 2];
      assert !MarkerAt(a, i + j);
    }
  }

  /** A footnote after an option's text, with white space between, is removed together with
      that white space: the option keeps its text. */
  lemma {:induction false} TrailingFootnoteRemoved(a: string, w: string, code: string, digits: string)
    requires NoMarker(a) && (a == [] || !IsSpace(a[|a| - 1]))
    requires AllSpace(w) && code != [] && AllToken(code) && AllDigitText(digits)
    ensures Strip(a + (w + Footnote(code, digits))) == a
    ensures Sanitize(a + (w + Footnote(code, digits))) == Trim(a)
  {
    var rest := w + Footnote(code, digits);
    assert rest[0] == if w == [] then '[' else w[0];
    assert NoMatchIn(a, rest) by {
      forall i | 0 <= i < |a| ensures MatchLength(a[i..] + rest) == None {
        NoMatchInside(a, rest, i);
      }
    }
    StripCopies(a, rest, 0);
    assert a[0..] == a;
    SpacedFootnoteMatches(w, code, digits);
    assert Strip(rest) == Strip([]);
    assert a + [] == a;
  }

  // The image map of the build: no column defaults.

  /** The rows of `images.csv` after `parseCsv`: the header row is taken off (`shift() || []`)
      and the J and ImagePath columns are looked up by name only; a missing column reads every
      cell as empty. */
  function BuildImageMap(rows: seq<seq<string>>): (m: Dataset.ImageMap)
    ensures forall j :: j in m ==> j != "" && m[j] != ""
  {
    var header := if rows == [] then [] else rows[0];
    var idx := Dataset.IndexHeader(header);
    var body := if rows == [] then [] else rows[1..];
    Dataset.ImageMapOf(body, Dataset.Column(idx, "J"), Dataset.Column(idx, "ImagePath"))
  }

  /** With both columns named in the header, the build and the runtime loader read the same
      image map. */
  lemma {:induction false} ImageMapsAgree(rows: seq<seq<string>>)
    ensures rows != [] && "J" in Dataset.IndexHeader(rows[0]) && "ImagePath" in Dataset.IndexHeader(rows[0]) ==>
              BuildImageMap(rows) == Dataset.LoadImageMap(rows)
  {
  }

  /** Without a J or an ImagePath column the build maps nothing, where the runtime loader falls
      back to the first two columns. */
  lemma {:induction false} MissingColumnNoImages(rows: seq<seq<string>>)
    requires rows == [] || "J" !in Dataset.IndexHeader(rows[0]) || "ImagePath" !in Dataset.IndexHeader(rows[0])
    ensures BuildImageMap(rows) == map[]
  {
    var header := if rows == [] then [] else rows[0];
    var idx := Dataset.IndexHeader(header);
    var body := if rows == [] then [] else rows[1..];
    var jCol := Dataset.Column(idx, "J");
    var pCol := Dataset.Column(idx, "ImagePath");
    var es := Dataset.Entries(body, jCol, pCol);
    forall i | 0 <= i < |es| ensures es[i] == None {
      NoColumnNoEntry(body[i], jCol, pCol);
    }
    NoEntriesNoMap(es);
    assert BuildImageMap(rows) == Dataset.MapOfEntries(es);
  }

  /** A row contributes nothing when a column is missing. */
  lemma {:induction false} NoColumnNoEntry(row: seq<string>, jCol: Option<nat>, pCol: Option<nat>)
    requires jCol.None? || pCol.None?
    ensures Dataset.ImageEntry(row, jCol, pCol) == None
  {
    assert Trim("") == "";
  }

  /** Entries that are all absent set nothing. */
  lemma {:induction false} NoEntriesNoMap(es: seq<Option<(string, string)>>)
    requires forall i :: 0 <= i < |es| ==> es[i] == None
    ensures Dataset.MapOfEntries(es) == map[]
  {
    var m := Dataset.MapOfEntries(es);
    assert forall j :: j !in m;
  }

  // Image URLs of the build.

  /** `path.basename(p)`: trailing separators dropped, then the text after the last `/`. */
  function BaseName(p: string): (r: string)
    ensures '/' !in r
    decreases |p|
  {
    if p == [] then []
    else if p[|p| - 1] == '/' then BaseName(p[..|p| - 1])
    else AfterLastSlash(p)
  }

  /** The text after the last `/`, or all of `p` when it has none. */
  function AfterLastSlash(p: string): (r: string)
    ensures '/' !in r
    ensures '/' !in p ==> r == p
    decreases |p|
  {
    if p == [] then []
    else if p[|p| - 1] == '/' then []
    else
      var r := AfterLastSlash(p[..|p| - 1]);
      assert forall c :: c in p[..|p| - 1] ==> c in p;
      r + [p[|p| - 1]]
  }

  /** The base name of a file joined under a directory is the file's name. */
  lemma {:induction false} AfterLastSlashOfJoin(dir: string, name: string)
    requires '/' !in name
    ensures AfterLastSlash(dir + "/" + name) == name
    decreases |name|
  {
    var p := dir + "/" + name;
    if name == [] {
      assert p[|p| - 1] == '/';
    } else {
      var n := |name| - 1;
      JoinInit(dir, name);
      AfterLastSlashOfJoin(dir, name[..n]);
      assert AfterLastSlash(p) == AfterLastSlash(p[..|p| - 1]) + [p[|p| - 1]];
      assert name == name[..n] + [name[n]];
    }
  }

  /** Dropping the last character of `dir/name` drops it from `name`. */
  lemma {:induction false} JoinInit(dir: string, name: string)
    requires name != [] && '/' !in name
    ensures var p := dir + "/" + name;
            p[..|p| - 1] == dir + "/" + name[..|name| - 1] && p[|p| - 1] == name[|name| - 1] != '/'
            && '/' !in name[..|name| - 1]
  {
    var p := dir + "/" + name;
    assert p[..|p| - 1] == dir + "/" + name[..|name| - 1];
    assert forall c :: c in name[..|name| - 1] ==> c in name;
  }

  /** `path.basename(dir + "/" + name)` is `name` for a non-empty name without separators. */
  lemma {:induction false} BaseNameOfJoin(dir: string, name: string)
    requires name != [] && '/' !in name
    ensures BaseName(dir + "/" + name) == name
  {
    var p := dir + "/" + name;
    assert p[|p| - 1] == name[|name| - 1];
    AfterLastSlashOfJoin(dir, name);
  }

  const ImagesDir: string := "/questions/images/"

  /** The image URL the build writes: the copied file under `/questions/images/`, when the
      primary J code maps to a non-empty image path. */
  function BuildImageUrl(m: Dataset.ImageMap, j: string): (url: Option<string>)
    ensures url.Some? <==> Dataset.PrimaryJ(j) != "" && Dataset.PrimaryJ(j) in m && m[Dataset.PrimaryJ(j)] != ""
    ensures url.Some? ==> url.value == ImagesDir + BaseName(m[Dataset.PrimaryJ(j)])
  {
    var primary := Dataset.PrimaryJ(j);
    if primary != "" && primary in m && m[primary] != "" then Some(ImagesDir + BaseName(m[primary])) else None
  }

  /** The build links an image exactly when the runtime loader does; only the URL differs. */
  lemma {:induction false} ImageUrlsAgree(m: Dataset.ImageMap, j: string)
    ensures BuildImageUrl(m, j).Some? <==> Dataset.ImageUrl(m, j).Some?
    ensures BuildImageUrl(m, j).Some? ==> BuildImageUrl(m, j).value != Dataset.ImageUrl(m, j).value
  {
    if BuildImageUrl(m, j).Some? {
      var primary := Dataset.PrimaryJ(j);
      RoutesDiffer(BaseName(m[primary]), primary);
    }
  }

  /** A URL under `/questions/images/` is never an image route URL. */
  lemma {:induction false} RoutesDiffer(x: string, y: string)
    ensures ImagesDir + x != Dataset.ImageRoute + y
  {
    assert (ImagesDir + x)[1] == 'q';
    assert (Dataset.ImageRoute + y)[1] == 'a';
  }

  /** An image stored as `images/<name>` is served as `/questions/images/<name>`. */
  lemma {:induction false} ImageUrlOfStoredPath(m: Dataset.ImageMap, j: string, name: string)
    requires Dataset.PrimaryJ(j) != "" && Dataset.PrimaryJ(j) in m
    requires m[Dataset.PrimaryJ(j)] == "images/" + name && name != [] && '/' !in name
    ensures BuildImageUrl(m, j) == Some(ImagesDir + name)
  {
    assert "images/" + name == "images" + "/" + name;
    BaseNameOfJoin("images", name);
  }

  // Rows to questions.

  /** Each option text sanitised after trimming. */
  function SanitizeOptions(t: Dataset.OptionTexts): Dataset.OptionTexts {
    Dataset.OptionTexts(Sanitize(t.a), Sanitize(t.b), Sanitize(t.c), Sanitize(t.d))
  }

  /** The trimmed cells of a row, with the option texts sanitised. */
  function BuildCells(row: seq<string>, idx: Dataset.HeaderIndex): Dataset.RowCells {
    var c := Dataset.CellsOf(row, idx);
    c.(options := SanitizeOptions(c.options))
  }

  /** The body of the loop in `processBank`: a row whose trimmed Q cell is empty is skipped; there
      is no separate guard for empty rows. */
  function BuildRow(row: seq<string>, idx: Dataset.HeaderIndex, m: Dataset.ImageMap): (r: Option<QuestionItem>)
    ensures r.None? <==> Dataset.Field(row, idx, "Q") == ""
    ensures r.Some? ==> r.value.question == Dataset.Field(row, idx, "Q")
    ensures r.Some? ==> r.value.imageUrl == BuildImageUrl(m, Dataset.Field(row, idx, "J"))
  {
    Dataset.CellsOfFields(row, idx);
    var cells := BuildCells(row, idx);
    if cells.q == "" then None else Some(Dataset.MakeQuestion(cells, BuildImageUrl(m, cells.j)))
  }

  /** The options of a built question are those of its sanitised option cells. */
  lemma {:induction false} BuildRowOptions(row: seq<string>, idx: Dataset.HeaderIndex, m: Dataset.ImageMap)
    ensures BuildRow(row, idx, m).Some? ==>
      BuildRow(row, idx, m).value.options == Dataset.OptionsOf(SanitizeOptions(Dataset.CellsOf(row, idx).options))
  {
  }

  /** No white space at either end. */
  predicate Tidy(s: string) {
    |s| == 0 || (!IsSpace(s[0]) && !IsSpace(s[|s| - 1]))
  }

  /** Sanitised option texts give options with non-empty, trimmed texts. */
  lemma {:induction false} SanitizedOptionsTrimmed(t: Dataset.OptionTexts)
    ensures forall k :: 0 <= k < |Dataset.OptionsOf(SanitizeOptions(t))| ==>
      var text := Dataset.OptionsOf(SanitizeOptions(t))[k].text;
      text != "" && !IsSpace(text[0]) && !IsSpace(text[|text| - 1])
  {
    var u := SanitizeOptions(t);
    assert Tidy(u.a) && Tidy(u.b) && Tidy(u.c) && Tidy(u.d);
    TidyOptions(u);
  }

  /** Options made of tidy texts have non-empty, tidy texts. */
  lemma {:induction false} TidyOptions(u: Dataset.OptionTexts)
    requires Tidy(u.a) && Tidy(u.b) && Tidy(u.c) && Tidy(u.d)
    ensures forall k :: 0 <= k < |Dataset.OptionsOf(u)| ==>
      var text := Dataset.OptionsOf(u)[k].text;
      text != "" && !IsSpace(text[0]) && !IsSpace(text[|text| - 1])
  {
    Dataset.OptionsSpec(u);
    forall k | 0 <= k < |Dataset.OptionsOf(u)|
      ensures Tidy(Dataset.OptionsOf(u)[k].text)
    {
      OptionTextFrom(u, k);
    }
  }

  /** Each option carries the text of one of the four cells. */
  lemma {:induction false} OptionTextFrom(t: Dataset.OptionTexts, k: nat)
    requires k < |Dataset.OptionsOf(t)|
    ensures var text := Dataset.OptionsOf(t)[k].text; text == t.a || text == t.b || text == t.c || text == t.d
  {
    var a := Dataset.OptionOf("A", t.a);
    var b := Dataset.OptionOf("B", t.b);
    var c := Dataset.OptionOf("C", t.c);
    var d := Dataset.OptionOf("D", t.d);
    var o := Dataset.OptionsOf(t);
    assert o == a + b + c + d;
    if k < |a| {
      assert o[k] == a[k];
    } else if k < |a| + |b| {
      assert o[k] == b[k - |a|];
    } else if k < |a| + |b| + |c| {
      assert o[k] == c[k - |a| - |b|];
    } else {
      assert o[k] == d[k - |a| - |b| - |c|];
    }
  }

  /** Every option the build keeps has a non-empty, trimmed text. */
  lemma {:induction false} BuildOptionsTrimmed(row: seq<string>, idx: Dataset.HeaderIndex, m: Dataset.ImageMap)
    ensures BuildRow(row, idx, m).Some? ==>
      forall k :: 0 <= k < |BuildRow(row, idx, m).value.options| ==>
        var text := BuildRow(row, idx, m).value.options[k].text;
        text != "" && !IsSpace(text[0]) && !IsSpace(text[|text| - 1])
  {
    var r := BuildRow(row, idx, m);
    if r.Some? {
      var t := Dataset.CellsOf(row, idx).options;
      BuildRowOptions(row, idx, m);
      SanitizedOptionsTrimmed(t);
      assert r.value.options == Dataset.OptionsOf(SanitizeOptions(t));
    }
  }

  /** A row is skipped by the build exactly when the runtime loader skips it. */
  lemma {:induction false} SkipsAgree(row: seq<string>, idx: Dataset.HeaderIndex, m: Dataset.ImageMap)
    ensures BuildRow(row, idx, m).None? <==> Dataset.RowToQuestion(row, idx, m).None?
  {
    Dataset.RowQuestionSpec(row, idx, m);
    if |row| == 0 {
      assert Dataset.Cell(row, Dataset.Column(idx, "Q")) == "";
      assert Trim("") == "";
    }
  }

  /** An option cell whose trimmed text has no footnote marker. */
  predicate PlainOption(row: seq<string>, idx: Dataset.HeaderIndex, name: string) {
    NoMarker(Dataset.Field(row, idx, name))
  }

  /** Sanitising a trimmed text without a marker changes nothing. */
  lemma {:induction false} SanitizeTrimmed(s: string)
    requires NoMarker(Trim(s))
    ensures Sanitize(Trim(s)) == Trim(s)
  {
    SanitizePlain(Trim(s));
    TrimIdempotent(s);
  }

  /** When no option cell carries a footnote, the build produces the runtime loader's question
      for the row, with the build's image URL. */
  lemma {:induction false} BuildMatchesLoader(row: seq<string>, idx: Dataset.HeaderIndex, m: Dataset.ImageMap)
    requires PlainOption(row, idx, "A") && PlainOption(row, idx, "B")
    requires PlainOption(row, idx, "C") && PlainOption(row, idx, "D")
    ensures BuildRow(row, idx, m).Some? ==>
      Dataset.RowToQuestion(row, idx, m).Some? &&
      BuildRow(row, idx, m).value == Dataset.RowToQuestion(row, idx, m).value.(imageUrl := BuildRow(row, idx, m).value.imageUrl)
  {
    SkipsAgree(row, idx, m);
    Dataset.CellsOfFields(row, idx);
    var o := Dataset.CellsOf(row, idx).options;
    SanitizeTrimmed(Dataset.Cell(row, Dataset.Column(idx, "A")));
    SanitizeTrimmed(Dataset.Cell(row, Dataset.Column(idx, "B")));
    SanitizeTrimmed(Dataset.Cell(row, Dataset.Column(idx, "C")));
    SanitizeTrimmed(Dataset.Cell(row, Dataset.Column(idx, "D")));
    assert SanitizeOptions(o) == o;
  }

  // Banks.

  /** The data rows of one bank file turned into questions: the header row is taken off
      (`shift() || []`) and the skipped rows dropped. */
  function ProcessRows(rows: seq<seq<string>>, m: Dataset.ImageMap): (qs: seq<QuestionItem>)
    ensures rows != [] ==> |qs| < |rows|
    ensures rows == [] ==> qs == []
  {
    var header := if rows == [] then [] else rows[0];
    var body := if rows == [] then [] else rows[1..];
    BuildAll(body, Dataset.IndexHeader(header), m)
  }

  /** Each row converted by `f`. */
  function MapRows<T>(rows: seq<seq<string>>, f: seq<string> -> Option<T>): (xs: seq<Option<T>>)
    ensures |xs| == |rows|
    ensures forall i :: 0 <= i < |rows| ==> xs[i] == f(rows[i])
  {
    seq(|rows|, i requires 0 <= i < |rows| => f(rows[i]))
  }

  /** Converting rows in two parts converts each part in turn. */
  lemma {:induction false} MapRowsAppend<T>(a: seq<seq<string>>, b: seq<seq<string>>, f: seq<string> -> Option<T>)
    ensures MapRows(a + b, f) == MapRows(a, f) + MapRows(b, f)
  {
    var l := MapRows(a + b, f);
    var r := MapRows(a, f) + MapRows(b, f);
    forall i | 0 <= i < |l| ensures l[i] == r[i] {
      if i < |a| {
        assert (a + b)[i] == a[i];
      } else {
        assert (a + b)[i] == b[i - |a|];
      }
    }
  }

  /** The conversion of one row with a fixed header and image map. */
  function RowConverter(idx: Dataset.HeaderIndex, m: Dataset.ImageMap): seq<string> -> Option<QuestionItem> {
    row => BuildRow(row, idx, m)
  }

  /** Each row converted. */
  function BuiltRows(rows: seq<seq<string>>, idx: Dataset.HeaderIndex, m: Dataset.ImageMap): (xs: seq<Option<QuestionItem>>)
    ensures |xs| == |rows|
  {
    MapRows(rows, RowConverter(idx, m))
  }

  /** Every row converted, the skipped ones dropped. */
  function BuildAll(rows: seq<seq<string>>, idx: Dataset.HeaderIndex, m: Dataset.ImageMap): (qs: seq<QuestionItem>)
    ensures |qs| <= |rows|
  {
    Dataset.Somes(BuiltRows(rows, idx, m))
  }

  /** Every built question is the conversion of one of the rows. */
  lemma {:induction false} BuildAllFromRows(rows: seq<seq<string>>, idx: Dataset.HeaderIndex, m: Dataset.ImageMap)
    ensures forall k :: 0 <= k < |BuildAll(rows, idx, m)| ==> Some(BuildAll(rows, idx, m)[k]) in BuiltRows(rows, idx, m)
  {
    Dataset.SomesSpec(BuiltRows(rows, idx, m));
  }

  /** Every built question has a non-empty question text. */
  lemma {:induction false} BuildAllQuestions(rows: seq<seq<string>>, idx: Dataset.HeaderIndex, m: Dataset.ImageMap)
    ensures forall k :: 0 <= k < |BuildAll(rows, idx, m)| ==> BuildAll(rows, idx, m)[k].question != ""
  {
    var xs := BuiltRows(rows, idx, m);
    forall i | 0 <= i < |xs| && xs[i].Some? ensures xs[i].value.question != "" {
      BuiltRowHasQuestion(rows, idx, m, i);
    }
    SomesHaveQuestions(xs);
  }

  /** Dropping the absent values keeps only questions that have a question text, when every
      present value has one. */
  lemma {:induction false} SomesHaveQuestions(xs: seq<Option<QuestionItem>>)
    requires forall i :: 0 <= i < |xs| && xs[i].Some? ==> xs[i].value.question != ""
    ensures forall k :: 0 <= k < |Dataset.Somes(xs)| ==> Dataset.Somes(xs)[k].question != ""
  {
    Dataset.SomesSpec(xs);
    forall k | 0 <= k < |Dataset.Somes(xs)| ensures Dataset.Somes(xs)[k].question != "" {
      var i :| 0 <= i < |xs| && xs[i] == Some(Dataset.Somes(xs)[k]);
    }
  }

  /** A row that converts gives a question with a question text. */
  lemma {:induction false} BuiltRowHasQuestion(rows: seq<seq<string>>, idx: Dataset.HeaderIndex, m: Dataset.ImageMap, i: nat)
    requires i < |rows| && BuiltRows(rows, idx, m)[i].Some?
    ensures BuiltRows(rows, idx, m)[i].value.question != ""
  {
    BuiltQuestionText(rows[i], idx, m, BuiltRows(rows, idx, m)[i].value);
  }

  /** A built question has a question text. */
  lemma {:induction false} BuiltQuestionText(row: seq<string>, idx: Dataset.HeaderIndex, m: Dataset.ImageMap, q: QuestionItem)
    requires BuildRow(row, idx, m) == Some(q)
    ensures q.question != ""
  {
  }

  /** One question per row with a non-empty Q cell. */
  lemma {:induction false} BuildAllCount(rows: seq<seq<string>>, idx: Dataset.HeaderIndex, m: Dataset.ImageMap)
    ensures |BuildAll(rows, idx, m)| == Dataset.SomeCount(BuiltRows(rows, idx, m))
  {
    Dataset.SomesSpec(BuiltRows(rows, idx, m));
  }

  /** The row `[""]` has an empty Q cell, whatever the header. */
  lemma {:induction false} EmptyRowSkipped(idx: Dataset.HeaderIndex, m: Dataset.ImageMap)
    ensures BuildRow([""], idx, m) == None
  {
    assert Dataset.Cell([""], Dataset.Column(idx, "Q")) == "";
    assert Trim("") == "";
  }

  /** A final empty row is skipped. */
  lemma {:induction false} BuildAllDropsEmptyRow(rows: seq<seq<string>>, idx: Dataset.HeaderIndex, m: Dataset.ImageMap)
    ensures BuildAll(rows + [[""]], idx, m) == BuildAll(rows, idx, m)
  {
    var f := RowConverter(idx, m);
    MapRowsAppend(rows, [[""]], f);
    EmptyRowSkipped(idx, m);
    assert f([""]) == None;
    MapRowsDropsNone(rows, f);
  }

  /** A final row that converts to nothing adds nothing. */
  lemma {:induction false} MapRowsDropsNone<T>(rows: seq<seq<string>>, f: seq<string> -> Option<T>)
    requires f([""]) == None
    ensures Dataset.Somes(MapRows(rows + [[""]], f)) == Dataset.Somes(MapRows(rows, f))
  {
    MapRowsAppend(rows, [[""]], f);
    var ys := MapRows([[""]], f);
    assert ys == [None];
    SomesDropsLastNone(MapRows(rows, f));
  }

  /** A final absent element adds nothing. */
  lemma {:induction false} SomesDropsLastNone<T>(xs: seq<Option<T>>)
    ensures Dataset.Somes(xs + [None]) == Dataset.Somes(xs)
  {
    Dataset.SomesAppend(xs, [None]);
    assert Dataset.Somes<T>([None]) == [];
  }

  /** `processBank(bankKey)` over the text of the bank's file: its own reader, then the rows. */
  function ProcessBank(text: string, m: Dataset.ImageMap): (qs: seq<QuestionItem>)
    ensures |qs| <= |Csv.ParseCsvBuild(text)| - 1
  {
    ProcessRows(Csv.ParseCsvBuild(text), m)
  }

  /** Every question of a bank has a question text. */
  lemma {:induction false} ProcessBankQuestions(text: string, m: Dataset.ImageMap)
    ensures forall k :: 0 <= k < |ProcessBank(text, m)| ==> ProcessBank(text, m)[k].question != ""
  {
    var rows := Csv.ParseCsvBuild(text);
    BuildAllQuestions(rows[1..], Dataset.IndexHeader(rows[0]), m);
  }

  /** The extra row the build's reader keeps for a final line feed never becomes a question:
      both readers give the same questions. */
  lemma {:induction false} ReaderChoiceIrrelevant(text: string, m: Dataset.ImageMap)
    ensures ProcessBank(text, m) == ProcessRows(Csv.ParseCsv(text), m)
  {
    Csv.ReadersDiffer(text);
    var b := Csv.ParseCsvBuild(text);
    var r := Csv.ParseCsv(text);
    if b != r {
      assert b == r + [[""]];
      if r == [] {
        assert b == [[""]];
        assert b[1..] == [];
      } else {
        assert b[0] == r[0];
        assert b[1..] == r[1..] + [[""]];
        BuildAllDropsEmptyRow(r[1..], Dataset.IndexHeader(r[0]), m);
      }
    }
  }

  /** The JSON file a bank is written to. */
  function OutputName(b: Dataset.LoaderBank): (name: string)
    ensures |name| > 5 && name[|name| - 5..] == ".json"
  {
    match b
    case Full => "full.json"
    case Class(k) => BankName(k) + ".json"
  }

  /** Different banks write different files. */
  lemma {:induction false} OutputNameInjective(b1: Dataset.LoaderBank, b2: Dataset.LoaderBank)
    ensures OutputName(b1) == OutputName(b2) <==> b1 == b2
  {
  }

  /** One JSON file the build writes. */
  datatype Output = Output(name: string, questions: seq<QuestionItem>)

  /** The file of one bank. */
  function BankOutput(b: Dataset.LoaderBank, text: string, m: Dataset.ImageMap): (o: Output)
    ensures o.name == OutputName(b)
  {
    Output(OutputName(b), ProcessBank(text, m))
  }

  /** The banks in the order the build starts them: A, B, C, then full. */
  function BankAt(i: nat): Dataset.LoaderBank {
    if i == 0 then Dataset.Class(A) else if i == 1 then Dataset.Class(B) else if i == 2 then Dataset.Class(C) else Dataset.Full
  }

  /** Where a bank's file sits in the build's list. */
  function BuildOrder(b: Dataset.LoaderBank): (i: nat)
    ensures i < 4 && BankAt(i) == b
  {
    match b
    case Class(A) => 0
    case Class(B) => 1
    case Class(C) => 2
    case Full => 3
  }

  /** The image map of the build, read from the text of `images.csv` with the build's reader. */
  function ImagesOf(imagesText: string): (m: Dataset.ImageMap)
    ensures forall j :: j in m ==> j != "" && m[j] != ""
  {
    BuildImageMap(Csv.ParseCsvBuild(imagesText))
  }

  /** Every bank converted with one image map. */
  function BuildBanks(m: Dataset.ImageMap, bankText: Dataset.LoaderBank -> string): (outs: seq<Output>)
    ensures |outs| == 4
  {
    seq(4, i requires 0 <= i < 4 => BankOutput(BankAt(i), bankText(BankAt(i)), m))
  }

  /** `build()`: the image map read once, then the banks A, B, C and full converted from the
      texts of their CSV files, each written under its output name. */
  function Build(imagesText: string, bankText: Dataset.LoaderBank -> string): (outs: seq<Output>)
    ensures |outs| == 4
  {
    BuildBanks(ImagesOf(imagesText), bankText)
  }

  /** Every bank is converted from its own text with the shared image map and written under its
      own name. */
  lemma {:induction false} BuildWritesEveryBank(imagesText: string, bankText: Dataset.LoaderBank -> string, b: Dataset.LoaderBank)
    ensures Build(imagesText, bankText)[BuildOrder(b)].name == OutputName(b)
    ensures Build(imagesText, bankText)[BuildOrder(b)].questions == ProcessBank(bankText(b), ImagesOf(imagesText))
  {
    BanksAt(ImagesOf(imagesText), bankText, b);
  }

  lemma {:induction false} BanksAt(m: Dataset.ImageMap, bankText: Dataset.LoaderBank -> string, b: Dataset.LoaderBank)
    ensures BuildBanks(m, bankText)[BuildOrder(b)] == BankOutput(b, bankText(b), m)
  {
  }

  /** No two files of the build share a name. */
  lemma {:induction false} BuildNamesDistinct(imagesText: string, bankText: Dataset.LoaderBank -> string)
    ensures forall i, k :: 0 <= i < k < |Build(imagesText, bankText)| ==>
      Build(imagesText, bankText)[i].name != Build(imagesText, bankText)[k].name
  {
    BanksNamesDistinct(ImagesOf(imagesText), bankText);
  }

  lemma {:induction false} BanksNamesDistinct(m: Dataset.ImageMap, bankText: Dataset.LoaderBank -> string)
    ensures forall i, k :: 0 <= i < k < 4 ==> BuildBanks(m, bankText)[i].name != BuildBanks(m, bankText)[k].name
  {
    var outs := BuildBanks(m, bankText);
    forall i, k | 0 <= i < k < 4 ensures outs[i].name != outs[k].name {
      NameAt(m, bankText, i);
      NameAt(m, bankText, k);
      BankAtInjective(i, k);
      OutputNameInjective(BankAt(i), BankAt(k));
    }
  }

  lemma {:induction false} NameAt(m: Dataset.ImageMap, bankText: Dataset.LoaderBank -> string, i: nat)
    requires i < 4
    ensures BuildBanks(m, bankText)[i].name == OutputName(BankAt(i))
  {
  }

  lemma {:induction false} BankAtInjective(i: nat, k: nat)
    requires i < k < 4
    ensures BankAt(i) != BankAt(k)
  {
  }
}

=== FILE: countdown.dfy ===
/** `useCountdown(endAtMs, onElapsed)` (src/hooks/useCountdown.ts) as a tick-driven machine. One
    anchor is one run of the effect: the deadline it was started with, the remaining time the hook
    returns, whether its interval is still installed, and how often `onElapsed` has fired since.
    Each tick carries the clock reading `now` of `Date.now()`. */
module Countdown {
  import opened Base

  datatype Timer = Timer(endAtMs: Option<int>, remainingMs: int, running: bool, fired: nat)

  /** The hook's first state: 0 remaining, no interval. */
  function Initial(): (t: Timer)
    ensures t.remainingMs == 0 && !t.running && t.fired == 0
  {
    Timer(None, 0, false, 0)
  }

  /** The deadline starts an interval: `if (!endAtMs) return` skips `null` and 0. */
  predicate Arms(endAtMs: Option<int>) {
    endAtMs.Some? && endAtMs.value != 0
  }

  /** A new deadline (or callback) runs the effect again: the previous interval is cleared, a new
      one is installed for a deadline that arms, and `remainingMs` keeps its last value. */
  function Anchor(t: Timer, endAtMs: Option<int>): (r: Timer)
    ensures r.endAtMs == endAtMs && r.remainingMs == t.remainingMs && r.fired == 0
    ensures r.running <==> Arms(endAtMs)
  {
    Timer(endAtMs, t.remainingMs, Arms(endAtMs), 0)
  }

  /** `Math.max(0, endAtMs - now)`. */
  function Left(endAtMs: int, now: int): (left: nat)
    ensures left == 0 <==> endAtMs <= now
    ensures left > 0 ==> left == endAtMs - now
  {
    if endAtMs - now > 0 then endAtMs - now else 0
  }

  /** One interval callback: without an interval nothing happens; otherwise the remaining time is
      set, and once it is 0 the interval is cleared before `onElapsed` fires. */
  function Tick(t: Timer, now: int): (r: Timer)
    ensures !t.running ==> r == t
    ensures t.running && t.endAtMs.Some? ==> r.remainingMs == Left(t.endAtMs.value, now) && r.remainingMs >= 0
    ensures t.running && t.endAtMs.Some? ==> (r.running <==> Left(t.endAtMs.value, now) > 0)
    ensures t.running && t.endAtMs.Some? ==> r.fired == t.fired + (if r.running then 0 else 1)
    ensures r.endAtMs == t.endAtMs
  {
    if !t.running then t
    else match t.endAtMs
      case None => t
      case Some(end) =>
        var left := Left(end, now);
        if left <= 0 then t.(remainingMs := left, running := false, fired := t.fired + 1)
        else t.(remainingMs := left)
  }

  /** The ticks of one anchor, in order. */
  function Run(t: Timer, times: seq<int>): (r: Timer)
    ensures r.endAtMs == t.endAtMs
    decreases |times|
  {
    if times == [] then t else Run(Tick(t, times[0]), times[1..])
  }

  /** What holds of every timer reachable from an anchor: an installed interval belongs to an
      arming deadline and has not fired, and a timer fires at most once. */
  predicate Sane(t: Timer) {
    (t.running ==> Arms(t.endAtMs) && t.fired == 0) && t.fired <= 1
  }

  /** `onElapsed` fires at most once per anchor, however many ticks follow; a run that has fired is
      left with 0 remaining and no interval. */
  lemma {:induction false} FiresAtMostOnce(t: Timer, times: seq<int>)
    requires Sane(t)
    requires t.fired == 1 ==> t.remainingMs == 0
    ensures Sane(Run(t, times))
    ensures Run(t, times).fired == 1 ==> Run(t, times).remainingMs == 0 && !Run(t, times).running
    decreases |times|
  {
    if times != [] {
      FiresAtMostOnce(Tick(t, times[0]), times[1..]);
    }
  }

  /** Every anchor starts a sane timer. */
  lemma {:induction false} AnchorIsSane(t: Timer, endAtMs: Option<int>)
    ensures Sane(Anchor(t, endAtMs))
  {
  }

  /** Without a deadline, or with deadline 0, no tick changes anything: the hook keeps returning
      what it returned before, 0 from the start. */
  lemma {:induction false} InertWithoutDeadline(t: Timer, endAtMs: Option<int>, times: seq<int>)
    requires !Arms(endAtMs)
    ensures Run(Anchor(t, endAtMs), times) == Anchor(t, endAtMs)
    ensures t == Initial() ==> Run(Anchor(t, endAtMs), times).remainingMs == 0
    decreases |times|
  {
    if times != [] {
      InertWithoutDeadline(t, endAtMs, times[1..]);
    }
  }

  /** Clock readings taken in order. */
  predicate NonDecreasing(times: seq<int>) {
    forall i, j :: 0 <= i < j < |times| ==> times[i] <= times[j]
  }

  /** Once a tick has run, later ticks at later clock readings never raise the remaining time. */
  lemma {:induction false} RemainingNeverRises(t: Timer, now: int, times: seq<int>)
    requires t.running && t.endAtMs.Some?
    requires NonDecreasing([now] + times)
    ensures Run(Tick(t, now), times).remainingMs <= Tick(t, now).remainingMs
    decreases |times|
  {
    var u := Tick(t, now);
    if times != [] {
      if u.running {
        assert NonDecreasing([times[0]] + times[1..]) by {
          assert [times[0]] + times[1..] == times;
          assert forall i :: 0 <= i < |times| ==> times[i] == ([now] + times)[i + 1];
        }
        RemainingNeverRises(u, times[0], times[1..]);
        assert ([now] + times)[0] <= ([now] + times)[1];
      } else {
        StoppedStays(u, times);
      }
    }
  }

  /** A timer without an interval is left alone by ticks. */
  lemma {:induction false} StoppedStays(t: Timer, times: seq<int>)
    requires !t.running
    ensures Run(t, times) == t
    decreases |times|
  {
    if times != [] {
      StoppedStays(t, times[1..]);
    }
  }
}

=== FILE: csv.dfy ===
/** The two hand-written CSV readers for the format of section 2 of RFC 4180: `parseCsv` in
    src/lib/dataset.ts and its copy in scripts/build-dataset.mjs. Both run the same character
    loop, modelled once as `Scan`; they differ only in how the last row is flushed. */
module Csv {

  /** The loop variables: finished rows, the fields of the row being read, the field being read,
      and whether the reader is inside quotes. */
  datatype Reader = Reader(rows: seq<seq<string>>, current: seq<string>, field: string, inQuotes: bool)

  const Start: Reader := Reader([], [], "", false)

  /** Every finished row holds at least one field. */
  predicate RowsNonEmpty(rows: seq<seq<string>>) {
    forall i :: 0 <= i < |rows| ==> |rows[i]| > 0
  }

  /** The row left pending when the text ends. */
  function Pending(r: Reader): seq<string> {
    r.current + [r.field]
  }

  /** One turn of the character loop: how many characters it consumes and the new variables. */
  datatype Move = Move(used: nat, next: Reader)

  /** Inside quotes, `""` is one quote and a lone quote closes the quotes; outside, a quote opens
      them, a comma ends the field, a line feed ends the row and a carriage return is dropped. */
  function Step(s: string, r: Reader): (m: Move)
    requires s != []
    ensures 1 <= m.used <= |s|
  {
    if r.inQuotes then
      if s[0] == '"' then
        if |s| > 1 && s[1] == '"' then Move(2, r.(field := r.field + ['"']))
        else Move(1, r.(inQuotes := false))
      else Move(1, r.(field := r.field + [s[0]]))
    else if s[0] == '"' then Move(1, r.(inQuotes := true))
    else if s[0] == ',' then Move(1, r.(current := r.current + [r.field], field := ""))
    else if s[0] == '\n' then Move(1, r.(rows := r.rows + [Pending(r)], current := [], field := ""))
    else if s[0] == '\r' then Move(1, r)
    else Move(1, r.(field := r.field + [s[0]]))
  }

  /** The character loop over the remaining text `s`. */
  function Scan(s: string, r: Reader): (out: Reader)
    decreases |s|
  {
    if s == [] then r else Scan(s[Step(s, r).used..], Step(s, r).next)
  }

  /** The loop only appends rows, and each of them holds at least one field. */
  lemma {:induction false} ScanAppendsRows(s: string, r: Reader)
    ensures r.rows <= Scan(s, r).rows
    ensures RowsNonEmpty(r.rows) ==> RowsNonEmpty(Scan(s, r).rows)
    decreases |s|
  {
    if s != [] {
      var m := Step(s, r);
      assert m.next.rows == r.rows || m.next.rows == r.rows + [Pending(r)];
      ScanAppendsRows(s[m.used..], m.next);
    }
  }

  /** A row holding one empty field: what a final line feed leaves pending. */
  predicate LoneEmpty(row: seq<string>)
  {
    |row| == 1 && row[0] == ""
  }

  /** A lone empty field is the row `[""]`. */
  lemma {:induction false} LoneEmptyRow(row: seq<string>)
    ensures LoneEmpty(row) <==> row == [""]
  {
    if LoneEmpty(row) {
      assert row == [row[0]];
    }
  }

  /** `parseCsv` of src/lib/dataset.ts: the pending row is kept unless it is a single empty
      field, so a trailing line feed adds no empty row. */
  function ParseCsv(text: string): (rows: seq<seq<string>>)
    ensures RowsNonEmpty(rows)
  {
    ScanAppendsRows(text, Start);
    var r := Scan(text, Start);
    if LoneEmpty(Pending(r)) then r.rows else r.rows + [Pending(r)]
  }

  /** `parseCsv` of scripts/build-dataset.mjs: the pending row is always kept. */
  function ParseCsvBuild(text: string): (rows: seq<seq<string>>)
    ensures RowsNonEmpty(rows)
    ensures |rows| >= 1
  {
    ScanAppendsRows(text, Start);
    var r := Scan(text, Start);
    r.rows + [Pending(r)]
  }

  /** The two readers differ exactly by a final row `[""]`, which only the build script keeps. */
  lemma {:induction false} ReadersDiffer(text: string)
    ensures ParseCsvBuild(text) == ParseCsv(text) || ParseCsvBuild(text) == ParseCsv(text) + [[""]]
    ensures ParseCsvBuild(text) == ParseCsv(text) <==> !LoneEmpty(ParseCsvBuild(text)[|ParseCsvBuild(text)| - 1])
  {
    LoneEmptyRow(Pending(Scan(text, Start)));
  }

  /** Empty text is no rows for the runtime reader and one empty field for the build reader. */
  lemma {:induction false} EmptyText()
    ensures ParseCsv("") == []
    ensures ParseCsvBuild("") == [[""]]
  {
    assert Pending(Start) == [""];
  }

  /** A line feed after text that ends outside quotes with a non-trivial pending row changes
      nothing for the runtime reader, and adds a row `[""]` for the build reader. */
  lemma {:induction false} TrailingLineFeed(text: string)
    requires !Scan(text, Start).inQuotes && !LoneEmpty(Pending(Scan(text, Start)))
    ensures ParseCsv(text + "\n") == ParseCsv(text)
    ensures ParseCsvBuild(text + "\n") == ParseCsvBuild(text) + [[""]]
  {
    ScanLineFeed(text, Start);
    var r := Scan(text, Start);
    var r2 := r.(rows := r.rows + [Pending(r)], current := [], field := "");
    assert Pending(r2) == [""];
  }

  /** A final line feed outside quotes closes the pending row and leaves an empty one. */
  lemma {:induction false} ScanLineFeed(text: string, r: Reader)
    requires !Scan(text, r).inQuotes
    ensures Scan(text + "\n", r) == Scan(text, r).(rows := Scan(text, r).rows + [Pending(Scan(text, r))], current := [], field := "")
  {
    ScanConcat(text, "\n", r);
    ScanSeparator('\n', "", Scan(text, r));
    assert ['\n'] + "" == "\n";
  }

  /** The loop looks one character ahead only for a second quote, so reading `a + b` is reading
      `a` and then `b` whenever `b` does not start with a quote. */
  lemma {:induction false} ScanConcat(a: string, b: string, r: Reader)
    requires b == [] || b[0] != '"'
    ensures Scan(a + b, r) == Scan(b, Scan(a, r))
    decreases |a|
  {
    if a == [] {
      assert a + b == b;
    } else {
      var m := Step(a, r);
      assert Step(a + b, r) == m by {
        assert (a + b)[0] == a[0];
        assert |a| > 1 ==> (a + b)[1] == a[1];
        assert |a| == 1 && |a + b| > 1 ==> (a + b)[1] == b[0];
      }
      assert (a + b)[m.used..] == a[m.used..] + b;
      ScanConcat(a[m.used..], b, m.next);
    }
  }

  /** A character the reader treats specially outside quotes. */
  predicate Special(c: char) {
    c == '"' || c == ',' || c == '\n' || c == '\r'
  }

  /** A field that can be written as it is. */
  predicate Plain(f: string) {
    forall i :: 0 <= i < |f| ==> !Special(f[i])
  }

  /** A character as written inside quotes: a quote is doubled. */
  function Escape(c: char): string {
    if c == '"' then "\"\"" else [c]
  }

  /** Every quote doubled. */
  function Double(f: string): (d: string)
    ensures |d| >= |f|
  {
    if f == [] then [] else Escape(f[0]) + Double(f[1..])
  }

  /** How a writer following section 2 of RFC 4180 puts a field: as it is when plain, otherwise
      in quotes with its quotes doubled. */
  function EncodeField(f: string): string {
    if Plain(f) then f else "\"" + Double(f) + "\""
  }

  /** Fields separated by commas. */
  function EncodeRow(row: seq<string>): string
    requires |row| > 0
  {
    if |row| == 1 then EncodeField(row[0]) else EncodeField(row[0]) + ("," + EncodeRow(row[1..]))
  }

  /** Rows separated by line feeds. */
  function EncodeTable(rows: seq<seq<string>>): string
    requires RowsNonEmpty(rows)
  {
    if rows == [] then ""
    else if |rows| == 1 then EncodeRow(rows[0])
    else EncodeRow(rows[0]) + ("\n" + EncodeTable(rows[1..]))
  }

  /** A plain field is read character by character into the field. */
  lemma {:induction false} ScanPlain(f: string, r: Reader)
    requires Plain(f) && !r.inQuotes
    ensures Scan(f, r) == r.(field := r.field + f)
    decreases |f|
  {
    if f == [] {
      assert r.field + f == r.field;
    } else {
      assert !Special(f[0]);
      assert Plain(f[1..]) by {
        forall i | 0 <= i < |f[1..]| ensures !Special(f[1..][i]) { assert f[1..][i] == f[i + 1]; }
      }
      ScanPlain(f[1..], r.(field := r.field + [f[0]]));
      assert r.field + [f[0]] + f[1..] == r.field + f;
    }
  }

  /** Inside quotes, an escaped character is read back as the character. */
  lemma {:induction false} ScanEscape(c: char, t: string, r: Reader)
    requires r.inQuotes
    ensures Scan(Escape(c) + t, r) == Scan(t, r.(field := r.field + [c]))
  {
    var s := Escape(c) + t;
    assert s[|Escape(c)|..] == t;
    assert s[0] == c;
    assert c == '"' ==> s[1] == '"';
  }

  /** Inside quotes, a doubled field followed by the closing quote is read back as the field,
      and the reader leaves the quotes. */
  lemma {:induction false} ScanQuoted(f: string, r: Reader)
    requires r.inQuotes
    ensures Scan(Double(f) + "\"", r) == r.(field := r.field + f, inQuotes := false)
    decreases |f|
  {
    if f == [] {
      assert Double(f) + "\"" == "\"";
      ScanClosingQuote(r);
      assert r.field + f == r.field;
    } else {
      var t := Double(f[1..]) + "\"";
      assert Double(f) + "\"" == Escape(f[0]) + t;
      ScanEscape(f[0], t, r);
      var r1 := r.(field := r.field + [f[0]]);
      ScanQuoted(f[1..], r1);
      assert r1.field + f[1..] == r.field + f;
    }
  }

  /** Inside quotes, a lone quote closes them. */
  lemma {:induction false} ScanClosingQuote(r: Reader)
    requires r.inQuotes
    ensures Scan("\"", r) == r.(inQuotes := false)
  {
    assert "\""[1..] == [];
  }

  /** Any encoded field is read back into the field. */
  lemma {:induction false} ScanField(f: string, r: Reader)
    requires !r.inQuotes
    ensures Scan(EncodeField(f), r) == r.(field := r.field + f)
  {
    if Plain(f) {
      ScanPlain(f, r);
    } else {
      var body := Double(f) + "\"";
      assert EncodeField(f) == "\"" + body;
      assert ("\"" + body)[1..] == body;
      ScanQuoted(f, r.(inQuotes := true));
    }
  }

  /** A separator outside quotes: a comma ends the field, a line feed ends the row. */
  lemma {:induction false} ScanSeparator(c: char, t: string, r: Reader)
    requires !r.inQuotes && (c == ',' || c == '\n')
    ensures c == ',' ==> Scan([c] + t, r) == Scan(t, r.(current := r.current + [r.field], field := ""))
    ensures c == '\n' ==> Scan([c] + t, r) == Scan(t, r.(rows := r.rows + [Pending(r)], current := [], field := ""))
  {
    assert ([c] + t)[1..] == t;
  }

  /** The head followed by the rest without its last element is all but the last element. */
  lemma {:induction false} HeadThenInit<T>(c: seq<T>, row: seq<T>)
    requires |row| > 1
    ensures c + [row[0]] + row[1..][..|row[1..]| - 1] == c + row[..|row| - 1]
    ensures row[1..][|row[1..]| - 1] == row[|row| - 1]
  {
    assert [row[0]] + row[1..][..|row[1..]| - 1] == row[..|row| - 1];
  }

  /** All but the last element, then the last element. */
  lemma {:induction false} InitThenLast<T>(s: seq<T>)
    requires |s| > 0
    ensures s[..|s| - 1] + [s[|s| - 1]] == s
  {
  }

  /** An encoded field and a comma end a field holding the field's text. */
  lemma {:induction false} ScanFieldComma(f: string, t: string, r: Reader)
    requires !r.inQuotes
    ensures Scan(EncodeField(f) + ("," + t), r) == Scan(t, r.(current := r.current + [r.field + f], field := ""))
  {
    ScanConcat(EncodeField(f), "," + t, r);
    ScanField(f, r);
    ScanSeparator(',', t, r.(field := r.field + f));
  }

  /** An encoded row leaves all its fields but the last in the current row, and the last one in
      the field. */
  lemma {:induction false} ScanRow(row: seq<string>, r: Reader)
    requires |row| > 0 && !r.inQuotes && r.field == ""
    ensures Scan(EncodeRow(row), r) == r.(current := r.current + row[..|row| - 1], field := row[|row| - 1])
    decreases |row|
  {
    assert r.field + row[0] == row[0];
    if |row| == 1 {
      ScanField(row[0], r);
      assert r.current + row[..0] == r.current;
    } else {
      assert EncodeRow(row) == EncodeField(row[0]) + ("," + EncodeRow(row[1..]));
      ScanFieldComma(row[0], EncodeRow(row[1..]), r);
      var r2 := r.(current := r.current + [row[0]], field := "");
      ScanRow(row[1..], r2);
      HeadThenInit(r.current, row);
    }
  }

  /** An encoded row followed by a line feed finishes that row. */
  lemma {:induction false} ScanRowLine(row: seq<string>, t: string, r: Reader)
    requires |row| > 0 && !r.inQuotes && r.field == "" && r.current == []
    ensures Scan(EncodeRow(row) + ("\n" + t), r) == Scan(t, r.(rows := r.rows + [row], current := [], field := ""))
  {
    ScanRow(row, r);
    var r1 := r.(current := row[..|row| - 1], field := row[|row| - 1]);
    assert r.current + row[..|row| - 1] == row[..|row| - 1];
    ScanConcat(EncodeRow(row), "\n" + t, r);
    ScanSeparator('\n', t, r1);
    assert Pending(r1) == row by {
      InitThenLast(row);
    }
  }

  /** An encoded table, read from a fresh row, finishes every row but the last and leaves the last
      one pending. */
  lemma {:induction false} ScanTable(rows: seq<seq<string>>, r: Reader)
    requires |rows| > 0 && RowsNonEmpty(rows) && !r.inQuotes && r.field == "" && r.current == []
    ensures !Scan(EncodeTable(rows), r).inQuotes
    ensures Scan(EncodeTable(rows), r).rows == r.rows + rows[..|rows| - 1]
    ensures Pending(Scan(EncodeTable(rows), r)) == rows[|rows| - 1]
    decreases |rows|
  {
    if |rows| == 1 {
      var row := rows[0];
      ScanRow(row, r);
      assert r.current + row[..|row| - 1] == row[..|row| - 1];
      InitThenLast(row);
      assert r.rows + rows[..0] == r.rows;
    } else {
      assert EncodeTable(rows) == EncodeRow(rows[0]) + ("\n" + EncodeTable(rows[1..]));
      ScanRowLine(rows[0], EncodeTable(rows[1..]), r);
      assert RowsNonEmpty(rows[1..]) by {
        forall i | 0 <= i < |rows[1..]| ensures |rows[1..][i]| > 0 { assert rows[1..][i] == rows[i + 1]; }
      }
      ScanTable(rows[1..], r.(rows := r.rows + [rows[0]], current := [], field := ""));
      HeadThenInit(r.rows, rows);
    }
  }

  /** Writing rows as section 2 of RFC 4180 describes and reading them back with the runtime
      reader gives the rows, unless the last row is a single empty field, which it drops. */
  lemma {:induction false} RoundTrip(rows: seq<seq<string>>)
    requires RowsNonEmpty(rows)
    requires rows == [] || !LoneEmpty(rows[|rows| - 1])
    ensures ParseCsv(EncodeTable(rows)) == rows
  {
    if rows != [] {
      ScanTable(rows, Start);
      ReadsAs(EncodeTable(rows), rows);
    }
  }

  /** A text that scans to all rows but the last, with the last one pending, reads as the rows
      when the last row is not a lone empty field. */
  lemma {:induction false} ReadsAs(text: string, rows: seq<seq<string>>)
    requires rows != [] && !LoneEmpty(rows[|rows| - 1])
    requires Scan(text, Start).rows == rows[..|rows| - 1]
    requires Pending(Scan(text, Start)) == rows[|rows| - 1]
    ensures ParseCsv(text) == rows
  {
    InitThenLast(rows);
  }

  /** The build reader reads back any non-empty list of rows. */
  lemma {:induction false} RoundTripBuild(rows: seq<seq<string>>)
    requires RowsNonEmpty(rows) && rows != []
    ensures ParseCsvBuild(EncodeTable(rows)) == rows
  {
    ScanTable(rows, Start);
    InitThenLast(rows);
  }

  /** The runtime reader never reads back a final row that is a single empty field. */
  lemma {:induction false} EmptyLastRowLost(rows: seq<seq<string>>)
    requires RowsNonEmpty(rows) && rows != [] && LoneEmpty(rows[|rows| - 1])
    ensures ParseCsv(EncodeTable(rows)) == rows[..|rows| - 1]
  {
    ScanTable(rows, Start);
  }
}

=== FILE: dataset.dfy ===
/** The server-side question loader (src/lib/dataset.ts): header indexing, the J-code to image
    map, image path resolution and the conversion of CSV rows into `QuestionItem`s. The file
    reads are inputs: each loader takes the rows `parseCsv` returned for the file. The pieces of
    the row conversion the build script shares are defined here once. */
module Dataset {
  import opened Base
  import opened Strings
  import opened Questions
  import Csv

  /** The banks the loader knows: the three classes and the combined `full` bank. */
  datatype LoaderBank = Class(bank: Bank) | Full

  /** The CSV file of a bank. */
  function BankFile(b: LoaderBank): (name: string)
    ensures |name| > 4 && name[|name| - 4..] == ".csv"
  {
    match b
    case Full => "full.csv"
    case Class(A) => "class_a.csv"
    case Class(B) => "class_b.csv"
    case Class(C) => "class_c.csv"
  }

  /** Different banks read different files. */
  lemma {:induction false} BankFileInjective(b1: LoaderBank, b2: LoaderBank)
    ensures BankFile(b1) == BankFile(b2) <==> b1 == b2
  {
  }

  /** Column positions by trimmed header name. */
  type HeaderIndex = map<string, nat>

  /** Every text trimmed. */
  function TrimAll(texts: seq<string>): (r: seq<string>)
    ensures |r| == |texts|
    ensures forall i :: 0 <= i < |texts| ==> r[i] == Trim(texts[i])
  {
    seq(|texts|, i requires 0 <= i < |texts| => Trim(texts[i]))
  }

  /** Each name mapped to its last position. */
  function LastPositions(names: seq<string>): (m: HeaderIndex)
    ensures forall i :: 0 <= i < |names| ==> names[i] in m && m[names[i]] >= i
    ensures forall name :: name in m ==> m[name] < |names| && names[m[name]] == name
    decreases |names|
  {
    if names == [] then map[]
    else
      var n := |names| - 1;
      var m := LastPositions(names[..n]);
      assert forall i :: 0 <= i < n ==> names[..n][i] == names[i];
      m[names[n] := n]
  }

  /** `indexHeader(header)`: every trimmed name maps to a position; a later duplicate overwrites
      an earlier one. */
  function IndexHeader(header: seq<string>): (m: HeaderIndex)
    ensures forall i :: 0 <= i < |header| ==> Trim(header[i]) in m && m[Trim(header[i])] >= i
    ensures forall name :: name in m ==> m[name] < |header| && Trim(header[m[name]]) == name
  {
    LastPositions(TrimAll(header))
  }

  /** `idx[name]`: the position of a column, if the header has it. */
  function Column(idx: HeaderIndex, name: string): (col: Option<nat>)
    ensures col.Some? <==> name in idx
  {
    if name in idx then Some(idx[name]) else None
  }

  /** `r[col] ?? ""`: a missing column or a short row reads as the empty text. */
  function Cell(row: seq<string>, col: Option<nat>): (s: string)
    ensures col.Some? && col.value < |row| ==> s == row[col.value]
    ensures col.None? || col.value >= |row| ==> s == ""
  {
    if col.Some? && col.value < |row| then row[col.value] else ""
  }

  /** The image map: J code to image path. */
  type ImageMap = map<string, string>

  /** The entry a row of the image file contributes, when both its J code and its path are
      non-empty after trimming. */
  function ImageEntry(row: seq<string>, jCol: Option<nat>, pCol: Option<nat>): Option<(string, string)> {
    var j := Trim(Cell(row, jCol));
    var p := Trim(Cell(row, pCol));
    if j != "" && p != "" then Some((j, p)) else None
  }

  /** An entry has a non-empty code and path. */
  lemma {:induction false} EntryNonEmpty(row: seq<string>, jCol: Option<nat>, pCol: Option<nat>)
    ensures ImageEntry(row, jCol, pCol).Some? ==> ImageEntry(row, jCol, pCol).value.0 != "" && ImageEntry(row, jCol, pCol).value.1 != ""
  {
  }

  /** The entries of all rows. */
  function Entries(rows: seq<seq<string>>, jCol: Option<nat>, pCol: Option<nat>): (es: seq<Option<(string, string)>>)
    ensures |es| == |rows|
    ensures forall i :: 0 <= i < |rows| ==> es[i] == ImageEntry(rows[i], jCol, pCol)
  {
    seq(|rows|, i requires 0 <= i < |rows| => ImageEntry(rows[i], jCol, pCol))
  }

  /** `map.set(j, p)` for each entry in turn, so a later entry for the same code wins. */
  function MapOfEntries(es: seq<Option<(string, string)>>): (m: ImageMap)
    ensures forall i :: 0 <= i < |es| && es[i].Some? ==> es[i].value.0 in m
    ensures forall j :: j in m ==> exists i :: 0 <= i < |es| && es[i] == Some((j, m[j]))
    decreases |es|
  {
    if es == [] then map[]
    else
      var n := |es| - 1;
      var m := MapOfEntries(es[..n]);
      assert forall i :: 0 <= i < n ==> es[..n][i] == es[i];
      match es[n]
      case Some(e) => m[e.0 := e.1]
      case None => m
  }

  /** The last entry for a code decides its value. */
  lemma {:induction false} MapOfEntriesLastWins(es: seq<Option<(string, string)>>, i: nat)
    requires i < |es| && es[i].Some?
    requires forall k :: i < k < |es| && es[k].Some? ==> es[k].value.0 != es[i].value.0
    ensures MapOfEntries(es)[es[i].value.0] == es[i].value.1
    decreases |es|
  {
    var n := |es| - 1;
    var pre := es[..n];
    if i < n {
      var key := es[i].value.0;
      assert pre[i] == es[i];
      assert forall k :: i < k < |pre| && pre[k].Some? ==> pre[k].value.0 != key by {
        forall k | i < k < |pre| && pre[k].Some? ensures pre[k].value.0 != key {
          assert pre[k] == es[k];
        }
      }
      MapOfEntriesLastWins(pre, i);
      assert es[n].None? || es[n].value.0 != key;
    }
  }

  /** The loop of `loadImageMap`: each row with a non-empty J code and path sets the code, so a
      later duplicate wins. */
  function ImageMapOf(rows: seq<seq<string>>, jCol: Option<nat>, pCol: Option<nat>): (m: ImageMap)
    ensures forall i :: 0 <= i < |rows| && ImageEntry(rows[i], jCol, pCol).Some? ==>
      ImageEntry(rows[i], jCol, pCol).value.0 in m
    ensures forall j :: j in m ==> j != "" && m[j] != ""
  {
    var es := Entries(rows, jCol, pCol);
    var m := MapOfEntries(es);
    assert forall j :: j in m ==> j != "" && m[j] != "" by {
      forall j | j in m ensures j != "" && m[j] != "" {
        var i :| 0 <= i < |es| && es[i] == Some((j, m[j]));
        EntryNonEmpty(rows[i], jCol, pCol);
      }
    }
    m
  }

  /** The last row with a given J code decides its path. */
  lemma {:induction false} ImageMapLastWins(rows: seq<seq<string>>, jCol: Option<nat>, pCol: Option<nat>, i: nat)
    requires i < |rows| && ImageEntry(rows[i], jCol, pCol).Some?
    requires forall k :: i < k < |rows| && ImageEntry(rows[k], jCol, pCol).Some? ==>
      ImageEntry(rows[k], jCol, pCol).value.0 != ImageEntry(rows[i], jCol, pCol).value.0
    ensures ImageMapOf(rows, jCol, pCol)[ImageEntry(rows[i], jCol, pCol).value.0] == ImageEntry(rows[i], jCol, pCol).value.1
  {
    MapOfEntriesLastWins(Entries(rows, jCol, pCol), i);
  }

  /** `loadImageMap()` over the rows of `images.csv`: the header row is taken off (an empty file
      gives an empty header) and the J and ImagePath columns default to 0 and 1. */
  function LoadImageMap(rows: seq<seq<string>>): (m: ImageMap)
    ensures forall j :: j in m ==> j != "" && m[j] != ""
  {
    var header := if rows == [] then [] else rows[0];
    var idx := IndexHeader(header);
    var body := if rows == [] then [] else rows[1..];
    ImageMapOf(body, Some(Column(idx, "J").GetOr(0)), Some(Column(idx, "ImagePath").GetOr(1)))
  }

  const ImagesPrefix: string := "images/"

  /** The path of the dataset directory joined with a relative path. */
  function JoinPath(dir: string, rel: string): string {
    dir + "/" + rel
  }

  /** `resolveImagePathByJ(jCode)`: the mapped path under the dataset directory, only when it is
      non-empty and starts with `images/`. */
  function ResolveImagePath(m: ImageMap, dir: string, jCode: string): (r: Option<string>)
    ensures r.Some? <==> jCode in m && m[jCode] != "" && StartsWith(m[jCode], ImagesPrefix)
    ensures r.Some? ==> r.value == JoinPath(dir, m[jCode])
  {
    if jCode !in m || m[jCode] == "" then None
    else if !StartsWith(m[jCode], ImagesPrefix) then None
    else Some(JoinPath(dir, m[jCode]))
  }

  /** `x || null` on a string. */
  function NonEmpty(s: string): (r: Option<string>)
    ensures r.None? <==> s == ""
    ensures r.Some? ==> r.value == s
  {
    if s == "" then None else Some(s)
  }

  predicate IsUpperLetter(c: char) {
    'A' <= c <= 'Z'
  }

  /** `t.split("").filter(ch => ch >= "A" && ch <= "Z")`: the capital letters of `t`, in order,
      each as a one-character key. */
  function AnswerKeysOf(t: string): (keys: seq<string>)
    ensures forall k :: 0 <= k < |keys| ==> |keys[k]| == 1 && IsUpperLetter(keys[k][0]) && keys[k][0] in t
    ensures forall i :: 0 <= i < |t| && IsUpperLetter(t[i]) ==> [t[i]] in keys
    ensures |keys| <= |t|
    decreases |t|
  {
    if t == [] then []
    else
      var rest := AnswerKeysOf(t[1..]);
      assert forall i :: 1 <= i < |t| ==> t[i] == t[1..][i - 1];
      if IsUpperLetter(t[0]) then [[t[0]]] + rest else rest
  }

  /** The keys are read in the order the letters appear. */
  lemma {:induction false} AnswerKeysAppend(t: string, u: string)
    ensures AnswerKeysOf(t + u) == AnswerKeysOf(t) + AnswerKeysOf(u)
    decreases |t|
  {
    if t == [] {
      assert t + u == u;
    } else {
      assert (t + u)[1..] == t[1..] + u;
      AnswerKeysAppend(t[1..], u);
    }
  }

  /** `answer_keys.length <= 1 ? "single" : "multiple"`. */
  function TypeOf(keys: seq<string>): (k: QuestionType)
    ensures k == Single <==> |keys| <= 1
    ensures k != TrueFalse
  {
    if |keys| <= 1 then Single else Multiple
  }

  /** `j.includes(",") ? j.split(",")[0].trim() : j`: the first of several J codes. */
  function PrimaryJ(j: string): (r: string)
    ensures ',' !in r
    ensures ',' !in j ==> r == j
  {
    if ',' in j then
      var first := Split(j, ',')[0];
      assert forall c :: c in Trim(first) ==> c in first;
      Trim(first)
    else j
  }

  /** The primary code is the trimmed text before the first comma. */
  lemma {:induction false} PrimaryJBeforeComma(j: string)
    requires ',' in j
    ensures exists first :: first + [','] <= j && ',' !in first && PrimaryJ(j) == Trim(first)
  {
    SplitFirst(j, ',');
    var first := Split(j, ',')[0];
    assert first + [','] <= j && ',' !in first;
  }

  /** The option texts of columns A to D. */
  datatype OptionTexts = OptionTexts(a: string, b: string, c: string, d: string)

  /** The option of one letter, present when its text is non-empty. */
  function OptionOf(key: string, text: string): seq<QuestionOption> {
    if text != "" then [QuestionOption(key, text)] else []
  }

  /** The options: the non-empty texts of A to D, keyed by their letter, in that order. */
  function OptionsOf(t: OptionTexts): seq<QuestionOption> {
    OptionOf("A", t.a) + OptionOf("B", t.b) + OptionOf("C", t.c) + OptionOf("D", t.d)
  }

  /** Every option has a non-empty text and a letter from A to D; a letter has an option exactly
      when its text is non-empty; there is one option per non-empty text. */
  lemma {:induction false} OptionsSpec(t: OptionTexts)
    ensures forall k :: 0 <= k < |OptionsOf(t)| ==> OptionsOf(t)[k].text != "" && OptionsOf(t)[k].key in ["A", "B", "C", "D"]
    ensures (QuestionOption("A", t.a) in OptionsOf(t) <==> t.a != "") && (QuestionOption("B", t.b) in OptionsOf(t) <==> t.b != "")
    ensures (QuestionOption("C", t.c) in OptionsOf(t) <==> t.c != "") && (QuestionOption("D", t.d) in OptionsOf(t) <==> t.d != "")
    ensures |OptionsOf(t)| == (if t.a != "" then 1 else 0) + (if t.b != "" then 1 else 0)
                              + (if t.c != "" then 1 else 0) + (if t.d != "" then 1 else 0)
  {
  }

  /** The rank of an option letter. */
  function KeyRank(key: string): int {
    if key == "A" then 0 else if key == "B" then 1 else if key == "C" then 2 else 3
  }

  /** Option letters appear in strictly increasing order, so no letter repeats. */
  lemma {:induction false} OptionsOrdered(t: OptionTexts)
    ensures forall i, k :: 0 <= i < k < |OptionsOf(t)| ==> KeyRank(OptionsOf(t)[i].key) < KeyRank(OptionsOf(t)[k].key)
  {
  }

  /** The trimmed cells a question is made of. */
  datatype RowCells = RowCells(j: string, p: string, q: string, t: string, options: OptionTexts)

  /** The columns a question is read from, in the order `RowCells` holds them. */
  const QuestionColumns: seq<string> := ["J", "P", "Q", "T", "A", "B", "C", "D"]

  /** The raw cells of the question columns. */
  function RawCells(row: seq<string>, idx: HeaderIndex): (raw: seq<string>)
    ensures |raw| == |QuestionColumns|
    ensures forall k :: 0 <= k < |raw| ==> raw[k] == Cell(row, Column(idx, QuestionColumns[k]))
  {
    seq(|QuestionColumns|, k requires 0 <= k < |QuestionColumns| => Cell(row, Column(idx, QuestionColumns[k])))
  }

  /** Each cell trimmed, one at a time. */
  function TrimCells(cells: seq<string>): (r: seq<string>)
    ensures |r| == |cells|
  {
    if cells == [] then [] else [Trim(cells[0])] + TrimCells(cells[1..])
  }

  lemma {:induction false} TrimCellsAt(cells: seq<string>, i: nat)
    requires i < |cells|
    ensures TrimCells(cells)[i] == Trim(cells[i])
    decreases i
  {
    if i > 0 {
      TrimCellsAt(cells[1..], i - 1);
    }
  }

  /** `(r[idx[name]] ?? "").trim()` for each question column. */
  function CellsOf(row: seq<string>, idx: HeaderIndex): RowCells {
    var t := TrimCells(RawCells(row, idx));
    RowCells(t[0], t[1], t[2], t[3], OptionTexts(t[4], t[5], t[6], t[7]))
  }

  /** The trimmed cell of a named column. */
  function Field(row: seq<string>, idx: HeaderIndex, name: string): string {
    Trim(Cell(row, Column(idx, name)))
  }

  /** Every cell of a question is the trimmed cell of its column. */
  lemma {:induction false} CellsOfFields(row: seq<string>, idx: HeaderIndex)
    ensures CellsOf(row, idx).j == Field(row, idx, "J") && CellsOf(row, idx).p == Field(row, idx, "P")
    ensures CellsOf(row, idx).q == Field(row, idx, "Q") && CellsOf(row, idx).t == Field(row, idx, "T")
    ensures CellsOf(row, idx).options
         == OptionTexts(Field(row, idx, "A"), Field(row, idx, "B"), Field(row, idx, "C"), Field(row, idx, "D"))
  {
    var raw := RawCells(row, idx);
    forall k | 0 <= k < 8 ensures TrimCells(raw)[k] == Trim(Cell(row, Column(idx, QuestionColumns[k]))) {
      TrimCellsAt(raw, k);
    }
  }

  /** The question both loaders push for a row with a non-empty question text. */
  function MakeQuestion(cells: RowCells, imageUrl: Option<string>): QuestionItem {
    var keys := AnswerKeysOf(cells.t);
    QuestionItem(NonEmpty(cells.j), Codes(NonEmpty(cells.j), NonEmpty(cells.p)), cells.q,
      OptionsOf(cells.options), keys, TypeOf(keys), imageUrl)
  }

  const ImageRoute: string := "/api/images?j="

  /** The image URL of the runtime loader: the image route for the primary code, when the image
      map has a non-empty path for it. */
  function ImageUrl(m: ImageMap, j: string): (url: Option<string>)
    ensures url.Some? <==> PrimaryJ(j) != "" && PrimaryJ(j) in m && m[PrimaryJ(j)] != ""
    ensures url.Some? ==> url.value == ImageRoute + PrimaryJ(j)
  {
    var primary := PrimaryJ(j);
    if primary != "" && primary in m && m[primary] != "" then Some(ImageRoute + primary) else None
  }

  /** The body of the loop in `loadQuestionsFromBank`: an empty row or a row whose trimmed
      question text is empty gives nothing. */
  function RowToQuestion(row: seq<string>, idx: HeaderIndex, m: ImageMap): (r: Option<QuestionItem>)
    ensures r.Some? <==> |row| > 0 && CellsOf(row, idx).q != ""
    ensures r.Some? ==> r.value == MakeQuestion(CellsOf(row, idx), ImageUrl(m, CellsOf(row, idx).j))
  {
    if |row| == 0 then None
    else
      var cells := CellsOf(row, idx);
      if cells.q == "" then None else Some(MakeQuestion(cells, ImageUrl(m, cells.j)))
  }

  /** A row is skipped exactly when it is empty or its trimmed Q cell is empty; otherwise the
      question carries the trimmed cells: the J code as id and code, the options of the non-empty
      A to D cells, the capital letters of T as answer keys (single-choice iff at most one), and
      the image route iff the primary J code has a mapped image. */
  lemma {:induction false} RowQuestionSpec(row: seq<string>, idx: HeaderIndex, m: ImageMap)
    ensures RowToQuestion(row, idx, m).None? <==> |row| == 0 || Field(row, idx, "Q") == ""
    ensures RowToQuestion(row, idx, m).Some? ==>
      var q := RowToQuestion(row, idx, m).value;
      && q.question == Field(row, idx, "Q")
      && q.id == NonEmpty(Field(row, idx, "J"))
      && q.codes == Codes(NonEmpty(Field(row, idx, "J")), NonEmpty(Field(row, idx, "P")))
      && q.options == OptionsOf(OptionTexts(Field(row, idx, "A"), Field(row, idx, "B"), Field(row, idx, "C"), Field(row, idx, "D")))
      && q.answerKeys == AnswerKeysOf(Field(row, idx, "T"))
      && (q.qtype == Single <==> |q.answerKeys| <= 1)
      && (q.imageUrl.Some? <==> PrimaryJ(Field(row, idx, "J")) != "" && PrimaryJ(Field(row, idx, "J")) in m
                                && m[PrimaryJ(Field(row, idx, "J"))] != "")
  {
    CellsOfFields(row, idx);
  }

  /** The present values, in order: the `push` inside a loop that skips some elements. */
  function Somes<T>(xs: seq<Option<T>>): (r: seq<T>)
    ensures |r| <= |xs|
    decreases |xs|
  {
    if xs == [] then []
    else match xs[0]
      case Some(v) => [v] + Somes(xs[1..])
      case None => Somes(xs[1..])
  }

  /** The number of present values. */
  function SomeCount<T>(xs: seq<Option<T>>): nat
    decreases |xs|
  {
    if xs == [] then 0 else (if xs[0].Some? then 1 else 0) + SomeCount(xs[1..])
  }

  /** Skipping distributes over concatenation. */
  lemma {:induction false} SomesAppend<T>(a: seq<Option<T>>, b: seq<Option<T>>)
    ensures Somes(a + b) == Somes(a) + Somes(b)
    decreases |a|
  {
    if a == [] {
      assert a + b == b;
    } else {
      assert (a + b)[0] == a[0] && (a + b)[1..] == a[1..] + b;
      SomesAppend(a[1..], b);
    }
  }

  /** One value per present element, each of them present in the input. */
  lemma {:induction false} SomesSpec<T>(xs: seq<Option<T>>)
    ensures |Somes(xs)| == SomeCount(xs)
    ensures forall k :: 0 <= k < |Somes(xs)| ==> Some(Somes(xs)[k]) in xs
    decreases |xs|
  {
    if xs != [] {
      SomesSpec(xs[1..]);
      assert forall y :: y in xs[1..] ==> y in xs;
    }
  }

  /** The loop over the data rows: each row converted, the skipped ones dropped. */
  function Collect(rows: seq<seq<string>>, idx: HeaderIndex, m: ImageMap): (qs: seq<QuestionItem>)
    ensures |qs| <= |rows|
  {
    Somes(seq(|rows|, i requires 0 <= i < |rows| => RowToQuestion(rows[i], idx, m)))
  }

  /** Every collected question comes from a row and has a non-empty question text, and there is
      one per row that is not skipped. */
  lemma {:induction false} CollectSpec(rows: seq<seq<string>>, idx: HeaderIndex, m: ImageMap)
    ensures forall k :: 0 <= k < |Collect(rows, idx, m)| ==> exists i :: 0 <= i < |rows| && RowToQuestion(rows[i], idx, m) == Some(Collect(rows, idx, m)[k])
    ensures forall k :: 0 <= k < |Collect(rows, idx, m)| ==> Collect(rows, idx, m)[k].question != ""
  {
    var xs := seq(|rows|, i requires 0 <= i < |rows| => RowToQuestion(rows[i], idx, m));
    assert Collect(rows, idx, m) == Somes(xs);
    SomesSpec(xs);
    forall k | 0 <= k < |Collect(rows, idx, m)|
      ensures exists i :: 0 <= i < |rows| && RowToQuestion(rows[i], idx, m) == Some(Collect(rows, idx, m)[k])
      ensures Collect(rows, idx, m)[k].question != ""
    {
      var i :| 0 <= i < |xs| && xs[i] == Some(Somes(xs)[k]);
      assert RowToQuestion(rows[i], idx, m) == Some(Collect(rows, idx, m)[k]);
    }
  }

  /** Collecting rows in two parts collects each part in turn. */
  lemma {:induction false} CollectAppend(a: seq<seq<string>>, b: seq<seq<string>>, idx: HeaderIndex, m: ImageMap)
    ensures Collect(a + b, idx, m) == Collect(a, idx, m) + Collect(b, idx, m)
  {
    var xa := seq(|a|, i requires 0 <= i < |a| => RowToQuestion(a[i], idx, m));
    var xb := seq(|b|, i requires 0 <= i < |b| => RowToQuestion(b[i], idx, m));
    var ab := a + b;
    assert seq(|ab|, i requires 0 <= i < |ab| => RowToQuestion(ab[i], idx, m)) == xa + xb;
    SomesAppend(xa, xb);
  }

  /** `loadQuestionsFromBank(bank)` over the parsed rows of the bank's file: no rows give no
      questions; otherwise the first row is the header. */
  function LoadQuestions(rows: seq<seq<string>>, m: ImageMap): (qs: seq<QuestionItem>)
    ensures rows == [] ==> qs == []
    ensures rows != [] ==> |qs| < |rows|
  {
    if rows == [] then [] else Collect(rows[1..], IndexHeader(rows[0]), m)
  }

  /** The loader's own reader never returns an empty row, so the emptiness guard never fires:
      a row is dropped exactly when its question cell is blank. */
  lemma {:induction false} EmptyRowGuardIsDead(text: string, m: ImageMap)
    requires Csv.ParseCsv(text) != []
    ensures var rows := Csv.ParseCsv(text);
      forall i :: 1 <= i < |rows| ==> (RowToQuestion(rows[i], IndexHeader(rows[0]), m).None? <==> CellsOf(rows[i], IndexHeader(rows[0])).q == "")
  {
  }
}

=== FILE: error_handler.dfy ===
/** The error helpers (src/lib/error-handler.ts): the application error classes, `handleError`,
    which turns anything thrown into an application error, and the `safe` wrappers, which turn a
    throw into a fallback value. Logging is left out. */
module ErrorHandler {
  import opened Base

  /** An `Error`: an application error (an `AppError` or one of its subclasses, told apart by
      `name`) or any other error with its name and message. */
  datatype Error =
    | AppError(name: string, message: string, code: Option<string>, statusCode: Option<nat>, cause: Option<Error>)
    | PlainError(name: string, message: string)

  /** Whatever a `throw` can carry: an `Error`, or a value that is not one. */
  datatype Thrown = Raised(error: Error) | NotAnError

  /** `new AppError(message, code, statusCode, cause)` */
  function NewAppError(message: string, code: Option<string>, statusCode: Option<nat>, cause: Option<Error>): Error {
    AppError("AppError", message, code, statusCode, cause)
  }

  /** `new NetworkError(message, cause)` */
  function NetworkError(message: string, cause: Option<Error>): (e: Error)
    ensures e.AppError? && e.name == "NetworkError" && e.message == message && e.cause == cause
    ensures e.code == Some("NETWORK_ERROR") && e.statusCode == Some(500)
  {
    AppError("NetworkError", message, Some("NETWORK_ERROR"), Some(500), cause)
  }

  /** `new ValidationError(message, cause)` */
  function ValidationError(message: string, cause: Option<Error>): (e: Error)
    ensures e.AppError? && e.name == "ValidationError" && e.message == message && e.cause == cause
    ensures e.code == Some("VALIDATION_ERROR") && e.statusCode == Some(400)
  {
    AppError("ValidationError", message, Some("VALIDATION_ERROR"), Some(400), cause)
  }

  /** `new NotFoundError(message, cause)` */
  function NotFoundError(message: string, cause: Option<Error>): (e: Error)
    ensures e.AppError? && e.name == "NotFoundError" && e.message == message && e.cause == cause
    ensures e.code == Some("NOT_FOUND") && e.statusCode == Some(404)
  {
    AppError("NotFoundError", message, Some("NOT_FOUND"), Some(404), cause)
  }

  /** The three subclasses are told apart by their code, and each code has its own status. */
  lemma {:induction false} SubclassesDistinct(m: string, c: Option<Error>)
    ensures NetworkError(m, c) != ValidationError(m, c)
    ensures NetworkError(m, c) != NotFoundError(m, c)
    ensures ValidationError(m, c) != NotFoundError(m, c)
    ensures NetworkError(m, c).statusCode != ValidationError(m, c).statusCode
    ensures NetworkError(m, c).statusCode != NotFoundError(m, c).statusCode
    ensures ValidationError(m, c).statusCode != NotFoundError(m, c).statusCode
  {
  }

  const UnknownErrorCode: string := "UNKNOWN_ERROR"
  const UnknownErrorMessage: string := "Unknown error occurred"

  /** The message prefix: `[context] ` for a non-empty context, nothing otherwise. */
  function ContextPrefix(context: Option<string>): (p: string)
    ensures p == [] <==> context.None? || context.value == []
    ensures p != [] ==> p == "[" + context.value + "] "
  {
    if context.Some? && context.value != [] then "[" + context.value + "] " else ""
  }

  /** `handleError(error, context)` */
  function HandleError(error: Thrown, context: Option<string>): (r: Error)
    ensures r.AppError?
    ensures error.Raised? && error.error.AppError? ==> r == error.error
    ensures error.Raised? && error.error.PlainError? ==>
              r == NewAppError(ContextPrefix(context) + error.error.message, Some(UnknownErrorCode), Some(500),
                               Some(error.error))
    ensures error.NotAnError? ==>
              r == NewAppError(ContextPrefix(context) + UnknownErrorMessage, Some(UnknownErrorCode), Some(500), None)
  {
    match error
    case Raised(e) =>
      if e.AppError? then e
      else NewAppError(ContextPrefix(context) + e.message, Some(UnknownErrorCode), Some(500), Some(e))
    case NotAnError =>
      NewAppError(ContextPrefix(context) + UnknownErrorMessage, Some(UnknownErrorCode), Some(500), None)
  }

  /** Handling an already handled error changes nothing, whatever the context: the prefix is
      never added twice. */
  lemma {:induction false} HandleErrorIdempotent(error: Thrown, c1: Option<string>, c2: Option<string>)
    ensures HandleError(Raised(HandleError(error, c1)), c2) == HandleError(error, c1)
  {
  }

  /** A wrapped error keeps the original as its cause and its message after the prefix, and
      reports status 500; an application error keeps its own status. */
  lemma {:induction false} WrappedKeepsOriginal(e: Error, context: Option<string>)
    ensures var r := HandleError(Raised(e), context);
            (e.PlainError? ==> r.cause == Some(e) && r.statusCode == Some(500)
                               && r.message[|ContextPrefix(context)|..] == e.message)
            && (e.AppError? ==> r.statusCode == e.statusCode && r.code == e.code)
  {
  }

  /** Without a context the message is passed on as it is. */
  lemma {:induction false} NoContextNoPrefix(e: Error)
    ensures HandleError(Raised(e), None).message == e.message
    ensures HandleError(Raised(e), Some("")).message == e.message
  {
  }

  /** How a call ends: with a value, or with a throw. */
  datatype Outcome<T> = Returned(value: T) | Threw(thrown: Thrown)

  /** `safe(fn, context, fallback)`: the value `fn` returns, or the fallback (possibly absent)
      when it throws. */
  function Safe<T>(call: Outcome<T>, context: Option<string>, fallback: Option<T>): (r: Option<T>)
    ensures call.Returned? ==> r == Some(call.value)
    ensures call.Threw? ==> r == fallback
  {
    match call
    case Returned(v) => Some(v)
    case Threw(_) => fallback
  }

  /** `safeAsync(fn, context, fallback)`: as `safe`, once the promise settles. A rejected promise
      is a throw. */
  function SafeAsync<T>(settled: Outcome<T>, context: Option<string>, fallback: Option<T>): (r: Option<T>)
    ensures settled.Returned? ==> r == Some(settled.value)
    ensures settled.Threw? ==> r == fallback
  {
    match settled
    case Returned(v) => Some(v)
    case Threw(_) => fallback
  }

  /** The two wrappers agree, and neither depends on the context or on what was thrown. */
  lemma {:induction false} SafeWrappersAgree<T>(call: Outcome<T>, c1: Option<string>, c2: Option<string>, fallback: Option<T>,
                             t: Thrown)
    ensures Safe(call, c1, fallback) == SafeAsync(call, c2, fallback)
    ensures Safe(Threw(t), c1, fallback) == Safe(Threw(NotAnError), c2, fallback)
  {
  }
}

=== FILE: exam_draw.dfy ===
/** The question draw of the exam page (src/app/exam/page.tsx, the loading effect). Questions are
    identified by their position in the loaded pool: `picked.includes(q)` compares object
    references, and distinct pool entries are distinct objects, so the draw works on positions.
    Each of the four `shuffle` calls has its own random source. */
module ExamDraw {
  import opened Seqs
  import opened Questions
  import opened ExamRules
  import Shuffle

  datatype DrawRngs = DrawRngs(singles: Shuffle.Rng, multiples: Shuffle.Rng, rest: Shuffle.Rng, final: Shuffle.Rng)

  function Min(a: nat, b: nat): nat {
    if a <= b then a else b
  }

  /** The pool position holds a question of the given type. */
  function OfType(qs: seq<QuestionItem>, t: QuestionType): nat -> bool {
    (i: nat) => i < |qs| && qs[i].qtype == t
  }

  /** The positions of single- and of multiple-answer questions, in pool order. */
  function Singles(qs: seq<QuestionItem>): seq<nat> {
    Filter(Range(|qs|), OfType(qs, Single))
  }

  function Multiples(qs: seq<QuestionItem>): seq<nat> {
    Filter(Range(|qs|), OfType(qs, Multiple))
  }

  /** `[...pickedSingles, ...pickedMultiples]`: up to `rule.singles` shuffled singles followed by up
      to `rule.multiples` shuffled multiples. */
  function FirstPick(qs: seq<QuestionItem>, rule: ExamRule, rngs: DrawRngs): (picked: seq<nat>)
    ensures |picked| == Min(rule.singles, |Singles(qs)|) + Min(rule.multiples, |Multiples(qs)|)
  {
    Take(Shuffle.Shuffle(Singles(qs), rngs.singles), rule.singles)
      + Take(Shuffle.Shuffle(Multiples(qs), rngs.multiples), rule.multiples)
  }

  /** The top-up from the rest of the pool when fewer than `rule.total` were picked. */
  function TopUp(qs: seq<QuestionItem>, rule: ExamRule, picked: seq<nat>, rng: Shuffle.Rng): (r: seq<nat>)
    ensures |picked| >= rule.total ==> r == picked
    ensures picked <= r
  {
    if |picked| < rule.total then
      var remaining := Shuffle.Shuffle(Complement(|qs|, picked), rng);
      picked + Take(remaining, rule.total - |picked|)
    else picked
  }

  /** The complete draw, as pool positions. */
  function DrawPositions(qs: seq<QuestionItem>, rule: ExamRule, rngs: DrawRngs): seq<nat> {
    var topped := TopUp(qs, rule, FirstPick(qs, rule, rngs), rngs.rest);
    Take(Shuffle.Shuffle(topped, rngs.final), rule.total)
  }

  /** The drawn questions. */
  function Draw(qs: seq<QuestionItem>, rule: ExamRule, rngs: DrawRngs): (picked: seq<QuestionItem>)
    ensures |picked| == |DrawPositions(qs, rule, rngs)|
    ensures forall i :: 0 <= i < |picked| ==>
      DrawPositions(qs, rule, rngs)[i] < |qs| && picked[i] == qs[DrawPositions(qs, rule, rngs)[i]]
  {
    DrawPositionsInPool(qs, rule, rngs);
    AtPositions(qs, DrawPositions(qs, rule, rngs))
  }

  /** The questions at the given pool positions, in order. */
  function AtPositions(qs: seq<QuestionItem>, ps: seq<nat>): (r: seq<QuestionItem>)
    requires forall i :: 0 <= i < |ps| ==> ps[i] < |qs|
    ensures |r| == |ps| && forall i :: 0 <= i < |ps| ==> r[i] == qs[ps[i]]
  {
    seq(|ps|, i requires 0 <= i < |ps| => qs[ps[i]])
  }

  /** A prefix of a shuffle of a duplicate-free list is duplicate-free, and every property all
      elements of the list share holds of the prefix's elements. */
  lemma {:induction false} ShuffledPrefix<T>(a: seq<T>, rng: Shuffle.Rng, n: nat, p: T -> bool)
    requires Distinct(a)
    requires forall i :: 0 <= i < |a| ==> p(a[i])
    ensures Distinct(Take(Shuffle.Shuffle(a, rng), n))
    ensures forall i :: 0 <= i < |Take(Shuffle.Shuffle(a, rng), n)| ==> p(Take(Shuffle.Shuffle(a, rng), n)[i])
  {
    var s := Shuffle.Shuffle(a, rng);
    Shuffle.ShufflePermutes(a, rng);
    DistinctOfPermutation(a, s);
    var t := Take(s, n);
    assert s == t + s[|t|..];
    DistinctOfSubMultiset(t, s);
    forall i | 0 <= i < |t| ensures p(t[i]) {
      assert t[i] == s[i];
      assert s[i] in multiset(s);
      assert s[i] in multiset(a);
      var j :| 0 <= j < |a| && a[j] == s[i];
    }
  }

  /** The filtered pool positions are distinct pool positions satisfying the filter. */
  lemma {:induction false} PoolFilter(qs: seq<QuestionItem>, f: nat -> bool)
    ensures Distinct(Filter(Range(|qs|), f))
    ensures var r: seq<nat> := Filter(Range(|qs|), f); forall i :: 0 <= i < |r| ==> r[i] < |qs| && f(r[i])
  {
    DistinctFilterAndTake(Range(|qs|), f, 0);
    var r := Filter(Range(|qs|), f);
    forall i | 0 <= i < |r| ensures r[i] < |qs| {
      FilterSubMultiset(Range(|qs|), f);
      assert r[i] in multiset(r);
      assert r[i] in multiset(Range(|qs|));
    }
  }

  /** Up to `n` shuffled positions of questions of type `t`. */
  lemma {:induction false} PickOfType(qs: seq<QuestionItem>, t: QuestionType, rng: Shuffle.Rng, n: nat)
    ensures Distinct(Take(Shuffle.Shuffle(Filter(Range(|qs|), OfType(qs, t)), rng), n))
    ensures forall i :: 0 <= i < |Take(Shuffle.Shuffle(Filter(Range(|qs|), OfType(qs, t)), rng), n)| ==>
      OfType(qs, t)(Take(Shuffle.Shuffle(Filter(Range(|qs|), OfType(qs, t)), rng), n)[i])
  {
    PoolFilter(qs, OfType(qs, t));
    ShuffledPrefix(Filter(Range(|qs|), OfType(qs, t)), rng, n, OfType(qs, t));
  }

  /** The first pick holds distinct pool positions, the singles before the multiples. */
  lemma {:induction false} FirstPickFacts(qs: seq<QuestionItem>, rule: ExamRule, rngs: DrawRngs)
    ensures Distinct(FirstPick(qs, rule, rngs))
    ensures forall i :: 0 <= i < |FirstPick(qs, rule, rngs)| ==> FirstPick(qs, rule, rngs)[i] < |qs|
    ensures forall i :: 0 <= i < Min(rule.singles, |Singles(qs)|) ==> OfType(qs, Single)(FirstPick(qs, rule, rngs)[i])
    ensures forall i :: Min(rule.singles, |Singles(qs)|) <= i < |FirstPick(qs, rule, rngs)| ==> OfType(qs, Multiple)(FirstPick(qs, rule, rngs)[i])
  {
    var ps := Take(Shuffle.Shuffle(Singles(qs), rngs.singles), rule.singles);
    var pm := Take(Shuffle.Shuffle(Multiples(qs), rngs.multiples), rule.multiples);
    PickOfType(qs, Single, rngs.singles, rule.singles);
    PickOfType(qs, Multiple, rngs.multiples, rule.multiples);
    TypedBlocks(qs, ps, pm);
    assert FirstPick(qs, rule, rngs) == ps + pm;
    assert |ps| == Min(rule.singles, |Singles(qs)|);
  }

  /** Distinct singles followed by distinct multiples are distinct pool positions, the singles
      first. */
  lemma {:induction false} TypedBlocks(qs: seq<QuestionItem>, ps: seq<nat>, pm: seq<nat>)
    requires Distinct(ps) && Distinct(pm)
    requires forall i :: 0 <= i < |ps| ==> OfType(qs, Single)(ps[i])
    requires forall i :: 0 <= i < |pm| ==> OfType(qs, Multiple)(pm[i])
    ensures Distinct(ps + pm)
    ensures forall i :: 0 <= i < |ps + pm| ==> (ps + pm)[i] < |qs|
    ensures forall i :: 0 <= i < |ps| ==> OfType(qs, Single)((ps + pm)[i])
    ensures forall i :: |ps| <= i < |ps + pm| ==> OfType(qs, Multiple)((ps + pm)[i])
  {
    forall i, j | 0 <= i < |ps| && 0 <= j < |pm| ensures ps[i] != pm[j] {
      assert OfType(qs, Single)(ps[i]);
      assert OfType(qs, Multiple)(pm[j]);
    }
    DistinctAppend(ps, pm);
    forall i | 0 <= i < |ps + pm| ensures (ps + pm)[i] < |qs| {
      if i < |ps| {
        assert OfType(qs, Single)(ps[i]);
      } else {
        assert OfType(qs, Multiple)(pm[i - |ps|]);
      }
    }
  }

  /** The top-up adds distinct pool positions not picked before. */
  lemma {:induction false} TopUpFacts(qs: seq<QuestionItem>, rule: ExamRule, picked: seq<nat>, rng: Shuffle.Rng)
    requires Distinct(picked)
    requires forall i :: 0 <= i < |picked| ==> picked[i] < |qs|
    ensures Distinct(TopUp(qs, rule, picked, rng))
    ensures forall i :: 0 <= i < |TopUp(qs, rule, picked, rng)| ==> TopUp(qs, rule, picked, rng)[i] < |qs|
    ensures |TopUp(qs, rule, picked, rng)| == if |picked| < rule.total then Min(rule.total, |qs|) else |picked|
  {
    if |picked| < rule.total {
      var pool := Complement(|qs|, picked);
      var extra := Take(Shuffle.Shuffle(pool, rng), rule.total - |picked|);
      RangeComplementLength(|qs|, picked);
      ComplementFacts(|qs|, picked);
      var inPool := (x: nat) => x < |qs| && x !in picked;
      ShuffledPrefix(pool, rng, rule.total - |picked|, inPool);
      forall i, j | 0 <= i < |picked| && 0 <= j < |extra| ensures picked[i] != extra[j] {
        assert inPool(extra[j]);
      }
      DistinctAppend(picked, extra);
      assert TopUp(qs, rule, picked, rng) == picked + extra;
    }
  }

  /** Every drawn position is a pool position, and no position is drawn twice. */
  lemma {:induction false} DrawPositionsInPool(qs: seq<QuestionItem>, rule: ExamRule, rngs: DrawRngs)
    ensures Distinct(DrawPositions(qs, rule, rngs))
    ensures forall i :: 0 <= i < |DrawPositions(qs, rule, rngs)| ==> DrawPositions(qs, rule, rngs)[i] < |qs|
  {
    var first := FirstPick(qs, rule, rngs);
    FirstPickFacts(qs, rule, rngs);
    var topped := TopUp(qs, rule, first, rngs.rest);
    TopUpFacts(qs, rule, first, rngs.rest);
    ShuffledPrefix(topped, rngs.final, rule.total, (x: nat) => x < |qs|);
  }

  /** The draw has `min(rule.total, pool size)` questions whenever the rule's singles and
      multiples do not exceed its total (as in every rule of the table). */
  lemma {:induction false} DrawLength(qs: seq<QuestionItem>, rule: ExamRule, rngs: DrawRngs)
    requires rule.singles + rule.multiples <= rule.total
    ensures |DrawPositions(qs, rule, rngs)| == Min(rule.total, |qs|)
  {
    var first := FirstPick(qs, rule, rngs);
    FirstPickFacts(qs, rule, rngs);
    TopUpFacts(qs, rule, first, rngs.rest);
    var v := OfType(qs, Single);
    var w := (x: nat) => !v(x);
    FilterSplitLength(Range(|qs|), v, w);
    assert |Singles(qs)| <= |qs|;
    if |first| >= rule.total {
      // only possible when the first pick fills the rule exactly
      assert |first| == rule.total;
      assert |first| <= |qs| by {
        RangeComplementLength(|qs|, first);
      }
    }
  }

  /** Both the first pick and any permutation of it hold `Min(rule.singles, #singles)` singles
      and `Min(rule.multiples, #multiples)` multiples. */
  lemma {:induction false} FirstPickComposition(qs: seq<QuestionItem>, rule: ExamRule, rngs: DrawRngs, other: seq<nat>)
    ensures multiset(other) == multiset(FirstPick(qs, rule, rngs)) ==>
              |Filter(other, OfType(qs, Single))| == Min(rule.singles, |Singles(qs)|)
              && |Filter(other, OfType(qs, Multiple))| == Min(rule.multiples, |Multiples(qs)|)
  {
    if multiset(other) != multiset(FirstPick(qs, rule, rngs)) {
      return;
    }
    var first := FirstPick(qs, rule, rngs);
    FirstPickFacts(qs, rule, rngs);
    var k := Min(rule.singles, |Singles(qs)|);
    var isS := OfType(qs, Single);
    var isM := OfType(qs, Multiple);
    assert forall i :: k <= i < |first| ==> !isS(first[i]);
    FilterOfTwoBlocks(first, k, isS);
    var notM := (x: nat) => !isM(x);
    assert forall i :: 0 <= i < k ==> notM(first[i]);
    assert forall i :: k <= i < |first| ==> !notM(first[i]);
    FilterOfTwoBlocks(first, k, notM);
    FilterSplitLength(first, notM, isM);
    FilterOfPermutation(first, other, OfType(qs, Single));
    FilterOfPermutation(first, other, OfType(qs, Multiple));
  }

  /** With at least `rule.singles` single- and `rule.multiples` multiple-answer questions in the
      pool and a rule that splits its total exactly, the exam holds exactly `rule.singles` singles
      and `rule.multiples` multiples. */
  lemma {:induction false} DrawComposition(qs: seq<QuestionItem>, rule: ExamRule, rngs: DrawRngs)
    requires rule.singles + rule.multiples == rule.total
    requires |Singles(qs)| >= rule.singles && |Multiples(qs)| >= rule.multiples
    ensures |Filter(DrawPositions(qs, rule, rngs), OfType(qs, Single))| == rule.singles
    ensures |Filter(DrawPositions(qs, rule, rngs), OfType(qs, Multiple))| == rule.multiples
  {
    var first := FirstPick(qs, rule, rngs);
    assert TopUp(qs, rule, first, rngs.rest) == first;
    var shuffled := Shuffle.Shuffle(first, rngs.final);
    Shuffle.ShufflePermutes(first, rngs.final);
    assert DrawPositions(qs, rule, rngs) == shuffled;
    FirstPickComposition(qs, rule, rngs, shuffled);
  }

  /** A pool without repeated questions gives an exam without repeated questions. */
  lemma {:induction false} DrawHasNoDuplicates(qs: seq<QuestionItem>, rule: ExamRule, rngs: DrawRngs)
    requires Distinct(qs)
    ensures Distinct(Draw(qs, rule, rngs))
  {
    DrawPositionsInPool(qs, rule, rngs);
  }

  /** Before the top-up, the pick holds exactly `min(rule.singles, #singles)` singles and
      `min(rule.multiples, #multiples)` multiples. */
  lemma {:induction false} FirstPickBounds(qs: seq<QuestionItem>, rule: ExamRule, rngs: DrawRngs)
    ensures |Filter(FirstPick(qs, rule, rngs), OfType(qs, Single))| == Min(rule.singles, |Singles(qs)|)
    ensures |Filter(FirstPick(qs, rule, rngs), OfType(qs, Multiple))| == Min(rule.multiples, |Multiples(qs)|)
  {
    FirstPickComposition(qs, rule, rngs, FirstPick(qs, rule, rngs));
  }
}

=== FILE: exam_page.dfy ===
/** The page-local state of the exam page (src/app/exam/page.tsx): its own copy of the rule
    table, the start after the draw, position-keyed answers and flags, navigation, submission,
    the countdown display and the persisted answer-card filter. React state is the record
    `PageState`; each handler is a function from the old record to the new one. The clock
    reading `Date.now()` is the parameter `now`. */
module ExamPage {
  import opened Base
  import opened Seqs
  import opened Strings
  import opened Questions
  import opened Indexing
  import opened ExamRules
  import opened Snapshots
  import Scoring
  import Navigator
  import ExamDraw
  import opened AnswerCard
  import ExamStore
  import Countdown

  /** The page's own `RULES` record, written out again beside the shared table. */
  function PageRules(bank: Bank): (r: ExamRule)
    ensures r.singles + r.multiples == r.total
  {
    match bank
    case A => ExamRule(40, 32, 8, 40, 30)
    case B => ExamRule(60, 45, 15, 60, 45)
    case C => ExamRule(90, 70, 20, 90, 70)
  }

  /** The duplicated table agrees with the shared one, bank by bank. */
  lemma {:induction false} PageRulesAgree(bank: Bank)
    ensures PageRules(bank) == Rules(bank)
  {
  }

  /** `RULES[bankParam ?? "A"] ?? RULES.A`: the rule of the requested bank, the inherited member
      for a name every object carries, class A's rule for a missing or any other bank. */
  function PageRule(bankParam: Option<string>): (r: RuleLookup)
    ensures r.InheritedMember? <==> bankParam.Some? && bankParam.value in InheritedNames
    ensures bankParam.Some? && ParseBank(bankParam.value).Some? ==> r == TableRule(Rules(ParseBank(bankParam.value).value))
    ensures bankParam.None? || (ParseBank(bankParam.value).None? && bankParam.value !in InheritedNames) ==>
      r == TableRule(Rules(A))
  {
    var name := bankParam.GetOr("A");
    if name in InheritedNames then InheritedMember(name)
    else match ParseBank(name)
      case Some(b) => TableRule(PageRules(b))
      case None => TableRule(PageRules(A))
  }

  /** The page resolves a bank parameter to the same rule as `getRule`. */
  lemma {:induction false} PageRuleIsGetRule(bankParam: Option<string>)
    ensures PageRule(bankParam) == GetRule(bankParam.GetOr("A"))
  {
  }

  /** A JavaScript number of milliseconds: an integer, or `NaN` once `undefined` entered the
      arithmetic. */
  datatype Millis = Ms(ms: int) | NaN

  /** `a + d` on milliseconds: `NaN` stays `NaN`. */
  function After(now: int, d: Millis): Millis {
    match d
    case Ms(ms) => Ms(now + ms)
    case NaN => NaN
  }

  datatype PageState = PageState(
    loading: bool,
    questions: seq<QuestionItem>,
    index: int,
    answers: Answers,
    finished: bool,
    endAtMs: Option<Millis>,
    remainingMs: Millis,
    resultOpen: bool,
    flags: ExamStore.Flags,
    filter: CardFilter)

  /** The state on first render. */
  function Initial(): (s: PageState)
    ensures s.loading && s.questions == [] && s.index == 0 && s.answers == map[] && s.flags == map[]
    ensures !s.finished && !s.resultOpen && s.endAtMs == None && s.remainingMs == Ms(0) && s.filter == All
  {
    PageState(true, [], 0, map[], false, None, Ms(0), false, map[], All)
  }

  /** The deadline as `useCountdown` sees it: `if (!endAtMs)` treats `NaN` like `null`. */
  function TimerDeadline(endAtMs: Option<Millis>): (d: Option<int>)
    ensures d.Some? <==> endAtMs.Some? && endAtMs.value.Ms?
    ensures d.Some? ==> d.value == endAtMs.value.ms
  {
    match endAtMs
    case Some(Ms(ms)) => Some(ms)
    case _ => None
  }

  /** The loading effect once `loadQuestions` has answered: on success the questions drawn from
      the pool, on failure only the loading flag drops. With an inherited member for a rule,
      `rule.singles`, `rule.multiples`, `rule.total` and `rule.minutes` are `undefined`:
      `Math.min(undefined, n)` is `NaN`, `slice(0, NaN)` is empty, `0 < undefined` is false and
      `slice(0, undefined)` keeps the empty list, so the paper is empty and the duration `NaN`. */
  function Start(s: PageState, loaded: Option<seq<QuestionItem>>, rule: RuleLookup, rngs: ExamDraw.DrawRngs, now: int): (r: PageState)
    ensures !r.loading
    ensures loaded.None? ==> r == s.(loading := false)
    ensures loaded.Some? && rule.InheritedMember? ==> r.questions == [] && r.endAtMs == Some(NaN) && r.remainingMs == NaN
  {
    match loaded
    case None => s.(loading := false)
    case Some(pool) =>
      match rule
      case TableRule(x) => Begin(s, ExamDraw.Draw(pool, x, rngs), Ms(x.minutes * 60 * 1000), now)
      case InheritedMember(_) => Begin(s, [], NaN, now)
  }

  /** The drawn questions in place: from the first one, with empty answers and flags and a
      deadline `duration` after `now`; the result sheet, the finished flag and the card filter
      are left as they were. */
  function Begin(s: PageState, drawn: seq<QuestionItem>, duration: Millis, now: int): (r: PageState)
    ensures !r.loading && r.questions == drawn
    ensures r.index == 0 && r.answers == map[] && r.flags == map[]
    ensures r.remainingMs == duration
    ensures duration.Ms? ==> r.endAtMs == Some(Ms(now + duration.ms))
    ensures duration.NaN? ==> r.endAtMs == Some(NaN)
    ensures r.finished == s.finished && r.resultOpen == s.resultOpen && r.filter == s.filter
  {
    s.(loading := false, questions := drawn, index := 0, answers := map[], flags := map[],
       endAtMs := Some(After(now, duration)), remainingMs := duration)
  }

  /** With a rule from the table, the exam holds `min(rule.total, pool size)` questions, each
      from the pool, and none twice when the pool has no repeats; its deadline is
      `rule.minutes` minutes after `now`. */
  lemma {:induction false} StartDrawsFromPool(s: PageState, pool: seq<QuestionItem>, bank: Bank, rngs: ExamDraw.DrawRngs, now: int)
    ensures |Start(s, Some(pool), TableRule(Rules(bank)), rngs, now).questions| == ExamDraw.Min(Rules(bank).total, |pool|)
    ensures forall i :: 0 <= i < |Start(s, Some(pool), TableRule(Rules(bank)), rngs, now).questions| ==>
      Start(s, Some(pool), TableRule(Rules(bank)), rngs, now).questions[i] in pool
    ensures Distinct(pool) ==> Distinct(Start(s, Some(pool), TableRule(Rules(bank)), rngs, now).questions)
    ensures Start(s, Some(pool), TableRule(Rules(bank)), rngs, now).endAtMs == Some(Ms(now + Rules(bank).minutes * 60000))
  {
    var rule := Rules(bank);
    var qs := ExamDraw.Draw(pool, rule, rngs);
    assert Start(s, Some(pool), TableRule(rule), rngs, now).questions == qs;
    ExamDraw.DrawLength(pool, rule, rngs);
    if Distinct(pool) {
      ExamDraw.DrawHasNoDuplicates(pool, rule, rngs);
    }
    forall i | 0 <= i < |qs| ensures qs[i] in pool {
      var p := ExamDraw.DrawPositions(pool, rule, rngs)[i];
      assert qs[i] == pool[p];
    }
  }

  /** A bank parameter naming an inherited member gives an empty paper whose `NaN` deadline never
      starts the countdown, however large the pool. */
  lemma {:induction false} InheritedBankNeverTimes(s: PageState, pool: seq<QuestionItem>, name: string, rngs: ExamDraw.DrawRngs, now: int)
    requires name in InheritedNames
    ensures Start(s, Some(pool), PageRule(Some(name)), rngs, now).questions == []
    ensures !Countdown.Arms(TimerDeadline(Start(s, Some(pool), PageRule(Some(name)), rngs, now).endAtMs))
  {
  }

  /** `questions[index]`. */
  function Current(s: PageState): (q: Option<QuestionItem>)
    ensures q.Some? <==> 0 <= s.index < |s.questions|
    ensures q.Some? ==> q.value == s.questions[s.index]
  {
    if 0 <= s.index < |s.questions| then Some(s.questions[s.index]) else None
  }

  /** `current ? answers[String(index)] ?? [] : []`. */
  function Selected(s: PageState): (sel: seq<string>)
    ensures Current(s).None? ==> sel == []
    ensures Current(s).Some? ==> sel == Lookup(s.answers, PositionKey(s.index))
  {
    if 0 <= s.index < |s.questions| then Lookup(s.answers, PositionKey(s.index)) else []
  }

  /** `setCurrentAnswer(keys)`: nothing without a current question; otherwise only the entry under
      the current position changes. `finished` is not consulted. */
  function SetCurrentAnswer(s: PageState, keys: seq<string>): (r: PageState)
    ensures Current(s).None? ==> r == s
    ensures Current(s).Some? ==> r.answers == s.answers[PositionKey(s.index) := keys]
    ensures r.(answers := s.answers) == s
  {
    if 0 <= s.index < |s.questions| then s.(answers := s.answers[PositionKey(s.index) := keys]) else s
  }

  /** What was set is what is selected. */
  lemma {:induction false} SetThenSelected(s: PageState, keys: seq<string>)
    requires Current(s).Some?
    ensures Selected(SetCurrentAnswer(s, keys)) == keys
  {
  }

  function Next(s: PageState): (r: PageState)
    ensures r.(index := s.index) == s
    ensures r.index == NextIndex(s.index, |s.questions|)
  {
    s.(index := NextIndex(s.index, |s.questions|))
  }

  function Prev(s: PageState): (r: PageState)
    ensures r.(index := s.index) == s
    ensures r.index == PrevIndex(s.index)
  {
    s.(index := PrevIndex(s.index))
  }

  /** `submit()` and the countdown's `onElapsed`: both only finish the exam and open the result. */
  function Submit(s: PageState): (r: PageState)
    ensures r.finished && r.resultOpen
    ensures r.(finished := s.finished, resultOpen := s.resultOpen) == s
  {
    s.(finished := true, resultOpen := true)
  }

  /** Submitting (or expiring) twice is submitting once. */
  lemma {:induction false} SubmitIdempotent(s: PageState)
    ensures Submit(Submit(s)) == Submit(s)
  {
  }

  /** Answers are not frozen: after submission the current answer can still be replaced, and the
      exam stays finished. */
  lemma {:induction false} AnswerAfterSubmit(s: PageState, keys: seq<string>)
    requires Current(s).Some?
    ensures var r := SetCurrentAnswer(Submit(s), keys);
      r.finished && Selected(r) == keys
  {
  }

  /** The key getter of the page: `String(i)`, whatever the question. */
  function PositionKeyOf(q: QuestionItem, i: nat): string {
    PositionKey(i)
  }

  /** The score memo: positions graded by sorted equality under `String(i)`. */
  method PageScore(s: PageState) returns (score: Scoring.Score)
    ensures score.total == |s.questions|
    ensures score.correct == Scoring.Correct(s.questions, s.answers, PositionKeyOf)
    ensures score.correct <= score.total
  {
    score := Scoring.CalculateScore(s.questions, s.answers, PositionKeyOf);
  }

  /** `passed`: at least the rule's pass mark. */
  predicate Passed(s: PageState, rule: ExamRule) {
    Scoring.IsPassed(Scoring.Correct(s.questions, s.answers, PositionKeyOf), rule.pass)
  }

  /** Passing means at least `rule.pass` positions graded correct, which needs at least that many
      questions. */
  lemma {:induction false} PassedIff(s: PageState, rule: ExamRule)
    ensures Passed(s, rule) <==> Scoring.Correct(s.questions, s.answers, PositionKeyOf) >= rule.pass
    ensures Passed(s, rule) ==> rule.pass <= |s.questions|
  {
    assert |Scoring.Verdicts(s.questions, s.answers, PositionKeyOf)| == |s.questions|;
  }

  /** The page score is the score of the navigator's position strategy. */
  lemma {:induction false} PageScoreIsPositional(s: PageState)
    ensures forall i :: 0 <= i < |s.questions| ==>
      PositionKeyOf(s.questions[i], i) == Navigator.KeyOf(Navigator.Position, Some(s.questions[i]), i)
  {
  }

  /** Per position: answered under `String(i)`. */
  function AnsweredFlags(s: PageState): (v: seq<bool>)
    ensures |v| == |s.questions|
    ensures forall i :: 0 <= i < |v| ==> (v[i] <==> Answered(s.answers, PositionKey(i)))
  {
    seq(|s.questions|, i requires 0 <= i < |s.questions| => Answered(s.answers, PositionKey(i)))
  }

  /** The `answeredCount` memo: positions whose entry is a non-empty array. */
  method AnsweredCount(s: PageState) returns (c: nat)
    ensures c == CountTrue(AnsweredFlags(s))
    ensures c <= |s.questions|
  {
    ghost var v := AnsweredFlags(s);
    c := 0;
    var i := 0;
    while i < |s.questions|
      invariant 0 <= i <= |s.questions|
      invariant c == CountTrue(v[..i])
    {
      var answered := |Lookup(s.answers, PositionKey(i))| > 0;
      CountPrefixStep(v, i);
      assert v[i] == answered;
      if answered {
        c := c + 1;
      }
      i := i + 1;
    }
    assert v[..i] == v;
  }

  /** The page counts exactly what the navigator hook counts under the position strategy. */
  lemma {:induction false} AnsweredCountIsNavigators(s: PageState)
    ensures AnsweredFlags(s) == Navigator.AnsweredFlags(s.questions, Navigator.Position, s.answers)
  {
  }

  /** `toggleFlagCurrent()`: without a current question nothing changes; otherwise the flag under
      `String(index)` is negated and every other entry is kept. */
  function ToggleFlagCurrent(s: PageState): (r: PageState)
    ensures Current(s).None? ==> r == s
    ensures Current(s).Some? ==>
      PositionKey(s.index) in r.flags && r.flags[PositionKey(s.index)] == !ExamStore.FlagOf(s.flags, PositionKey(s.index))
    ensures Current(s).Some? ==>
      forall k :: k != PositionKey(s.index) ==> (k in r.flags <==> k in s.flags)
    ensures Current(s).Some? ==>
      forall k :: k != PositionKey(s.index) && k in s.flags ==> r.flags[k] == s.flags[k]
    ensures r.(flags := s.flags) == s
  {
    if 0 <= s.index < |s.questions| then
      var key := PositionKey(s.index);
      s.(flags := s.flags[key := !ExamStore.FlagOf(s.flags, key)])
    else s
  }

  /** Toggling twice restores every flag's reading; the map itself is restored exactly when the
      key was present before (an absent key comes back as an explicit `false`). */
  lemma {:induction false} ToggleTwice(s: PageState)
    requires Current(s).Some?
    ensures forall k :: ExamStore.FlagOf(ToggleFlagCurrent(ToggleFlagCurrent(s)).flags, k) == ExamStore.FlagOf(s.flags, k)
    ensures ToggleFlagCurrent(ToggleFlagCurrent(s)) == s <==> PositionKey(s.index) in s.flags
  {
    var key := PositionKey(s.index);
    var r := ToggleFlagCurrent(ToggleFlagCurrent(s));
    if key in s.flags {
      assert r.flags == s.flags;
    } else {
      assert key in r.flags;
    }
  }

  /** `onSelectDigit(n)`: the key of option `n` (counting from 1) becomes the whole answer of the
      current question; a digit without such an option, or no current question, changes nothing.
      `finished` is not consulted. */
  function SelectDigit(s: PageState, n: int): (r: PageState)
    ensures Current(s).Some? && 1 <= n <= |Current(s).value.options| ==>
      r == SetCurrentAnswer(s, [Current(s).value.options[n - 1].key])
    ensures !(Current(s).Some? && 1 <= n <= |Current(s).value.options|) ==> r == s
  {
    if 0 <= s.index < |s.questions| && 1 <= n <= |s.questions[s.index].options| then
      SetCurrentAnswer(s, [s.questions[s.index].options[n - 1].key])
    else s
  }

  /** A digit selection is a single-key answer and is selected afterwards. */
  lemma {:induction false} SelectDigitSelects(s: PageState, n: int)
    requires Current(s).Some? && 1 <= n <= |Current(s).value.options|
    ensures |Selected(SelectDigit(s, n))| == 1
    ensures Selected(SelectDigit(s, n))[0] == Current(s).value.options[n - 1].key
  {
  }

  /** The clock reading of a number of milliseconds: whole seconds (negative clamped to 0) split
      into hours, minutes and seconds. */
  datatype Clock = Clock(h: nat, m: nat, sec: nat)

  function TotalSeconds(ms: int): (t: nat)
    ensures ms <= 0 ==> t == 0
    ensures ms >= 0 ==> t * 1000 <= ms < t * 1000 + 1000
  {
    if ms / 1000 > 0 then ms / 1000 else 0
  }

  function ClockOf(ms: int): (c: Clock)
    ensures c.m < 60 && c.sec < 60
    ensures 3600 * c.h + 60 * c.m + c.sec == TotalSeconds(ms)
  {
    var t := TotalSeconds(ms);
    Clock(t / 3600, (t % 3600) / 60, t % 60)
  }

  predicate AllDigits(s: string) {
    forall i :: 0 <= i < |s| ==> IsDigit(s[i])
  }

  /** `String(n).padStart(2, "0")`: the digits of `n`, two of them below 100. */
  function Pad(n: nat): (r: string)
    ensures n < 100 ==> |r| == 2
    ensures |r| >= 2
    ensures AllDigits(r)
    ensures DecimalValue(r) == n
  {
    PaddedReadsBack(n);
    PadStart2(NatToString(n))
  }

  /** The text of a clock reading: `HH:MM:SS` from one hour on, `MM:SS` below. */
  function FormatClock(c: Clock): string {
    if c.h > 0 then Pad(c.h) + ":" + Pad(c.m) + ":" + Pad(c.sec)
    else Pad(c.m) + ":" + Pad(c.sec)
  }

  /** `formatMs(ms)`: five characters `MM:SS` below one hour, at least eight `HH:MM:SS` from one
      hour on. */
  function FormatMs(ms: int): (r: string)
    ensures |r| == 5 <==> ms < 3600000
    ensures |r| >= 8 <==> ms >= 3600000
  {
    HourFromMs(ms);
    FormatClock(ClockOf(ms))
  }

  /** A clock reading shows hours exactly from 3,600,000 ms on. */
  lemma {:induction false} HourFromMs(ms: int)
    ensures ClockOf(ms).h > 0 <==> ms >= 3600000
  {
    var t := TotalSeconds(ms);
    assert ClockOf(ms).h > 0 <==> t >= 3600;
    if ms >= 3600000 {
      assert t * 1000 > ms - 1000 >= 3599000;
    }
  }

  /** `a:b` with two-character `a` and `b` splits back into them. */
  lemma {:induction false} Slices2(r: string, a: string, b: string)
    requires |a| == 2 && |b| == 2 && AllDigits(a) && AllDigits(b)
    requires r == a + ":" + b
    ensures |r| == 5 && r[2] == ':' && AllDigits(r[..2]) && AllDigits(r[3..])
      && DecimalValue(r[..2]) == DecimalValue(a) && DecimalValue(r[3..]) == DecimalValue(b)
  {
    assert r[..2] == a;
    assert r[3..] == b;
  }

  /** `a:b:c` with two-character `b` and `c` splits back into them. */
  lemma {:induction false} Slices3(r: string, a: string, b: string, c: string)
    requires |b| == 2 && |c| == 2 && AllDigits(a) && AllDigits(b) && AllDigits(c)
    requires r == a + ":" + b + ":" + c
    ensures var n := |r|;
      n == |a| + 6 && r[n - 6] == ':' && r[n - 3] == ':'
      && AllDigits(r[..n - 6]) && AllDigits(r[n - 5..n - 3]) && AllDigits(r[n - 2..])
      && DecimalValue(r[..n - 6]) == DecimalValue(a) && DecimalValue(r[n - 5..n - 3]) == DecimalValue(b)
      && DecimalValue(r[n - 2..]) == DecimalValue(c)
  {
    var n := |r|;
    assert r[..n - 6] == a;
    assert r[n - 5..n - 3] == b;
    assert r[n - 2..] == c;
  }

  /** Below one hour the text is `MM:SS`: two digit groups around one colon, below 60 each, reading
      back as the whole seconds. */
  lemma {:induction false} FormatMsShort(ms: int)
    requires ClockOf(ms).h == 0
    ensures var r := FormatMs(ms);
      |r| == 5 && r[2] == ':' && AllDigits(r[..2]) && AllDigits(r[3..])
      && DecimalValue(r[..2]) < 60 && DecimalValue(r[3..]) < 60
      && 60 * DecimalValue(r[..2]) + DecimalValue(r[3..]) == TotalSeconds(ms)
  {
    var c := ClockOf(ms);
    Slices2(FormatMs(ms), Pad(c.m), Pad(c.sec));
  }

  /** A clock reading of at least an hour prints as three digit groups that read back as it. */
  lemma {:induction false} LongClockReadsBack(c: Clock)
    requires c.h > 0 && c.m < 60 && c.sec < 60
    ensures var r := FormatClock(c); var n := |r|;
      n >= 8 && r[n - 6] == ':' && r[n - 3] == ':'
      && AllDigits(r[..n - 6]) && AllDigits(r[n - 5..n - 3]) && AllDigits(r[n - 2..])
      && DecimalValue(r[..n - 6]) == c.h && DecimalValue(r[n - 5..n - 3]) == c.m && DecimalValue(r[n - 2..]) == c.sec
  {
    Slices3(FormatClock(c), Pad(c.h), Pad(c.m), Pad(c.sec));
  }

  /** `H:MM:SS` text of `t` seconds: at least two hour digits, then minutes and seconds below 60
      in two digits each, the three groups reading back as `t`. */
  predicate LongClockText(r: string, t: nat) {
    var n := |r|;
      n >= 8 && r[n - 6] == ':' && r[n - 3] == ':'
      && AllDigits(r[..n - 6]) && AllDigits(r[n - 5..n - 3]) && AllDigits(r[n - 2..])
      && DecimalValue(r[n - 5..n - 3]) < 60 && DecimalValue(r[n - 2..]) < 60
      && 3600 * DecimalValue(r[..n - 6]) + 60 * DecimalValue(r[n - 5..n - 3]) + DecimalValue(r[n - 2..]) == t
  }

  /** From one hour on the text is `H:MM:SS` with at least two hour digits, reading back as the
      whole seconds. */
  lemma {:induction false} FormatMsLong(ms: int)
    requires ClockOf(ms).h > 0
    ensures LongClockText(FormatMs(ms), TotalSeconds(ms))
  {
    LongTextReadsBack(FormatMs(ms), ClockOf(ms), TotalSeconds(ms));
  }

  /** The text of a clock reading of at least an hour reads back as its whole seconds. */
  lemma {:induction false} LongTextReadsBack(r: string, c: Clock, t: nat)
    requires c.h > 0 && c.m < 60 && c.sec < 60 && r == FormatClock(c) && 3600 * c.h + 60 * c.m + c.sec == t
    ensures LongClockText(r, t)
  {
    LongClockReadsBack(c);
  }

  /** Storage key of the answer-card filter preference. */
  function FilterKey(bankParam: string): (k: string)
    ensures StartsWith(k, "exam:answerCardFilter:") && k[22..] == bankParam
  {
    "exam:answerCardFilter:" + bankParam
  }

  function FilterText(f: CardFilter): string {
    match f
    case All => "all"
    case Unanswered => "unanswered"
    case Flagged => "flagged"
  }

  /** The preference effect: one of the three stored names, `all` for anything else. */
  function LoadFilter(storage: Storage, bankParam: string): (f: CardFilter)
    ensures f != All ==> FilterKey(bankParam) in storage && storage[FilterKey(bankParam)] == Raw(FilterText(f))
  {
    var key := FilterKey(bankParam);
    if key in storage && storage[key] == Raw("unanswered") then Unanswered
    else if key in storage && storage[key] == Raw("flagged") then Flagged
    else All
  }

  /** `setFilterAndPersist(v)`. */
  function SaveFilter(s: PageState, storage: Storage, bankParam: string, f: CardFilter): (r: (PageState, Storage))
    ensures r.0 == s.(filter := f)
    ensures r.1 == storage[FilterKey(bankParam) := Raw(FilterText(f))]
  {
    (s.(filter := f), storage[FilterKey(bankParam) := Raw(FilterText(f))])
  }

  /** A persisted choice is what the next visit of the same bank loads, and other banks keep
      theirs. */
  lemma {:induction false} FilterRoundTrip(s: PageState, storage: Storage, bankParam: string, other: string, f: CardFilter)
    requires other != bankParam
    ensures LoadFilter(SaveFilter(s, storage, bankParam, f).1, bankParam) == f
    ensures LoadFilter(SaveFilter(s, storage, bankParam, f).1, other) == LoadFilter(storage, other)
  {
    assert FilterKey(other)[22..] != FilterKey(bankParam)[22..];
  }
}

=== FILE: exam_rules.dfy ===
/** The per-bank exam rules (src/lib/exam-rules.ts). */
module ExamRules {
  import opened Base
  import opened Questions

  /** Number of questions, how many are single- and multiple-answer, minutes allowed, pass mark. */
  datatype ExamRule = ExamRule(total: nat, singles: nat, multiples: nat, minutes: nat, pass: nat)

  /** `RULES[bank]`: every rule splits its total exactly into singles and multiples, and its pass
      mark is reachable. */
  function Rules(bank: Bank): (r: ExamRule)
    ensures r.singles + r.multiples == r.total
    ensures r.pass <= r.total
    ensures 0 < r.minutes
  {
    match bank
    case A => ExamRule(40, 32, 8, 40, 30)
    case B => ExamRule(60, 45, 15, 60, 45)
    case C => ExamRule(90, 70, 20, 90, 70)
  }

  /** The table's values, bank by bank. */
  lemma {:induction false} RulesTable()
    ensures Rules(A) == ExamRule(40, 32, 8, 40, 30)
    ensures Rules(B) == ExamRule(60, 45, 15, 60, 45)
    ensures Rules(C) == ExamRule(90, 70, 20, 90, 70)
  {
  }

  /** The names every JavaScript object inherits from `Object.prototype`. Indexing `RULES` with
      one of them yields that member, which is not nullish, so `?? RULES.A` does not step in. */
  const InheritedNames: set<string> := {"constructor", "__proto__", "toString", "toLocaleString",
    "valueOf", "hasOwnProperty", "isPrototypeOf", "propertyIsEnumerable", "__defineGetter__",
    "__defineSetter__", "__lookupGetter__", "__lookupSetter__"}

  /** What `RULES[bank] ?? RULES.A` yields: a rule of the table, or an inherited member, which has
      none of a rule's fields. */
  datatype RuleLookup = TableRule(rule: ExamRule) | InheritedMember(name: string)

  /** `getRule(bank)`: the rule of a known bank, the inherited member for a name every object
      carries, class A's rule for any other string. */
  function GetRule(bank: string): (r: RuleLookup)
    ensures r.InheritedMember? <==> bank in InheritedNames
    ensures r.InheritedMember? ==> r.name == bank
    ensures ParseBank(bank).Some? ==> r == TableRule(Rules(ParseBank(bank).value))
    ensures ParseBank(bank).None? && bank !in InheritedNames ==> r == TableRule(Rules(A))
    ensures r.TableRule? ==> r.rule.singles + r.rule.multiples == r.rule.total && r.rule.pass <= r.rule.total
  {
    if bank in InheritedNames then InheritedMember(bank)
    else match ParseBank(bank)
      case Some(b) => TableRule(Rules(b))
      case None => TableRule(Rules(A))
  }
}

=== FILE: exam_storage.dfy ===
/** Persistence of a running exam (src/lib/exam-storage.ts). The clock reading `Date.now()` is
    the parameter `now`. */
module ExamStorage {
  import opened Base
  import opened Strings
  import opened Snapshots

  const Prefix: string := "exam:savedState:"

  /** `bank ?? "default"`. */
  function BankOrDefault(bank: Option<string>): string {
    bank.GetOr("default")
  }

  /** `exam:savedState:<bank>`, with `default` for a missing bank. */
  function StorageKey(bank: Option<string>): (k: string)
    ensures StartsWith(k, Prefix) && k[|Prefix|..] == BankOrDefault(bank)
  {
    Prefix + BankOrDefault(bank)
  }

  /** Two banks share a key exactly when their names (with `default` for none) agree, so a bank
      literally named `default` shares the key of the missing bank. */
  lemma {:induction false} StorageKeyInjective(b1: Option<string>, b2: Option<string>)
    ensures StorageKey(b1) == StorageKey(b2) <==> BankOrDefault(b1) == BankOrDefault(b2)
  {
    if StorageKey(b1) == StorageKey(b2) {
      assert StorageKey(b1)[|Prefix|..] == StorageKey(b2)[|Prefix|..];
    }
  }

  /** The conditions under which a stored record is handed back. */
  predicate Usable(e: ExamSaved, now: int) {
    e.version == 1 && e.endAtMs.Some? && e.endAtMs.value != 0 && e.endAtMs.value > now
  }

  /** `loadExamSavedState(bank)`: the stored record, or nothing when the key is absent, the value
      is not an exam record, its version is not 1, or its deadline is missing, zero or passed. */
  function Load(storage: Storage, bank: Option<string>, now: int): (r: Option<ExamSaved>)
    ensures r.Some? <==> StorageKey(bank) in storage && storage[StorageKey(bank)].ExamRecord?
                         && Usable(storage[StorageKey(bank)].exam, now)
    ensures r.Some? ==> r.value == storage[StorageKey(bank)].exam
  {
    var key := StorageKey(bank);
    if key !in storage then None
    else match storage[key]
      case ExamRecord(e) => if Usable(e, now) then Some(e) else None
      case _ => None
  }

  /** `saveExamState(state)`: writes the record under its bank's key. */
  function Save(storage: Storage, state: ExamSaved): (r: Storage)
    ensures StorageKey(Some(state.bank)) in r
    ensures forall k :: k != StorageKey(Some(state.bank)) ==> (k in r <==> k in storage)
    ensures forall k :: k != StorageKey(Some(state.bank)) && k in storage ==> r[k] == storage[k]
  {
    storage[StorageKey(Some(state.bank)) := ExamRecord(state)]
  }

  /** `clearExamSavedState(bank)`: removes the bank's key only. */
  function Clear(storage: Storage, bank: Option<string>): (r: Storage)
    ensures StorageKey(bank) !in r
    ensures forall k :: k != StorageKey(bank) ==> (k in r <==> k in storage)
    ensures forall k :: k != StorageKey(bank) && k in storage ==> r[k] == storage[k]
  {
    storage - {StorageKey(bank)}
  }

  /** Saving then loading the same bank returns the saved record exactly when it is of version 1
      with a deadline still ahead. */
  lemma {:induction false} SaveThenLoad(storage: Storage, state: ExamSaved, now: int)
    ensures Load(Save(storage, state), Some(state.bank), now) == (if Usable(state, now) then Some(state) else None)
  {
  }

  /** Saving one bank leaves the loads of banks with other names as they were. */
  lemma {:induction false} SaveKeepsOtherBanks(storage: Storage, state: ExamSaved, bank: Option<string>, now: int)
    requires BankOrDefault(bank) != state.bank
    ensures Load(Save(storage, state), bank, now) == Load(storage, bank, now)
  {
    StorageKeyInjective(bank, Some(state.bank));
  }

  /** After clearing, nothing loads. */
  lemma {:induction false} ClearThenLoad(storage: Storage, bank: Option<string>, now: int)
    ensures Load(Clear(storage, bank), bank, now) == None
  {
  }

  /** A record that loads at some time also loads at every earlier time, and stops loading once
      its deadline is reached. */
  lemma {:induction false} LoadExpires(storage: Storage, bank: Option<string>, t1: int, t2: int)
    requires t1 <= t2
    requires Load(storage, bank, t2).Some?
    ensures Load(storage, bank, t1) == Load(storage, bank, t2)
    ensures Load(storage, bank, Load(storage, bank, t2).value.endAtMs.value) == None
  {
  }

  /** `shouldResumeExam(saved)` at time `now`. */
  function ShouldResumeExam(saved: ExamSaved, now: int): (b: bool)
    ensures saved.endAtMs.Some? && saved.endAtMs.value <= now ==> !b
    ensures PresentCount(saved.answersByPosition) == 0 && saved.index <= 0 ==> !b
    ensures saved.total <= 0 ==> !b
  {
    if saved.endAtMs.Some? && saved.endAtMs.value <= now then false
    else if PresentCount(saved.answersByPosition) < 1 && saved.index <= 0 then false
    else if saved.total <= 0 then false
    else true
  }

  /** The three refusals are the only ones: a snapshot with time left, something answered or a
      position past the first, and a positive total is resumed. An entry `[]` counts as answered. */
  lemma {:induction false} ShouldResumeExamIff(saved: ExamSaved, now: int)
    ensures ShouldResumeExam(saved, now) <==>
      !(saved.endAtMs.Some? && saved.endAtMs.value <= now)
      && ((exists i :: 0 <= i < |saved.answersByPosition| && saved.answersByPosition[i].Some?) || saved.index > 0)
      && saved.total > 0
  {
    if PresentCount(saved.answersByPosition) > 0 {
      var i :| 0 <= i < |saved.answersByPosition| && saved.answersByPosition[i].Some?;
    }
  }

  /** An untouched snapshot with one empty answer `[]` still qualifies. */
  lemma {:induction false} EmptyAnswerCounts(e: ExamSaved, now: int)
    requires e.endAtMs == Some(now + 1) && e.index == 0 && e.total == 1
    requires e.answersByPosition == [Some([])]
    ensures ShouldResumeExam(e, now)
  {
    assert e.answersByPosition[0].Some?;
  }
}

=== FILE: exam_store.dfy ===
/** The exam store (src/store/exam.ts): the state of one timed exam and its actions, written as
    functions from the old state to the new one. The clock reading of `startExam` is a parameter. */
module ExamStore {
  import opened Base
  import opened Questions
  import opened Indexing

  type Flags = map<string, bool>

  datatype ExamState = ExamState(
    bank: Option<Bank>,
    questions: seq<QuestionItem>,
    answers: Answers,
    flags: Flags,
    currentIndex: int,
    finished: bool,
    endAtMs: Option<int>,
    startTime: Option<int>)

  /** `initialState`. */
  function Initial(): (s: ExamState)
    ensures s.bank == None && s.questions == [] && s.answers == map[] && s.flags == map[]
    ensures s.currentIndex == 0 && !s.finished && s.endAtMs == None && s.startTime == None
  {
    ExamState(None, [], map[], map[], 0, false, None, None)
  }

  /** `flags.get(key)` read as a boolean: an absent key is not flagged. */
  function FlagOf(flags: Flags, key: string): bool {
    key in flags && flags[key]
  }

  /** `currentQuestion()`: `questions[currentIndex]`, undefined outside the list. */
  function CurrentQuestion(s: ExamState): (q: Option<QuestionItem>)
    ensures q.Some? <==> 0 <= s.currentIndex < |s.questions|
    ensures q.Some? ==> q.value == s.questions[s.currentIndex]
  {
    if 0 <= s.currentIndex < |s.questions| then Some(s.questions[s.currentIndex]) else None
  }

  /** The keys whose answer is non-empty. */
  function AnsweredKeys(answers: Answers): (ks: set<string>)
    ensures forall k :: k in ks <==> k in answers && |answers[k]| > 0
  {
    set k | k in answers && |answers[k]| > 0
  }

  /** `answeredCount()`: the number of stored answers that are non-empty arrays. */
  function AnsweredCount(s: ExamState): (c: nat)
    ensures c <= |s.answers|
  {
    AnsweredKeysWithin(s.answers);
    |AnsweredKeys(s.answers)|
  }

  lemma {:induction false} AnsweredKeysWithin(answers: Answers)
    ensures |AnsweredKeys(answers)| <= |answers|
  {
    assert AnsweredKeys(answers) <= answers.Keys;
    SubsetCard(AnsweredKeys(answers), answers.Keys);
  }

  lemma {:induction false} SubsetCard<T>(a: set<T>, b: set<T>)
    requires a <= b
    ensures |a| <= |b|
  {
    assert b == a + (b - a);
  }

  /** The keys flagged `true`. */
  function FlaggedKeys(flags: Flags): (ks: set<string>)
    ensures forall k :: k in ks <==> FlagOf(flags, k)
  {
    set k | k in flags && flags[k]
  }

  /** `flaggedCount()`: the number of entries flagged `true`. */
  function FlaggedCount(s: ExamState): (c: nat)
    ensures c <= |s.flags|
  {
    assert FlaggedKeys(s.flags) <= s.flags.Keys;
    SubsetCard(FlaggedKeys(s.flags), s.flags.Keys);
    |FlaggedKeys(s.flags)|
  }

  /** The key `isCurrentFlagged` reads: the id when non-empty, else `codes.J` when non-empty, else
      the index. */
  function FlagKey(q: QuestionItem, index: nat): (k: string)
    ensures q.id.Some? && q.id.value != "" ==> k == q.id.value
    ensures !(q.id.Some? && q.id.value != "") && q.codes.j.Some? && q.codes.j.value != "" ==> k == q.codes.j.value
    ensures !(q.id.Some? && q.id.value != "") && !(q.codes.j.Some? && q.codes.j.value != "") ==> k == PositionKey(index)
  {
    if q.id.Some? && q.id.value != "" then q.id.value
    else if q.codes.j.Some? && q.codes.j.value != "" then q.codes.j.value
    else PositionKey(index)
  }

  /** `isCurrentFlagged()`: false without a current question, else the flag under its key. */
  function IsCurrentFlagged(s: ExamState): (b: bool)
    ensures !(0 <= s.currentIndex < |s.questions|) ==> !b
    ensures 0 <= s.currentIndex < |s.questions| ==>
      (b <==> FlagOf(s.flags, FlagKey(s.questions[s.currentIndex], s.currentIndex)))
  {
    match CurrentQuestion(s)
    case None => false
    case Some(q) => FlagOf(s.flags, FlagKey(q, s.currentIndex))
  }

  /** `startExam(bank, questions, minutes)` at clock reading `now`: a fresh state for the bank and
      questions, with the deadline `minutes` minutes after the start. */
  function StartExam(bank: Bank, questions: seq<QuestionItem>, durationMinutes: int, now: int): (s: ExamState)
    ensures s.bank == Some(bank) && s.questions == questions
    ensures s.answers == map[] && s.flags == map[] && s.currentIndex == 0 && !s.finished
    ensures s.startTime == Some(now) && s.endAtMs == Some(now + durationMinutes * 60000)
  {
    Initial().(bank := Some(bank), questions := questions, startTime := Some(now),
               endAtMs := Some(now + durationMinutes * 60 * 1000))
  }

  /** `answer(key, a)`: stores `a` under `key` and changes nothing else. It does not look at
      `finished`. */
  function Answer(s: ExamState, key: string, a: seq<string>): (r: ExamState)
    ensures r.answers == s.answers[key := a]
    ensures r.(answers := s.answers) == s
  {
    s.(answers := s.answers[key := a])
  }

  /** `toggleFlag(key)`: stores the negation of the current flag (absent reads as false). */
  function ToggleFlag(s: ExamState, key: string): (r: ExamState)
    ensures key in r.flags && r.flags[key] == !FlagOf(s.flags, key)
    ensures forall k :: k != key ==> FlagOf(r.flags, k) == FlagOf(s.flags, k)
    ensures r.(flags := s.flags) == s
  {
    s.(flags := s.flags[key := !FlagOf(s.flags, key)])
  }

  function NextQuestion(s: ExamState): (r: ExamState)
    ensures r.(currentIndex := s.currentIndex) == s
    ensures 0 <= s.currentIndex < |s.questions| ==> 0 <= r.currentIndex < |s.questions|
    ensures s.questions == [] && s.currentIndex >= 0 ==> r.currentIndex == -1
  {
    s.(currentIndex := NextIndex(s.currentIndex, |s.questions|))
  }

  function PrevQuestion(s: ExamState): (r: ExamState)
    ensures r.(currentIndex := s.currentIndex) == s
    ensures r.currentIndex >= 0
    ensures s.currentIndex < |s.questions| ==> r.currentIndex < |s.questions| || s.questions == []
  {
    s.(currentIndex := PrevIndex(s.currentIndex))
  }

  function JumpToQuestion(s: ExamState, index: int): (r: ExamState)
    ensures r.(currentIndex := s.currentIndex) == s
    ensures |s.questions| > 0 ==> 0 <= r.currentIndex < |s.questions|
    ensures 0 <= index < |s.questions| ==> r.currentIndex == index
  {
    s.(currentIndex := ClampIndex(index, |s.questions|))
  }

  /** `submit()`: sets `finished` and nothing else. */
  function Submit(s: ExamState): (r: ExamState)
    ensures r.finished
    ensures r.(finished := s.finished) == s
  {
    s.(finished := true)
  }

  /** A `Partial<ExamState>`: each field either given or not. */
  datatype SavedFields = SavedFields(
    bank: Option<Option<Bank>>,
    questions: Option<seq<QuestionItem>>,
    answers: Option<Answers>,
    flags: Option<Flags>,
    currentIndex: Option<int>,
    finished: Option<bool>,
    endAtMs: Option<Option<int>>,
    startTime: Option<Option<int>>)

  /** `loadSavedState(saved)`: every field given in `saved` replaces the current one; the others
      are kept. */
  function LoadSavedState(s: ExamState, saved: SavedFields): (r: ExamState)
    ensures r.bank == saved.bank.GetOr(s.bank)
    ensures r.questions == saved.questions.GetOr(s.questions)
    ensures r.answers == saved.answers.GetOr(s.answers)
    ensures r.flags == saved.flags.GetOr(s.flags)
    ensures r.currentIndex == saved.currentIndex.GetOr(s.currentIndex)
    ensures r.finished == saved.finished.GetOr(s.finished)
    ensures r.endAtMs == saved.endAtMs.GetOr(s.endAtMs)
    ensures r.startTime == saved.startTime.GetOr(s.startTime)
  {
    ExamState(
      saved.bank.GetOr(s.bank), saved.questions.GetOr(s.questions), saved.answers.GetOr(s.answers),
      saved.flags.GetOr(s.flags), saved.currentIndex.GetOr(s.currentIndex), saved.finished.GetOr(s.finished),
      saved.endAtMs.GetOr(s.endAtMs), saved.startTime.GetOr(s.startTime))
  }

  function Reset(s: ExamState): (r: ExamState)
    ensures r == Initial()
  {
    Initial()
  }

  /** Answers are not frozen by submitting: answering after `submit` changes the answers exactly as
      before it, and the exam stays finished. */
  lemma {:induction false} AnswerIgnoresFinished(s: ExamState, key: string, a: seq<string>)
    ensures Answer(Submit(s), key, a) == Submit(Answer(s, key, a))
    ensures Answer(Submit(s), key, a).finished
    ensures Lookup(Answer(Submit(s), key, a).answers, key) == a
  {
  }

  /** Submitting twice is submitting once. */
  lemma {:induction false} SubmitIdempotent(s: ExamState)
    ensures Submit(Submit(s)) == Submit(s)
  {
  }

  /** Toggling the same key twice restores every flag as read by `FlagOf`. */
  lemma {:induction false} ToggleTwiceRestores(s: ExamState, key: string)
    ensures forall k :: FlagOf(ToggleFlag(ToggleFlag(s, key), key).flags, k) == FlagOf(s.flags, k)
  {
  }

  /** Answering a key that had no non-empty answer with a non-empty one adds exactly one to
      `answeredCount`; replacing an answered key's answer by another non-empty one keeps it. */
  lemma {:induction false} AnswerCount(s: ExamState, key: string, a: seq<string>)
    requires a != []
    ensures !Answered(s.answers, key) ==> AnsweredCount(Answer(s, key, a)) == AnsweredCount(s) + 1
    ensures Answered(s.answers, key) ==> AnsweredCount(Answer(s, key, a)) == AnsweredCount(s)
  {
    assert Answer(s, key, a).answers == s.answers[key := a];
    AnsweredKeysAfter(s.answers, key, a);
  }

  /** Storing a non-empty answer under `key` adds `key` to the answered keys, if it was not
      there, and changes nothing else. */
  lemma {:induction false} AnsweredKeysAfter(answers: Answers, key: string, a: seq<string>)
    requires a != []
    ensures Answered(answers, key) ==> AnsweredKeys(answers[key := a]) == AnsweredKeys(answers)
    ensures !Answered(answers, key) ==>
      AnsweredKeys(answers[key := a]) == AnsweredKeys(answers) + {key} && key !in AnsweredKeys(answers)
  {
  }

  /** Toggling a key moves `flaggedCount` by exactly one, up when it was not flagged. */
  lemma {:induction false} ToggleCount(s: ExamState, key: string)
    ensures !FlagOf(s.flags, key) ==> FlaggedCount(ToggleFlag(s, key)) == FlaggedCount(s) + 1
    ensures FlagOf(s.flags, key) ==> FlaggedCount(ToggleFlag(s, key)) + 1 == FlaggedCount(s)
  {
    FlipKeys(s.flags, key, ToggleFlag(s, key).flags);
  }

  /** Flipping one key's flag adds it to or removes it from the flagged keys. */
  lemma {:induction false} FlipKeys(f: Flags, key: string, g: Flags)
    requires FlagOf(g, key) == !FlagOf(f, key)
    requires forall k :: k != key ==> FlagOf(g, k) == FlagOf(f, k)
    ensures FlagOf(f, key) ==> FlaggedKeys(f) == FlaggedKeys(g) + {key} && key !in FlaggedKeys(g)
    ensures !FlagOf(f, key) ==> FlaggedKeys(g) == FlaggedKeys(f) + {key} && key !in FlaggedKeys(f)
  {
  }

  /** A freshly started exam has nothing answered or flagged; so has a reset store. */
  lemma {:induction false} StartCountsZero(bank: Bank, questions: seq<QuestionItem>, minutes: int, now: int, s: ExamState)
    ensures AnsweredCount(StartExam(bank, questions, minutes, now)) == 0
    ensures FlaggedCount(StartExam(bank, questions, minutes, now)) == 0
    ensures AnsweredCount(Reset(s)) == 0 && FlaggedCount(Reset(s)) == 0
  {
  }

  /** The deadline lies `minutes * 60000` ms after the start time. */
  lemma {:induction false} StartDeadline(bank: Bank, questions: seq<QuestionItem>, minutes: nat, now: int)
    ensures StartExam(bank, questions, minutes, now).endAtMs.value - StartExam(bank, questions, minutes, now).startTime.value == minutes * 60000
  {
  }

  /** The flag key prefers the id; a question without id or code is flagged under its index, so
      flagging follows the question when it has an id. */
  lemma {:induction false} FlagKeyFollowsId(q: QuestionItem, i1: nat, i2: nat)
    ensures (q.id.Some? && q.id.value != "") || (q.codes.j.Some? && q.codes.j.value != "") ==> FlagKey(q, i1) == FlagKey(q, i2)
    ensures !(q.id.Some? && q.id.value != "") && !(q.codes.j.Some? && q.codes.j.value != "") ==> (FlagKey(q, i1) == FlagKey(q, i2) <==> i1 == i2)
  {
    PositionKeyInjective(i1, i2);
  }
}

=== FILE: indexing.dfy ===
/** The clamped index moves shared by the exam store, the practice store, the navigator hook and
    the exam page: `Math.min(i + 1, len - 1)`, `Math.max(i - 1, 0)` and
    `Math.max(0, Math.min(i, len - 1))`. */
module Indexing {
  /** Step forward, stopping at the last position. On an empty list the result is -1. */
  function NextIndex(i: int, len: nat): (r: int)
    ensures r <= len - 1 && r <= i + 1
    ensures i + 1 <= len - 1 ==> r == i + 1
    ensures 0 <= i < len ==> 0 <= r < len
    ensures len == 0 && i >= 0 ==> r == -1
  {
    if i + 1 < len - 1 then i + 1 else len - 1
  }

  /** Step back, stopping at the first position. */
  function PrevIndex(i: int): (r: int)
    ensures r >= 0 && r >= i - 1
    ensures i >= 1 ==> r == i - 1
    ensures i <= 1 ==> r == 0
  {
    if i - 1 > 0 then i - 1 else 0
  }

  /** Jump target clamped into `[0, len - 1]`, and 0 on an empty list. */
  function ClampIndex(i: int, len: nat): (r: int)
    ensures len == 0 ==> r == 0
    ensures len > 0 ==> 0 <= r < len
    ensures 0 <= i < len ==> r == i
    ensures i < 0 ==> r == 0
    ensures len > 0 && i >= len ==> r == len - 1
  {
    var m := if i < len - 1 then i else len - 1;
    if m > 0 then m else 0
  }

  /** Stepping forward then back, or back then forward, from an interior position returns to it. */
  lemma {:induction false} NextPrevInverse(i: int, len: nat)
    ensures 0 <= i < len - 1 ==> PrevIndex(NextIndex(i, len)) == i
    ensures 0 < i < len ==> NextIndex(PrevIndex(i), len) == i
  {
  }

  /** A clamped index is a fixed point of clamping. */
  lemma {:induction false} ClampIdempotent(i: int, len: nat)
    ensures ClampIndex(ClampIndex(i, len), len) == ClampIndex(i, len)
  {
  }

  /** Steps from a valid position stay valid and agree with jumping to the neighbour. */
  lemma {:induction false} StepsAreClampedJumps(i: int, len: nat)
    requires 0 <= i < len
    ensures NextIndex(i, len) == ClampIndex(i + 1, len)
    ensures PrevIndex(i) == ClampIndex(i - 1, len)
  {
  }
}

=== FILE: navigator.dfy ===
/** The question navigator hook (src/hooks/useQuestionNavigator.ts): an index into a question
    list and the answers recorded under keys derived by a key strategy. React state is the
    record `NavState`; each callback is a function from the old record to the new one. */
module Navigator {
  import opened Base
  import opened Seqs
  import opened Questions
  import opened Indexing

  datatype KeyStrategy = Position | IdPrefer

  datatype NavState = NavState(index: int, answers: Answers)

  function Initial(): (st: NavState)
    ensures st.index == 0 && st.answers == map[]
  {
    NavState(0, map[])
  }

  /** `keyOf(q, pos)`. Under `Position` the key is the position; under `IdPrefer` it is the id
      when that is a non-empty string, and the position otherwise. */
  function KeyOf(strategy: KeyStrategy, q: Option<QuestionItem>, pos: nat): (k: string)
    ensures strategy == Position ==> k == PositionKey(pos)
    ensures strategy == IdPrefer && q.Some? && q.value.id.Some? && q.value.id.value != "" ==> k == q.value.id.value
    ensures strategy == IdPrefer && !(q.Some? && q.value.id.Some? && q.value.id.value != "") ==> k == PositionKey(pos)
  {
    match strategy
    case Position => PositionKey(pos)
    case IdPrefer =>
      if q.Some? && q.value.id.Some? && q.value.id.value != "" then q.value.id.value else PositionKey(pos)
  }

  /** The position strategy ignores the question, and different positions never share a key. */
  lemma {:induction false} PositionKeysArePositional(q1: Option<QuestionItem>, q2: Option<QuestionItem>, p1: nat, p2: nat)
    ensures KeyOf(Position, q1, p1) == KeyOf(Position, q2, p2) <==> p1 == p2
  {
    PositionKeyInjective(p1, p2);
  }

  /** Under id-prefer, a question with an id keeps its key wherever it moves in the list. */
  lemma {:induction false} IdKeyStableUnderReorder(q: QuestionItem, p1: nat, p2: nat)
    requires q.id.Some? && q.id.value != ""
    ensures KeyOf(IdPrefer, Some(q), p1) == KeyOf(IdPrefer, Some(q), p2)
  {
  }

  /** The effect run when the list length changes: 0 on an empty list, else the index clamped
      into `[0, len - 1]`. */
  function OnLengthChange(st: NavState, len: nat): (r: NavState)
    ensures r.answers == st.answers
    ensures len == 0 ==> r.index == 0
    ensures len > 0 ==> 0 <= r.index < len
    ensures 0 <= st.index < len ==> r.index == st.index
  {
    if len == 0 then st.(index := 0)
    else
      var lo := if st.index > 0 then st.index else 0;
      st.(index := if lo < len - 1 then lo else len - 1)
  }

  /** The effect's clamp agrees with the stores' jump clamp on every index and length. */
  lemma {:induction false} OnLengthChangeIsClamp(st: NavState, len: nat)
    ensures OnLengthChange(st, len).index == ClampIndex(st.index, len)
  {
  }

  /** The question under the index, if the index is a position of the list. */
  function Current(questions: seq<QuestionItem>, st: NavState): (q: Option<QuestionItem>)
    ensures q.Some? <==> 0 <= st.index < |questions|
    ensures q.Some? ==> q.value == questions[st.index]
  {
    if 0 <= st.index < |questions| then Some(questions[st.index]) else None
  }

  /** `selected`: the answer under the current question's key, or `[]`. */
  function Selected(questions: seq<QuestionItem>, strategy: KeyStrategy, st: NavState): (s: seq<string>)
    ensures !(0 <= st.index < |questions|) ==> s == []
    ensures 0 <= st.index < |questions| ==>
      s == Lookup(st.answers, KeyOf(strategy, Some(questions[st.index]), st.index))
  {
    if 0 <= st.index < |questions| then Lookup(st.answers, KeyOf(strategy, Some(questions[st.index]), st.index))
    else []
  }

  /** `setCurrentAnswer(keys)`: nothing happens without a current question; otherwise only the
      current question's key is (re)written. */
  function SetCurrentAnswer(questions: seq<QuestionItem>, strategy: KeyStrategy, st: NavState, keys: seq<string>): (r: NavState)
    ensures r.index == st.index
    ensures !(0 <= st.index < |questions|) ==> r == st
    ensures 0 <= st.index < |questions| ==>
      var key := KeyOf(strategy, Some(questions[st.index]), st.index);
      key in r.answers && r.answers[key] == keys &&
      forall k :: k in st.answers && k != key ==> k in r.answers && r.answers[k] == st.answers[k]
    ensures forall k :: k in r.answers ==> k in st.answers || (0 <= st.index < |questions| && k == KeyOf(strategy, Some(questions[st.index]), st.index))
  {
    if 0 <= st.index < |questions| then
      st.(answers := st.answers[KeyOf(strategy, Some(questions[st.index]), st.index) := keys])
    else st
  }

  /** Setting the current answer and reading it back gives exactly what was set. */
  lemma {:induction false} SetThenSelected(questions: seq<QuestionItem>, strategy: KeyStrategy, st: NavState, keys: seq<string>)
    requires 0 <= st.index < |questions|
    ensures Selected(questions, strategy, SetCurrentAnswer(questions, strategy, st, keys)) == keys
  {
  }

  function Next(st: NavState, len: nat): (r: NavState)
    ensures r.answers == st.answers
    ensures 0 <= st.index < len ==> 0 <= r.index < len
    ensures r.index <= len - 1
  {
    st.(index := NextIndex(st.index, len))
  }

  function Prev(st: NavState): (r: NavState)
    ensures r.answers == st.answers
    ensures r.index >= 0
  {
    st.(index := PrevIndex(st.index))
  }

  function Reset(st: NavState): (r: NavState)
    ensures r == Initial()
  {
    NavState(0, map[])
  }

  /** Per position: is the answer under its key non-empty? */
  function AnsweredFlags(questions: seq<QuestionItem>, strategy: KeyStrategy, answers: Answers): (v: seq<bool>)
    ensures |v| == |questions|
    ensures forall i :: 0 <= i < |v| ==> (v[i] <==> Answered(answers, KeyOf(strategy, Some(questions[i]), i)))
  {
    seq(|questions|, i requires 0 <= i < |questions| => Answered(answers, KeyOf(strategy, Some(questions[i]), i)))
  }

  /** `answeredCount`: the number of positions with a non-empty answer under their key, so at most
      the number of questions. */
  method AnsweredCount(questions: seq<QuestionItem>, strategy: KeyStrategy, answers: Answers) returns (c: nat)
    ensures c == CountTrue(AnsweredFlags(questions, strategy, answers))
    ensures c <= |questions|
  {
    ghost var v := AnsweredFlags(questions, strategy, answers);
    c := 0;
    if |questions| == 0 {
      return;
    }
    var i := 0;
    while i < |questions|
      invariant 0 <= i <= |questions|
      invariant c == CountTrue(v[..i])
    {
      var answered := |Lookup(answers, KeyOf(strategy, Some(questions[i]), i))| > 0;
      CountPrefixStep(v, i);
      assert v[i] == answered;
      if answered {
        c := c + 1;
      }
      i := i + 1;
    }
    assert v[..i] == v;
  }

  /** After `reset` nothing counts as answered. */
  lemma {:induction false} ResetAnswersNothing(questions: seq<QuestionItem>, strategy: KeyStrategy, st: NavState)
    ensures CountTrue(AnsweredFlags(questions, strategy, Reset(st).answers)) == 0
  {
    CountTrueNone(AnsweredFlags(questions, strategy, Reset(st).answers));
  }

  /** Under the position strategy, answering the current, so far unanswered question with a
      non-empty selection raises the count by exactly one. */
  lemma {:induction false} AnsweringRaisesCount(questions: seq<QuestionItem>, st: NavState, keys: seq<string>)
    requires 0 <= st.index < |questions|
    requires !Answered(st.answers, PositionKey(st.index))
    requires keys != []
    ensures CountTrue(AnsweredFlags(questions, Position, SetCurrentAnswer(questions, Position, st, keys).answers))
         == CountTrue(AnsweredFlags(questions, Position, st.answers)) + 1
  {
    var v := AnsweredFlags(questions, Position, st.answers);
    var w := AnsweredFlags(questions, Position, SetCurrentAnswer(questions, Position, st, keys).answers);
    forall i | 0 <= i < |questions| ensures w[i] == v[st.index := true][i] {
      if i != st.index {
        PositionKeyInjective(i, st.index);
      }
    }
    assert w == v[st.index := true];
    CountTrueSetOne(v, st.index);
  }
}

=== FILE: photo.dfy ===
/** The photo helpers (src/lib/photo-processor.ts) that are pure logic: the file type check and
    the name under which a processed photo is downloaded. */
module Photo {
  import opened Strings

  const ImagePrefix: string := "image/"
  const DefaultExtension: string := "jpg"
  const ProcessedSuffix: string := "_processed."

  /** `validateFileType(file)`: the MIME type names an image. Every `image/...` type is accepted,
      and a type is accepted only when it reads `image/...`. */
  predicate ValidateFileType(mimeType: string): (ok: bool)
    ensures ok <==> exists sub :: mimeType == ImagePrefix + sub
  {
    assert StartsWith(mimeType, ImagePrefix) ==> mimeType == ImagePrefix + mimeType[|ImagePrefix|..];
    StartsWith(mimeType, ImagePrefix)
  }

  /** `type.split('/')[1] || 'jpg'`: the part between the first and second `/`, or `jpg` when
      there is none or it is empty. */
  function Extension(mimeType: string): (ext: string)
    ensures ext != []
    ensures '/' !in ext
  {
    var parts := Split(mimeType, '/');
    if |parts| > 1 && parts[1] != [] then parts[1] else DefaultExtension
  }

  /** The extension of `<major>/<minor>` is the minor type, or `jpg` if that is empty. */
  lemma {:induction false} ExtensionOfType(major: string, minor: string)
    requires '/' !in major && '/' !in minor
    ensures Extension(major + "/" + minor) == if minor == [] then DefaultExtension else minor
  {
    SplitOnce(major, minor, '/');
  }

  /** A type without `/` has the default extension. */
  lemma {:induction false} ExtensionWithoutSlash(mimeType: string)
    requires '/' !in mimeType
    ensures Extension(mimeType) == DefaultExtension
  {
    SplitFirst(mimeType, '/');
  }

  /** `originalName.replace(/\.[^/.]+$/, '')`: the last `.` and what follows it are dropped when
      what follows is non-empty and holds neither `/` nor `.`. */
  function BaseName(name: string): (r: string)
    ensures r <= name
    ensures r == name || (|r| < |name| && name[|r|] == '.')
  {
    var k := LastIndexOf(name, '.');
    if 0 <= k < |name| - 1 && '/' !in name[k + 1..] then name[..k] else name
  }

  /** A name `<stem>.<ext>` loses exactly its extension when the extension is non-empty and holds
      neither `/` nor `.`. */
  lemma {:induction false} BaseNameStrips(stem: string, ext: string)
    requires ext != [] && '/' !in ext && '.' !in ext
    ensures BaseName(stem + "." + ext) == stem
  {
    var name := stem + "." + ext;
    assert name[|stem|] == '.';
    assert forall i :: |stem| < i < |name| ==> name[i] == ext[i - |stem| - 1];
    LastIndexOfIs(name, '.', |stem|);
    assert name[|stem| + 1..] == ext;
  }

  /** A name without `.` is kept as it is. */
  lemma {:induction false} BaseNameWithoutDot(name: string)
    requires '.' !in name
    ensures BaseName(name) == name
  {
  }

  /** A name ending in `.` or in a `.` followed by a path is kept as it is. */
  lemma {:induction false} BaseNameKeepsPaths(stem: string, rest: string)
    requires '.' !in rest && (rest == [] || '/' in rest)
    ensures BaseName(stem + "." + rest) == stem + "." + rest
  {
    var name := stem + "." + rest;
    assert name[|stem|] == '.';
    assert forall i :: |stem| < i < |name| ==> name[i] == rest[i - |stem| - 1];
    LastIndexOfIs(name, '.', |stem|);
    assert name[|stem| + 1..] == rest;
  }

  /** The download name `<base>_processed.<ext>` of a processed photo. */
  function DownloadName(originalName: string, mimeType: string): (r: string)
    ensures |r| > |ProcessedSuffix|
  {
    BaseName(originalName) + ProcessedSuffix + Extension(mimeType)
  }

  /** Processing `<stem>.<ext>` into `image/<minor>` downloads as `<stem>_processed.<minor>`. */
  lemma {:induction false} DownloadNameOf(stem: string, ext: string, minor: string)
    requires ext != [] && '/' !in ext && '.' !in ext
    requires minor != [] && '/' !in minor
    ensures DownloadName(stem + "." + ext, "image/" + minor) == stem + ProcessedSuffix + minor
  {
    BaseNameStrips(stem, ext);
    ExtensionOfType("image", minor);
    assert "image" + "/" + minor == "image/" + minor;
  }
}

=== FILE: practice_page.dfy ===
/** The page-local state of the practice page (src/app/practice/page.tsx): answers keyed by
    `id ?? String(position)`, the persisted snapshot of a sequential run and its resumption, the
    order switch, the jump box and its live suggestions. React state is the record `PageState`;
    storage, the clock reading `now` and the random source of `shuffle` are parameters. Questions
    are compared by value where the source compares object references with `indexOf`. */
module PracticePage {
  import opened Base
  import opened Seqs
  import opened Strings
  import opened Questions
  import opened Indexing
  import opened Snapshots
  import opened PracticeStore
  import opened PracticeStorage
  import Shuffle

  datatype PageState = PageState(
    loading: bool,
    allQuestions: seq<QuestionItem>,
    questions: seq<QuestionItem>,
    index: int,
    answers: Answers,
    order: PracticeMode,
    jumpInput: string,
    showAnswer: bool,
    resumeOpen: bool,
    pendingResume: Option<PracticeSaved>)

  /** `q.id ?? String(pos)`: an id, even an empty one, wins over the position. */
  function KeyAt(q: QuestionItem, pos: nat): (k: string)
    ensures q.id.Some? ==> k == q.id.value
    ensures q.id.None? ==> k == PositionKey(pos)
  {
    q.id.GetOr(PositionKey(pos))
  }

  /** A question with an id keeps its key wherever it stands; one without is keyed by position. */
  lemma {:induction false} KeyAtStable(q: QuestionItem, p1: nat, p2: nat)
    ensures q.id.Some? ==> KeyAt(q, p1) == KeyAt(q, p2)
    ensures q.id.None? ==> (KeyAt(q, p1) == KeyAt(q, p2) <==> p1 == p2)
  {
    PositionKeyInjective(p1, p2);
  }

  /** The loading effect once `loadQuestions` has answered: the bank, shown in the current order
      from the first question with no answers; on failure only the loading flag drops. */
  function Loaded(s: PageState, loaded: Option<seq<QuestionItem>>, rng: Shuffle.Rng): (r: PageState)
    ensures !r.loading
    ensures loaded.None? ==> r == s.(loading := false)
    ensures loaded.Some? ==> r.allQuestions == loaded.value && r.index == 0 && r.answers == map[]
    ensures loaded.Some? && s.order == Sequential ==> r.questions == loaded.value
    ensures loaded.Some? ==> multiset(r.questions) == multiset(loaded.value)
  {
    match loaded
    case None => s.(loading := false)
    case Some(qs) =>
      Shuffle.ShufflePermutes(qs, rng);
      var shown := if s.order == Random then Shuffle.Shuffle(qs, rng) else qs;
      s.(loading := false, allQuestions := qs, questions := shown, index := 0, answers := map[])
  }

  /** `current ? answers[current.id ?? String(index)] ?? [] : []`. */
  function Selected(s: PageState): (sel: seq<string>)
    ensures !(0 <= s.index < |s.questions|) ==> sel == []
    ensures 0 <= s.index < |s.questions| ==> sel == Lookup(s.answers, KeyAt(s.questions[s.index], s.index))
  {
    if 0 <= s.index < |s.questions| then Lookup(s.answers, KeyAt(s.questions[s.index], s.index)) else []
  }

  /** `setCurrentAnswer(keys)`: only the current question's entry changes. */
  function SetCurrentAnswer(s: PageState, keys: seq<string>): (r: PageState)
    ensures !(0 <= s.index < |s.questions|) ==> r == s
    ensures 0 <= s.index < |s.questions| ==> r.answers == s.answers[KeyAt(s.questions[s.index], s.index) := keys]
    ensures r.(answers := s.answers) == s
  {
    if 0 <= s.index < |s.questions| then s.(answers := s.answers[KeyAt(s.questions[s.index], s.index) := keys]) else s
  }

  /** What was set is what is selected. */
  lemma {:induction false} SetThenSelected(s: PageState, keys: seq<string>)
    requires 0 <= s.index < |s.questions|
    ensures Selected(SetCurrentAnswer(s, keys)) == keys
  {
  }

  function Next(s: PageState): (r: PageState)
    ensures r == s.(index := NextIndex(s.index, |s.questions|))
    ensures 0 <= s.index < |s.questions| ==> 0 <= r.index < |s.questions|
  {
    s.(index := NextIndex(s.index, |s.questions|))
  }

  function Prev(s: PageState): (r: PageState)
    ensures r == s.(index := PrevIndex(s.index))
    ensures r.index >= 0
  {
    s.(index := PrevIndex(s.index))
  }

  /** The saved snapshot that may be offered: version 1 (as `loadSavedState` enforces), of the same
      pool size and of sequential order. */
  predicate Offerable(saved: PracticeSaved, s: PageState) {
    saved.order == Sequential && saved.total == |s.allQuestions|
  }

  /** `applyOrder(nextOrder)`: records the order; with a loaded bank it also shows the bank in that
      order from the first question with no answers, stores the last mode, and on switching to
      sequential offers an offerable snapshot. */
  function ApplyOrder(s: PageState, storage: Storage, bank: string, next: PracticeMode, rng: Shuffle.Rng): (r: (PageState, Storage))
    ensures r.0.order == next
    ensures |s.allQuestions| == 0 ==> r == (s.(order := next), storage)
    ensures |s.allQuestions| > 0 ==> r.0.index == 0 && r.0.answers == map[] && r.1 == SaveLastMode(storage, next)
    ensures |s.allQuestions| > 0 && next == Sequential ==> r.0.questions == s.allQuestions
    ensures |s.allQuestions| > 0 ==> multiset(r.0.questions) == multiset(s.allQuestions)
    ensures |s.allQuestions| > 0 && next == Sequential ==>
      (r.0.resumeOpen <==> s.resumeOpen || (Load(r.1, Some(bank)).Some? && Offerable(Load(r.1, Some(bank)).value, s)))
    ensures |s.allQuestions| > 0 && next == Sequential && Load(r.1, Some(bank)).Some? && Offerable(Load(r.1, Some(bank)).value, s) ==>
      r.0.pendingResume == Load(r.1, Some(bank))
    ensures next == Random ==> r.0.resumeOpen == s.resumeOpen && r.0.pendingResume == s.pendingResume
    ensures r.0.(order := s.order, questions := s.questions, index := s.index, answers := s.answers,
                 resumeOpen := s.resumeOpen, pendingResume := s.pendingResume) == s
  {
    if |s.allQuestions| == 0 then (s.(order := next), storage)
    else
      Shuffle.ShufflePermutes(s.allQuestions, rng);
      var shown := if next == Random then Shuffle.Shuffle(s.allQuestions, rng) else s.allQuestions;
      var st := SaveLastMode(storage, next);
      var r := s.(order := next, questions := shown, index := 0, answers := map[]);
      if next == Sequential then
        match Load(st, Some(bank))
        case Some(saved) =>
          if saved.order == Sequential && saved.total == |s.allQuestions| then
            (r.(pendingResume := Some(saved), resumeOpen := true), st)
          else (r, st)
        case None => (r, st)
      else (r, st)
  }

  /** The last-mode effect: once the bank is loaded, a stored last mode different from the current
      order is applied. */
  function RestoreLastMode(s: PageState, storage: Storage, bank: string, rng: Shuffle.Rng): (r: (PageState, Storage))
    ensures |s.allQuestions| == 0 || LoadLastMode(storage).None? ==> r == (s, storage)
    ensures |s.allQuestions| > 0 && LoadLastMode(storage).Some? ==> r.0.order == LoadLastMode(storage).value
  {
    if |s.allQuestions| == 0 then (s, storage)
    else match LoadLastMode(storage)
      case None => (s, storage)
      case Some(last) => if last != s.order then ApplyOrder(s, storage, bank, last, rng) else (s, storage)
  }

  /** The resume-prompt effect: with a loaded bank in sequential order, a last mode that is not
      random and an offerable saved snapshot, the snapshot is held and the prompt opens. */
  function ResumeGate(s: PageState, storage: Storage, bank: string): (r: PageState)
    ensures r == s || (r == s.(pendingResume := Load(storage, Some(bank)), resumeOpen := true))
  {
    if |s.allQuestions| == 0 || s.order != Sequential || LoadLastMode(storage) == Some(Random) then s
    else match Load(storage, Some(bank))
      case None => s
      case Some(saved) => if Offerable(saved, s) then s.(pendingResume := Some(saved), resumeOpen := true) else s
  }

  /** The prompt opens exactly under the five conditions. */
  lemma {:induction false} ResumeGateIff(s: PageState, storage: Storage, bank: string)
    requires !s.resumeOpen
    ensures ResumeGate(s, storage, bank).resumeOpen <==>
      |s.allQuestions| > 0 && s.order == Sequential && LoadLastMode(storage) != Some(Random)
      && Load(storage, Some(bank)).Some? && Offerable(Load(storage, Some(bank)).value, s)
  {
  }

  /** `allQuestions.indexOf(q)`, comparing by value. */
  function IndexIn(all: seq<QuestionItem>, q: QuestionItem): (i: int)
    ensures -1 <= i < |all|
    ensures i >= 0 ==> all[i] == q
    ensures i == -1 <==> q !in all
  {
    var i := FindIndex(all, (x: QuestionItem) => x == q);
    assert q in all ==> i >= 0 by {
      if q in all {
        var k :| 0 <= k < |all| && all[k] == q;
      }
    }
    i
  }

  /** `questions.map(q => allQuestions.indexOf(q))`. */
  function OrderIndices(questions: seq<QuestionItem>, all: seq<QuestionItem>): (ix: seq<int>)
    ensures |ix| == |questions|
    ensures forall p :: 0 <= p < |ix| ==> ix[p] == IndexIn(all, questions[p])
  {
    seq(|questions|, p requires 0 <= p < |questions| => IndexIn(all, questions[p]))
  }

  /** Per position, a copy of the answer under the position's key, or `null`; an empty answer is
      kept as `[]`. */
  function AnswersByPosition(questions: seq<QuestionItem>, answers: Answers): (abp: PositionAnswers)
    ensures |abp| == |questions|
    ensures forall p :: 0 <= p < |abp| ==>
      abp[p] == if KeyAt(questions[p], p) in answers then Some(answers[KeyAt(questions[p], p)]) else None
  {
    seq(|questions|, p requires 0 <= p < |questions| =>
      if KeyAt(questions[p], p) in answers then Some(answers[KeyAt(questions[p], p)]) else None)
  }

  /** The snapshot the persistence effect writes. */
  function Payload(s: PageState, bank: string, now: int): (saved: PracticeSaved)
    ensures saved.version == 1 && saved.bank == bank && saved.timestamp == now
    ensures saved.index == s.index && saved.order == s.order && saved.showAnswer == s.showAnswer
    ensures saved.total == |s.allQuestions| && saved.versionId == None
  {
    PracticeSaved(1, bank, now, s.index, s.order, s.showAnswer, OrderIndices(s.questions, s.allQuestions),
                  AnswersByPosition(s.questions, s.answers), |s.allQuestions|, None)
  }

  /** Every shown question occurs in the bank. */
  predicate AllFound(s: PageState) {
    forall p :: 0 <= p < |s.questions| ==> s.questions[p] in s.allQuestions
  }

  /** The persistence effect: writes the snapshot only in sequential order with questions shown,
      all of them found in the bank; otherwise storage is untouched. */
  function Persist(s: PageState, storage: Storage, bank: string, now: int): (r: Storage)
    ensures |s.questions| == 0 || s.order != Sequential || !AllFound(s) ==> r == storage
    ensures |s.questions| > 0 && s.order == Sequential && AllFound(s) ==> r == Save(storage, Payload(s, bank, now))
  {
    if |s.questions| == 0 || s.order != Sequential then storage
    else
      var ix := OrderIndices(s.questions, s.allQuestions);
      if exists p :: 0 <= p < |ix| && ix[p] < 0 then storage
      else
        assert AllFound(s) by {
          forall p | 0 <= p < |s.questions| ensures s.questions[p] in s.allQuestions {
            assert ix[p] >= 0;
          }
        }
        Save(storage, Payload(s, bank, now))
  }

  /** `orderIndices.map(orig => qs[orig]).filter(Boolean)`: the bank's questions at the valid
      indices, in order; invalid indices are dropped. */
  function Reconstruct(all: seq<QuestionItem>, ix: seq<int>): (qs: seq<QuestionItem>)
    ensures |qs| <= |ix|
    ensures (forall p :: 0 <= p < |ix| ==> 0 <= ix[p] < |all|) ==>
      |qs| == |ix| && forall p :: 0 <= p < |ix| ==> qs[p] == all[ix[p]]
  {
    if ix == [] then []
    else (if 0 <= ix[0] < |all| then [all[ix[0]]] else []) + Reconstruct(all, ix[1..])
  }

  /** The answer entry at position `pos` is restored: present and non-empty. */
  predicate Restorable(abp: PositionAnswers, pos: nat) {
    pos < |abp| && abp[pos].Some? && |abp[pos].value| > 0
  }

  /** The key of every position of a question list. */
  function Keys(qs: seq<QuestionItem>): (ks: seq<string>)
    ensures |ks| == |qs| && forall p :: 0 <= p < |qs| ==> ks[p] == KeyAt(qs[p], p)
  {
    seq(|qs|, p requires 0 <= p < |qs| => KeyAt(qs[p], p))
  }

  /** The `forEach` over the first `n` rebuilt questions, whose keys are `ks`: each non-empty
      stored entry goes under its question's key, later positions overwriting earlier ones. */
  function Restore(ks: seq<string>, abp: PositionAnswers, n: nat): (m: Answers)
    requires n <= |ks|
    ensures forall k :: k in m ==> exists p :: 0 <= p < n && ks[p] == k && Restorable(abp, p)
  {
    if n == 0 then map[]
    else
      var m := Restore(ks, abp, n - 1);
      var pos := n - 1;
      if Restorable(abp, pos) then m[ks[pos] := abp[pos].value] else m
  }

  /** `Math.min(Math.max(savedIndex, 0), length - 1)`: -1 on an empty list. */
  function ResumeIndex(i: int, len: nat): (r: int)
    ensures len > 0 ==> 0 <= r < len
    ensures len == 0 ==> r == -1
    ensures 0 <= i < len ==> r == i
  {
    var lo := if i > 0 then i else 0;
    if lo < len - 1 then lo else len - 1
  }

  /** `handleResume()`: without a held snapshot nothing happens; otherwise the questions are rebuilt
      from the saved indices, the non-empty answers restored under the rebuilt keys, the index
      clamped, the order and answer toggle restored, and the prompt closed. */
  function HandleResume(s: PageState): (r: PageState)
    ensures s.pendingResume.None? ==> r == s
    ensures s.pendingResume.Some? ==>
      var p := s.pendingResume.value;
      var qs := Reconstruct(s.allQuestions, p.orderIndices);
      r.questions == qs && r.answers == Restore(Keys(qs), p.answersByPosition, |qs|)
      && r.index == ResumeIndex(p.index, |qs|) && r.order == p.order && r.showAnswer == p.showAnswer
      && !r.resumeOpen && r.pendingResume.None? && r.allQuestions == s.allQuestions
  {
    match s.pendingResume
    case None => s
    case Some(p) =>
      var qs := Reconstruct(s.allQuestions, p.orderIndices);
      s.(questions := qs, order := p.order, answers := Restore(Keys(qs), p.answersByPosition, |qs|),
         index := ResumeIndex(p.index, |qs|), showAnswer := p.showAnswer, resumeOpen := false,
         pendingResume := None)
  }

  /** `answers[key]` kept only when non-empty. */
  function NonEmpty(answers: Answers, key: string): seq<string> {
    if Answered(answers, key) then answers[key] else []
  }

  /** Restoring entries written from `answers` gives back, under every position's key, the
      answer stored there when it was non-empty; no key outside the positions' keys appears. */
  lemma {:induction false} RestoreOfPersisted(qs: seq<QuestionItem>, answers: Answers, n: nat)
    requires n <= |qs|
    ensures forall p :: 0 <= p < n ==> Lookup(Restore(Keys(qs), AnswersByPosition(qs, answers), n), KeyAt(qs[p], p)) == NonEmpty(answers, KeyAt(qs[p], p))
    ensures forall k :: k in Restore(Keys(qs), AnswersByPosition(qs, answers), n) ==> Answered(answers, k)
  {
    RestoreMirrored(Keys(qs), answers, AnswersByPosition(qs, answers), n);
  }

  /** The entries by position mirror `answers` under the keys `ks`. */
  predicate Mirrors(ks: seq<string>, answers: Answers, abp: PositionAnswers) {
    |abp| == |ks| && forall p :: 0 <= p < |ks| ==> abp[p] == if ks[p] in answers then Some(answers[ks[p]]) else None
  }

  lemma {:induction false} RestoreMirrored(ks: seq<string>, answers: Answers, abp: PositionAnswers, n: nat)
    requires n <= |ks| && Mirrors(ks, answers, abp)
    ensures forall p :: 0 <= p < n ==> Lookup(Restore(ks, abp, n), ks[p]) == NonEmpty(answers, ks[p])
    ensures forall k :: k in Restore(ks, abp, n) ==> Answered(answers, k)
  {
    if n > 0 {
      RestoreMirrored(ks, answers, abp, n - 1);
      var pos := n - 1;
      var m := Restore(ks, abp, n - 1);
      forall p | 0 <= p < n ensures Lookup(Restore(ks, abp, n), ks[p]) == NonEmpty(answers, ks[p]) {
        if ks[p] == ks[pos] && Restorable(abp, pos) {
          assert abp[pos].value == answers[ks[pos]];
        } else if p < pos {
          assert Lookup(Restore(ks, abp, n), ks[p]) == Lookup(m, ks[p]);
        } else {
          assert !Restorable(abp, pos);
        }
      }
    }
  }

  /** Reconstructing from the indices of questions that all occur in the bank gives the questions
      back. */
  lemma {:induction false} ReconstructOfIndices(questions: seq<QuestionItem>, all: seq<QuestionItem>)
    requires forall p :: 0 <= p < |questions| ==> questions[p] in all
    ensures Reconstruct(all, OrderIndices(questions, all)) == questions
  {
    var ix := OrderIndices(questions, all);
    assert forall p :: 0 <= p < |ix| ==> 0 <= ix[p] < |all|;
  }

  /** Persisting a sequential run and resuming it over the same bank reproduces the question order,
      the index, the order and the answer toggle, and restores under every position's key the
      answer stored there when it was non-empty; empty answers are dropped. */
  lemma {:induction false} PersistThenResume(s: PageState, storage: Storage, bank: string, now: int, later: PageState)
    requires |s.questions| > 0 && s.order == Sequential && AllFound(s)
    requires 0 <= s.index < |s.questions|
    requires later.allQuestions == s.allQuestions
    ensures Load(Persist(s, storage, bank, now), Some(bank)) == Some(Payload(s, bank, now))
    ensures var r := HandleResume(later.(pendingResume := Some(Payload(s, bank, now))));
      r.questions == s.questions && r.index == s.index && r.order == Sequential && r.showAnswer == s.showAnswer
      && (forall p :: 0 <= p < |s.questions| ==> Lookup(r.answers, KeyAt(s.questions[p], p)) == NonEmpty(s.answers, KeyAt(s.questions[p], p)))
      && (forall k :: k in r.answers ==> Answered(s.answers, k))
  {
    SaveThenLoad(storage, Payload(s, bank, now));
    ReconstructOfIndices(s.questions, s.allQuestions);
    RestoreOfPersisted(s.questions, s.answers, |s.questions|);
  }

  /** `handleRestart()`: clears the snapshot, shows the bank in the current order from the first
      question with no answers, and closes the prompt. */
  function HandleRestart(s: PageState, storage: Storage, bank: string, rng: Shuffle.Rng): (r: (PageState, Storage))
    ensures r.1 == Clear(storage, Some(bank))
    ensures r.0.index == 0 && r.0.answers == map[] && !r.0.resumeOpen && r.0.pendingResume.None?
    ensures s.order == Sequential ==> r.0.questions == s.allQuestions
    ensures multiset(r.0.questions) == multiset(s.allQuestions)
    ensures r.0.order == s.order && r.0.allQuestions == s.allQuestions
  {
    Shuffle.ShufflePermutes(s.allQuestions, rng);
    var shown := if s.order == Random then Shuffle.Shuffle(s.allQuestions, rng) else s.allQuestions;
    (s.(questions := shown, index := 0, answers := map[], resumeOpen := false, pendingResume := None),
     Clear(storage, Some(bank)))
  }

  /** After a restart nothing is left to load. */
  lemma {:induction false} RestartForgets(s: PageState, storage: Storage, bank: string, rng: Shuffle.Rng)
    ensures Load(HandleRestart(s, storage, bank, rng).1, Some(bank)) == None
  {
    ClearThenLoad(storage, Some(bank));
  }

  /** `(q.codes?.J || "").toUpperCase()`. */
  function JUpper(q: QuestionItem): string {
    ToUpper(q.codes.j.GetOr(""))
  }

  /** The parts of a comma-separated code list, each trimmed. */
  function TrimmedParts(j: string): (parts: seq<string>)
    ensures |parts| == |Split(j, ',')|
    ensures forall i :: 0 <= i < |parts| ==> parts[i] == Trim(Split(j, ',')[i])
  {
    var raw := Split(j, ',');
    seq(|raw|, i requires 0 <= i < |raw| => Trim(raw[i]))
  }

  /** First pass of the jump: the code equals the input, or one of its comma-separated parts does. */
  predicate CodeMatches(q: QuestionItem, raw: string) {
    var j := JUpper(q);
    j != "" && (j == raw || (',' in j && raw in TrimmedParts(j)))
  }

  /** Second pass: the code contains the input. */
  predicate CodeContains(q: QuestionItem, raw: string) {
    Contains(JUpper(q), raw)
  }

  /** Third pass: the upper-cased question text contains the keyword. */
  predicate TextContains(q: QuestionItem, keyword: string) {
    Contains(ToUpper(q.question), keyword)
  }

  /** The three passes of `handleJump`, in turn, each taking the first hit. The keyword of the
      third pass, `jumpInput.trim().toUpperCase()`, is the normalised input itself. */
  function JumpTarget(questions: seq<QuestionItem>, raw: string): (pos: int)
    ensures -1 <= pos < |questions|
  {
    var p1 := FindIndex(questions, q => CodeMatches(q, raw));
    if p1 >= 0 then p1
    else
      var p2 := FindIndex(questions, q => CodeContains(q, raw));
      if p2 >= 0 then p2
      else FindIndex(questions, q => TextContains(q, raw))
  }

  /** The target is the first code match when there is one; otherwise the first code containing
      the input; otherwise the first text containing it; and -1 when nothing matches at all. */
  lemma {:induction false} JumpTargetSpec(questions: seq<QuestionItem>, raw: string)
    ensures var pos := JumpTarget(questions, raw);
      (pos >= 0 ==> CodeMatches(questions[pos], raw) || CodeContains(questions[pos], raw) || TextContains(questions[pos], raw))
      && (pos >= 0 && CodeMatches(questions[pos], raw) ==> forall k :: 0 <= k < pos ==> !CodeMatches(questions[k], raw))
      && (pos >= 0 && !CodeMatches(questions[pos], raw) ==> forall k :: 0 <= k < |questions| ==> !CodeMatches(questions[k], raw))
      && (pos == -1 <==> forall k :: 0 <= k < |questions| ==>
            !CodeMatches(questions[k], raw) && !CodeContains(questions[k], raw) && !TextContains(questions[k], raw))
  {
    var p1 := FindIndex(questions, q => CodeMatches(q, raw));
    var p2 := FindIndex(questions, q => CodeContains(q, raw));
    var p3 := FindIndex(questions, q => TextContains(q, raw));
  }

  /** `handleJump()`: only in sequential order and with a non-blank input; moves to the target, and
      stays put when there is none. */
  function HandleJump(s: PageState): (r: PageState)
    ensures r == s || (r == s.(index := r.index) && 0 <= r.index < |s.questions|)
    ensures s.order != Sequential || NormalizeJ(s.jumpInput) == "" ==> r == s
    ensures s.order == Sequential && NormalizeJ(s.jumpInput) != "" && JumpTarget(s.questions, NormalizeJ(s.jumpInput)) >= 0 ==>
      r.index == JumpTarget(s.questions, NormalizeJ(s.jumpInput))
    ensures JumpTarget(s.questions, NormalizeJ(s.jumpInput)) == -1 ==> r == s
  {
    if s.order != Sequential then s
    else
      var raw := NormalizeJ(s.jumpInput);
      if raw == "" then s
      else
        var pos := JumpTarget(s.questions, raw);
        if pos >= 0 then s.(index := pos) else s
  }

  /** One live suggestion. */
  datatype Suggestion = Suggestion(pos: nat, j: string, text: string)

  /** The code parts of a question, or none for an empty code. */
  function CodeParts(q: QuestionItem): seq<string> {
    if JUpper(q) != "" then TrimmedParts(JUpper(q)) else []
  }

  /** `parts.some(p => p.includes(query))`. */
  function AnyContains(parts: seq<string>, query: string): (b: bool)
    ensures b <==> exists i :: 0 <= i < |parts| && Contains(parts[i], query)
  {
    if parts == [] then false
    else Contains(parts[0], query) || AnyContains(parts[1..], query)
  }

  /** The question at `pos` is suggested for the upper-cased query. */
  function Suggests(questions: seq<QuestionItem>, query: string): nat -> bool {
    (pos: nat) => pos < |questions| && (AnyContains(CodeParts(questions[pos]), query) || TextContains(questions[pos], query))
  }

  /** The entry for a suggested position: the first code part or `-`, and the question text. */
  function SuggestionAt(questions: seq<QuestionItem>, pos: nat): Suggestion
    requires pos < |questions|
  {
    var parts := CodeParts(questions[pos]);
    Suggestion(pos, if |parts| > 0 && parts[0] != "" then parts[0] else "-", questions[pos].question)
  }

  /** All suggested positions, in ascending order. */
  function Matching(questions: seq<QuestionItem>, query: string): seq<nat> {
    Filter(Range(|questions|), Suggests(questions, query))
  }

  /** Filtering the positions below `i + 1` extends the filtered positions below `i` by `i` when
      it qualifies. */
  lemma {:induction false} FilterRangeSnoc(i: nat, m: nat -> bool)
    ensures Filter(Range(i + 1), m) == Filter(Range(i), m) + (if m(i) then [i] else [])
  {
    assert Range(i + 1) == Range(i) + [i];
    FilterAppend(Range(i), [i], m);
    assert [i][1..] == [];
  }

  /** The filtered positions below `i` are the prefix of all filtered positions. */
  lemma {:induction false} FilterPrefixOfRange(n: nat, m: nat -> bool, i: nat)
    requires i <= n
    ensures Filter(Range(i), m) <= Filter(Range(n), m)
  {
    var rest: seq<nat> := seq(n - i, k requires 0 <= k < n - i => i + k);
    assert Range(n) == Range(i) + rest;
    FilterAppend(Range(i), rest, m);
  }

  /** Where the scan stops, its positions are the first 51 of all. */
  lemma {:induction false} ScanIsTake(n: nat, m: nat -> bool, i: nat, ps: seq<nat>)
    requires i <= n && ps == Filter(Range(i), m)
    requires (i == n && |ps| <= 51) || |ps| == 51
    ensures Take(Filter(Range(n), m), 51) == ps
  {
    FilterPrefixOfRange(n, m, i);
  }

  /** `results` are the suggestions for the positions `ps`, in the same order. */
  predicate SuggestionsAt(questions: seq<QuestionItem>, ps: seq<nat>, results: seq<Suggestion>) {
    |results| == |ps| && forall k :: 0 <= k < |results| ==> ps[k] < |questions| && results[k] == SuggestionAt(questions, ps[k])
  }

  lemma {:induction false} SuggestionsAtSnoc(questions: seq<QuestionItem>, ps: seq<nat>, results: seq<Suggestion>, i: nat)
    requires SuggestionsAt(questions, ps, results) && i < |questions|
    ensures SuggestionsAt(questions, ps + [i], results + [SuggestionAt(questions, i)])
  {
  }

  /** The suggestion scan: in sequential order with a non-blank input, the first 51 suggested
      positions in ascending order (the loop stops once it holds more than 50); otherwise none. */
  method Suggestions(questions: seq<QuestionItem>, order: PracticeMode, input: string) returns (results: seq<Suggestion>)
    ensures order != Sequential || Trim(input) == "" ==> results == []
    ensures order == Sequential && Trim(input) != "" ==>
      var ps := Take(Matching(questions, ToUpper(Trim(input))), 51);
      |results| == |ps| && forall k :: 0 <= k < |results| ==> ps[k] < |questions| && results[k] == SuggestionAt(questions, ps[k])
  {
    results := [];
    if order != Sequential {
      return;
    }
    var q := Trim(input);
    if q == "" {
      return;
    }
    results := ScanSuggestions(questions, Suggests(questions, ToUpper(q)));
  }

  /** The loop of the suggestion scan over the positions satisfying `m`: the first 51 of them,
      stopping once more than 50 are held. */
  method ScanSuggestions(questions: seq<QuestionItem>, m: nat -> bool) returns (results: seq<Suggestion>)
    ensures SuggestionsAt(questions, Take(Filter(Range(|questions|), m), 51), results)
  {
    results := [];
    ghost var ps: seq<nat> := [];
    var i := 0;
    while i < |questions| && |results| <= 50
      invariant 0 <= i <= |questions|
      invariant ps == Filter(Range(i), m)
      invariant |results| == |ps| <= 51
      invariant SuggestionsAt(questions, ps, results)
    {
      FilterRangeSnoc(i, m);
      if m(i) {
        SuggestionsAtSnoc(questions, ps, results, i);
        results := results + [SuggestionAt(questions, i)];
        ps := ps + [i];
      }
      i := i + 1;
    }
    ScanIsTake(|questions|, m, i, ps);
  }

  /** The suggestions come in ascending position order, at most 51 of them. */
  lemma {:induction false} SuggestionsAscending(questions: seq<QuestionItem>, query: string)
    ensures |Take(Matching(questions, query), 51)| <= 51
    ensures var ps := Take(Matching(questions, query), 51);
      forall k, l :: 0 <= k < l < |ps| ==> ps[k] < ps[l]
  {
    FilterOfRangeAscending(|questions|, Suggests(questions, query));
    assert Matching(questions, query) == Positions(|questions|, Suggests(questions, query));
  }

  /** The positions below `n` that satisfy `m`, in ascending order. */
  function Positions(n: nat, m: nat -> bool): (ps: seq<nat>)
    ensures |ps| <= n
  {
    Filter(Range(n), m)
  }

  /** Positions filtered out of `Range(n)` are strictly ascending and below `n`. */
  lemma {:induction false} FilterOfRangeAscending(n: nat, m: nat -> bool)
    ensures forall k, l :: 0 <= k < l < |Positions(n, m)| ==> Positions(n, m)[k] < Positions(n, m)[l]
    ensures forall k :: 0 <= k < |Positions(n, m)| ==> Positions(n, m)[k] < n
  {
    if n > 0 {
      FilterOfRangeAscending(n - 1, m);
      FilterRangeSnoc(n - 1, m);
      var a := Positions(n - 1, m);
      if m(n - 1) {
        assert Positions(n, m) == a + [n - 1];
        SnocAscending(a, n - 1);
      } else {
        assert Positions(n, m) == a;
      }
    }
  }

  /** Appending a bound to ascending positions below it keeps them ascending and below it plus one. */
  lemma {:induction false} SnocAscending(a: seq<nat>, x: nat)
    requires forall k, l :: 0 <= k < l < |a| ==> a[k] < a[l]
    requires forall k :: 0 <= k < |a| ==> a[k] < x
    ensures forall k, l :: 0 <= k < l < |a + [x]| ==> (a + [x])[k] < (a + [x])[l]
    ensures forall k :: 0 <= k < |a + [x]| ==> (a + [x])[k] < x + 1
  {
  }
}

=== FILE: practice_storage.dfy ===
/** Persistence for practice mode (src/lib/practice-storage.ts): the per-bank snapshot, the last
    chosen mode, the per-bank "do not offer to resume" preference, the resume gate and the J-code
    normalisation. The clock reading `Date.now()` is the parameter `now`. */
module PracticeStorage {
  import opened Base
  import opened Strings
  import opened Snapshots
  import opened PracticeStore

  const SnapshotPrefix: string := "practice:"
  const LastModeKey: string := "practice:lastMode"
  const NoResumePrefix: string := "practice:noResumePrompt:"

  /** `RESUME_MIN_ANSWERED` and `RESUME_EXPIRY_MS` (seven days). */
  const ResumeMinAnswered: nat := 3
  const ResumeExpiryMs: nat := 7 * 24 * 60 * 60 * 1000

  function BankOrDefault(bank: Option<string>): string {
    bank.GetOr("default")
  }

  /** `practice:<bank>`, with `default` for a missing bank. */
  function StorageKey(bank: Option<string>): (k: string)
    ensures StartsWith(k, SnapshotPrefix) && k[|SnapshotPrefix|..] == BankOrDefault(bank)
  {
    SnapshotPrefix + BankOrDefault(bank)
  }

  /** `loadSavedState(bank)`: the stored record when it is a practice record of version 1. */
  function Load(storage: Storage, bank: Option<string>): (r: Option<PracticeSaved>)
    ensures r.Some? <==> StorageKey(bank) in storage && storage[StorageKey(bank)].PracticeRecord?
                         && storage[StorageKey(bank)].practice.version == 1
    ensures r.Some? ==> r.value == storage[StorageKey(bank)].practice
  {
    var key := StorageKey(bank);
    if key !in storage then None
    else match storage[key]
      case PracticeRecord(p) => if p.version == 1 then Some(p) else None
      case _ => None
  }

  function Save(storage: Storage, state: PracticeSaved): (r: Storage)
    ensures StorageKey(Some(state.bank)) in r
    ensures forall k :: k != StorageKey(Some(state.bank)) ==> (k in r <==> k in storage)
    ensures forall k :: k != StorageKey(Some(state.bank)) && k in storage ==> r[k] == storage[k]
  {
    storage[StorageKey(Some(state.bank)) := PracticeRecord(state)]
  }

  function Clear(storage: Storage, bank: Option<string>): (r: Storage)
    ensures StorageKey(bank) !in r
    ensures forall k :: k != StorageKey(bank) ==> (k in r <==> k in storage)
    ensures forall k :: k != StorageKey(bank) && k in storage ==> r[k] == storage[k]
  {
    storage - {StorageKey(bank)}
  }

  /** A saved snapshot of version 1 loads back unchanged; any other version does not load. */
  lemma {:induction false} SaveThenLoad(storage: Storage, state: PracticeSaved)
    ensures Load(Save(storage, state), Some(state.bank)) == (if state.version == 1 then Some(state) else None)
  {
  }

  lemma {:induction false} ClearThenLoad(storage: Storage, bank: Option<string>)
    ensures Load(Clear(storage, bank), bank) == None
  {
  }

  function ModeText(m: PracticeMode): string {
    match m
    case Sequential => "sequential"
    case Random => "random"
  }

  /** `loadLastMode()`: one of the two mode names, anything else reads as no preference. */
  function LoadLastMode(storage: Storage): (r: Option<PracticeMode>)
    ensures r.Some? ==> LastModeKey in storage && storage[LastModeKey] == Raw(ModeText(r.value))
    ensures r.None? ==> LastModeKey !in storage || !(storage[LastModeKey] in {Raw("sequential"), Raw("random")})
  {
    if LastModeKey in storage && storage[LastModeKey] == Raw("sequential") then Some(Sequential)
    else if LastModeKey in storage && storage[LastModeKey] == Raw("random") then Some(Random)
    else None
  }

  function SaveLastMode(storage: Storage, m: PracticeMode): (r: Storage)
    ensures LastModeKey in r
    ensures forall k :: k != LastModeKey ==> (k in r <==> k in storage)
  {
    storage[LastModeKey := Raw(ModeText(m))]
  }

  lemma {:induction false} LastModeRoundTrip(storage: Storage, m: PracticeMode)
    ensures LoadLastMode(SaveLastMode(storage, m)) == Some(m)
  {
  }

  /** `practice:noResumePrompt:<bank>`. */
  function NoResumeKey(bank: Option<string>): (k: string)
    ensures StartsWith(k, NoResumePrefix) && k[|NoResumePrefix|..] == BankOrDefault(bank)
  {
    NoResumePrefix + BankOrDefault(bank)
  }

  /** `loadNoResume(bank)`: set exactly when the stored value is the text `1`. */
  function LoadNoResume(storage: Storage, bank: Option<string>): (b: bool)
    ensures b <==> NoResumeKey(bank) in storage && storage[NoResumeKey(bank)] == Raw("1")
  {
    NoResumeKey(bank) in storage && storage[NoResumeKey(bank)] == Raw("1")
  }

  /** `saveNoResume(bank, value)`: writes `1` for true and removes the key for false. */
  function SaveNoResume(storage: Storage, bank: Option<string>, value: bool): (r: Storage)
    ensures value ==> NoResumeKey(bank) in r && r[NoResumeKey(bank)] == Raw("1")
    ensures !value ==> NoResumeKey(bank) !in r
    ensures forall k :: k != NoResumeKey(bank) ==> (k in r <==> k in storage)
  {
    if value then storage[NoResumeKey(bank) := Raw("1")] else storage - {NoResumeKey(bank)}
  }

  lemma {:induction false} NoResumeRoundTrip(storage: Storage, bank: Option<string>, value: bool)
    ensures LoadNoResume(SaveNoResume(storage, bank, value), bank) == value
  {
  }

  /** A snapshot key is the last-mode key only for a bank named `lastMode`, and is never a
      no-resume key when the bank name has no `:`. */
  lemma {:induction false} PreferenceKeysAreNotSnapshots(bank: Option<string>, other: Option<string>)
    ensures StorageKey(bank) == LastModeKey <==> BankOrDefault(bank) == "lastMode"
    ensures ':' !in BankOrDefault(bank) ==> StorageKey(bank) != NoResumeKey(other)
  {
    var k := StorageKey(bank);
    var n := NoResumeKey(other);
    if k == LastModeKey {
      assert k[|SnapshotPrefix|..] == LastModeKey[|SnapshotPrefix|..];
    }
    if k == n {
      assert k[|SnapshotPrefix| + 14] == n[|SnapshotPrefix| + 14] == ':';
      assert BankOrDefault(bank)[14] == ':';
    }
  }

  /** `shouldResume(saved)` at time `now`. */
  function ShouldResume(saved: PracticeSaved, now: int): (b: bool)
    ensures now - saved.timestamp > ResumeExpiryMs ==> !b
    ensures PresentCount(saved.answersByPosition) < ResumeMinAnswered ==> !b
    ensures saved.index <= 0 || saved.index >= saved.total - 1 ==> !b
  {
    if now - saved.timestamp > ResumeExpiryMs then false
    else if PresentCount(saved.answersByPosition) < ResumeMinAnswered then false
    else if saved.index <= 0 then false
    else if saved.index >= saved.total - 1 then false
    else true
  }

  /** The refusals above are the only ones; in particular a snapshot exactly seven days old is
      still offered. */
  lemma {:induction false} ShouldResumeIff(saved: PracticeSaved, now: int)
    ensures ShouldResume(saved, now) <==>
      now - saved.timestamp <= 604800000 && PresentCount(saved.answersByPosition) >= 3
      && 0 < saved.index < saved.total - 1
  {
  }

  /** `normalizeJ(input)`: trimmed and upper-cased. */
  function NormalizeJ(input: string): (r: string)
    ensures |r| <= |input|
    ensures forall i :: 0 <= i < |r| ==> !('a' <= r[i] <= 'z')
    ensures |r| == 0 || (!IsSpace(r[0]) && !IsSpace(r[|r| - 1]))
  {
    ToUpper(Trim(input))
  }

  /** Upper-casing never turns a space into a non-space or back. */
  lemma {:induction false} UpperKeepsSpaces(c: char)
    ensures IsSpace(UpperChar(c)) <==> IsSpace(c)
  {
  }

  /** Normalising twice is normalising once. */
  lemma {:induction false} NormalizeJIdempotent(input: string)
    ensures NormalizeJ(NormalizeJ(input)) == NormalizeJ(input)
  {
    var t := Trim(input);
    var u := ToUpper(t);
    if |u| > 0 {
      UpperKeepsSpaces(t[0]);
      UpperKeepsSpaces(t[|t| - 1]);
    }
    TrimOfPadded([], u, []);
    assert [] + u + [] == u;
    ToUpperIdempotent(t);
  }
}

=== FILE: practice_store.dfy ===
/** The practice store (src/store/practice.ts): a question bank walked in sequential or shuffled
    order, with answers and two display toggles. The random source of `setOrder('random')` is a
    parameter. */
module PracticeStore {
  import opened Base
  import opened Questions
  import opened Indexing
  import Shuffle

  datatype PracticeMode = Sequential | Random

  datatype PracticeState = PracticeState(
    bank: Option<Bank>,
    allQuestions: seq<QuestionItem>,
    questions: seq<QuestionItem>,
    currentIndex: int,
    answers: Answers,
    order: PracticeMode,
    showAnswer: bool,
    showExplanation: bool,
    isLoading: bool)

  /** `initialState`: nothing loaded, sequential order, both toggles on, still loading. */
  function Initial(): (s: PracticeState)
    ensures s.bank == None && s.allQuestions == [] && s.questions == [] && s.currentIndex == 0
    ensures s.answers == map[] && s.order == Sequential
    ensures s.showAnswer && s.showExplanation && s.isLoading
  {
    PracticeState(None, [], [], 0, map[], Sequential, true, true, true)
  }

  /** `loadBank(bank, questions)`: the initial state with the bank loaded in its own order. */
  function LoadBank(bank: Bank, questions: seq<QuestionItem>): (s: PracticeState)
    ensures s.bank == Some(bank) && s.allQuestions == questions && s.questions == questions
    ensures s.currentIndex == 0 && s.answers == map[] && !s.isLoading
    ensures s.order == Sequential && s.showAnswer && s.showExplanation
  {
    Initial().(bank := Some(bank), allQuestions := questions, questions := questions, isLoading := false)
  }

  /** `setOrder(order)`: the bank in its own order or shuffled, from the first question, with no
      answers. */
  function SetOrder(s: PracticeState, order: PracticeMode, rng: Shuffle.Rng): (r: PracticeState)
    ensures r.order == order && r.currentIndex == 0 && r.answers == map[]
    ensures order == Sequential ==> r.questions == s.allQuestions
    ensures |r.questions| == |s.allQuestions|
    ensures r.bank == s.bank && r.allQuestions == s.allQuestions && r.isLoading == s.isLoading
    ensures r.showAnswer == s.showAnswer && r.showExplanation == s.showExplanation
  {
    var qs := if order == Random then Shuffle.Shuffle(s.allQuestions, rng) else s.allQuestions;
    s.(order := order, questions := qs, currentIndex := 0, answers := map[])
  }

  /** In random order the questions are a permutation of the bank. */
  lemma {:induction false} RandomOrderPermutes(s: PracticeState, rng: Shuffle.Rng)
    ensures multiset(SetOrder(s, Random, rng).questions) == multiset(s.allQuestions)
  {
    Shuffle.ShufflePermutes(s.allQuestions, rng);
  }

  function NextQuestion(s: PracticeState): (r: PracticeState)
    ensures r.(currentIndex := s.currentIndex) == s
    ensures 0 <= s.currentIndex < |s.questions| ==> 0 <= r.currentIndex < |s.questions|
  {
    s.(currentIndex := NextIndex(s.currentIndex, |s.questions|))
  }

  function PrevQuestion(s: PracticeState): (r: PracticeState)
    ensures r.(currentIndex := s.currentIndex) == s
    ensures r.currentIndex >= 0
  {
    s.(currentIndex := PrevIndex(s.currentIndex))
  }

  function JumpToQuestion(s: PracticeState, index: int): (r: PracticeState)
    ensures r.(currentIndex := s.currentIndex) == s
    ensures |s.questions| > 0 ==> 0 <= r.currentIndex < |s.questions|
    ensures 0 <= index < |s.questions| ==> r.currentIndex == index
  {
    s.(currentIndex := ClampIndex(index, |s.questions|))
  }

  /** `answer(key, a)`: only the entry under `key` changes. */
  function Answer(s: PracticeState, key: string, a: seq<string>): (r: PracticeState)
    ensures key in r.answers && r.answers[key] == a
    ensures forall k :: k != key ==> (k in r.answers <==> k in s.answers)
    ensures forall k :: k != key && k in s.answers ==> r.answers[k] == s.answers[k]
    ensures r.(answers := s.answers) == s
  {
    s.(answers := s.answers[key := a])
  }

  function ToggleShowAnswer(s: PracticeState): (r: PracticeState)
    ensures r.showAnswer != s.showAnswer
    ensures r.(showAnswer := s.showAnswer) == s
  {
    s.(showAnswer := !s.showAnswer)
  }

  function ToggleShowExplanation(s: PracticeState): (r: PracticeState)
    ensures r.showExplanation != s.showExplanation
    ensures r.(showExplanation := s.showExplanation) == s
  {
    s.(showExplanation := !s.showExplanation)
  }

  /** Each toggle undoes itself. */
  lemma {:induction false} TogglesAreInvolutions(s: PracticeState)
    ensures ToggleShowAnswer(ToggleShowAnswer(s)) == s
    ensures ToggleShowExplanation(ToggleShowExplanation(s)) == s
  {
  }

  datatype SavedPractice = SavedPractice(
    order: PracticeMode,
    questions: seq<QuestionItem>,
    answers: Answers,
    currentIndex: int,
    showAnswer: bool,
    showExplanation: bool)

  /** `applySavedState(saved)`: overwrites the six given fields; the bank, the full question list
      and the loading flag stay. */
  function ApplySavedState(s: PracticeState, saved: SavedPractice): (r: PracticeState)
    ensures r.order == saved.order && r.questions == saved.questions && r.answers == saved.answers
    ensures r.currentIndex == saved.currentIndex
    ensures r.showAnswer == saved.showAnswer && r.showExplanation == saved.showExplanation
    ensures r.bank == s.bank && r.allQuestions == s.allQuestions && r.isLoading == s.isLoading
  {
    s.(order := saved.order, questions := saved.questions, answers := saved.answers,
       currentIndex := saved.currentIndex, showAnswer := saved.showAnswer,
       showExplanation := saved.showExplanation)
  }

  /** Applying the state a store already holds changes nothing, and applying twice is applying once. */
  lemma {:induction false} ApplySavedStateIdempotent(s: PracticeState, saved: SavedPractice)
    ensures ApplySavedState(ApplySavedState(s, saved), saved) == ApplySavedState(s, saved)
    ensures ApplySavedState(s, SavedPractice(s.order, s.questions, s.answers, s.currentIndex, s.showAnswer, s.showExplanation)) == s
  {
  }

  function Reset(s: PracticeState): (r: PracticeState)
    ensures r == Initial()
  {
    Initial()
  }

  /** Switching to sequential order undoes any earlier shuffle: the questions are the bank again. */
  lemma {:induction false} SequentialRestoresBank(s: PracticeState, rng: Shuffle.Rng, rng2: Shuffle.Rng)
    ensures SetOrder(SetOrder(s, Random, rng), Sequential, rng2).questions == s.allQuestions
  {
  }
}

=== FILE: question_card.dfy ===
/** The selection logic of the question card (src/components/exam/question-card.tsx): toggling a
    checkbox of a multiple-choice question, choosing a radio value, and the "answered correctly"
    verdict shown with the immediate answer. */
module QuestionCard {
  import opened Seqs
  import opened AnswerMatch
  import Scoring
  import opened Questions

  /** `Array.from(new Set(s))`: each element once, in order of first occurrence. */
  function Dedup(s: seq<string>): (r: seq<string>)
    ensures Distinct(r)
    ensures forall x :: x in r <==> x in s
    ensures |r| <= |s|
  {
    if s == [] then []
    else
      var d := Dedup(s[..|s| - 1]);
      var last := s[|s| - 1];
      assert s == s[..|s| - 1] + [last];
      if last in d then d else d + [last]
  }

  /** A list without repeats is its own set. */
  lemma {:induction false} DedupOfDistinct(s: seq<string>)
    requires Distinct(s)
    ensures Dedup(s) == s
  {
    if s != [] {
      var init := s[..|s| - 1];
      assert Distinct(init);
      DedupOfDistinct(init);
      assert s[|s| - 1] !in init;
      assert s == init + [s[|s| - 1]];
    }
  }

  /** Everything but `key`. */
  function Other(key: string): string -> bool {
    x => x != key
  }

  /** `toggleMulti(key)`: the selection as a set, without `key` when it held it and with `key`
      appended otherwise. */
  function ToggleMulti(selected: seq<string>, key: string): (r: seq<string>)
    ensures Distinct(r)
    ensures key in r <==> key !in selected
    ensures forall x :: x != key ==> (x in r <==> x in selected)
    ensures key !in selected ==> r == Dedup(selected) + [key]
    ensures key in selected ==> r == Filter(Dedup(selected), Other(key))
  {
    var d := Dedup(selected);
    if key in d then
      var r := Filter(d, Other(key));
      FilterSubMultiset(d, Other(key));
      DistinctOfSubMultiset(r, d);
      forall x ensures x in r <==> x in d && x != key {
        FilterCount(d, Other(key), x);
        assert x in r <==> multiset(r)[x] > 0;
        assert x in d <==> multiset(d)[x] > 0;
      }
      r
    else
      DistinctAppend(d, [key]);
      d + [key]
  }

  /** Toggling the same key twice gives back the same key set. */
  lemma {:induction false} ToggleTwice(selected: seq<string>, key: string)
    ensures forall x :: x in ToggleMulti(ToggleMulti(selected, key), key) <==> x in selected
  {
    var once := ToggleMulti(selected, key);
    var twice := ToggleMulti(once, key);
    forall x ensures x in twice <==> x in selected {
      if x != key {
        assert x in twice <==> x in once;
      }
    }
  }

  /** A selection without repeats that lacked the key comes back exactly. */
  lemma {:induction false} ToggleTwiceExact(selected: seq<string>, key: string)
    requires Distinct(selected) && key !in selected
    ensures ToggleMulti(ToggleMulti(selected, key), key) == selected
  {
    var once := ToggleMulti(selected, key);
    DedupOfDistinct(selected);
    assert once == selected + [key];
    DedupOfDistinct(once);
    FilterAppend(selected, [key], Other(key));
    FilterAllOrNone(selected, Other(key));
    FilterAllOrNone([key], Other(key));
    assert selected + [] == selected;
  }

  /** The radio group's `onValueChange(v)`: `[v]`, or nothing for the empty value. */
  function ChooseSingle(v: string): (r: seq<string>)
    ensures |r| <= 1
    ensures r == [] <==> v == ""
    ensures forall x :: x in r <==> x == v && v != ""
  {
    if v != "" then [v] else []
  }

  /** The radio group's value: the first selected key, or the empty value. */
  function RadioValue(selected: seq<string>): string {
    if |selected| > 0 then selected[0] else ""
  }

  /** Choosing a value and reading the radio group back gives the value. */
  lemma {:induction false} ChooseThenRead(v: string)
    ensures RadioValue(ChooseSingle(v)) == v
  {
  }

  /** `isCorrect`: a non-empty selection whose sorted keys equal the sorted answer keys. */
  predicate IsCorrect(selected: seq<string>, answerKeys: seq<string>) {
    |selected| > 0 && ArraysEqual(Sort(selected), Sort(answerKeys))
  }

  /** The card calls a selection correct exactly when it is non-empty and holds the answer keys
      equally often; so an unanswered question is never shown correct. */
  lemma {:induction false} IsCorrectIff(selected: seq<string>, answerKeys: seq<string>)
    ensures IsCorrect(selected, answerKeys) <==> |selected| > 0 && multiset(selected) == multiset(answerKeys)
  {
    SameKeysIff(selected, answerKeys);
  }

  /** The card and the score disagree only on empty selections: there the score counts a question
      without answer keys as correct while the card never shows it so. */
  lemma {:induction false} CardAgreesWithScore(selected: seq<string>, q: QuestionItem)
    ensures |selected| > 0 ==> (IsCorrect(selected, q.answerKeys) <==> Scoring.Graded(selected, q))
    ensures selected == [] ==> !IsCorrect(selected, q.answerKeys)
    ensures selected == [] ==> (Scoring.Graded(selected, q) <==> q.answerKeys == [])
  {
    SameKeysIff(selected, q.answerKeys);
  }
}

=== FILE: questions.dfy ===
/** The question and question-bank records (src/types/question.ts, src/types/question-bank.ts). */
module Questions {
  import opened Base
  import opened Strings

  datatype QuestionOption = QuestionOption(key: string, text: string)

  /** `codes.J` is the catalogue code (used as the id), `codes.P` the page code. */
  datatype Codes = Codes(j: Option<string>, p: Option<string>)

  datatype QuestionType = Single | Multiple | TrueFalse

  /** One question. The display-only `pages` field is not modelled. */
  datatype QuestionItem = QuestionItem(
    id: Option<string>,
    codes: Codes,
    question: string,
    options: seq<QuestionOption>,
    answerKeys: seq<string>,
    qtype: QuestionType,
    imageUrl: Option<string>)

  /** `UserAnswer`: the selected option keys under each answer key. */
  type Answers = map<string, seq<string>>

  /** `answers[key] ?? []`: a missing entry reads as no selection. */
  function Lookup(answers: Answers, key: string): (r: seq<string>)
    ensures key !in answers ==> r == []
    ensures key in answers ==> r == answers[key]
  {
    if key in answers then answers[key] else []
  }

  /** `(answers[key] ?? []).length > 0`: the question under `key` counts as answered. */
  predicate Answered(answers: Answers, key: string) {
    |Lookup(answers, key)| > 0
  }

  /** `String(pos)`: the answer key of a position. */
  function PositionKey(pos: nat): (k: string)
    ensures |k| >= 1 && forall i :: 0 <= i < |k| ==> IsDigit(k[i])
  {
    NatToString(pos)
  }

  /** Distinct positions have distinct keys. */
  lemma {:induction false} PositionKeyInjective(p1: nat, p2: nat)
    ensures PositionKey(p1) == PositionKey(p2) <==> p1 == p2
  {
    if PositionKey(p1) == PositionKey(p2) {
      NatToStringInjective(p1, p2);
    }
  }

  /** The three exam classes. */
  datatype Bank = A | B | C

  function BankName(b: Bank): string {
    match b
    case A => "A"
    case B => "B"
    case C => "C"
  }

  /** A bank name as it appears in a URL or a stored record; anything else is not a bank. */
  function ParseBank(s: string): (r: Option<Bank>)
    ensures r.Some? ==> BankName(r.value) == s
  {
    if s == "A" then Some(A) else if s == "B" then Some(B) else if s == "C" then Some(C) else None
  }

  lemma {:induction false} ParseBankName(b: Bank)
    ensures ParseBank(BankName(b)) == Some(b)
  {
  }

  datatype BankInfo = BankInfo(path: string, description: string)

  datatype BankPaths = BankPaths(a: BankInfo, b: BankInfo, c: BankInfo) {
    function Get(bank: Bank): BankInfo {
      match bank
      case A => a
      case B => b
      case C => c
    }
  }

  /** A dataset version. `updatedAt` is the date string of the source, read as an epoch number. */
  datatype QuestionVersion = QuestionVersion(
    id: string,
    name: string,
    description: string,
    isLatest: bool,
    banks: BankPaths,
    updatedAt: int)

  datatype QuestionBankConfig = QuestionBankConfig(
    version: string,
    lastModified: string,
    versions: seq<QuestionVersion>)
}

=== FILE: scoring.dfy ===
/** Grading (src/lib/exam.ts): a question counts when the selection stored under its key matches
    its answer keys as an unordered collection. */
module Scoring {
  import opened Questions
  import opened AnswerMatch
  import opened Seqs

  /** How the caller derives the answer key of the question at a position. */
  type GetKeyFn = (QuestionItem, nat) -> string

  /** The question at position `i` is graded correct. */
  predicate CorrectAt(questions: seq<QuestionItem>, answers: Answers, getKey: GetKeyFn, i: nat)
    requires i < |questions|
  {
    Graded(Lookup(answers, getKey(questions[i], i)), questions[i])
  }

  /** The verdict for one question given its selection. */
  predicate Graded(selected: seq<string>, q: QuestionItem) {
    SameKeys(selected, q.answerKeys)
  }

  /** The per-position verdicts, in question order. */
  function Verdicts(questions: seq<QuestionItem>, answers: Answers, getKey: GetKeyFn): (v: seq<bool>)
    ensures |v| == |questions|
    ensures forall i :: 0 <= i < |v| ==> (v[i] <==> CorrectAt(questions, answers, getKey, i))
  {
    seq(|questions|, i requires 0 <= i < |questions| => CorrectAt(questions, answers, getKey, i))
  }

  /** The score of a graded exam: the number of positions graded correct. */
  function Correct(questions: seq<QuestionItem>, answers: Answers, getKey: GetKeyFn): nat {
    CountTrue(Verdicts(questions, answers, getKey))
  }

  datatype Score = Score(correct: nat, total: nat)

  /** `calculateScore`: `total` is the number of questions and `correct` the number of positions
      graded correct, so `0 <= correct <= total`. */
  method CalculateScore(questions: seq<QuestionItem>, answers: Answers, getKey: GetKeyFn) returns (score: Score)
    ensures score.total == |questions|
    ensures score.correct == Correct(questions, answers, getKey)
    ensures score.correct <= score.total
  {
    ghost var v := Verdicts(questions, answers, getKey);
    var correct := 0;
    var i := 0;
    while i < |questions|
      invariant 0 <= i <= |questions|
      invariant correct == CountTrue(v[..i])
    {
      var q := questions[i];
      var ok := ArraysEqual(Sort(Lookup(answers, getKey(q, i))), Sort(q.answerKeys));
      CountPrefixStep(v, i);
      assert v[i] == ok;
      if ok {
        correct := correct + 1;
      }
      i := i + 1;
    }
    assert v[..i] == v;
    score := Score(correct, |questions|);
  }

  /** A question is correct exactly when its selection and answer keys hold the same keys equally
      often, in any order. */
  lemma {:induction false} CorrectAtIff(questions: seq<QuestionItem>, answers: Answers, getKey: GetKeyFn, i: nat)
    requires i < |questions|
    ensures CorrectAt(questions, answers, getKey, i)
        <==> multiset(Lookup(answers, getKey(questions[i], i))) == multiset(questions[i].answerKeys)
  {
    SameKeysIff(Lookup(answers, getKey(questions[i], i)), questions[i].answerKeys);
  }

  /** An unanswered question (no entry under its key) counts as correct exactly when it has no
      answer keys at all. */
  lemma {:induction false} UnansweredCorrectIffNoAnswerKeys(questions: seq<QuestionItem>, answers: Answers, getKey: GetKeyFn, i: nat)
    requires i < |questions|
    requires getKey(questions[i], i) !in answers
    ensures CorrectAt(questions, answers, getKey, i) <==> questions[i].answerKeys == []
  {
    CorrectAtIff(questions, answers, getKey, i);
    if multiset(questions[i].answerKeys) == multiset{} {
      assert |questions[i].answerKeys| == |multiset(questions[i].answerKeys)|;
    }
  }

  /** Only the entries under keys that `getKey` produces for some position influence the score;
      any other entry, present or not, is ignored. */
  lemma {:induction false} ScoreIgnoresForeignKeys(questions: seq<QuestionItem>, a1: Answers, a2: Answers, getKey: GetKeyFn)
    requires forall i :: 0 <= i < |questions| ==> Lookup(a1, getKey(questions[i], i)) == Lookup(a2, getKey(questions[i], i))
    ensures Correct(questions, a1, getKey) == Correct(questions, a2, getKey)
  {
    var v1 := Verdicts(questions, a1, getKey);
    var v2 := Verdicts(questions, a2, getKey);
    forall i | 0 <= i < |questions| ensures v1[i] == v2[i] {
      assert Lookup(a1, getKey(questions[i], i)) == Lookup(a2, getKey(questions[i], i));
    }
    assert v1 == v2;
  }

  /** Every correct answer adds to the score: with the same questions, a grading that is correct
      at least wherever another is scores at least as high. */
  lemma {:induction false} ScoreMonotone(questions: seq<QuestionItem>, a1: Answers, a2: Answers, getKey: GetKeyFn)
    requires forall i :: 0 <= i < |questions| && CorrectAt(questions, a1, getKey, i) ==> CorrectAt(questions, a2, getKey, i)
    ensures Correct(questions, a1, getKey) <= Correct(questions, a2, getKey)
  {
    CountTrueMonotone(Verdicts(questions, a1, getKey), Verdicts(questions, a2, getKey));
  }

  /** `isPassed(correct, passLine)`: the pass line itself passes; there is no rounding and no
      margin. */
  predicate IsPassed(correct: int, passLine: int): (b: bool)
    ensures b <==> passLine <= correct
  {
    correct >= passLine
  }

  /** Passing is monotone in the number of correct answers and is decided by the pass line alone. */
  lemma {:induction false} IsPassedMonotone(c1: int, c2: int, passLine: int)
    requires c1 <= c2
    ensures IsPassed(c1, passLine) ==> IsPassed(c2, passLine)
    ensures IsPassed(passLine, passLine) && !IsPassed(passLine - 1, passLine)
  {
  }
}

=== FILE: search_snippet.dfy ===
/** The match snippet of the practice search dialog (`MatchSnippet` in
    src/components/practice/PracticeSearchDialog.tsx): the text around the first occurrence of the
    upper-cased query, forty characters of context on each side, with ellipses where the text was
    cut. */
module SearchSnippet {
  import opened Strings

  const MaxLen: nat := 120
  const ContextLen: nat := 40

  /** What the snippet shows: a truncated text, or the pieces around a highlighted match. */
  datatype Snippet =
    | Truncated(shown: string, ellipsis: bool)
    | Highlighted(prefixEllipsis: bool, before: string, matched: string, after: string, suffixEllipsis: bool)

  function Min(a: int, b: int): int {
    if a <= b then a else b
  }

  function Max(a: int, b: int): int {
    if a >= b then a else b
  }

  /** `text.slice(0, maxLen)` with the ellipsis iff the text is longer. */
  function Truncate(text: string): (r: Snippet)
    ensures r.Truncated? && |r.shown| <= MaxLen && r.shown <= text
    ensures r.ellipsis <==> |text| > MaxLen
    ensures !r.ellipsis ==> r.shown == text
  {
    Truncated(text[..Min(MaxLen, |text|)], |text| > MaxLen)
  }

  /** `MatchSnippet({ text, query })`. The query is looked up in the upper-cased text, and the
      pieces are cut from the original text at the same positions. */
  function MatchSnippet(text: string, query: string): (r: Snippet)
    ensures r.Truncated? <==> query == "" || IndexOf(ToUpper(text), query) < 0
    ensures r.Truncated? ==> r == Truncate(text)
  {
    if query == "" then Truncate(text)
    else
      var idx := IndexOf(ToUpper(text), query);
      if idx < 0 then Truncate(text)
      else HighlightAt(text, idx, |query|)
  }

  /** The pieces around the `n` characters at `idx`. */
  function HighlightAt(text: string, idx: nat, n: nat): (r: Snippet)
    requires idx + n <= |text|
    ensures r.Highlighted?
  {
    var start := Max(0, idx - ContextLen);
    var end := Min(|text|, idx + n + ContextLen);
    Highlighted(start > 0, text[start..idx], text[idx..idx + n], text[idx + n..end], end < |text|)
  }

  /** Around a match: the three pieces are exactly the window `[start, end)` of the text, with
      `start = max(0, idx - 40)` and `end = min(len, idx + |query| + 40)`; each ellipsis marks a cut
      on its side; and the highlighted piece upper-cases to the query. */
  lemma {:induction false} HighlightWindow(text: string, query: string)
    requires query != "" && IndexOf(ToUpper(text), query) >= 0
    ensures var idx := IndexOf(ToUpper(text), query);
            var start := Max(0, idx - ContextLen);
            var end := Min(|text|, idx + |query| + ContextLen);
            var r := MatchSnippet(text, query);
            && r.Highlighted?
            && 0 <= start <= idx && idx + |query| <= end <= |text|
            && r.before + r.matched + r.after == text[start..end]
            && (r.prefixEllipsis <==> start > 0)
            && (r.suffixEllipsis <==> end < |text|)
            && |r.before| <= ContextLen && |r.after| <= ContextLen
            && ToUpper(r.matched) == query
  {
    var idx := IndexOf(ToUpper(text), query);
    assert OccursAt(ToUpper(text), query, idx);
    WindowAt(text, idx, |query|);
    UpperOfSlice(text, idx, idx + |query|);
  }

  /** The window around the `n` characters at `idx`. */
  lemma {:induction false} WindowAt(text: string, idx: nat, n: nat)
    requires idx + n <= |text|
    ensures var start := Max(0, idx - ContextLen);
            var end := Min(|text|, idx + n + ContextLen);
            var r := HighlightAt(text, idx, n);
            && 0 <= start <= idx && idx + n <= end <= |text|
            && r.before + r.matched + r.after == text[start..end]
            && r.matched == text[idx..idx + n]
            && (r.prefixEllipsis <==> start > 0)
            && (r.suffixEllipsis <==> end < |text|)
            && |r.before| <= ContextLen && |r.after| <= ContextLen
  {
    var start := Max(0, idx - ContextLen);
    var end := Min(|text|, idx + n + ContextLen);
    SliceThree(text, start, idx, idx + n, end);
  }

  /** Three adjacent slices make up the slice that spans them. */
  lemma {:induction false} SliceThree<T>(s: seq<T>, a: nat, b: nat, c: nat, d: nat)
    requires a <= b <= c <= d <= |s|
    ensures s[a..b] + s[b..c] + s[c..d] == s[a..d]
  {
  }

  /** Upper-casing works character by character, so it commutes with slicing. */
  lemma {:induction false} UpperOfSlice(s: string, a: nat, b: nat)
    requires a <= b <= |s|
    ensures ToUpper(s[a..b]) == ToUpper(s)[a..b]
  {
  }

  /** The highlighted match is the first place where the text, upper-cased, reads as the query. */
  lemma {:induction false} HighlightIsFirst(text: string, query: string, k: nat)
    requires query != "" && k + |query| <= |text| && ToUpper(text[k..k + |query|]) == query
    ensures MatchSnippet(text, query).Highlighted?
    ensures IndexOf(ToUpper(text), query) <= k
  {
    var up := ToUpper(text);
    assert up[k..k + |query|] == ToUpper(text[k..k + |query|]);
    assert OccursAt(up, query, k);
  }
}

=== FILE: seqs.dfy ===
/** Sequence helpers shared by the selection, storage and search models. */
module Seqs {

  /** No element occurs twice. */
  predicate Distinct<T(==)>(s: seq<T>) {
    forall i, j :: 0 <= i < j < |s| ==> s[i] != s[j]
  }

  /** `Array.prototype.filter`: the in-order subsequence of elements satisfying `p`. */
  function Filter<T>(s: seq<T>, p: T -> bool): (r: seq<T>)
    ensures |r| <= |s|
    ensures forall i :: 0 <= i < |r| ==> p(r[i])
  {
    if s == [] then [] else (if p(s[0]) then [s[0]] else []) + Filter(s[1..], p)
  }

  /** Filtering keeps, for every value, either all of its occurrences or none. */
  lemma {:induction false} FilterCount<T>(s: seq<T>, p: T -> bool, x: T)
    ensures multiset(Filter(s, p))[x] == if p(x) then multiset(s)[x] else 0
  {
    if s != [] {
      FilterCount(s[1..], p, x);
      assert s == [s[0]] + s[1..];
    }
  }

  /** A filtered sequence holds no element more often than the original. */
  lemma FilterSubMultiset<T>(s: seq<T>, p: T -> bool)
    ensures multiset(Filter(s, p)) <= multiset(s)
  {
    forall x ensures multiset(Filter(s, p))[x] <= multiset(s)[x] {
      FilterCount(s, p, x);
    }
  }

  /** Two permutations of each other of pool positions have equally many positions satisfying `p`. */
  lemma {:induction false} FilterOfPermutation(a: seq<nat>, b: seq<nat>, p: nat -> bool)
    requires multiset(a) == multiset(b)
    ensures multiset(Filter(a, p)) == multiset(Filter(b, p))
    ensures |Filter(a, p)| == |Filter(b, p)|
  {
    var fa: seq<nat>, fb: seq<nat> := Filter(a, p), Filter(b, p);
    forall x: nat ensures multiset(fa)[x] == multiset(fb)[x] {
      FilterCount(a, p, x);
      FilterCount(b, p, x);
    }
    assert multiset(fa) == multiset(fb);
    assert |multiset(fa)| == |fa|;
    assert |multiset(fb)| == |fb|;
  }

  /** A sequence is duplicate-free exactly when its multiset holds every value at most once. */
  lemma {:induction false} DistinctIffSimpleMultiset<T>(s: seq<T>)
    ensures Distinct(s) <==> forall x :: multiset(s)[x] <= 1
  {
    if s == [] {
    } else {
      DistinctIffSimpleMultiset(s[1..]);
      assert s == [s[0]] + s[1..];
      if Distinct(s) {
        assert Distinct(s[1..]);
        HeadNotInTail(s);
      } else {
        var i, j :| 0 <= i < j < |s| && s[i] == s[j];
        if i == 0 {
          assert s[1..][j - 1] == s[0];
          assert multiset(s[1..])[s[0]] >= 1;
          assert multiset(s)[s[0]] >= 2;
        } else {
          assert s[1..][i - 1] == s[1..][j - 1];
          assert !Distinct(s[1..]);
          var x :| multiset(s[1..])[x] > 1;
          assert multiset(s)[x] > 1;
        }
      }
    }
  }

  /** In a duplicate-free sequence the head does not recur in the tail. */
  lemma {:induction false} HeadNotInTail<T>(s: seq<T>)
    requires s != [] && Distinct(s)
    ensures s[0] !in s[1..]
  {
    forall j | 0 <= j < |s[1..]|
      ensures s[1..][j] != s[0]
    {
      assert s[1..][j] == s[j + 1];
    }
  }

  /** Permutations preserve duplicate-freedom. */
  lemma {:induction false} DistinctOfPermutation<T>(a: seq<T>, b: seq<T>)
    requires multiset(a) == multiset(b)
    requires Distinct(a)
    ensures Distinct(b)
  {
    DistinctIffSimpleMultiset(a);
    DistinctIffSimpleMultiset(b);
  }

  /** A duplicate-free sequence has as many distinct values as elements. */
  lemma {:induction false} DistinctCard<T>(s: seq<T>)
    requires Distinct(s)
    ensures |set x | x in s| == |s|
  {
    if s != [] {
      assert Distinct(s[1..]);
      DistinctCard(s[1..]);
      HeadNotInTail(s);
      assert (set x | x in s) == {s[0]} + (set x | x in s[1..]);
    }
  }

  /** The number of `true` entries. */
  function CountTrue(v: seq<bool>): (c: nat)
    ensures c <= |v|
  {
    if v == [] then 0 else CountTrue(v[..|v| - 1]) + (if v[|v| - 1] then 1 else 0)
  }

  /** Counting one more position of a prefix adds that position's flag. */
  lemma {:induction false} CountPrefixStep(v: seq<bool>, i: nat)
    requires i < |v|
    ensures CountTrue(v[..i + 1]) == CountTrue(v[..i]) + (if v[i] then 1 else 0)
  {
    assert v[..i + 1][..i] == v[..i];
  }

  /** Counting is pointwise monotone: more `true` entries never lower the count. */
  lemma {:induction false} CountTrueMonotone(v1: seq<bool>, v2: seq<bool>)
    requires |v1| == |v2|
    requires forall i :: 0 <= i < |v1| && v1[i] ==> v2[i]
    ensures CountTrue(v1) <= CountTrue(v2)
  {
    if v1 != [] {
      CountTrueMonotone(v1[..|v1| - 1], v2[..|v2| - 1]);
    }
  }

  /** Setting one `false` entry to `true` adds exactly one to the count. */
  lemma {:induction false} CountTrueSetOne(v: seq<bool>, i: nat)
    requires i < |v| && !v[i]
    ensures CountTrue(v[i := true]) == CountTrue(v) + 1
  {
    var w := v[i := true];
    if i < |v| - 1 {
      assert w[..|w| - 1] == v[..|v| - 1][i := true];
      CountTrueSetOne(v[..|v| - 1], i);
    } else {
      assert w[..|w| - 1] == v[..|v| - 1];
    }
  }

  /** A sequence with no `true` entry counts zero. */
  lemma {:induction false} CountTrueNone(v: seq<bool>)
    requires forall i :: 0 <= i < |v| ==> !v[i]
    ensures CountTrue(v) == 0
  {
    if v != [] {
      CountTrueNone(v[..|v| - 1]);
    }
  }

  /** Counting is additive over concatenation. */
  lemma {:induction false} CountTrueAppend(v: seq<bool>, w: seq<bool>)
    ensures CountTrue(v + w) == CountTrue(v) + CountTrue(w)
    decreases |w|
  {
    if w == [] {
      assert v + w == v;
    } else {
      assert (v + w)[..|v + w| - 1] == v + w[..|w| - 1];
      CountTrueAppend(v, w[..|w| - 1]);
    }
  }

  /** Two pointwise complementary sequences share out their length. */
  lemma {:induction false} CountTrueComplement(v: seq<bool>, w: seq<bool>)
    requires |v| == |w|
    requires forall i :: 0 <= i < |v| ==> w[i] == !v[i]
    ensures CountTrue(v) + CountTrue(w) == |v|
  {
    if v != [] {
      CountTrueComplement(v[..|v| - 1], w[..|w| - 1]);
    }
  }

  /** `[0, 1, ..., n - 1]`. */
  function Range(n: nat): (r: seq<nat>)
    ensures |r| == n
    ensures forall i :: 0 <= i < n ==> r[i] == i
  {
    seq(n, i requires 0 <= i < n => i)
  }

  /** `s.slice(0, n)`: the first `n` elements, or all of them when there are fewer. */
  function Take<T>(s: seq<T>, n: nat): (r: seq<T>)
    ensures |r| == if n <= |s| then n else |s|
    ensures r <= s
  {
    if n <= |s| then s[..n] else s
  }

  /** Filtering distributes over concatenation. */
  lemma {:induction false} FilterAppend<T>(a: seq<T>, b: seq<T>, p: T -> bool)
    ensures Filter(a + b, p) == Filter(a, p) + Filter(b, p)
  {
    if a != [] {
      FilterAppend(a[1..], b, p);
      FilterAppendStep(a, b, p);
    } else {
      assert a + b == b;
    }
  }

  /** One step of `FilterAppend`: the head of `a` is kept or dropped in front of both sides. */
  lemma {:induction false} FilterAppendStep<T>(a: seq<T>, b: seq<T>, p: T -> bool)
    requires a != [] && Filter(a[1..] + b, p) == Filter(a[1..], p) + Filter(b, p)
    ensures Filter(a + b, p) == Filter(a, p) + Filter(b, p)
  {
    var h := if p(a[0]) then [a[0]] else [];
    var ta, tb := Filter(a[1..], p), Filter(b, p);
    assert Filter(a + b, p) == h + (ta + tb) by {
      assert (a + b)[0] == a[0] && (a + b)[1..] == a[1..] + b;
    }
    assert Filter(a, p) == h + ta;
    assert h + (ta + tb) == (h + ta) + tb;
  }

  /** Filtering keeps everything when every element qualifies, and nothing when none does. */
  lemma {:induction false} FilterAllOrNone<T>(s: seq<T>, p: T -> bool)
    ensures (forall i :: 0 <= i < |s| ==> p(s[i])) ==> Filter(s, p) == s
    ensures (forall i :: 0 <= i < |s| ==> !p(s[i])) ==> Filter(s, p) == []
  {
    if s != [] {
      FilterAllOrNone(s[1..], p);
      if forall i :: 0 <= i < |s| ==> p(s[i]) {
        assert forall i :: 0 <= i < |s[1..]| ==> p(s[1..][i]) by {
          forall i | 0 <= i < |s[1..]| ensures p(s[1..][i]) { assert s[1..][i] == s[i + 1]; }
        }
        assert [s[0]] + s[1..] == s;
      }
      if forall i :: 0 <= i < |s| ==> !p(s[i]) {
        assert forall i :: 0 <= i < |s[1..]| ==> !p(s[1..][i]) by {
          forall i | 0 <= i < |s[1..]| ensures !p(s[1..][i]) { assert s[1..][i] == s[i + 1]; }
        }
      }
    }
  }

  /** A filter comes out empty exactly when no element qualifies. */
  lemma {:induction false} FilterEmptyIff<T>(s: seq<T>, p: T -> bool)
    ensures Filter(s, p) == [] <==> forall i :: 0 <= i < |s| ==> !p(s[i])
  {
    FilterAllOrNone(s, p);
    if i :| 0 <= i < |s| && p(s[i]) {
      FilterCount(s, p, s[i]);
      assert s[i] in multiset(s);
    }
  }

  /** A predicate and its negation split a sequence: the two filtered lengths add up. */
  lemma {:induction false} FilterSplitLength<T>(s: seq<T>, p: T -> bool, q: T -> bool)
    requires forall x :: q(x) == !p(x)
    ensures |Filter(s, p)| + |Filter(s, q)| == |s|
  {
    if s != [] {
      FilterSplitLength(s[1..], p, q);
    }
  }

  /** A sequence whose multiset lies within that of a duplicate-free one is duplicate-free. */
  lemma {:induction false} DistinctOfSubMultiset<T>(a: seq<T>, b: seq<T>)
    requires multiset(a) <= multiset(b)
    requires Distinct(b)
    ensures Distinct(a)
  {
    DistinctIffSimpleMultiset(a);
    DistinctIffSimpleMultiset(b);
  }

  /** Filters and prefixes of a duplicate-free sequence are duplicate-free. */
  lemma {:induction false} DistinctFilterAndTake<T>(s: seq<T>, p: T -> bool, n: nat)
    requires Distinct(s)
    ensures Distinct(Filter(s, p))
    ensures Distinct(Take(s, n))
  {
    FilterSubMultiset(s, p);
    DistinctOfSubMultiset(Filter(s, p), s);
    var t := Take(s, n);
    assert s == t + s[|t|..];
    DistinctOfSubMultiset(t, s);
  }

  /** Two duplicate-free sequences with no common element concatenate to a duplicate-free one. */
  lemma {:induction false} DistinctAppend<T>(a: seq<T>, b: seq<T>)
    requires Distinct(a) && Distinct(b)
    requires forall i, j :: 0 <= i < |a| && 0 <= j < |b| ==> a[i] != b[j]
    ensures Distinct(a + b)
  {
    forall i, j | 0 <= i < j < |a + b| ensures (a + b)[i] != (a + b)[j] {
      if j >= |a| && i < |a| {
        assert (a + b)[j] == b[j - |a|];
      }
    }
  }

  /** A block of `k` elements satisfying `p` followed by elements that do not: exactly `k`
      elements pass the filter. */
  lemma {:induction false} FilterOfTwoBlocks<T>(s: seq<T>, k: nat, p: T -> bool)
    requires k <= |s|
    requires forall i :: 0 <= i < k ==> p(s[i])
    requires forall i :: k <= i < |s| ==> !p(s[i])
    ensures |Filter(s, p)| == k
  {
    var a := s[..k];
    var b := s[k..];
    assert s == a + b;
    FilterAppend(a, b, p);
    FilterAllOrNone(a, p);
    assert forall i :: 0 <= i < |b| ==> b[i] == s[k + i];
    FilterAllOrNone(b, p);
  }

  /** Every value below `n` occurs once in `Range(n)`, and no other value occurs. */
  lemma {:induction false} RangeCount(n: nat, x: nat)
    ensures multiset(Range(n))[x] == if x < n then 1 else 0
  {
    DistinctIffSimpleMultiset(Range(n));
    if x < n {
      assert Range(n)[x] == x;
    }
  }

  /** Membership in `picked`, as a filter. */
  function NotIn(picked: seq<nat>): nat -> bool {
    x => x !in picked
  }

  /** `allIds.filter(x => !picked.includes(x))` over the positions `[0, n)`. */
  function Complement(n: nat, picked: seq<nat>): seq<nat> {
    Filter(Range(n), NotIn(picked))
  }

  /** The positions of `[0, n)` not listed in a duplicate-free list of such positions number
      `n` minus the list's length. */
  lemma {:induction false} RangeComplementLength(n: nat, picked: seq<nat>)
    requires Distinct(picked)
    requires forall i :: 0 <= i < |picked| ==> picked[i] < n
    ensures |Complement(n, picked)| == n - |picked|
  {
    var all: seq<nat> := Range(n);
    var inP: nat -> bool := x => x in picked;
    FilterSplitLength(all, inP, NotIn(picked));
    DistinctIffSimpleMultiset(picked);
    var kept: seq<nat> := Filter(all, inP);
    forall x: nat ensures multiset(kept)[x] == multiset(picked)[x] {
      FilterCount(all, inP, x);
      RangeCount(n, x);
      if x in picked {
        var i :| 0 <= i < |picked| && picked[i] == x;
      }
    }
    assert multiset(kept) == multiset(picked);
    assert |multiset(kept)| == |multiset(picked)|;
  }

  /** The complement holds distinct positions below `n`, none of them in `picked`. */
  lemma {:induction false} ComplementFacts(n: nat, picked: seq<nat>)
    ensures Distinct(Complement(n, picked))
    ensures forall i :: 0 <= i < |Complement(n, picked)| ==>
      Complement(n, picked)[i] < n && Complement(n, picked)[i] !in picked
  {
    var all: seq<nat> := Range(n);
    var c: seq<nat> := Filter(all, NotIn(picked));
    assert Distinct(all);
    DistinctFilterAndTake(all, NotIn(picked), 0);
    FilterSubMultiset(all, NotIn(picked));
    forall i | 0 <= i < |c| ensures c[i] < n && c[i] !in picked {
      assert NotIn(picked)(c[i]);
      assert c[i] in multiset(c);
      assert c[i] in multiset(all);
      var j :| 0 <= j < |all| && all[j] == c[i];
    }
  }

  /** `Array.prototype.findIndex`: the least position whose element satisfies `p`, or -1. */
  function FindIndex<T>(s: seq<T>, p: T -> bool): (r: int)
    ensures -1 <= r < |s|
    ensures r >= 0 ==> p(s[r])
    ensures forall k :: 0 <= k < |s| && (r == -1 || k < r) ==> !p(s[k])
  {
    if s == [] then -1
    else if p(s[0]) then 0
    else
      var k := FindIndex(s[1..], p);
      assert forall j :: 1 <= j < |s| ==> s[j] == s[1..][j - 1];
      if k < 0 then -1 else k + 1
  }
}

=== FILE: shortcuts.dfy ===
/** The question keyboard shortcuts (src/hooks/useQuestionShortcuts.ts): which action a key press
    triggers. The handlers are named by the action they stand for, and a key event is its key and
    its target. */
module Shortcuts {
  import opened Base
  import opened Strings

  /** The target of a key event: none, or an element with its tag name (if any) and whether it is
      content-editable. */
  datatype Target = NoTarget | Element(tagName: Option<string>, isContentEditable: bool)

  /** `defaultIsTypingTarget(el)`: an input, a textarea or an editable element. */
  predicate DefaultIsTypingTarget(t: Target) {
    match t
    case NoTarget => false
    case Element(tag, editable) =>
      (tag.Some? && (ToLower(tag.value) == "input" || ToLower(tag.value) == "textarea")) || editable
  }

  /** Which optional handlers are given, and the optional typing-target test. */
  datatype Options = Options(
    hasSelectDigit: bool,
    enableEnterSearch: bool,
    hasEnterSearch: bool,
    isTypingTarget: Option<Target -> bool>)

  datatype Action = Prev | Next | EnterSearch | SelectDigit(n: nat)

  /** The handler called, if any, and whether the browser default is prevented. */
  datatype Outcome = Outcome(action: Option<Action>, preventDefault: bool)

  const Ignored: Outcome := Outcome(None, false)

  /** `/^[1-9]$/.test(key)` */
  predicate IsDigitKey(key: string) {
    |key| == 1 && '1' <= key[0] <= '9'
  }

  /** `opts.isTypingTarget ?? defaultIsTypingTarget` */
  predicate TypingTarget(opts: Options, t: Target) {
    match opts.isTypingTarget
    case Some(test) => test(t)
    case None => DefaultIsTypingTarget(t)
  }

  /** The `keydown` listener. */
  function OnKeyDown(opts: Options, key: string, target: Target): (r: Outcome)
    ensures TypingTarget(opts, target) ==> r == Ignored
    ensures r.action == Some(Prev) <==> !TypingTarget(opts, target) && key == "ArrowLeft"
    ensures r.action == Some(Next) <==> !TypingTarget(opts, target) && key == "ArrowRight"
    ensures r.action == Some(EnterSearch) <==>
              !TypingTarget(opts, target) && key == "Enter" && opts.enableEnterSearch && opts.hasEnterSearch
    ensures r.action.Some? && r.action.value.SelectDigit? ==>
              IsDigitKey(key) && 1 <= r.action.value.n <= 9 && NatToString(r.action.value.n) == key
    ensures r.preventDefault <==>
              !TypingTarget(opts, target) && (key == "ArrowLeft" || key == "ArrowRight" || (key == "Enter" && opts.enableEnterSearch))
  {
    if TypingTarget(opts, target) then Ignored
    else if key == "ArrowLeft" then Outcome(Some(Prev), true)
    else if key == "ArrowRight" then Outcome(Some(Next), true)
    else if opts.enableEnterSearch && key == "Enter" then
      Outcome(if opts.hasEnterSearch then Some(EnterSearch) else None, true)
    else if IsDigitKey(key) then
      var n := key[0] as int - '0' as int;
      assert NatToString(n) == [DigitChar(n)];
      Outcome(if opts.hasSelectDigit then Some(SelectDigit(n)) else None, false)
    else Ignored
  }

  /** The digit keys 1 to 9 select the option of that number when a handler is given. */
  lemma {:induction false} DigitSelects(opts: Options, n: nat, target: Target)
    requires 1 <= n <= 9 && opts.hasSelectDigit && !TypingTarget(opts, target)
    ensures OnKeyDown(opts, NatToString(n), target).action == Some(SelectDigit(n))
  {
    assert NatToString(n) == [DigitChar(n)];
  }

  /** `0`, and any key that is not an arrow, Enter or a digit 1 to 9, does nothing. */
  lemma {:induction false} OtherKeysIgnored(opts: Options, key: string, target: Target)
    requires key != "ArrowLeft" && key != "ArrowRight" && key != "Enter" && !IsDigitKey(key)
    ensures OnKeyDown(opts, key, target) == Ignored
  {
  }

  /** Enter without `enableEnterSearch` does nothing, whatever handlers are given. */
  lemma {:induction false} EnterNeedsFlag(opts: Options, target: Target)
    requires !opts.enableEnterSearch
    ensures OnKeyDown(opts, "Enter", target) == Ignored
  {
    assert !IsDigitKey("Enter");
  }
}

=== FILE: shuffle.dfy ===
/** Fisher–Yates shuffle with an injectable random source (src/lib/load-questions.ts `shuffle`).
    The random source is a stream of draws, each a fraction `num / den` in [0, 1): the `k`-th call
    of `rng()` returns `rng(k)`. Floating-point rounding of `rng() * (i + 1)` is not modelled. */
module Shuffle {
  /** One value returned by `rng()`, the exact fraction `num / den`. */
  datatype Draw = Draw(num: nat, den: nat)

  /** `rng()` honours its contract of returning a value in [0, 1). */
  predicate UnitDraw(d: Draw) {
    d.num < d.den
  }

  type UnitValue = d: Draw | UnitDraw(d) witness Draw(0, 1)

  type Rng = nat -> UnitValue

  /** `Math.floor(rng() * (i + 1))`: the swap partner of position `i` lies in `[0, i]`. */
  function Pick(d: Draw, i: nat): (j: nat)
    requires UnitDraw(d)
    ensures j <= i
  {
    PickBelow(d.num, d.den, i + 1);
    d.num * (i + 1) / d.den
  }

  /** `num < den` gives `num * m / den < m`. */
  lemma {:induction false} PickBelow(num: nat, den: nat, m: nat)
    requires num < den
    ensures m == 0 || num * m / den < m
  {
    if m > 0 {
      var q := num * m / den;
      assert num * m < den * m;
      assert den * q <= num * m;
      assert den * (m - q) == den * m - den * q;
      assert den * (m - q) > 0;
    }
  }

  /** Exchanges the elements at `i` and `j`. */
  function Swap<T>(s: seq<T>, i: nat, j: nat): (r: seq<T>)
    requires i < |s| && j < |s|
    ensures |r| == |s|
    ensures r[i] == s[j] && r[j] == s[i]
  {
    s[i := s[j]][j := s[i]]
  }

  lemma {:induction false} SwapPermutes<T>(s: seq<T>, i: nat, j: nat)
    requires i < |s| && j < |s|
    ensures multiset(Swap(s, i, j)) == multiset(s)
  {
  }

  /** The loop from position `i` down to 1, where the step at position `i` consumes draw `k`. */
  function Pass<T>(s: seq<T>, rng: Rng, i: nat, k: nat): (r: seq<T>)
    requires i < |s|
    ensures |r| == |s|
    decreases i
  {
    if i == 0 then s
    else
      Pass(Swap(s, i, Pick(rng(k), i)), rng, i - 1, k + 1)
  }

  /** Every pass only exchanges elements, so it permutes its input. */
  lemma {:induction false} PassPermutes<T>(s: seq<T>, rng: Rng, i: nat, k: nat)
    requires i < |s|
    ensures multiset(Pass(s, rng, i, k)) == multiset(s)
    decreases i
  {
    if i > 0 {
      var j := Pick(rng(k), i);
      SwapPermutes(s, i, j);
      PassPermutes(Swap(s, i, j), rng, i - 1, k + 1);
    }
  }

  /** The shuffle is a permutation of its input: every element occurs as often as before. */
  lemma {:induction false} ShufflePermutes<T>(a: seq<T>, rng: Rng)
    ensures multiset(Shuffle(a, rng)) == multiset(a)
  {
    if |a| > 0 {
      PassPermutes(a, rng, |a| - 1, 0);
    }
  }

  /** The shuffled copy has the input's length (it is a permutation, see `ShufflePermutes`); an
      input of length 0 or 1 comes back unchanged. */
  function Shuffle<T>(a: seq<T>, rng: Rng): (r: seq<T>)
    ensures |r| == |a|
    ensures |a| <= 1 ==> r == a
  {
    if |a| == 0 then a else Pass(a, rng, |a| - 1, 0)
  }

  /** The loop of `shuffle` over a copy of the input, which it returns; the input is a value and is
      not changed. */
  method ShuffleCopy<T>(arr: seq<T>, rng: Rng) returns (r: seq<T>)
    ensures r == Shuffle(arr, rng)
  {
    var copy := arr;
    if |copy| == 0 {
      return copy;
    }
    var i := |copy| - 1;
    var k := 0;
    while i > 0
      invariant 0 <= i < |copy|
      invariant k + i == |arr| - 1
      invariant Pass(copy, rng, i, k) == Shuffle(arr, rng)
      decreases i
    {
      var j := Pick(rng(k), i);
      assert Pass(copy, rng, i, k) == Pass(Swap(copy, i, j), rng, i - 1, k + 1);
      copy := Swap(copy, i, j);
      k := k + 1;
      i := i - 1;
    }
    assert Pass(copy, rng, 0, k) == copy;
    r := copy;
  }

  /** The output depends only on the draws the loop consumes: two random sources that agree on
      the first `|a| - 1` draws give the same shuffle. */
  lemma {:induction false} PassUsesOnlyItsDraws<T>(s: seq<T>, r1: Rng, r2: Rng, i: nat, k: nat)
    requires i < |s|
    requires forall m: nat :: k <= m < k + i ==> r1(m) == r2(m)
    ensures Pass(s, r1, i, k) == Pass(s, r2, i, k)
    decreases i
  {
    if i > 0 {
      assert r1(k) == r2(k);
      var s' := Swap(s, i, Pick(r1(k), i));
      PassUsesOnlyItsDraws(s', r1, r2, i - 1, k + 1);
    }
  }

  lemma {:induction false} ShuffleUsesOnlyItsDraws<T>(a: seq<T>, r1: Rng, r2: Rng)
    requires forall m: nat :: m + 1 < |a| ==> r1(m) == r2(m)
    ensures Shuffle(a, r1) == Shuffle(a, r2)
  {
    if |a| > 0 {
      PassUsesOnlyItsDraws(a, r1, r2, |a| - 1, 0);
    }
  }
}

=== FILE: snapshots.dfy ===
/** Browser storage and the two snapshot records kept in it (src/lib/exam-storage.ts
    `ExamSavedState`, src/lib/practice-storage.ts `SavedState`). Storage maps keys to stored
    values; JSON text is abstracted to the record it parses to. A value that does not parse, or
    parses to something other than an object, is `Raw`. */
module Snapshots {
  import opened Base
  import PracticeStore

  /** `(string[] | null)[]`: one entry per position, `null` for no answer. */
  type PositionAnswers = seq<Option<seq<string>>>

  /** `versionId` is written only by the storage-key migration. */
  datatype ExamSaved = ExamSaved(
    version: int,
    bank: string,
    timestamp: int,
    endAtMs: Option<int>,
    index: int,
    answersByPosition: PositionAnswers,
    flagsByPosition: seq<bool>,
    total: int,
    versionId: Option<string>)

  /** `versionId` is written only by the storage-key migration. */
  datatype PracticeSaved = PracticeSaved(
    version: int,
    bank: string,
    timestamp: int,
    index: int,
    order: PracticeStore.PracticeMode,
    showAnswer: bool,
    orderIndices: seq<int>,
    answersByPosition: PositionAnswers,
    total: int,
    versionId: Option<string>)

  datatype StoredValue =
    | ExamRecord(exam: ExamSaved)
    | PracticeRecord(practice: PracticeSaved)
    | Raw(text: string)

  type Storage = map<string, StoredValue>

  /** `(answersByPosition || []).filter(Boolean).length`: the number of non-null entries. An empty
      array is truthy, so `[]` counts as answered. */
  function PresentCount(xs: PositionAnswers): (c: nat)
    ensures c <= |xs|
    ensures c == 0 <==> forall i :: 0 <= i < |xs| ==> xs[i].None?
  {
    if xs == [] then 0 else PresentCount(xs[..|xs| - 1]) + (if xs[|xs| - 1].Some? then 1 else 0)
  }

  /** The count is the length of the filtered list of non-null entries. */
  lemma {:induction false} PresentCountIsFilterLength(xs: PositionAnswers)
    ensures PresentCount(xs) == |set i | 0 <= i < |xs| && xs[i].Some?|
  {
    if xs != [] {
      var n := |xs| - 1;
      PresentCountIsFilterLength(xs[..n]);
      var prev := set i | 0 <= i < n && xs[..n][i].Some?;
      var all := set i | 0 <= i < |xs| && xs[i].Some?;
      if xs[n].Some? {
        assert all == prev + {n};
      } else {
        assert all == prev;
      }
    }
  }
}

=== FILE: storage_migration.dfy ===
/** The migration of storage keys to versioned keys (src/lib/storage-migration.ts). Each of the
    three migrations picks its legacy keys from the list of storage keys taken when it starts,
    asks for the latest question-bank version, and moves every legacy entry it accepts to a key
    carrying that version's id. The key list is the parameter `keys` (the order of
    `Object.keys(localStorage)`), the latest version the parameter `latest`. */
module StorageMigration {
  import opened Base
  import opened Seqs
  import opened Strings
  import opened Questions
  import opened Snapshots
  import PracticeStorage

  const ExamPrefix: string := "exam:savedState:"
  const PracticePrefix: string := "practice:"
  const NoResumePrefix: string := "practice:noResumePrompt:"

  /** The three migrations; `ExamIntended` is the exam migration with the legacy-key test its
      authors evidently meant. */
  datatype Family = Exam | ExamIntended | Practice | Preference

  /** The exam migration's test, as written: the key starts with `exam:savedState:` and contains
      no `:` at all. */
  predicate IsLegacyExamKey(k: string) {
    StartsWith(k, ExamPrefix) && ':' !in k
  }

  /** A legacy exam key as meant: `exam:savedState:<bank>` with no `:` in the bank. */
  predicate IsLegacyExamKeyIntended(k: string) {
    StartsWith(k, ExamPrefix) && ':' !in k[|ExamPrefix|..]
  }

  /** The practice migration's test: under `practice:`, not the last-mode or no-resume entries,
      and exactly one `:`. */
  predicate IsLegacyPracticeKey(k: string) {
    StartsWith(k, PracticePrefix) && !Contains(k, "practice:lastMode")
    && !Contains(k, "practice:noResumePrompt") && |Split(k, ':')| == 2
  }

  /** The preference migration's test: `practice:noResumePrompt:<bank>` with three `:`-parts. */
  predicate IsLegacyNoResumeKey(k: string) {
    StartsWith(k, NoResumePrefix) && |Split(k, ':')| == 3
  }

  predicate IsLegacy(f: Family, k: string) {
    match f
    case Exam => IsLegacyExamKey(k)
    case ExamIntended => IsLegacyExamKeyIntended(k)
    case Practice => IsLegacyPracticeKey(k)
    case Preference => IsLegacyNoResumeKey(k)
  }

  function LegacyTest(f: Family): string -> bool {
    k => IsLegacy(f, k)
  }

  /** The prefix every key a migration reads or writes starts with. */
  function FamilyPrefix(f: Family): string {
    match f
    case Exam => ExamPrefix
    case ExamIntended => ExamPrefix
    case Practice => PracticePrefix
    case Preference => NoResumePrefix
  }

  /** The entries a migration moves: snapshot records of version 1, and for the preference any
      non-empty value of a key with three parts. */
  predicate Movable(f: Family, k: string, v: StoredValue) {
    match f
    case Exam => v.ExamRecord? && v.exam.version == 1
    case ExamIntended => v.ExamRecord? && v.exam.version == 1
    case Practice => v.PracticeRecord? && v.practice.version == 1
    case Preference => v != Raw("") && |Split(k, ':')| == 3
  }

  /** Where a moved entry goes: `<prefix><version id>:<bank>`. */
  function NewKey(f: Family, k: string, v: StoredValue, id: string): (nk: string)
    requires Movable(f, k, v)
    ensures StartsWith(nk, FamilyPrefix(f))
  {
    match f
    case Exam => ExamPrefix + id + ":" + v.exam.bank
    case ExamIntended => ExamPrefix + id + ":" + v.exam.bank
    case Practice => PracticePrefix + id + ":" + v.practice.bank
    case Preference => NoResumePrefix + id + ":" + Split(k, ':')[2]
  }

  /** What a moved entry becomes: a record of version 2 stamped with the version id; a preference
      value is copied. */
  function Migrated(f: Family, k: string, v: StoredValue, id: string): (m: StoredValue)
    requires Movable(f, k, v)
    ensures f != Preference ==> m.Raw? == false
    ensures f == Practice ==> m.PracticeRecord? && m.practice == v.practice.(version := 2, versionId := Some(id))
    ensures f in {Exam, ExamIntended} ==> m.ExamRecord? && m.exam == v.exam.(version := 2, versionId := Some(id))
    ensures f == Preference ==> m == v
  {
    match f
    case Exam => ExamRecord(v.exam.(version := 2, versionId := Some(id)))
    case ExamIntended => ExamRecord(v.exam.(version := 2, versionId := Some(id)))
    case Practice => PracticeRecord(v.practice.(version := 2, versionId := Some(id)))
    case Preference => v
  }

  /** One iteration: an accepted entry is written under its new key, then its old key removed. */
  function Step(f: Family, s: Storage, k: string, id: string): Storage {
    if k in s && Movable(f, k, s[k]) then s[NewKey(f, k, s[k], id) := Migrated(f, k, s[k], id)] - {k}
    else s
  }

  /** The loop over the legacy keys, in order. */
  function Fold(f: Family, s: Storage, ks: seq<string>, id: string): Storage
    decreases |ks|
  {
    if ks == [] then s else Fold(f, Step(f, s, ks[0], id), ks[1..], id)
  }

  /** One migration: nothing happens without legacy keys or without a latest version. */
  function Migrate(f: Family, s: Storage, keys: seq<string>, latest: Option<QuestionVersion>): (r: Storage)
    ensures Filter(keys, LegacyTest(f)) == [] || latest.None? ==> r == s
  {
    var legacy := Filter(keys, LegacyTest(f));
    if legacy == [] || latest.None? then s else Fold(f, s, legacy, latest.value.id)
  }

  /** `migrateAllStorage()`, with the exam migration's legacy test as intended: the three
      migrations over the one key list they all read before their first `await`. Without a latest
      version nothing changes, and keys outside `exam:savedState:` and `practice:` are never
      touched. */
  function MigrateAll(s: Storage, keys: seq<string>, latest: Option<QuestionVersion>): (r: Storage)
    ensures latest.None? ==> r == s
    ensures forall k :: !StartsWith(k, ExamPrefix) && !StartsWith(k, PracticePrefix) ==>
              (k in r <==> k in s) && (k in s ==> r[k] == s[k])
  {
    MigrationsKeepOtherKeys(s, keys, latest);
    Migrate(Preference, Migrate(Practice, Migrate(ExamIntended, s, keys, latest), keys, latest), keys, latest)
  }

  /** No-resume keys lie under `practice:`. */
  lemma {:induction false} NoResumeUnderPractice(k: string)
    ensures StartsWith(k, NoResumePrefix) ==> StartsWith(k, PracticePrefix)
  {
    if StartsWith(k, NoResumePrefix) {
      assert PracticePrefix == NoResumePrefix[..|PracticePrefix|];
      assert k[..|PracticePrefix|] == NoResumePrefix[..|PracticePrefix|];
    }
  }

  /** The three migrations in turn leave every key outside their prefixes as it was. */
  lemma {:induction false} MigrationsKeepOtherKeys(s: Storage, keys: seq<string>, latest: Option<QuestionVersion>)
    ensures var r := Migrate(Preference, Migrate(Practice, Migrate(ExamIntended, s, keys, latest), keys, latest), keys, latest);
      forall k :: !StartsWith(k, ExamPrefix) && !StartsWith(k, PracticePrefix) ==>
        (k in r <==> k in s) && (k in s ==> r[k] == s[k])
  {
    var r1 := Migrate(ExamIntended, s, keys, latest);
    var r2 := Migrate(Practice, r1, keys, latest);
    var r3 := Migrate(Preference, r2, keys, latest);
    forall k | !StartsWith(k, ExamPrefix) && !StartsWith(k, PracticePrefix)
      ensures (k in r3 <==> k in s) && (k in s ==> r3[k] == s[k])
    {
      NoResumeUnderPractice(k);
      MigrateOutsidePrefix(ExamIntended, s, keys, latest, k);
      MigrateOutsidePrefix(Practice, r1, keys, latest, k);
      MigrateOutsidePrefix(Preference, r2, keys, latest, k);
    }
  }

  /** `migrateAllStorage()` as written: its exam step contributes nothing. */
  function MigrateAllAsWritten(s: Storage, keys: seq<string>, latest: Option<QuestionVersion>): (r: Storage)
    ensures r == Migrate(Preference, Migrate(Practice, s, keys, latest), keys, latest)
  {
    ExamMigrationDoesNothing(s, keys, latest);
    Migrate(Preference, Migrate(Practice, Migrate(Exam, s, keys, latest), keys, latest), keys, latest)
  }

  /** No key passes the exam migration's test: every key starting with `exam:savedState:`
      contains a `:`. */
  lemma {:induction false} NoLegacyExamKey(k: string)
    ensures !IsLegacyExamKey(k)
  {
    if StartsWith(k, ExamPrefix) {
      assert k[4] == ExamPrefix[4] == ':';
    }
  }

  /** Hence the exam migration, as written, never changes storage. */
  lemma {:induction false} ExamMigrationDoesNothing(s: Storage, keys: seq<string>, latest: Option<QuestionVersion>)
    ensures Migrate(Exam, s, keys, latest) == s
  {
    forall i | 0 <= i < |keys| ensures !LegacyTest(Exam)(keys[i]) {
      NoLegacyExamKey(keys[i]);
    }
    FilterAllOrNone(keys, LegacyTest(Exam));
  }

  /** The intended test accepts exactly the keys `exam:savedState:<bank>` with a `:`-free bank. */
  lemma {:induction false} IntendedExamKeys(bank: string)
    ensures IsLegacyExamKeyIntended(ExamPrefix + bank) <==> ':' !in bank
  {
    assert (ExamPrefix + bank)[|ExamPrefix|..] == bank;
  }

  /** Two occurrences of `c` count at least twice. */
  lemma {:induction false} AtLeastTwo(s: string, c: char, i: nat, j: nat)
    requires i < j < |s| && s[i] == c && s[j] == c
    ensures multiset(s)[c] >= 2
  {
    assert s == s[..j] + s[j..];
    assert s[..j][i] == c;
    assert s[j..][0] == c;
  }

  /** A single occurrence of `c` counts once. */
  lemma {:induction false} ExactlyOne(s: string, c: char, p: nat)
    requires p < |s| && s[p] == c
    requires forall i :: 0 <= i < |s| && i != p ==> s[i] != c
    ensures multiset(s)[c] == 1
  {
    var t := s[p + 1..];
    assert s == s[..p] + [c] + t;
    assert c !in s[..p];
    assert forall i :: 0 <= i < |t| ==> t[i] == s[p + 1 + i];
    assert c !in t;
  }

  /** The `:` of `<prefix><id>:<bank>` are those of its pieces and one more. */
  lemma {:induction false} KeyColons(pre: string, id: string, bank: string)
    ensures multiset(pre + id + ":" + bank)[':'] == multiset(pre)[':'] + multiset(id)[':'] + 1 + multiset(bank)[':']
  {
    assert multiset(":")[':'] == 1;
  }

  /** A new key never passes its own migration's test, so no entry is moved twice. */
  lemma {:induction false} NewKeyNotLegacy(f: Family, k: string, v: StoredValue, id: string)
    requires Movable(f, k, v)
    ensures !IsLegacy(f, NewKey(f, k, v, id))
  {
    match f
    case Exam => NoLegacyExamKey(NewKey(f, k, v, id));
    case ExamIntended => FamilyNewKeyNotLegacy(ExamIntended, k, v, id);
    case Practice => FamilyNewKeyNotLegacy(Practice, k, v, id);
    case Preference => FamilyNewKeyNotLegacy(Preference, k, v, id);
  }

  /** The same for one family at a time, spelled with the key's own pieces. */
  lemma {:induction false} FamilyNewKeyNotLegacy(f: Family, k: string, v: StoredValue, id: string)
    requires f != Exam && Movable(f, k, v)
    ensures !IsLegacy(f, NewKey(f, k, v, id))
  {
    if f == ExamIntended {
      ExamNewKeyNotLegacy(id, v.exam.bank);
    } else if f == Practice {
      PracticeNewKeyNotLegacy(id, v.practice.bank);
    } else {
      PreferenceNewKeyNotLegacy(id, Split(k, ':')[2]);
    }
  }

  /** `exam:savedState:<id>:<bank>` has a `:` after the prefix. */
  lemma {:induction false} ExamNewKeyNotLegacy(id: string, bank: string)
    ensures !IsLegacyExamKeyIntended(ExamPrefix + id + ":" + bank)
  {
    var nk := ExamPrefix + id + ":" + bank;
    assert nk[|ExamPrefix|..] == id + ":" + bank;
    assert (id + ":" + bank)[|id|] == ':';
  }

  /** `practice:<id>:<bank>` has at least two `:`, so more than two parts. */
  lemma {:induction false} PracticeNewKeyNotLegacy(id: string, bank: string)
    ensures !IsLegacyPracticeKey(PracticePrefix + id + ":" + bank)
  {
    var nk := PracticePrefix + id + ":" + bank;
    assert PracticePrefix[8] == ':';
    assert multiset(PracticePrefix)[':'] >= 1;
    KeyColons(PracticePrefix, id, bank);
    SplitCount(nk, ':');
  }

  /** `practice:noResumePrompt:<id>:<bank>` has at least three `:`, so more than three parts. */
  lemma {:induction false} PreferenceNewKeyNotLegacy(id: string, bank: string)
    ensures !IsLegacyNoResumeKey(NoResumePrefix + id + ":" + bank)
  {
    var nk := NoResumePrefix + id + ":" + bank;
    AtLeastTwo(NoResumePrefix, ':', 8, 23);
    KeyColons(NoResumePrefix, id, bank);
    SplitCount(nk, ':');
  }

  /** Every legacy key lies under its migration's prefix. */
  lemma {:induction false} LegacyUnderPrefix(f: Family, k: string)
    requires IsLegacy(f, k)
    ensures StartsWith(k, FamilyPrefix(f))
  {
  }

  /** What the loop does to one legacy key: it is gone exactly when it held a movable entry and
      the loop visited it, and otherwise it keeps its entry. */
  lemma {:induction false} FoldAtLegacyKey(f: Family, s: Storage, ks: seq<string>, id: string, k: string)
    requires IsLegacy(f, k)
    ensures k in Fold(f, s, ks, id) <==> k in s && (k !in ks || !Movable(f, k, s[k]))
    ensures k in Fold(f, s, ks, id) ==> Fold(f, s, ks, id)[k] == s[k]
    decreases |ks|
  {
    if ks != [] {
      var s' := Step(f, s, ks[0], id);
      FoldAtLegacyKey(f, s', ks[1..], id, k);
      if ks[0] in s && Movable(f, ks[0], s[ks[0]]) {
        NewKeyNotLegacy(f, ks[0], s[ks[0]], id);
      }
      assert k in ks <==> k == ks[0] || k in ks[1..];
    }
  }

  /** A key outside the migration's prefix is never touched. */
  lemma {:induction false} FoldOutsidePrefix(f: Family, s: Storage, ks: seq<string>, id: string, k: string)
    requires forall i :: 0 <= i < |ks| ==> IsLegacy(f, ks[i])
    requires !StartsWith(k, FamilyPrefix(f))
    ensures k in Fold(f, s, ks, id) <==> k in s
    ensures k in s ==> Fold(f, s, ks, id)[k] == s[k]
    decreases |ks|
  {
    if ks != [] {
      var s' := Step(f, s, ks[0], id);
      LegacyUnderPrefix(f, ks[0]);
      assert ks[0] != k;
      FoldOutsidePrefix(f, s', ks[1..], id, k);
    }
  }

  /** A loop over legacy keys only removes legacy keys. */
  lemma {:induction false} FoldKeepsOthers(f: Family, s: Storage, ks: seq<string>, id: string, k: string)
    requires forall i :: 0 <= i < |ks| ==> IsLegacy(f, ks[i])
    requires !IsLegacy(f, k) && k in s
    ensures k in Fold(f, s, ks, id)
    decreases |ks|
  {
    if ks != [] {
      FoldKeepsOthers(f, Step(f, s, ks[0], id), ks[1..], id, k);
    }
  }

  /** A visited legacy key holding a movable entry leaves its new key behind. */
  lemma {:induction false} FoldWritesNewKey(f: Family, s: Storage, ks: seq<string>, id: string, k: string)
    requires forall i :: 0 <= i < |ks| ==> IsLegacy(f, ks[i])
    requires IsLegacy(f, k) && k in s && Movable(f, k, s[k]) && k in ks
    ensures NewKey(f, k, s[k], id) in Fold(f, s, ks, id)
    decreases |ks|
  {
    var s' := Step(f, s, ks[0], id);
    if ks[0] == k {
      NewKeyNotLegacy(f, k, s[k], id);
      FoldKeepsOthers(f, s', ks[1..], id, NewKey(f, k, s[k], id));
    } else {
      if ks[0] in s && Movable(f, ks[0], s[ks[0]]) {
        NewKeyNotLegacy(f, ks[0], s[ks[0]], id);
      }
      FoldWritesNewKey(f, s', ks[1..], id, k);
    }
  }

  /** No legacy key holds an entry its migration would move. */
  predicate Settled(f: Family, s: Storage) {
    forall k :: k in s && IsLegacy(f, k) ==> !Movable(f, k, s[k])
  }

  /** A loop over a settled storage changes nothing. */
  lemma {:induction false} FoldOfSettled(f: Family, s: Storage, ks: seq<string>, id: string)
    requires Settled(f, s)
    requires forall i :: 0 <= i < |ks| ==> IsLegacy(f, ks[i])
    ensures Fold(f, s, ks, id) == s
    decreases |ks|
  {
    if ks != [] {
      assert Step(f, s, ks[0], id) == s;
      FoldOfSettled(f, s, ks[1..], id);
    }
  }

  /** Membership in a filtered list. */
  lemma {:induction false} FilterMember(keys: seq<string>, p: string -> bool, k: string)
    ensures k in Filter(keys, p) <==> k in keys && p(k)
  {
    FilterCount(keys, p, k);
    assert k in Filter(keys, p) <==> multiset(Filter(keys, p))[k] > 0;
    assert k in keys <==> multiset(keys)[k] > 0;
  }

  /** The key list names every key in storage. */
  predicate Lists(keys: seq<string>, s: Storage) {
    forall k :: k in s ==> k in keys
  }

  /** With a latest version, a migration removes every legacy key holding a movable entry and
      leaves a key for it under the version id, leaves the other legacy keys and every key outside
      its prefix as they were, and leaves storage settled. */
  lemma {:induction false} MigrateMoves(f: Family, s: Storage, keys: seq<string>, latest: Option<QuestionVersion>)
    requires Lists(keys, s) && latest.Some?
    ensures var r := Migrate(f, s, keys, latest);
      Settled(f, r)
      && (forall k :: k in s && IsLegacy(f, k) && Movable(f, k, s[k]) ==>
            k !in r && NewKey(f, k, s[k], latest.value.id) in r)
      && (forall k :: k in s && IsLegacy(f, k) && !Movable(f, k, s[k]) ==> k in r && r[k] == s[k])
      && (forall k :: !StartsWith(k, FamilyPrefix(f)) ==> (k in r <==> k in s) && (k in s ==> r[k] == s[k]))
  {
    var legacy := Filter(keys, LegacyTest(f));
    var id := latest.value.id;
    var r := Migrate(f, s, keys, latest);
    forall k | IsLegacy(f, k)
      ensures k in r <==> k in s && !Movable(f, k, s[k])
      ensures k in r ==> r[k] == s[k]
    {
      FilterMember(keys, LegacyTest(f), k);
      if legacy != [] {
        FoldAtLegacyKey(f, s, legacy, id, k);
      }
    }
    assert forall i :: 0 <= i < |legacy| ==> IsLegacy(f, legacy[i]);
    forall k | k in s && IsLegacy(f, k) && Movable(f, k, s[k]) ensures NewKey(f, k, s[k], id) in r {
      FilterMember(keys, LegacyTest(f), k);
      FoldWritesNewKey(f, s, legacy, id, k);
    }
    forall k | !StartsWith(k, FamilyPrefix(f)) ensures (k in r <==> k in s) && (k in s ==> r[k] == s[k]) {
      if legacy != [] {
        FoldOutsidePrefix(f, s, legacy, id, k);
      }
    }
  }

  /** A migration never touches a key outside its prefix. */
  lemma {:induction false} MigrateOutsidePrefix(f: Family, s: Storage, keys: seq<string>, latest: Option<QuestionVersion>, k: string)
    requires !StartsWith(k, FamilyPrefix(f))
    ensures var r := Migrate(f, s, keys, latest); (k in r <==> k in s) && (k in s ==> r[k] == s[k])
  {
    var legacy := Filter(keys, LegacyTest(f));
    if legacy != [] && latest.Some? {
      assert forall i :: 0 <= i < |legacy| ==> IsLegacy(f, legacy[i]);
      FoldOutsidePrefix(f, s, legacy, latest.value.id, k);
    }
  }

  /** Exam keys lie outside both practice prefixes. */
  lemma {:induction false} ExamKeyNotPractice(k: string)
    requires StartsWith(k, ExamPrefix)
    ensures !StartsWith(k, PracticePrefix) && !StartsWith(k, NoResumePrefix)
  {
    assert k[0] == 'e';
  }

  /** With a latest version, running all the migrations moves every legacy exam snapshot of
      version 1 to its versioned key, and the practice and preference steps leave both keys alone. */
  lemma {:induction false} MigrateAllMovesExam(s: Storage, keys: seq<string>, latest: Option<QuestionVersion>, k: string)
    requires Lists(keys, s) && latest.Some?
    requires k in s && IsLegacyExamKeyIntended(k) && Movable(ExamIntended, k, s[k])
    ensures k !in MigrateAll(s, keys, latest)
    ensures NewKey(ExamIntended, k, s[k], latest.value.id) in MigrateAll(s, keys, latest)
  {
    var r1 := Migrate(ExamIntended, s, keys, latest);
    var r2 := Migrate(Practice, r1, keys, latest);
    var nk := NewKey(ExamIntended, k, s[k], latest.value.id);
    MigrateMoves(ExamIntended, s, keys, latest);
    assert k !in r1 && nk in r1;
    ExamKeyNotPractice(k);
    ExamKeyNotPractice(nk);
    MigrateOutsidePrefix(Practice, r1, keys, latest, k);
    MigrateOutsidePrefix(Practice, r1, keys, latest, nk);
    MigrateOutsidePrefix(Preference, r2, keys, latest, k);
    MigrateOutsidePrefix(Preference, r2, keys, latest, nk);
  }

  /** Running a migration again, over the keys then present, changes nothing. */
  lemma {:induction false} MigrateIdempotent(f: Family, s: Storage, keys: seq<string>, keys2: seq<string>, latest: Option<QuestionVersion>)
    requires Lists(keys, s)
    ensures var r := Migrate(f, s, keys, latest); Migrate(f, r, keys2, latest) == r
  {
    var r := Migrate(f, s, keys, latest);
    if latest.Some? {
      MigrateMoves(f, s, keys, latest);
      var legacy := Filter(keys2, LegacyTest(f));
      if legacy != [] {
        FoldOfSettled(f, r, legacy, latest.value.id);
      }
    }
  }

  /** A practice run saved under `practice:<bank>` in the form the practice storage reads is
      moved away by the migration, so the practice page no longer finds it. */
  lemma {:induction false} MigratedPracticeIsNotLoaded(s: Storage, keys: seq<string>, latest: Option<QuestionVersion>, bank: string)
    requires Lists(keys, s) && latest.Some?
    requires IsLegacyPracticeKey(PracticeStorage.StorageKey(Some(bank)))
    requires PracticeStorage.Load(s, Some(bank)).Some?
    ensures PracticeStorage.Load(Migrate(Practice, s, keys, latest), Some(bank)) == None
  {
    MigrateMoves(Practice, s, keys, latest);
  }

  /** `needsMigration()`'s practice clause, which tests for `lastMode` and `noResumePrompt`
      anywhere in the key. */
  predicate NeedsPracticeClause(k: string) {
    StartsWith(k, PracticePrefix) && |Split(k, ':')| == 2 && !Contains(k, "lastMode") && !Contains(k, "noResumePrompt")
  }

  /** `needsMigration()`, as written. Its exam clause never holds, so only the practice clause and
      the preference test decide; and whenever it answers yes, some migration has a legacy key. */
  predicate NeedsMigration(keys: seq<string>): (b: bool)
    ensures b <==> exists i :: 0 <= i < |keys| && (NeedsPracticeClause(keys[i]) || IsLegacyNoResumeKey(keys[i]))
    ensures b ==> NeedsMigrationIntended(keys)
  {
    NeedsMigrationClauses(keys);
    exists i :: 0 <= i < |keys| && (IsLegacyExamKey(keys[i]) || NeedsPracticeClause(keys[i]) || IsLegacyNoResumeKey(keys[i]))
  }

  /** `needsMigration()` as meant: some key passes one of the migrations' own tests, that is, one
      of the three migrations finds legacy keys to move. */
  predicate NeedsMigrationIntended(keys: seq<string>): (b: bool)
    ensures b <==> Filter(keys, LegacyTest(ExamIntended)) != [] || Filter(keys, LegacyTest(Practice)) != []
                   || Filter(keys, LegacyTest(Preference)) != []
  {
    FilterEmptyIff(keys, LegacyTest(ExamIntended));
    FilterEmptyIff(keys, LegacyTest(Practice));
    FilterEmptyIff(keys, LegacyTest(Preference));
    exists i :: 0 <= i < |keys| && (IsLegacyExamKeyIntended(keys[i]) || IsLegacyPracticeKey(keys[i]) || IsLegacyNoResumeKey(keys[i]))
  }

  /** Per key: the as-written exam clause is dead, and the practice clause is stricter than the
      practice migration's test. */
  lemma {:induction false} NeedsMigrationClauses(keys: seq<string>)
    ensures forall i :: 0 <= i < |keys| ==>
      !IsLegacyExamKey(keys[i]) && (NeedsPracticeClause(keys[i]) ==> IsLegacyPracticeKey(keys[i]))
  {
    forall i | 0 <= i < |keys|
      ensures !IsLegacyExamKey(keys[i]) && (NeedsPracticeClause(keys[i]) ==> IsLegacyPracticeKey(keys[i]))
    {
      NoLegacyExamKey(keys[i]);
      PracticeClauseIsLegacy(keys[i]);
    }
  }

  /** A key without `lastMode` and `noResumePrompt` has neither `practice:lastMode` nor
      `practice:noResumePrompt` in it. */
  lemma {:induction false} PracticeClauseIsLegacy(k: string)
    ensures NeedsPracticeClause(k) ==> IsLegacyPracticeKey(k)
  {
    ContainsPart(k, "practice:lastMode", "lastMode");
    ContainsPart(k, "practice:noResumePrompt", "noResumePrompt");
  }

  /** What contains `mid` contains every part `sub` of `mid`; here `sub` ends `mid` after its
      nine-character `practice:` prefix. */
  lemma {:induction false} ContainsPart(k: string, mid: string, sub: string)
    requires |mid| == 9 + |sub| && mid[9..] == sub
    ensures Contains(k, mid) ==> Contains(k, sub)
  {
    ContainsIff(mid, sub);
    assert OccursAt(mid, sub, 9);
    if Contains(k, mid) {
      ContainsTransitive(k, mid, sub);
    }
  }

  /** When the corrected check says no, no migration (with the intended exam test) changes
      anything. */
  lemma {:induction false} NotNeededMeansUnchanged(s: Storage, keys: seq<string>, latest: Option<QuestionVersion>, f: Family)
    requires !NeedsMigrationIntended(keys)
    ensures Migrate(f, s, keys, latest) == s
  {
    forall i | 0 <= i < |keys| ensures !LegacyTest(f)(keys[i]) {
      NoLegacyExamKey(keys[i]);
    }
    FilterAllOrNone(keys, LegacyTest(f));
  }

  /** When the corrected check says no, running all the migrations changes nothing. */
  lemma {:induction false} NotNeededMeansNothingRuns(s: Storage, keys: seq<string>, latest: Option<QuestionVersion>)
    requires !NeedsMigrationIntended(keys)
    ensures MigrateAll(s, keys, latest) == s
  {
    NotNeededMeansUnchanged(s, keys, latest, ExamIntended);
    NotNeededMeansUnchanged(s, keys, latest, Practice);
    NotNeededMeansUnchanged(s, keys, latest, Preference);
  }

  /** `practice:AlastMode` has one `:`, so it splits into two parts. */
  lemma {:induction false} AlastModeParts()
    ensures |Split("practice:AlastMode", ':')| == 2
  {
    assert "practice" + [':'] + "AlastMode" == "practice:AlastMode";
    SplitOnce("practice", "AlastMode", ':');
  }

  /** `practice:AlastMode` contains `lastMode`, but neither `practice:lastMode` nor
      `practice:noResumePrompt`. */
  lemma {:induction false} AlastModeContains()
    ensures Contains("practice:AlastMode", "lastMode")
    ensures !Contains("practice:AlastMode", "practice:lastMode")
    ensures !Contains("practice:AlastMode", "practice:noResumePrompt")
  {
    var k := "practice:AlastMode";
    assert OccursAt(k, "lastMode", 10);
    ContainsIff(k, "lastMode");
    NoPracticeLastMode();
    ContainsIff(k, "practice:noResumePrompt");
  }

  /** `practice:lastMode` does not occur in `practice:AlastMode`: the two differ at position 9,
      and one position later the first letters differ. */
  lemma {:induction false} NoPracticeLastMode()
    ensures !Contains("practice:AlastMode", "practice:lastMode")
  {
    var k := "practice:AlastMode";
    var sub := "practice:lastMode";
    assert k[9] == 'A' && sub[9] == 'l';
    assert k[1] == 'r' && sub[0] == 'p';
    forall j | 0 <= j ensures !OccursAt(k, sub, j) {
      if j == 0 { DiffersAt(k, sub, 0, 9); }
      if j == 1 { DiffersAt(k, sub, 1, 0); }
    }
    ContainsIff(k, sub);
  }

  /** Text that differs from `sub` at one of its positions does not hold `sub` there. */
  lemma {:induction false} DiffersAt(s: string, sub: string, j: nat, i: nat)
    requires i < |sub| && j + i < |s| && s[j + i] != sub[i]
    ensures !OccursAt(s, sub, j)
  {
  }

  /** The key `practice:AlastMode` passes the practice migration's test but not the practice
      clause of `needsMigration()`. */
  lemma {:induction false} AlastModeKey()
    ensures IsLegacyPracticeKey("practice:AlastMode")
    ensures !NeedsPracticeClause("practice:AlastMode")
    ensures !IsLegacyNoResumeKey("practice:AlastMode")
  {
    AlastModeParts();
    AlastModeContains();
    AlastModePrefixes();
  }

  /** `practice:AlastMode` lies under `practice:` but not under `practice:noResumePrompt:`. */
  lemma {:induction false} AlastModePrefixes()
    ensures StartsWith("practice:AlastMode", PracticePrefix)
    ensures !StartsWith("practice:AlastMode", NoResumePrefix)
  {
    var k := "practice:AlastMode";
    assert k[..|PracticePrefix|] == PracticePrefix;
    assert k[9] != NoResumePrefix[9];
  }

  /** As written, `needsMigration()` can say no while the practice migration still moves an entry. */
  lemma {:induction false} NeedsMigrationMissesKey(p: PracticeSaved, latest: QuestionVersion)
    requires p.version == 1
    ensures var k := "practice:AlastMode";
      !NeedsMigration([k]) && NeedsMigrationIntended([k])
      && Migrate(Practice, map[k := PracticeRecord(p)], [k], Some(latest)) != map[k := PracticeRecord(p)]
  {
    AlastModeKey();
    MissedKeyMoves("practice:AlastMode", p, latest);
  }

  /** Any practice key the practice clause misses is still moved by the practice migration. */
  lemma {:induction false} MissedKeyMoves(k: string, p: PracticeSaved, latest: QuestionVersion)
    requires p.version == 1
    requires IsLegacyPracticeKey(k) && !NeedsPracticeClause(k) && !IsLegacyNoResumeKey(k)
    ensures !NeedsMigration([k]) && NeedsMigrationIntended([k])
    ensures Migrate(Practice, map[k := PracticeRecord(p)], [k], Some(latest)) != map[k := PracticeRecord(p)]
  {
    var s := map[k := PracticeRecord(p)];
    NoLegacyExamKey(k);
    assert [k][0] == k;
    MigrateMoves(Practice, s, [k], Some(latest));
  }

  /** As written, a legacy exam snapshot `exam:savedState:A` stays where it is; the intended
      migration moves it. */
  lemma {:induction false} ExamSnapshotNotMigrated(e: ExamSaved, latest: QuestionVersion)
    requires e.version == 1
    ensures var k := ExamPrefix + "A";
      var s := map[k := ExamRecord(e)];
      Migrate(Exam, s, [k], Some(latest)) == s
      && k !in Migrate(ExamIntended, s, [k], Some(latest))
  {
    var k := ExamPrefix + "A";
    var s := map[k := ExamRecord(e)];
    ExamMigrationDoesNothing(s, [k], Some(latest));
    IntendedExamKeys("A");
    MigrateMoves(ExamIntended, s, [k], Some(latest));
  }
}

=== FILE: strings.dfy ===
/** The string operations the source relies on (`trim`, `toUpperCase`, `includes`,
    `indexOf`, `split`, `join`, `startsWith`, `String(n)`, `padStart`), over `seq<char>`. */
module Strings {

  /** The characters `String.prototype.trim` and the regular-expression class `\s` treat as
      white space that occur in practice: ASCII white space, no-break space and byte-order mark. */
  predicate IsSpace(c: char) {
    c == ' ' || c == '\t' || c == '\n' || c == '\r' || c == '\U{000B}' || c == '\U{000C}'
    || c == '\U{00A0}' || c == '\U{FEFF}'
  }

  predicate IsDigit(c: char) {
    '0' <= c <= '9'
  }

  /** `prefix` is a prefix of `s` (`s.startsWith(prefix)`). */
  predicate StartsWith(s: string, prefix: string) {
    prefix <= s
  }

  function TrimStart(s: string): (r: string)
    ensures |r| <= |s| && r == s[|s| - |r|..]
    ensures |r| == 0 || !IsSpace(r[0])
    ensures forall i :: 0 <= i < |s| - |r| ==> IsSpace(s[i])
  {
    if |s| > 0 && IsSpace(s[0]) then
      var r := TrimStart(s[1..]);
      assert s[1..][|s| - 1 - |r|..] == s[|s| - |r|..];
      assert forall i :: 1 <= i < |s| - |r| ==> s[i] == s[1..][i - 1];
      r
    else s
  }

  function TrimEnd(s: string): (r: string)
    ensures |r| <= |s| && r == s[..|r|]
    ensures |r| == 0 || !IsSpace(r[|r| - 1])
    ensures forall i :: |r| <= i < |s| ==> IsSpace(s[i])
  {
    if |s| > 0 && IsSpace(s[|s| - 1]) then TrimEnd(s[..|s| - 1]) else s
  }

  /** `s.trim()`: the longest slice of `s` that neither starts nor ends with white space,
      obtained by dropping only white space. */
  function Trim(s: string): (r: string)
    ensures |r| <= |s|
    ensures |r| == 0 || (!IsSpace(r[0]) && !IsSpace(r[|r| - 1]))
  {
    TrimEnd(TrimStart(s))
  }

  /** Trimming removes exactly the white space around the core of the string. */
  lemma {:induction false} TrimOfPadded(w1: string, m: string, w2: string)
    requires forall k :: 0 <= k < |w1| ==> IsSpace(w1[k])
    requires forall k :: 0 <= k < |w2| ==> IsSpace(w2[k])
    requires |m| == 0 || (!IsSpace(m[0]) && !IsSpace(m[|m| - 1]))
    requires |m| == 0 ==> w2 == []
    ensures Trim(w1 + m + w2) == m
  {
    assert w1 + m + w2 == w1 + (m + w2);
    if |m| == 0 {
      assert m + w2 == [];
      TrimStartPadded(w1, []);
    } else {
      assert (m + w2)[0] == m[0];
      TrimStartPadded(w1, m + w2);
      TrimEndPadded(m, w2);
    }
  }

  /** `s.trim()` is empty exactly when `s` is white space alone. */
  lemma {:induction false} TrimEmptyIffBlank(s: string)
    ensures Trim(s) == [] <==> forall k :: 0 <= k < |s| ==> IsSpace(s[k])
  {
    var a := TrimStart(s);
    if Trim(s) == [] {
      assert |a| == 0;
    }
    if forall k :: 0 <= k < |s| ==> IsSpace(s[k]) {
      TrimOfPadded(s, [], []);
      assert s + [] + [] == s;
    }
  }

  lemma {:induction false} TrimStartPadded(w: string, t: string)
    requires forall k :: 0 <= k < |w| ==> IsSpace(w[k])
    requires |t| == 0 || !IsSpace(t[0])
    ensures TrimStart(w + t) == t
  {
    if |w| > 0 {
      assert (w + t)[1..] == w[1..] + t;
      TrimStartPadded(w[1..], t);
    } else {
      assert w + t == t;
    }
  }

  lemma {:induction false} TrimEndPadded(t: string, w: string)
    requires forall k :: 0 <= k < |w| ==> IsSpace(w[k])
    requires |t| == 0 || !IsSpace(t[|t| - 1])
    ensures TrimEnd(t + w) == t
  {
    if |w| > 0 {
      assert (t + w)[..|t + w| - 1] == t + w[..|w| - 1];
      TrimEndPadded(t, w[..|w| - 1]);
    } else {
      assert t + w == t;
    }
  }

  /** Trimming twice is trimming once. */
  lemma {:induction false} TrimIdempotent(s: string)
    ensures Trim(Trim(s)) == Trim(s)
  {
    var r := Trim(s);
    assert |r| == 0 || (!IsSpace(r[0]) && !IsSpace(r[|r| - 1]));
    assert TrimStart(r) == r;
    assert TrimEnd(r) == r;
  }

  function UpperChar(c: char): char {
    if 'a' <= c <= 'z' then (c as int - 32) as char else c
  }

  function LowerChar(c: char): char {
    if 'A' <= c <= 'Z' then (c as int + 32) as char else c
  }

  /** `s.toUpperCase()` on ASCII letters; every other character is kept. */
  function ToUpper(s: string): (r: string)
    ensures |r| == |s|
    ensures forall i :: 0 <= i < |s| ==> r[i] == UpperChar(s[i])
    ensures forall i :: 0 <= i < |r| ==> !('a' <= r[i] <= 'z')
  {
    seq(|s|, i requires 0 <= i < |s| => UpperChar(s[i]))
  }

  /** `s.toLowerCase()` on ASCII letters; every other character is kept. */
  function ToLower(s: string): (r: string)
    ensures |r| == |s|
    ensures forall i :: 0 <= i < |s| ==> r[i] == LowerChar(s[i])
    ensures forall i :: 0 <= i < |r| ==> !('A' <= r[i] <= 'Z')
  {
    seq(|s|, i requires 0 <= i < |s| => LowerChar(s[i]))
  }

  lemma {:induction false} ToUpperIdempotent(s: string)
    ensures ToUpper(ToUpper(s)) == ToUpper(s)
  {
  }

  /** `sub` occurs in `s` starting at position `k`. */
  predicate OccursAt(s: string, sub: string, k: int) {
    0 <= k && k + |sub| <= |s| && s[k..k + |sub|] == sub
  }

  /** `s.indexOf(sub, from)`: the least position at or after `from` where `sub` occurs, or -1. */
  function IndexOfFrom(s: string, sub: string, from: nat): (r: int)
    requires from <= |s|
    ensures r == -1 || (from <= r && OccursAt(s, sub, r))
    ensures forall k :: from <= k && (r == -1 || k < r) ==> !OccursAt(s, sub, k)
    decreases |s| - from
  {
    if from + |sub| > |s| then -1
    else if s[from..from + |sub|] == sub then from
    else IndexOfFrom(s, sub, from + 1)
  }

  /** `s.indexOf(sub)` */
  function IndexOf(s: string, sub: string): (r: int)
    ensures r == -1 || OccursAt(s, sub, r)
    ensures forall k :: 0 <= k && (r == -1 || k < r) ==> !OccursAt(s, sub, k)
  {
    IndexOfFrom(s, sub, 0)
  }

  /** `s.includes(sub)` */
  predicate Contains(s: string, sub: string) {
    IndexOf(s, sub) >= 0
  }

  /** `Contains` holds exactly when `sub` occurs somewhere. */
  lemma {:induction false} ContainsIff(s: string, sub: string)
    ensures Contains(s, sub) <==> exists k :: OccursAt(s, sub, k)
  {
  }

  /** An occurrence inside an occurrence is an occurrence. */
  lemma {:induction false} ContainsTransitive(s: string, mid: string, sub: string)
    requires Contains(s, mid) && Contains(mid, sub)
    ensures Contains(s, sub)
  {
    var a := IndexOf(s, mid);
    var b := IndexOf(mid, sub);
    assert OccursAt(s, mid, a) && OccursAt(mid, sub, b);
    SliceOfSlice(s, a, a + |mid|, b, b + |sub|);
    assert OccursAt(s, sub, a + b);
  }

  /** A slice of a slice is a slice of the whole. */
  lemma {:induction false} SliceOfSlice<T>(s: seq<T>, a: nat, e: nat, b: nat, c: nat)
    requires a <= e <= |s| && b <= c <= e - a
    ensures s[a..e][b..c] == s[a + b..a + c]
  {
    var x := s[a..e][b..c];
    var y := s[a + b..a + c];
    assert |x| == |y|;
    forall i | 0 <= i < |x| ensures x[i] == y[i] {
      assert x[i] == s[a..e][b + i] == s[a + b + i];
    }
  }

  /** `s.lastIndexOf(c)`: the last position of `c` in `s`, or -1. */
  function LastIndexOf(s: string, c: char): (k: int)
    ensures -1 <= k < |s|
    ensures k >= 0 ==> s[k] == c
    ensures forall i :: k < i < |s| ==> s[i] != c
  {
    if s == [] then -1
    else if s[|s| - 1] == c then |s| - 1
    else LastIndexOf(s[..|s| - 1], c)
  }

  /** `LastIndexOf` is `k` when `c` is at `k` and nowhere after it. */
  lemma {:induction false} LastIndexOfIs(s: string, c: char, k: nat)
    requires k < |s| && s[k] == c && forall i :: k < i < |s| ==> s[i] != c
    ensures LastIndexOf(s, c) == k
    decreases |s|
  {
    if k < |s| - 1 {
      var t := s[..|s| - 1];
      assert forall i :: k < i < |t| ==> t[i] == s[i];
      LastIndexOfIs(t, c, k);
    }
  }

  /** `parts.join(sep)` */
  function Join(parts: seq<string>, sep: string): string {
    if |parts| == 0 then ""
    else if |parts| == 1 then parts[0]
    else parts[0] + sep + Join(parts[1..], sep)
  }

  /** `s.split(c)` for a one-character separator. */
  function Split(s: string, c: char): (parts: seq<string>)
    ensures |parts| >= 1
    ensures forall i :: 0 <= i < |parts| ==> c !in parts[i]
  {
    if |s| == 0 then [""]
    else
      var rest := Split(s[1..], c);
      if s[0] == c then [""] + rest
      else [[s[0]] + rest[0]] + rest[1..]
  }

  /** Splitting then joining with the same separator gives the string back. */
  lemma {:induction false} SplitJoin(s: string, c: char)
    ensures Join(Split(s, c), [c]) == s
  {
    if |s| > 0 {
      SplitJoin(s[1..], c);
      assert s == [s[0]] + s[1..];
      var rest := Split(s[1..], c);
      if s[0] != c {
        JoinHead(s[0], rest, [c]);
      }
    }
  }

  /** There is one more part than occurrences of the separator. */
  lemma {:induction false} SplitCount(s: string, c: char)
    ensures |Split(s, c)| == multiset(s)[c] + 1
  {
    if |s| > 0 {
      SplitCount(s[1..], c);
      assert s == [s[0]] + s[1..];
    }
  }

  /** Prefixing the first part prefixes the joined text. */
  lemma {:induction false} JoinHead(x: char, parts: seq<string>, sep: string)
    requires |parts| >= 1
    ensures Join([[x] + parts[0]] + parts[1..], sep) == [x] + Join(parts, sep)
  {
    var q := [[x] + parts[0]] + parts[1..];
    assert q[1..] == parts[1..];
    if |parts| > 1 {
      assert [x] + parts[0] + sep + Join(parts[1..], sep) == [x] + (parts[0] + sep + Join(parts[1..], sep));
    }
  }

  /** The first part of a split is the text before the first separator. */
  lemma {:induction false} SplitFirst(s: string, c: char)
    ensures c !in s ==> Split(s, c) == [s]
    ensures c in s ==> Split(s, c)[0] + [c] <= s
  {
    if |s| > 0 {
      SplitFirst(s[1..], c);
      assert s == [s[0]] + s[1..];
    }
  }

  /** Text with exactly one separator splits into the text before it and the text after it. */
  lemma {:induction false} SplitOnce(a: string, b: string, c: char)
    requires c !in a && c !in b
    ensures Split(a + [c] + b, c) == [a, b]
  {
    if a == [] {
      assert a + [c] + b == [c] + b;
      assert ([c] + b)[1..] == b;
      SplitFirst(b, c);
    } else {
      assert (a + [c] + b)[1..] == a[1..] + [c] + b;
      SplitOnce(a[1..], b, c);
      assert [a[0]] + a[1..] == a;
    }
  }

  /** `String(n)` for a non-negative integer. */
  function NatToString(n: nat): (r: string)
    ensures |r| >= 1
    ensures forall i :: 0 <= i < |r| ==> IsDigit(r[i])
    ensures r[0] == '0' ==> n == 0
  {
    if n < 10 then [DigitChar(n)] else NatToString(n / 10) + [DigitChar(n % 10)]
  }

  function DigitChar(d: nat): (c: char)
    requires d < 10
  {
    ('0' as int + d) as char
  }

  /** The value of a string of decimal digits. */
  function DecimalValue(s: string): nat
    requires forall i :: 0 <= i < |s| ==> IsDigit(s[i])
  {
    if |s| == 0 then 0
    else
      assert IsDigit(s[|s| - 1]);
      10 * DecimalValue(s[..|s| - 1]) + (s[|s| - 1] as int - '0' as int)
  }

  /** Reading back the decimal rendering gives the number: `Number(String(n)) == n`. */
  lemma {:induction false} DecimalRoundTrip(n: nat)
    ensures DecimalValue(NatToString(n)) == n
  {
    if n >= 10 {
      DecimalRoundTrip(n / 10);
      var r := NatToString(n);
      assert r[..|r| - 1] == NatToString(n / 10);
    }
  }

  /** Decimal rendering is injective, so distinct positions get distinct keys. */
  lemma {:induction false} NatToStringInjective(a: nat, b: nat)
    requires NatToString(a) == NatToString(b)
    ensures a == b
  {
    DecimalRoundTrip(a);
    DecimalRoundTrip(b);
  }

  /** `s.padStart(2, "0")` */
  function PadStart2(s: string): (r: string)
    ensures |r| == if |s| >= 2 then |s| else 2
    ensures r[|r| - |s|..] == s
    ensures forall i :: 0 <= i < |r| - |s| ==> r[i] == '0'
  {
    if |s| >= 2 then s else seq(2 - |s|, _ => '0') + s
  }

  /** Leading zeros do not change a decimal value. */
  lemma {:induction false} DecimalLeadingZeros(z: string, s: string)
    requires forall i :: 0 <= i < |z| ==> z[i] == '0'
    requires forall i :: 0 <= i < |s| ==> IsDigit(s[i])
    ensures DecimalValue(z + s) == DecimalValue(s)
    decreases |s|, |z|
  {
    if |s| == 0 {
      assert z + s == z;
      if |z| > 0 {
        DecimalLeadingZeros(z[..|z| - 1], []);
        assert z[..|z| - 1] + [] == z[..|z| - 1];
      }
    } else {
      assert (z + s)[..|z + s| - 1] == z + s[..|s| - 1];
      DecimalLeadingZeros(z, s[..|s| - 1]);
    }
  }

  /** Numbers below 100 print with at most two digits. */
  lemma {:induction false} NatToStringShort(n: nat)
    requires n < 100
    ensures |NatToString(n)| <= 2
    ensures n < 10 ==> |NatToString(n)| == 1
  {
    if n >= 10 {
      assert NatToString(n) == NatToString(n / 10) + [DigitChar(n % 10)];
    }
  }

  /** A zero-padded number is all digits and reads back as the number; below 100 it is exactly
      two digits long. */
  lemma {:induction false} PaddedReadsBack(n: nat)
    ensures n < 100 ==> |PadStart2(NatToString(n))| == 2
    ensures forall i :: 0 <= i < |PadStart2(NatToString(n))| ==> IsDigit(PadStart2(NatToString(n))[i])
    ensures DecimalValue(PadStart2(NatToString(n))) == n
  {
    var s := NatToString(n);
    if n < 100 {
      NatToStringShort(n);
    }
    DecimalRoundTrip(n);
    if |s| < 2 {
      var z := seq(2 - |s|, _ => '0');
      assert PadStart2(s) == z + s;
      DecimalLeadingZeros(z, s);
    }
  }
}

=== FILE: version_status.dfy ===
/** The version status manager (src/lib/version-status-manager.ts): the availability of each
    dataset version, checked bank by bank and cached for five minutes. The clock and the outcome of
    the bank checks are inputs; the cache is a map from version id to status. */
module VersionStatus {
  import opened Base
  import opened Questions
  import BankManager

  /** `CACHE_DURATION`, five minutes in milliseconds. */
  const CacheDuration: int := 5 * 60 * 1000

  /** `VersionStatus` */
  datatype Status = Status(
    versionId: string,
    isAvailable: bool,
    availableBanks: seq<Bank>,
    lastChecked: int,
    error: Option<string>)

  /** How the checks of one version end: a verdict per bank, or an exception escaping them (with
      its message when it is an `Error`). */
  datatype Outcome = Checked(flags: BankManager.BankFlags) | Threw(message: Option<string>)

  const UnknownError: string := "Unknown error"

  /** `checkVersionStatus(id)` at time `now`. */
  function CheckVersionStatus(id: string, outcome: Outcome, now: int): (s: Status)
    ensures s.versionId == id && s.lastChecked == now
    ensures s.isAvailable <==> s.availableBanks != []
    ensures BankManager.InBankOrder(s.availableBanks)
    ensures outcome.Checked? ==> s.error.None?
                                 && forall b :: b in s.availableBanks <==> outcome.flags.Holds(b)
    ensures outcome.Threw? ==> !s.isAvailable && s.availableBanks == [] && s.error.Some?
  {
    match outcome
    case Checked(flags) =>
      var banks := BankManager.BanksWhere(flags);
      Status(id, |banks| > 0, banks, now, None)
    case Threw(message) =>
      Status(id, false, [], now, Some(message.GetOr(UnknownError)))
  }

  type Cache = map<string, Status>

  /** A cached status younger than the cache duration. */
  predicate Fresh(cache: Cache, id: string, now: int) {
    id in cache && now - cache[id].lastChecked < CacheDuration
  }

  /** The cache after a lookup and the status it returns. */
  datatype Lookup = Lookup(cache: Cache, status: Status)

  /** `getVersionStatus(id, forceRefresh)` at time `now`: a fresh cached status is returned as it
      is unless a refresh is forced; otherwise the version is checked and the result cached. */
  function GetVersionStatus(cache: Cache, id: string, forceRefresh: bool, now: int, outcome: Outcome): (r: Lookup)
    ensures r.status.versionId == id || (id in cache && r.status == cache[id])
    ensures id in r.cache && r.cache[id] == r.status
    ensures forall k :: k != id ==> (k in r.cache <==> k in cache)
    ensures forall k :: k != id && k in cache ==> r.cache[k] == cache[k]
  {
    if !forceRefresh && Fresh(cache, id, now) then Lookup(cache, cache[id])
    else
      var status := CheckVersionStatus(id, outcome, now);
      Lookup(cache[id := status], status)
  }

  /** Without a forced refresh, a fresh status is served from the cache whatever a new check
      would say, and the cache does not change. */
  lemma {:induction false} FreshServedFromCache(cache: Cache, id: string, now: int, outcome: Outcome)
    requires Fresh(cache, id, now)
    ensures GetVersionStatus(cache, id, false, now, outcome) == Lookup(cache, cache[id])
  {
  }

  /** A stale or missing status, or a forced refresh, is checked again at `now` and cached. */
  lemma {:induction false} StaleIsRechecked(cache: Cache, id: string, force: bool, now: int, outcome: Outcome)
    requires force || !Fresh(cache, id, now)
    ensures GetVersionStatus(cache, id, force, now, outcome).status == CheckVersionStatus(id, outcome, now)
  {
  }

  /** `refreshVersionStatus(id)`: always a new check. */
  function RefreshVersionStatus(cache: Cache, id: string, now: int, outcome: Outcome): (r: Lookup)
    ensures r.status == CheckVersionStatus(id, outcome, now)
    ensures r.cache == cache[id := r.status]
  {
    GetVersionStatus(cache, id, true, now, outcome)
  }

  /** After a check at `t0`, a lookup at `t1` within the cache duration returns that same status
      without checking again, and a lookup at least five minutes later checks again. */
  lemma {:induction false} CachedForFiveMinutes(cache: Cache, id: string, t0: int, t1: int, first: Outcome, second: Outcome)
    ensures var r0 := RefreshVersionStatus(cache, id, t0, first);
            var r1 := GetVersionStatus(r0.cache, id, false, t1, second);
            (t1 < t0 + CacheDuration ==> r1 == r0)
            && (t1 >= t0 + CacheDuration ==> r1.status == CheckVersionStatus(id, second, t1))
  {
  }

  /** `clearCache()` */
  function ClearCache(cache: Cache): (r: Cache)
    ensures forall id :: id !in r
  {
    map[]
  }

  /** After clearing, every lookup checks again. */
  lemma {:induction false} ClearedLookupRechecks(cache: Cache, id: string, now: int, outcome: Outcome)
    ensures GetVersionStatus(ClearCache(cache), id, false, now, outcome).status
            == CheckVersionStatus(id, outcome, now)
  {
  }

  /** The cache after looking up several versions and their statuses, in order. */
  datatype Lookups = Lookups(cache: Cache, statuses: seq<Status>)

  /** `getAllVersionStatuses(forceRefresh)` over the given versions, looked up one after the
      other. */
  function GetStatuses(cache: Cache, vs: seq<QuestionVersion>, forceRefresh: bool, now: int,
                       outcomes: string -> Outcome): (r: Lookups)
    ensures |r.statuses| == |vs|
    ensures forall i :: 0 <= i < |vs| ==> vs[i].id in r.cache
    ensures forall k :: k in cache ==> k in r.cache
    decreases |vs|
  {
    if vs == [] then Lookups(cache, [])
    else
      var first := GetVersionStatus(cache, vs[0].id, forceRefresh, now, outcomes(vs[0].id));
      var rest := GetStatuses(first.cache, vs[1..], forceRefresh, now, outcomes);
      assert forall i :: 1 <= i < |vs| ==> vs[i] == vs[1..][i - 1];
      Lookups(rest.cache, [first.status] + rest.statuses)
  }

  /** Every cached status is filed under its own version's id. */
  predicate Keyed(cache: Cache) {
    forall id :: id in cache ==> cache[id].versionId == id
  }

  /** One lookup keeps the cache keyed by version id and returns a status of that id. */
  lemma {:induction false} LookupKeepsKeying(cache: Cache, id: string, force: bool, now: int, outcome: Outcome)
    requires Keyed(cache)
    ensures GetVersionStatus(cache, id, force, now, outcome).status.versionId == id
    ensures Keyed(GetVersionStatus(cache, id, force, now, outcome).cache)
  {
  }

  /** Looking up several versions keeps the cache keyed by version id. */
  lemma {:induction false} StatusesKeepKeying(cache: Cache, vs: seq<QuestionVersion>, forceRefresh: bool,
                                              now: int, outcomes: string -> Outcome)
    requires Keyed(cache)
    ensures Keyed(GetStatuses(cache, vs, forceRefresh, now, outcomes).cache)
    decreases |vs|
  {
    if vs != [] {
      var first := GetVersionStatus(cache, vs[0].id, forceRefresh, now, outcomes(vs[0].id));
      LookupKeepsKeying(cache, vs[0].id, forceRefresh, now, outcomes(vs[0].id));
      StatusesKeepKeying(first.cache, vs[1..], forceRefresh, now, outcomes);
    }
  }

  /** Every returned status is the one cached for its version at the time of its lookup, so it
      belongs to that version or is the cached entry under that id. */
  lemma {:induction false} StatusesFollowVersions(cache: Cache, vs: seq<QuestionVersion>, forceRefresh: bool,
                                                  now: int, outcomes: string -> Outcome)
    requires Keyed(cache)
    ensures var r := GetStatuses(cache, vs, forceRefresh, now, outcomes);
            (forall i :: 0 <= i < |vs| ==> r.statuses[i].versionId == vs[i].id) && Keyed(r.cache)
    decreases |vs|
  {
    StatusesKeepKeying(cache, vs, forceRefresh, now, outcomes);
    if vs != [] {
      var first := GetVersionStatus(cache, vs[0].id, forceRefresh, now, outcomes(vs[0].id));
      LookupKeepsKeying(cache, vs[0].id, forceRefresh, now, outcomes(vs[0].id));
      StatusesFollowVersions(first.cache, vs[1..], forceRefresh, now, outcomes);
      var rest := GetStatuses(first.cache, vs[1..], forceRefresh, now, outcomes);
      var r := GetStatuses(cache, vs, forceRefresh, now, outcomes);
      assert r.statuses == [first.status] + rest.statuses;
      forall i | 1 <= i < |vs| ensures r.statuses[i].versionId == vs[i].id {
        assert r.statuses[i] == rest.statuses[i - 1] && vs[i] == vs[1..][i - 1];
      }
    }
  }

  /** Available with at least one bank. */
  predicate Usable(s: Status) {
    s.isAvailable && |s.availableBanks| > 0
  }

  /** The versions whose status (at the same position) is usable, in order. */
  function KeepUsable(vs: seq<QuestionVersion>, ss: seq<Status>): (r: seq<QuestionVersion>)
    requires |vs| == |ss|
    ensures |r| <= |vs|
    ensures forall v :: v in r ==> v in vs
  {
    if vs == [] then []
    else (if Usable(ss[0]) then [vs[0]] else []) + KeepUsable(vs[1..], ss[1..])
  }

  /** A version that occurs once is kept exactly when its status is usable. */
  lemma {:induction false} KeepUsableSpec(vs: seq<QuestionVersion>, ss: seq<Status>, i: nat)
    requires |vs| == |ss| && i < |vs|
    requires forall j :: 0 <= j < |vs| && j != i ==> vs[j] != vs[i]
    ensures vs[i] in KeepUsable(vs, ss) <==> Usable(ss[i])
  {
    if i > 0 {
      assert forall j :: 0 <= j < |vs| - 1 && j != i - 1 ==> vs[1..][j] != vs[1..][i - 1] by {
        forall j | 0 <= j < |vs| - 1 && j != i - 1 ensures vs[1..][j] != vs[1..][i - 1] {
          assert vs[1..][j] == vs[j + 1];
        }
      }
      KeepUsableSpec(vs[1..], ss[1..], i - 1);
    }
  }

  /** The result of `getAvailableVersions()`. */
  datatype Versions = Versions(cache: Cache, versions: seq<QuestionVersion>)

  /** `getAvailableVersions()` over the configuration's versions, newest first. A single
      version is looked up directly; several are looked up and then filtered. */
  function GetAvailableVersions(cache: Cache, cfg: QuestionBankConfig, now: int,
                                outcomes: string -> Outcome): (r: Versions)
    ensures forall v :: v in r.versions ==> v in cfg.versions
  {
    var all := BankManager.GetAllVersions(cfg).versions;
    if |all| == 1 then
      var l := GetVersionStatus(cache, all[0].id, false, now, outcomes(all[0].id));
      assert all[0] in multiset(all);
      Versions(l.cache, if Usable(l.status) then [all[0]] else [])
    else
      var l := GetStatuses(cache, all, false, now, outcomes);
      var kept := KeepUsable(all, l.statuses);
      assert forall v :: v in kept ==> v in multiset(all);
      Versions(l.cache, kept)
  }

  /** The shortcut for a single version gives what the general path gives. */
  lemma {:induction false} SingleVersionAgrees(cache: Cache, v: QuestionVersion, now: int, outcomes: string -> Outcome)
    ensures var l := GetVersionStatus(cache, v.id, false, now, outcomes(v.id));
            var g := GetStatuses(cache, [v], false, now, outcomes);
            g.cache == l.cache && KeepUsable([v], g.statuses) == (if Usable(l.status) then [v] else [])
  {
    var g := GetStatuses(cache, [v], false, now, outcomes);
    assert [v][1..] == [];
    assert g.statuses[1..] == [];
  }

  /** No two versions share an id. */
  predicate UniqueIds(vs: seq<QuestionVersion>) {
    forall i, j :: 0 <= i < j < |vs| ==> vs[i].id != vs[j].id
  }

  lemma {:induction false} UniqueIdsTail(vs: seq<QuestionVersion>)
    requires vs != [] && UniqueIds(vs)
    ensures UniqueIds(vs[1..])
  {
    forall i, j | 0 <= i < j < |vs| - 1 ensures vs[1..][i].id != vs[1..][j].id {
      assert vs[1..][i] == vs[i + 1] && vs[1..][j] == vs[j + 1];
    }
  }

  /** Versions with distinct ids occur at most once each. */
  lemma {:induction false} UniqueIdsOnce(vs: seq<QuestionVersion>, x: QuestionVersion)
    requires UniqueIds(vs)
    ensures multiset(vs)[x] <= 1
  {
    if vs != [] {
      UniqueIdsTail(vs);
      UniqueIdsOnce(vs[1..], x);
      BankManager.MultisetCons(vs);
      if vs[0] == x {
        forall k | 0 <= k < |vs| - 1 ensures vs[1..][k] != x {
          assert vs[1..][k] == vs[k + 1];
        }
        assert x !in multiset(vs[1..]);
      }
    }
  }

  /** A value at two positions is counted twice. */
  lemma {:induction false} TwoPositions(vs: seq<QuestionVersion>, i: nat, j: nat)
    requires i < j < |vs| && vs[i] == vs[j]
    ensures multiset(vs)[vs[i]] >= 2
  {
    assert vs == vs[..j] + vs[j..];
    assert vs[..j][i] == vs[i] && vs[j..][0] == vs[j];
    assert vs[i] in multiset(vs[..j]) && vs[j] in multiset(vs[j..]);
  }

  /** Distinct ids survive a permutation, such as the newest-first sort. */
  lemma {:induction false} UniqueIdsPermuted(a: seq<QuestionVersion>, b: seq<QuestionVersion>)
    requires UniqueIds(a) && multiset(a) == multiset(b)
    ensures UniqueIds(b)
  {
    forall i, j | 0 <= i < j < |b| ensures b[i].id != b[j].id {
      UniqueIdsOnce(a, b[i]);
      if b[i] == b[j] {
        TwoPositions(b, i, j);
        assert false;
      }
      assert b[i] in multiset(a) && b[j] in multiset(a);
      var p :| 0 <= p < |a| && a[p] == b[i];
      var q :| 0 <= q < |a| && a[q] == b[j];
      if p < q {
        assert a[p].id != a[q].id;
      } else {
        assert a[q].id != a[p].id;
      }
    }
  }

  /** With distinct ids, each status is what a lookup from the starting cache returns: the
      lookups of the other versions leave its cache entry alone. */
  lemma {:induction false} StatusesWithUniqueIds(cache: Cache, vs: seq<QuestionVersion>, now: int,
                                                 outcomes: string -> Outcome, i: nat)
    requires UniqueIds(vs) && i < |vs|
    ensures GetStatuses(cache, vs, false, now, outcomes).statuses[i]
            == GetVersionStatus(cache, vs[i].id, false, now, outcomes(vs[i].id)).status
    decreases i
  {
    var first := GetVersionStatus(cache, vs[0].id, false, now, outcomes(vs[0].id));
    var rest := GetStatuses(first.cache, vs[1..], false, now, outcomes);
    assert GetStatuses(cache, vs, false, now, outcomes).statuses == [first.status] + rest.statuses;
    if i > 0 {
      UniqueIdsTail(vs);
      StatusesWithUniqueIds(first.cache, vs[1..], now, outcomes, i - 1);
      assert vs[1..][i - 1] == vs[i];
      assert vs[0].id != vs[i].id;
    }
  }

  /** With distinct version ids, a version is available exactly when it is configured and a
      lookup of its id from the starting cache gives a status that is available with at least
      one bank, on the single-version shortcut and on the general path alike. */
  lemma {:induction false} AvailableVersionsExactly(cache: Cache, cfg: QuestionBankConfig, now: int, outcomes: string -> Outcome,
                                 v: QuestionVersion)
    requires UniqueIds(cfg.versions)
    ensures v in GetAvailableVersions(cache, cfg, now, outcomes).versions
            <==> v in cfg.versions && Usable(GetVersionStatus(cache, v.id, false, now, outcomes(v.id)).status)
  {
    var all := BankManager.GetAllVersions(cfg).versions;
    UniqueIdsPermuted(cfg.versions, all);
    assert v in cfg.versions <==> v in all by {
      assert v in cfg.versions <==> v in multiset(cfg.versions);
      assert v in all <==> v in multiset(all);
    }
    if |all| != 1 && v in all {
      var i :| 0 <= i < |all| && all[i] == v;
      var l := GetStatuses(cache, all, false, now, outcomes);
      StatusesWithUniqueIds(cache, all, now, outcomes, i);
      forall j | 0 <= j < |all| && j != i ensures all[j] != all[i] {
        if j < i {
          assert all[j].id != all[i].id;
        } else {
          assert all[i].id != all[j].id;
        }
      }
      KeepUsableSpec(all, l.statuses, i);
    }
  }
}
